=== FILE: README.md ===
# Guesthouse booking back office, modelled in Dafny

This project models the core of `line-booking-system`, the back office of a small
guesthouse. Staff chat with a LINE bot to create and edit bookings, close rooms and
record deposits. A scheduler keeps the PostgreSQL tables in step with a Notion
database and a Google calendar. Old booking cards, kept as plain text, are imported
from files.

The model keeps the program's own structure, one module per source file:

- `Wrappers`, `Text`, `Patterns`, `Calendar` and `Records` model the Python building
  blocks the code leans on:
  - `Option`/`Result` stand for `None` and raised exceptions.
  - `str`/`int` conversions, `split`, `strip` and `replace` are modelled.
  - The few `re` patterns the importers use are modelled.
  - `datetime.date` is a day number with Python's proleptic calendar, from
    0001-01-01 to 9999-12-31.
  - The booking constants and the data classes are modelled.
- `InputUtils`, `BookingUtils` and `ClosureUtils` model the validators and the text
  cards.
- `BookingDao` models the data access object over abstract tables: customers,
  bookings, room assignments, rooms and sync records.
- `LegacyImport`, `HistoricalImport` and `Rearrange` model the three text importers.
- `NotionSync` and `GoogleCalendarSync` model the two scheduler jobs.
- `Sessions` plus one module per wizard (`CreateBookingWizard`, `EditBookingWizard`,
  `CreateClosureWizard`, `PrepaidBookingWizard`) model the LINE message handlers.
  `DefaultDispatch` models the handler that starts them.

How the model stands in for the outside world:

- Every handler is a pure function of the message, the session, the tables and the
  command strings. It returns the new session, the one database call it makes, and
  what it tells staff.
- The wall clock, the LINE, Notion and Google clients, and the result of DAO calls
  the model does not contain are parameters.
- Money is an exact `real` in place of Python's binary `float`. `int()` truncates
  toward zero, written out as `Records.Trunc`.

Three facts about the code shape the model:

- The booking upsert is not idempotent. It inserts a fresh row whenever the booking is
  not found, including a booking with no rooms (`BookingDao.RoomlessUpsertDuplicates`).
- The modelled paths send no notification.
- Closures reach the calendar only in a branch that is left out below.

## Model

| member | source | states |
|---|---|---|
| `Wrappers.Get` | line-bot-server/message_handlers/handle_edit_booking_messages.py:233-253 | Reading a dict key succeeds exactly when the key is present, and yields the stored value; a missing key raises rather than giving a default |
| `Records.NewCustomer` | utils/data_access/data_class/customer.py:4-14 | A customer built from a name and a phone has the data-class default id 0 |
| `Records.StatusMark` | const/booking_const.py:1-3 | Only a canceled booking carries a status mark, and it is `[取消]` |
| `Records.PrepaymentLabel` | const/booking_const.py:4-7 | Exactly `unpaid` and `paid` have display labels, and only `paid` shows as paid |
| `Records.Trunc` | utils/booking_utils.py:13-14 | `int()` of a money amount truncates toward zero: within one of the amount, never past it |
| `Records.TruncOfInt` | utils/booking_utils.py:13-14 | Truncating a whole amount gives it back |
| `Text.NatToString` | scheduler/jobs/sync_bookings_with_notion.py:137 | `str(n)` of a natural is digits, with a leading zero only for 0 |
| `Text.NatToStringRoundTrip` | scheduler/jobs/sync_bookings_with_notion.py:137 | Reading the digits of `str(n)` gives `n` back |
| `Text.IntToStringInjective` | scheduler/jobs/sync_bookings_with_notion.py:178-181 | Different ids never print alike, so a title query selects one id |
| `Text.ParseInt` | scheduler/jobs/sync_bookings_with_notion.py:91 | `int(s)` accepts exactly an optional '+' or '-' followed by digits in which single underscores may separate two digits; the value is the digits' decimal value, negated after '-'; any other text is a ValueError |
| `Text.ParseIntUnderscores` | scheduler/jobs/sync_bookings_with_notion.py:91 | `int("1_0")` is 10: an underscore between digits is ignored |
| `Text.ParseIntSignedGroups` | scheduler/jobs/sync_bookings_with_notion.py:91 | `int("-1_000")` is -1000 |
| `Text.ParseIntMisplacedUnderscores` | scheduler/jobs/sync_bookings_with_notion.py:91 | `_1`, `1_` and `1__0` are a ValueError |
| `Text.ParseIntOfIntToString` | scheduler/jobs/sync_bookings_with_notion.py:91 | `int(str(i)) == i` for every integer |
| `Text.Split` | utils/rearrange_and_check_raw_bookings.py:23 | `s.split(sep)` gives at least one part; `Text.JoinOfSplit` and `Text.SplitOfJoin` state that it inverts joining |
| `Text.JoinOfSplit` | utils/rearrange_and_check_raw_bookings.py:23 | Joining the parts of a split with the separator restores the text |
| `Text.SplitOfJoin` | scheduler/jobs/import_historical_bookings.py:106 | Splitting joined parts that hold no separator gives the parts back |
| `Text.Strip` | utils/rearrange_and_check_raw_bookings.py:52 | `strip()` returns a part of the text that neither starts nor ends with whitespace |
| `Text.StripPadded` | utils/rearrange_and_check_raw_bookings.py:52 | `strip()` removes exactly the whitespace padding around a core |
| `Text.ReplaceChar` | scheduler/import_bookings.py:53 | `replace('_', '.')` changes every underscore and nothing else |
| `Calendar.ToDay` | utils/input_utils.py:4-9 | A valid civil date lies within its own year's day range |
| `Calendar.FromDay` | line-bot-server/message_handlers/handle_create_booking_messages.py:119 | Every day number is exactly one valid civil date |
| `Calendar.CivilRoundTrip` | utils/input_utils.py:4-9 | Converting a civil date to a day number and back is the identity |
| `Calendar.ToDayInjective` | utils/input_utils.py:4-9 | Two civil dates with the same day number are equal |
| `Calendar.Weekday` | utils/data_access/booking_dao.py:528 | `weekday()` is in 0..6 |
| `Calendar.WeekdayAnchors` | utils/data_access/booking_dao.py:528 | The day numbering agrees with the real calendar: 0001-01-01 is a Monday (0), 2000-02-29 a Tuesday, 2024-01-06 a Saturday (5) and 9999-12-31 a Friday |
| `Calendar.AddDays` | utils/booking_utils.py:19-20 | `date + timedelta(n)` moves by exactly n days, or raises OverflowError outside years 1..9999 |
| `Calendar.ParseDate` | utils/input_utils.py:4-9 | `strptime` accepts exactly the spellings of real dates, and the day it returns is the date spelled |
| `Calendar.CivilDay` | utils/input_utils.py:4-9 | `date(y, m, d)` exists exactly for valid triples and denotes that triple |
| `Calendar.ParseFormatRoundTrip` | scheduler/jobs/import_historical_bookings.py:42-44 | A date written with `strftime` and any non-digit, non-blank separator parses back with `strptime` to itself, for every date up to 9999-12-31 |
| `Calendar.ParsedDateReformats` | utils/input_utils.py:4-9 | Any text `strptime` accepts, rewritten in canonical form, parses to the same day |
| `Calendar.FormatDateShape` | utils/booking_utils.py:42-56 | A rendered date is four digits, separator, two digits, separator, two digits |
| `Calendar.MaxDayIsYear10000` | utils/booking_utils.py:19-20 | The last representable day is the one before 10000-01-01 |
| `Patterns.MatchAt` | scheduler/jobs/import_historical_bookings.py:32-61 | A group matched at the start of a text captures only text its pattern allows |
| `Patterns.Search` | scheduler/jobs/import_historical_bookings.py:32-61 | `re.search(key + group)` returns captures of the group after some occurrence of the key |
| `Patterns.SearchAcrossLines` | scheduler/jobs/import_historical_bookings.py:32-61 | A search finds the first line's match if it has one, else the later lines': no match spans a line break |
| `Patterns.SearchLines` | scheduler/jobs/import_historical_bookings.py:32-61 | Searching lines joined by breaks is searching each line in turn |
| `Patterns.SearchLabelled` | scheduler/jobs/import_historical_bookings.py:32-61 | A `label：value` line matches the key of its own label and no other |
| `Patterns.SearchEntries` | scheduler/jobs/import_historical_bookings.py:32-61 | Searching labelled lines for a label is matching the value of the entry with that label |
| `Patterns.ReadEntry` | scheduler/jobs/import_historical_bookings.py:32-61 | Searching a card for one of its labels recovers that label's value |
| `Patterns.Lookup` | scheduler/jobs/import_historical_bookings.py:32-61 | The value found for a label is the value of an entry with that label, and there is one exactly when some entry has it |
| `Patterns.MatchDigitsWhole` | scheduler/import_bookings.py:39 | `(\d+)` takes a whole digit string |
| `Patterns.MatchPhoneWhole` | scheduler/jobs/import_historical_bookings.py:36-39 | `(\+?\d+)` takes a whole phone number, with or without '+' |
| `Patterns.MatchLineWhole` | scheduler/jobs/import_historical_bookings.py:33 | `(.+)` and `(.*)` take a whole line |
| `Patterns.MatchAmountWhole` | scheduler/jobs/import_historical_bookings.py:52-59 | `(\d+)元/(.+)` takes the amount and the label whole |
| `Patterns.MatchDateWhole` | scheduler/jobs/import_historical_bookings.py:42-44 | The slash-date pattern takes a rendered date whole |
| `Patterns.Card` | utils/booking_utils.py:42-56 | A card pairs each label with its value, in order |
| `InputUtils.IsValidDate` | utils/input_utils.py:4-9 | `strptime(s, '%Y-%m-%d')` succeeds; `InputUtils.IsValidDateMeaning` and `InputUtils.FormattedDateIsValid` state which strings that is |
| `InputUtils.IsValidDateMeaning` | utils/input_utils.py:4-9 | `is_valid_date` accepts exactly the Y-m-d spellings of real days |
| `InputUtils.FormattedDateIsValid` | utils/input_utils.py:4-9 | Every date up to 9999-12-31, written as Y-m-d, is accepted and denotes itself |
| `InputUtils.IsValidPhoneNumber` | utils/input_utils.py:11-31 | The '+', '09' and other '0' branches in source order; `InputUtils.PhoneNumberRules` states them character by character |
| `InputUtils.PhoneNumberRules` | utils/input_utils.py:11-31 | A phone is accepted only with a leading '+' or '0' and no blank. A '+' number needs digits after it. A '09' number needs exactly ten characters. Another '0' number needs all digits |
| `InputUtils.LocalMobileNotDigitChecked` | utils/input_utils.py:22-24 | A '09' number is only counted, never checked for digits |
| `InputUtils.BlankRejected` | utils/input_utils.py:13-14 | A blank anywhere rejects a number |
| `InputUtils.FormatPhoneNumber` | utils/input_utils.py:34-37 | A leading '0' becomes '+886' and the rest is kept; any other number is unchanged |
| `InputUtils.DisplayPhone` | utils/booking_utils.py:11-12 | A '+886' number is shown with a local '0'; any other is unchanged |
| `InputUtils.FormatPhoneIdempotent` | utils/input_utils.py:34-37 | Normalising twice is normalising once |
| `InputUtils.DisplayUndoesFormat` | utils/booking_utils.py:11-12 | Displaying a normalised local number gives it back |
| `InputUtils.FormatUndoesDisplay` | utils/input_utils.py:34-37 | Normalising a displayed '+886' number gives it back |
| `InputUtils.FormatKeepsValidity` | utils/input_utils.py:34-37 | A valid all-digit local number stays valid once normalised |
| `InputUtils.IsValidNumNights` | utils/input_utils.py:39-45 | `isdigit()` and 1..15; `InputUtils.NumNightsOfString` states it for every integer's spelling |
| `InputUtils.IsValidPrice` | utils/input_utils.py:47-53 | `isdigit()` and 0..100000; `InputUtils.PriceOfString` states it for every integer's spelling |
| `InputUtils.NumNightsOfString` | utils/input_utils.py:39-45 | The decimal spelling of n is a valid night count exactly when 1 <= n <= 15 |
| `InputUtils.PriceOfString` | utils/input_utils.py:47-53 | The decimal spelling of n is a valid price exactly when 0 <= n <= 100000 |
| `InputUtils.ExtractBookingId` | utils/input_utils.py:55-78 | An extracted id is positive, and it is the value of a digit run that follows the template's text before the placeholder, with the rest of the command matching the rest of the template. A command that does not match gives None. A template without a placeholder raises exactly when the command equals it |
| `InputUtils.ExtractFromFormatted` | utils/input_utils.py:66-76 | Extracting from `template.format(booking_id=n)` gives n back exactly when n > 0 |
| `InputUtils.ExtractNegative` | utils/input_utils.py:67-70 | A negative id never matches `(\d+)` |
| `InputUtils.ExtractNatural` | utils/input_utils.py:70-76 | A natural id is read back whole, and 0 is rejected as not positive |
| `InputUtils.GreedyDigits` | utils/input_utils.py:67-70 | The digit group takes the longest run after which the rest of the template still matches |
| `InputUtils.GreedyOnDigits` | utils/input_utils.py:67-70 | After the digits of an id, the group takes exactly those digits, whatever follows |
| `BookingUtils.FormatBookingInfo` | utils/booking_utils.py:7-58 | None gives None. The object's phone is rewritten for display. The call fails exactly on a check-out overflow or an unknown prepayment status. On success the status is replaced by its label |
| `BookingUtils.FormatTwiceFails` | utils/booking_utils.py:16-22 | Formatting the same object twice raises KeyError, because the first call mutated its prepayment status |
| `BookingUtils.OtherVariantsAreNormal` | utils/booking_utils.py:26-56 | Any variant but `carousel` and `calendar` yields the normal card |
| `BookingUtils.CalendarOpensWithId` | utils/booking_utils.py:34-41 | The calendar description opens with the booking's id line |
| `BookingUtils.NormalTextOf` | utils/booking_utils.py:42-56 | The normal card is the card of the rewritten booking, with check-out one day after the last night |
| `BookingUtils.FormattedText` | utils/booking_utils.py:19-56 | Past the two failure points, each variant is that variant's text of the rewritten booking |
| `BookingUtils.NormalField` | utils/booking_utils.py:42-56 | Searching the normal card for a label recovers that label's value |
| `BookingUtils.NormalCardFields` | utils/booking_utils.py:42-56 | Every label of the normal card reads back its own value |
| `BookingUtils.NormalCardReads` | utils/booking_utils.py:42-56 | The id, phone, dates, nights and total read back under the importers' patterns |
| `BookingUtils.NormalTextIdPhone` | utils/booking_utils.py:42-56 | A card's id and phone read back |
| `BookingUtils.NormalTextDates` | utils/booking_utils.py:42-56 | A card's check-in and check-out dates read back |
| `BookingUtils.NormalTextCounts` | utils/booking_utils.py:42-56 | A card's nights and total read back |
| `BookingUtils.NormalCardReadable` | utils/booking_utils.py:42-56 | The normal text of a readable booking is the card of its rewritten copy, which stays readable |
| `BookingUtils.NormalCardReadsIdPhone` | utils/booking_utils.py:11-12 | The card shows the id and the phone in display form, and both read back |
| `BookingUtils.NormalCardReadsDates` | utils/booking_utils.py:19-20 | The card shows the check-in date and the day after the last night, and both read back |
| `BookingUtils.NormalCardReadsCounts` | utils/booking_utils.py:13-20 | The card shows the nights with both ends counted and the price truncated, and both read back |
| `BookingUtils.NormalCardOpens` | utils/booking_utils.py:42-44 | The card opens with its header line |
| `BookingUtils.NormalCardEmptyId` | utils/booking_utils.py:42-56 | An empty id shows as a bare id line |
| `BookingUtils.NormalCardHeader` | utils/booking_utils.py:16 | The header is marked only for a canceled booking; an id that is not positive shows empty |
| `BookingUtils.DisplayPhonePlain` | utils/booking_utils.py:11-12 | The display form adds no character but a leading '0' |
| `BookingUtils.DropIfSame` | utils/booking_utils.py:62-82 | An edited value is kept exactly when it differs from the stored one |
| `BookingUtils.DropPriceIfSame` | utils/booking_utils.py:62-82 | An edited price is kept exactly when its value differs from the stored number |
| `BookingUtils.TrimBookingChanges` | utils/booking_utils.py:62-82 | As written: the room edit is dropped when it spells the customer's name; every other field is trimmed as intended |
| `BookingUtils.TrimBookingChangesFixed` | utils/booking_utils.py:62-82 | The room edit is dropped exactly when it equals the stored rooms; untrimmed keys are kept |
| `BookingUtils.OptLine` | utils/booking_utils.py:85-111 | An absent key prints no line; a present one prints one line ending in a break |
| `BookingUtils.ChangeLinesShape` | utils/booking_utils.py:85-111 | The summary lines are all empty exactly when the draft lists no change |
| `BookingUtils.CheckOutOf` | utils/booking_utils.py:95-97 | The shown check-out is one day after an edited last night, or OverflowError at the end of time |
| `BookingUtils.FormatBookingChanges` | utils/booking_utils.py:85-111 | As written: a phone without '+886' raises UnboundLocalError; otherwise as the fixed version |
| `BookingUtils.FormatBookingChangesFixed` | utils/booking_utils.py:85-111 | No listed change gives None; otherwise the header and one line per change. It fails only on a check-out overflow |
| `BookingUtils.SummaryText` | utils/booking_utils.py:85-111 | A summary is the header line, then one line `word：value` for each present key, in the order name, phone, check-in, check-out, total, notes, source, deposit, rooms, and no other line |
| `BookingUtils.ChangesSummaryReads` | utils/booking_utils.py:85-111 | When no free-text key holds a full-width colon, searching a summary for a key's label finds that key's written-out value, and finds nothing for an absent key |
| `BookingUtils.Summary` | utils/booking_utils.py:104-111 | The summary is None exactly when every line is empty; otherwise it opens with the header |
| `BookingUtils.LocalPhoneBreaksSummary` | utils/booking_utils.py:89-92 | A phone in local form makes the as-written summary fail, while the fixed one shows it |
| `BookingUtils.IsGenericName` | utils/booking_utils.py:114-118 | A name is generic when it contains one of the three fragments; `BookingUtils.ContainsAny`, `BookingUtils.GenericWithin` and `BookingUtils.PlainNameNotGeneric` state it |
| `BookingUtils.ContainsAny` | utils/booking_utils.py:114-118 | A name is generic exactly when some fragment occurs in it |
| `BookingUtils.GenericWithin` | const/booking_const.py:8 | A name containing `先生`, `小姐` or `無名氏` anywhere is generic |
| `BookingUtils.PlainNameNotGeneric` | const/booking_const.py:8 | A name without the fragments' first characters is not generic |
| `ClosureUtils.FormatClosureInfo` | utils/closure_utils.py:5-25 | None gives None. The calendar variant opens with the id line; every other variant opens with the header |
| `ClosureUtils.OtherVariantsAreNormal` | utils/closure_utils.py:11-23 | Any variant but `calendar` yields the normal card |
| `ClosureUtils.CalendarLines` | utils/closure_utils.py:11-15 | The description is exactly the id line and the reason line |
| `ClosureUtils.NormalReadsBack` | utils/closure_utils.py:16-23 | The closure card reads back its dates, rooms and reason |
| `ClosureUtils.CardReadsBack` | utils/closure_utils.py:16-23 | Any closure card with well-formed dates reads back its four values |
| `ClosureUtils.NormalDatesParse` | utils/closure_utils.py:16-23 | The dates on the card parse back to the closure's dates |
| `BookingDao.AllRoomIds` | utils/data_access/booking_dao.py:440-457 | Every room id, in table order |
| `BookingDao.RoomOf` | utils/data_access/booking_dao.py:523-538 | A room id has a row exactly when it is known, and that row carries the id |
| `BookingDao.JoinedRooms` | utils/data_access/booking_dao.py:74-78 | The joined rooms of a booking are exactly its assignments to known rooms |
| `BookingDao.AssignedRooms` | utils/data_access/booking_dao.py:172-180 | The rooms assigned to a booking are exactly its assignment rows |
| `BookingDao.GetBookingInfo` | utils/data_access/booking_dao.py:63-108 | A booking is found exactly when its id exists with a customer and at least one known room. It then carries the row's status, dates, total, notes, source, deposit amount, deposit note, deposit status and timestamps, its customer's name and phone, and its joined rooms |
| `BookingDao.FindCustomer` | utils/data_access/booking_dao.py:377-384 | The lookup returns the first customer with the key, and None exactly when there is none |
| `BookingDao.CustomerLookup` | utils/data_access/booking_dao.py:368-388 | Look up by phone unless it is a placeholder, else by a non-generic name |
| `BookingDao.UpsertCustomer` | utils/data_access/booking_dao.py:368-408 | A found customer is renamed only from a generic to a non-generic name; otherwise a new customer is appended; no other row changes |
| `BookingDao.UpsertCustomerKeepsPhones` | utils/data_access/booking_dao.py:389-394 | No stored phone number ever changes: a customer found by a real phone already holds it, and the name lookup runs only for a placeholder phone, so the phone update never fires |
| `BookingDao.UpsertCustomerByPhone` | utils/data_access/booking_dao.py:377-380 | A real phone on file resolves to the first customer holding it, with no insert |
| `BookingDao.UpsertCustomerValid` | utils/data_access/booking_dao.py:368-408 | The table constraints are preserved |
| `BookingDao.WithoutBooking` | utils/data_access/booking_dao.py:147-151 | Deleting a booking's assignments leaves every other booking's assignments as they were |
| `BookingDao.ReplaceAssignments` | utils/data_access/booking_dao.py:147-180 | After the update branch the booking holds exactly the new rooms and no other booking changes |
| `BookingDao.AddAssignments` | utils/data_access/booking_dao.py:172-180 | After the insert branch the new booking holds exactly its rooms |
| `BookingDao.InsertBookingRow` | utils/data_access/booking_dao.py:152-169 | An insert takes the next serial id, which was unused |
| `BookingDao.UpdateBookingRow` | utils/data_access/booking_dao.py:125-151 | An update overwrites one row and its rooms only |
| `BookingDao.UpsertBooking` | utils/data_access/booking_dao.py:110-186 | A booking that is found is updated under its id; otherwise it is inserted under the next serial id, whatever id it carries. Either way it holds exactly its room characters afterwards, no other booking's rooms change, the customer is upserted, and the deposit note is never written: it is kept on update and empty on insert |
| `BookingDao.RoomlessUpsertDuplicates` | utils/data_access/booking_dao.py:116-169 | A booking without rooms is never found again, so a second upsert duplicates it |
| `BookingDao.OverlapMeansSharedDay` | utils/data_access/booking_dao.py:472-483 | The SQL overlap test is a shared day of two stays |
| `BookingDao.AvailableRoomIds` | utils/data_access/booking_dao.py:463-493 | A room is offered exactly when it is for sale and no live booking holds it on a day of the range |
| `BookingDao.LastNightIsTaken` | utils/data_access/booking_dao.py:472-483 | A held room is not offered for the booking's own last night |
| `BookingDao.DayPrice` | utils/data_access/booking_dao.py:523-538 | A night is fully priced exactly when every room is known |
| `BookingDao.PriceEstimate` | utils/data_access/booking_dao.py:495-544 | No rooms gives None, because an empty `IN` list fails; an empty date range costs 0 |
| `BookingDao.RangePrice` | utils/data_access/booking_dao.py:523-538 | The price of all rooms over a range of nights; `BookingDao.SingleRoomNight` and `BookingDao.WeekPrice` state the Saturday rule and the weekly sum, and `BookingDao.EstimatePrice` ties it to the loop |
| `BookingDao.EstimatePrice` | utils/data_access/booking_dao.py:523-544 | The nested loop computes the recursive price, stopping at the first unknown room |
| `BookingDao.PartialDay` | utils/data_access/booking_dao.py:540-544 | An unknown room stops the estimate with the partial sum |
| `BookingDao.SingleRoomNight` | utils/data_access/booking_dao.py:528 | A night costs the holiday price on a Saturday and the weekday price otherwise |
| `BookingDao.WeekPrice` | utils/data_access/booking_dao.py:523-538 | Any seven nights in one room cost one holiday and six weekday prices |
| `BookingDao.GetLatestBookings` | utils/data_access/booking_dao.py:307-362 | At most one booking, the latest created among those changed since the bound, and none only when none changed |
| `BookingDao.Collect` | utils/data_access/booking_dao.py:268-270 | The scan returns every accepted id once, in ascending order |
| `BookingDao.SearchBookingByDate` | utils/data_access/booking_dao.py:250-305 | Every booking on the date is returned once, in id order, and nothing else |
| `BookingDao.LatestSyncTime` | utils/data_access/booking_dao.py:550-577 | The latest successful sync time of the type, or `datetime.min` when there is none |
| `BookingDao.SyncLowerBound` | scheduler/jobs/sync_bookings_with_notion.py:22-24 | The bound is the later of the watermark and the configured minimum |
| `BookingDao.Ids` | utils/data_access/booking_dao.py:595 | The logged ids are the bookings' ids, in order |
| `BookingDao.LogSyncRecord` | utils/data_access/booking_dao.py:579-602 | Appends exactly one record and changes nothing else |
| `BookingDao.FailedLogKeepsWatermark` | utils/data_access/booking_dao.py:560-566 | A failed record moves no watermark |
| `BookingDao.SuccessLogAdvances` | utils/data_access/booking_dao.py:560-566 | A successful record becomes its type's watermark and leaves other types alone |
| `BookingDao.JoinIdsRoundTrip` | utils/data_access/booking_dao.py:595 | The logged id list splits back into the ids |
| `LegacyImport.LegacyPhone` | scheduler/import_bookings.py:43-47 | A leading '0' becomes '+886' |
| `LegacyImport.LegacyPhoneIsFormat` | scheduler/import_bookings.py:43-47 | The importer's rewrite is `format_phone_number` |
| `LegacyImport.LegacyParseBooking` | scheduler/import_bookings.py:29-64 | Every search must match or AttributeError is raised. A paid deposit makes the status prepaid; otherwise the cancel mark makes it canceled |
| `LegacyImport.Required` | scheduler/import_bookings.py:39-62 | `.group` on a failed search raises AttributeError |
| `LegacyImport.PaidOverridesCanceled` | scheduler/import_bookings.py:33-36 | A canceled card with a paid deposit imports as prepaid |
| `LegacyImport.LegacySourceOfBookingCom` | scheduler/import_bookings.py:53 | `Booking_com` is stored as `Booking.com`, unlike the newer importer |
| `LegacyImport.LegacyUpsertCustomer` | scheduler/import_bookings.py:89-111 | Look up by a real phone only; rename generic to non-generic; otherwise insert |
| `LegacyImport.LegacyPlaceholderInserts` | scheduler/import_bookings.py:91-94 | A placeholder phone always inserts a new customer |
| `LegacyImport.LegacyUpsertValid` | scheduler/import_bookings.py:89-111 | The table constraints are preserved |
| `LegacyImport.LegacyInsertBooking` | scheduler/import_bookings.py:114-171 | An unreadable date rolls the whole transaction back |
| `LegacyImport.LegacyStore` | scheduler/import_bookings.py:129-163 | A fresh id gets the given dates and known rooms; every other booking is untouched |
| `HistoricalImport.Capture` | scheduler/jobs/import_historical_bookings.py:32-61 | The first group of a labelled search |
| `HistoricalImport.SourceOf` | scheduler/jobs/import_historical_bookings.py:46-49 | Underscores become dots, except that `Booking_com` is kept |
| `HistoricalImport.ValidSourcesKept` | scheduler/jobs/import_historical_bookings.py:46-49 | Every valid source survives unchanged |
| `HistoricalImport.UnderscoreBecomesDot` | scheduler/jobs/import_historical_bookings.py:46 | Other sources get dots for underscores |
| `HistoricalImport.CardFields` | scheduler/jobs/import_historical_bookings.py:21-66 | Parsing succeeds only when every required search matches, and captures those values |
| `HistoricalImport.ParseBooking` | scheduler/jobs/import_historical_bookings.py:21-66 | The last night is the day before the check-out date; failure is None |
| `HistoricalImport.ParsedFields` | scheduler/jobs/import_historical_bookings.py:26-59 | The cancel mark outranks a paid deposit; the phone is normalised; numbers are non-negative |
| `HistoricalImport.Assemble` | scheduler/jobs/import_historical_bookings.py:26-61 | The statuses follow the mark and the deposit label |
| `HistoricalImport.DayBefore` | scheduler/jobs/import_historical_bookings.py:43-44 | The day before, or None at 0001-01-01 |
| `HistoricalImport.ValidateBooking` | scheduler/jobs/import_historical_bookings.py:69-85 | The warnings are exactly those whose condition holds; a missing phone raises KeyError |
| `HistoricalImport.IdentityWarnings` | scheduler/jobs/import_historical_bookings.py:69-76 | The id, name and phone warnings |
| `HistoricalImport.StayWarnings` | scheduler/jobs/import_historical_bookings.py:76-85 | The room, date, price and source warnings |
| `HistoricalImport.ParsedWarnings` | scheduler/jobs/import_historical_bookings.py:69-85 | A parsed card can only draw the id, price and source warnings |
| `HistoricalImport.ExtractRoomIds` | scheduler/jobs/import_historical_bookings.py:88-94 | Keep exactly the characters that are room ids |
| `HistoricalImport.ExtractAppend` | scheduler/jobs/import_historical_bookings.py:88-94 | Extraction is a filter that distributes over concatenation |
| `HistoricalImport.ExtractKnown` | scheduler/jobs/import_historical_bookings.py:88-94 | Known rooms are kept whole |
| `HistoricalImport.ExtractIdempotent` | scheduler/jobs/import_historical_bookings.py:88-94 | Extracting twice is extracting once |
| `HistoricalImport.ImportBlock` | scheduler/jobs/import_historical_bookings.py:106-129 | A block is skipped, aborts on a missing phone, or is written with the parsed fields (total and deposit included), an empty prepayment note and its known rooms |
| `HistoricalImport.Outcomes` | scheduler/jobs/import_historical_bookings.py:106-129 | Each block is handled alone |
| `HistoricalImport.Run` | scheduler/jobs/import_historical_bookings.py:106-129 | The run ends with a fault exactly when some block aborts |
| `HistoricalImport.ImportBlocks` | scheduler/jobs/import_historical_bookings.py:106-129 | The run fails exactly when some block aborts |
| `HistoricalImport.ImportHistorical` | scheduler/jobs/import_historical_bookings.py:96-130 | Nothing is done without room ids; otherwise the blank-line blocks are imported in order |
| `HistoricalImport.AbortKeepsEarlier` | scheduler/jobs/import_historical_bookings.py:106-129 | Blocks before an abort stay written |
| `HistoricalImport.RunStopsAtAbort` | scheduler/jobs/import_historical_bookings.py:106-129 | The first abort stops the run |
| `HistoricalImport.WrittenBookingsClean` | scheduler/jobs/import_historical_bookings.py:114-128 | Every written booking holds known rooms and an empty prepayment note |
| `Rearrange.RawBookingId` | utils/rearrange_and_check_raw_bookings.py:8-16 | An id is read exactly when the id label is followed by digits |
| `Rearrange.RawIdOfCard` | utils/rearrange_and_check_raw_bookings.py:8-16 | A card opening with its id line reads back that id |
| `Rearrange.GroupBlocks` | utils/rearrange_and_check_raw_bookings.py:27-37 | Kept ids are exactly the ids seen; every conflict is a kept id; each parsed block is kept or counted as a conflict |
| `Rearrange.AddBlock` | utils/rearrange_and_check_raw_bookings.py:31-37 | A first block is kept, a later one only records a conflict |
| `Rearrange.FirstsAreFirst` | utils/rearrange_and_check_raw_bookings.py:31-37 | The block kept for an id is the first carrying it |
| `Rearrange.IdBound` | utils/rearrange_and_check_raw_bookings.py:39-41 | The bound is above every id |
| `Rearrange.Ascending` | utils/rearrange_and_check_raw_bookings.py:44 | `sorted(items())` lists each key once, ascending, with its value |
| `Rearrange.Gaps` | utils/rearrange_and_check_raw_bookings.py:39-41 | Exactly the ids in range that are not keys |
| `Rearrange.MissingIdsAsWritten` | utils/rearrange_and_check_raw_bookings.py:39-41 | As written: ids below the number of keys that are absent |
| `Rearrange.MissingScanStopsShort` | utils/rearrange_and_check_raw_bookings.py:39-41 | With ids 1 and 3 the gap 2 goes unreported |
| `Rearrange.MissingIds` | utils/rearrange_and_check_raw_bookings.py:39-41 | Exactly the positive ids below the bound that are absent |
| `Rearrange.MissingIdsComplete` | utils/rearrange_and_check_raw_bookings.py:31-41 | Below the bound a positive id is kept or reported, never both |
| `Rearrange.ProcessBookings` | utils/rearrange_and_check_raw_bookings.py:27-46 | The conflicts are those of the loop, every parsed block is written or a conflict, and the printed missing ids are exactly the unseen ids from 1 below the number of distinct ids (the as-written scan) |
| `Rearrange.ProcessedSorted` | utils/rearrange_and_check_raw_bookings.py:44 | The output is the kept blocks, each id once, ascending |
| `Rearrange.ProcessedMissing` | utils/rearrange_and_check_raw_bookings.py:39-41 | The corrected report holds exactly the unseen ids below the largest, ascending |
| `Rearrange.MissingReport` | utils/rearrange_and_check_raw_bookings.py:39-41 | The corrected report lies between 1 and the largest id |
| `Rearrange.AsWrittenWithinReport` | utils/rearrange_and_check_raw_bookings.py:39-41 | Every id the as-written scan prints is in the corrected report: the scan misses gaps but never invents one |
| `Rearrange.BoundReached` | utils/rearrange_and_check_raw_bookings.py:39-41 | The bound is one past an actual id |
| `Rearrange.WriteSorted` | utils/rearrange_and_check_raw_bookings.py:49-52 | A non-empty file ends with a blank line |
| `Rearrange.ReloadWritten` | utils/rearrange_and_check_raw_bookings.py:19-24 | Reloading the written file gives back the stripped blocks |
| `NotionSync.PairSkips` | scheduler/jobs/sync_bookings_with_notion.py:36-42 | Per pair of equal ids, the loser's id is skipped |
| `NotionSync.ConflictSkips` | scheduler/jobs/sync_bookings_with_notion.py:36-42 | The skip lists are exactly the losing ids |
| `NotionSync.Keep` | scheduler/jobs/sync_bookings_with_notion.py:44-45 | The filter keeps exactly the bookings not skipped |
| `NotionSync.KeepAppend` | scheduler/jobs/sync_bookings_with_notion.py:44-45 | Filtering keeps order |
| `NotionSync.KeptIds` | scheduler/jobs/sync_bookings_with_notion.py:44-45 | A survivor's id is an input id not skipped |
| `NotionSync.Resolve` | scheduler/jobs/sync_bookings_with_notion.py:36-45 | Conflict resolution only drops bookings, never adds one, on either side |
| `NotionSync.LastWriteWins` | scheduler/jobs/sync_bookings_with_notion.py:36-42 | The database copy survives exactly when modified strictly later; ties go to Notion |
| `NotionSync.SurvivesOnOneSide` | scheduler/jobs/sync_bookings_with_notion.py:36-45 | Each changed id survives on exactly one side |
| `NotionSync.SkippedOnBothSides` | scheduler/jobs/sync_bookings_with_notion.py:36-42 | Only ids changed on both sides are skipped |
| `NotionSync.First` | scheduler/jobs/sync_bookings_with_notion.py:91-93 | `xs[0]`, or IndexError on an empty list |
| `NotionSync.FirstOrEmpty` | scheduler/jobs/sync_bookings_with_notion.py:100-102 | The first item, or '' |
| `NotionSync.StatusOf` | scheduler/jobs/sync_bookings_with_notion.py:103 | Canceled wins, then paid means prepaid, else new |
| `NotionSync.Decode` | scheduler/jobs/sync_bookings_with_notion.py:88-128 | A page decodes exactly when all its fields are present and readable, including an end date and both dates in bare `%Y-%m-%d` form |
| `NotionSync.DecodeNarrowsLoad` | scheduler/jobs/sync_bookings_with_notion.py:88-128 | A page decodes exactly when it has every field the program's loader needs, an end date, and two bare dates |
| `NotionSync.OpenRangeSkipped` | scheduler/jobs/sync_bookings_with_notion.py:94-95 | A page the loader keeps with an empty end date is skipped here |
| `NotionSync.DecodeFields` | scheduler/jobs/sync_bookings_with_notion.py:91-107 | The decoded fields are the page's, with the phone normalised and the status derived |
| `NotionSync.DecodeStamped` | scheduler/jobs/sync_bookings_with_notion.py:106-107 | A decoded booking carries the page's edit time |
| `NotionSync.RoomTags` | scheduler/jobs/sync_bookings_with_notion.py:152 | One tag per room character |
| `NotionSync.RoomTagsJoin` | scheduler/jobs/sync_bookings_with_notion.py:96 | Joining the tags restores the rooms |
| `NotionSync.Encode` | scheduler/jobs/sync_bookings_with_notion.py:135-175 | The title is the id, money is truncated, and the checkboxes follow the statuses |
| `NotionSync.EncodeDecode` | scheduler/jobs/sync_bookings_with_notion.py:91-175 | Decoding an encoded booking gives back the booking as Notion can hold it |
| `NotionSync.StatusSurvives` | scheduler/jobs/sync_bookings_with_notion.py:103-173 | The status survives exactly when it agrees with the deposit |
| `NotionSync.FractionLost` | scheduler/jobs/sync_bookings_with_notion.py:155 | A fractional amount comes back truncated |
| `NotionSync.EditedAfter` | scheduler/jobs/sync_bookings_with_notion.py:64-70 | The query's filter keeps exactly the pages last edited after the bound, in order |
| `NotionSync.QueryPage` | scheduler/jobs/sync_bookings_with_notion.py:64-70 | The one result page holds at most 100 pages, is a prefix of the filtered pages, and is all of them when they fit |
| `NotionSync.FetchChanged` | scheduler/jobs/sync_bookings_with_notion.py:61-86 | The fetched bookings all carry edit times, and there are at most 100 of them, however many pages changed |
| `NotionSync.FetchSound` | scheduler/jobs/sync_bookings_with_notion.py:61-86 | Every fetched booking is a page edited after the bound |
| `NotionSync.FetchComplete` | scheduler/jobs/sync_bookings_with_notion.py:64-80 | A decodable page edited after the bound is fetched when fewer than 100 changed pages precede it |
| `NotionSync.FetchAllChanged` | scheduler/jobs/sync_bookings_with_notion.py:61-86 | The corrected fetch, following every result page: its bookings carry edit times, no more than there are pages |
| `NotionSync.FetchAllComplete` | scheduler/jobs/sync_bookings_with_notion.py:64-80 | Under the corrected fetch every decodable page edited after the bound is fetched |
| `NotionSync.FewChangesAllFetched` | scheduler/jobs/sync_bookings_with_notion.py:64-70 | With at most 100 changed pages the fetch as written equals the corrected one |
| `NotionSync.OverflowPagesLost` | scheduler/jobs/sync_bookings_with_notion.py:64-70 | With more than 100 decodable changed pages the fetch as written returns at most 100 and the corrected one returns all |
| `NotionSync.OverflowExample` | scheduler/jobs/sync_bookings_with_notion.py:64-70 | 101 decodable changed pages: the fetch as written returns fewer bookings than the corrected one |
| `NotionSync.FirstTitled` | scheduler/jobs/sync_bookings_with_notion.py:178-183 | The first page with the title, or None exactly when there is none |
| `NotionSync.CountTitled` | scheduler/jobs/sync_bookings_with_notion.py:178-183 | The number of pages with the title |
| `NotionSync.PutPage` | scheduler/jobs/sync_bookings_with_notion.py:178-194 | Update the first titled page, or create one |
| `NotionSync.EncodeTitle` | scheduler/jobs/sync_bookings_with_notion.py:137 | The title is the id |
| `NotionSync.PutPageCount` | scheduler/jobs/sync_bookings_with_notion.py:183-194 | A write never removes a duplicate page and creates at most one |
| `NotionSync.PutPageFinds` | scheduler/jobs/sync_bookings_with_notion.py:183-194 | After a write, the first titled page holds the new properties |
| `NotionSync.WrittenBefore` | scheduler/jobs/sync_bookings_with_notion.py:195-197 | The writes before the first failure |
| `NotionSync.WriteAll` | scheduler/jobs/sync_bookings_with_notion.py:132-197 | Each booking written adds at most one page and removes none |
| `NotionSync.WriteToNotion` | scheduler/jobs/sync_bookings_with_notion.py:132-197 | Writes stop at the first failure, and succeed exactly when none fails |
| `NotionSync.WriteAllSnoc` | scheduler/jobs/sync_bookings_with_notion.py:132-197 | Writes go in list order |
| `NotionSync.LastWriteFound` | scheduler/jobs/sync_bookings_with_notion.py:178-194 | The last booking written is found under its id |
| `NotionSync.WriteToDb` | scheduler/jobs/sync_bookings_with_notion.py:200-210 | Upserting the Notion survivors keeps the tables valid and touches neither the rooms nor the sync records |
| `NotionSync.SyncWithNotion` | scheduler/jobs/sync_bookings_with_notion.py:20-59 | The pass reads from the later of the watermark and the configured minimum. It takes at most one database booking, the latest changed since that bound, and none only when nothing changed. It then reconciles |
| `NotionSync.InfoStamped` | utils/data_access/booking_dao.py:63-108 | A stored booking carries its modification time |
| `NotionSync.Reconcile` | scheduler/jobs/sync_bookings_with_notion.py:25-59 | Only database bookings that were read survive, and a failing Notion query yields no Notion bookings; the tables stay valid |
| `NotionSync.Exchange` | scheduler/jobs/sync_bookings_with_notion.py:50-59 | The Notion write succeeds exactly when no write fails. Only then is the database written; a failure leaves every table but the sync log untouched. One record logs every survivor id with the outcome |
| `NotionSync.PassedOverPageStays` | scheduler/jobs/sync_bookings_with_notion.py:58-59 | A successful pass moves the watermark to its own time, so a page edited before the pass is outside every later query |
| `NotionSync.FailedPassKeepsBound` | scheduler/jobs/sync_bookings_with_notion.py:50-59 | A failed pass keeps the watermark |
| `NotionSync.LoggedIds` | scheduler/jobs/sync_bookings_with_notion.py:58-59 | The logged ids are the database survivors' ids, then Notion's |
| `GoogleCalendarSync.EventBodyOf` | scheduler/jobs/sync_bookings_to_google_calendar.py:59-76 | The event exists exactly when the calendar text can be formatted; it spans check-in to the last night and its description opens with the id line |
| `GoogleCalendarSync.OneNightEndsOnStart` | scheduler/jobs/sync_bookings_to_google_calendar.py:63-67 | A one-night event ends on its start date |
| `GoogleCalendarSync.QueryFor` | scheduler/jobs/sync_bookings_to_google_calendar.py:80-88 | The program's test looks for `ＩＤ：<id>` anywhere in a description; the corrected test looks for the whole id line at its start |
| `GoogleCalendarSync.SubstringKeyCollides` | scheduler/jobs/sync_bookings_to_google_calendar.py:86-88 | Booking 42's description contains booking 4's key |
| `GoogleCalendarSync.AsWrittenOverwritesOtherBooking` | scheduler/jobs/sync_bookings_to_google_calendar.py:86-118 | The program's pass for live booking 4 succeeds over a calendar holding only booking 42's event and leaves no event describing booking 42 |
| `GoogleCalendarSync.Matching` | scheduler/jobs/sync_bookings_to_google_calendar.py:86-88 | The events the test takes for the booking's, in listing order, and no other |
| `GoogleCalendarSync.OwnBodyMatches` | scheduler/jobs/sync_bookings_to_google_calendar.py:59-88 | A booking's own event is taken for it under either test |
| `GoogleCalendarSync.OwnLineOnly` | scheduler/jobs/sync_bookings_to_google_calendar.py:61 | A description opens with one id line |
| `GoogleCalendarSync.MatchesOwnIdOnly` | scheduler/jobs/sync_bookings_to_google_calendar.py:86-88 | Under the corrected test, an event is taken for exactly its own booking's id |
| `GoogleCalendarSync.Plan` | scheduler/jobs/sync_bookings_to_google_calendar.py:90-125 | A canceled booking issues one call per matching event; otherwise it issues one call per matching event, or a single insert when none matches |
| `GoogleCalendarSync.Without` | scheduler/jobs/sync_bookings_to_google_calendar.py:90-110 | A delete removes exactly one id |
| `GoogleCalendarSync.Replace` | scheduler/jobs/sync_bookings_to_google_calendar.py:111-118 | An update replaces one body |
| `GoogleCalendarSync.ApplyAppend` | scheduler/jobs/sync_bookings_to_google_calendar.py:90-125 | Calls apply in order |
| `GoogleCalendarSync.DeleteAllEffect` | scheduler/jobs/sync_bookings_to_google_calendar.py:90-100 | Exactly the listed events are deleted |
| `GoogleCalendarSync.CanceledEffect` | scheduler/jobs/sync_bookings_to_google_calendar.py:90-100 | A canceled booking leaves no event |
| `GoogleCalendarSync.InsertEffect` | scheduler/jobs/sync_bookings_to_google_calendar.py:119-125 | A new booking gets one event |
| `GoogleCalendarSync.UpdateEffect` | scheduler/jobs/sync_bookings_to_google_calendar.py:103-118 | The last event is kept with the new body |
| `GoogleCalendarSync.DuplicatesDeleted` | scheduler/jobs/sync_bookings_to_google_calendar.py:103-110 | Deleting all but the last leaves one |
| `GoogleCalendarSync.PlanFor` | scheduler/jobs/sync_bookings_to_google_calendar.py:80-125 | The calls planned for one booking against the events its test takes; `GoogleCalendarSync.PlanEffect` states their effect |
| `GoogleCalendarSync.PlanEffect` | scheduler/jobs/sync_bookings_to_google_calendar.py:86-125 | Under either test, the booking ends with no taken event (canceled) or exactly one holding the new body; events the test does not take are untouched |
| `GoogleCalendarSync.ApplyKeepsValid` | scheduler/jobs/sync_bookings_to_google_calendar.py:90-125 | Deletes, updates and inserts keep event ids unique and below the next id |
| `GoogleCalendarSync.WriteBooking` | scheduler/jobs/sync_bookings_to_google_calendar.py:59-129 | Under either test, a booking fails exactly on a formatting error or a failing API call, and the calendar stays valid either way |
| `GoogleCalendarSync.WriteBookingApplies` | scheduler/jobs/sync_bookings_to_google_calendar.py:80-125 | A successful booking applies the plan built from the events its test takes |
| `GoogleCalendarSync.WriteBookings` | scheduler/jobs/sync_bookings_to_google_calendar.py:55-129 | Under either test, the run succeeds when every body formats and no call fails, and success means every body formatted |
| `GoogleCalendarSync.CalendarPass` | scheduler/jobs/sync_bookings_to_google_calendar.py:20-40 | No booking means success with the calendar untouched; a pass where everything formats and no call fails succeeds; one record logs every fetched id with the outcome |
| `GoogleCalendarSync.OneBookingPass` | scheduler/jobs/sync_bookings_to_google_calendar.py:29-40 | After a successful pass for one booking, under either test, every event the test does not take is kept; a canceled booking has no taken event left, any other exactly one, holding its current body |
| `GoogleCalendarSync.CorrectedPassKeepsOthers` | scheduler/jobs/sync_bookings_to_google_calendar.py:29-40 | Under the corrected test, a successful pass for one booking keeps every event that opens with another booking's id line |
| `GoogleCalendarSync.FailedPassRetries` | scheduler/jobs/sync_bookings_to_google_calendar.py:30-40 | A failed pass leaves the calendar watermark where it was, so the same bookings are fetched again |
| `GoogleCalendarSync.SyncToGoogleCalendar` | scheduler/jobs/sync_bookings_to_google_calendar.py:20-40 | The pass reads from the later of the watermark and the configured minimum, takes at most one booking, the latest changed since then, and runs with the program's substring test |
| `Sessions.DraftOf` | line-bot-server/message_handlers/handle_edit_booking_messages.py:90 | Indexing the session data works exactly when it is a dict, and yields its keys; on a set it raises TypeError |
| `Sessions.ResetRooms` | line-bot-server/message_handlers/handle_edit_booking_messages.py:59 | `data['room_ids'] = []` succeeds exactly on dict data and changes only the room choice, to empty |
| `Sessions.AppendRoomKeepsDistinct` | line-bot-server/message_handlers/handle_create_booking_messages.py:131-145 | A room that is a table room and not chosen yet extends the choice by one, keeping it free of duplicates |
| `Sessions.LastNight` | line-bot-server/message_handlers/handle_create_booking_messages.py:118-119 | The last night is check-in + nights − 1, within 14 days of check-in; OverflowError exactly when it passes 9999-12-31 |
| `CreateBookingWizard.Previous` | line-bot-server/message_handlers/handle_create_booking_messages.py:11-21 | Only the name step has no previous step; the nights and rooms steps both go back to the check-in date; every other step goes back one place |
| `CreateBookingWizard.PreviousStep` | line-bot-server/message_handlers/handle_create_booking_messages.py:39-41 | `PREVIOUS_STEP[step]` succeeds exactly for a create step other than the name, and raises KeyError otherwise |
| `CreateBookingWizard.DraftBooking` | line-bot-server/message_handlers/handle_create_booking_messages.py:258-272 | The new booking is built exactly when every collected key is present; a missing key raises KeyError |
| `CreateBookingWizard.HandleCreateBooking` | line-bot-server/message_handlers/handle_create_booking_messages.py:32-48 | Cancel always clears the session. Back with no step clears it too. Back from the name step raises KeyError, because that step has no `PREVIOUS_STEP` entry |
| `CreateBookingWizard.CreateStepPromise` | line-bot-server/message_handlers/handle_create_booking_messages.py:50-307 | At every step, an answer the step does not take leaves the session as it is. An accepted answer keeps the session well formed and advances one step, except that a room is appended and the step stays. The only exception is OverflowError, at the nights or notes step. The confirmation clears the session |
| `CreateBookingWizard.PreviewFailsOnOverflow` | line-bot-server/message_handlers/handle_create_booking_messages.py:273 | The preview of an unpaid booking fails exactly when its check-out date overflows, with that error |
| `CreateBookingWizard.CreateBack` | line-bot-server/message_handlers/handle_create_booking_messages.py:38-44 | Back from any later step lands on its previous step and re-prompts there. Landing on the rooms step empties the room choice. Nothing else changes |
| `CreateBookingWizard.NightsSetLastDate` | line-bot-server/message_handlers/handle_create_booking_messages.py:118-120 | A valid night count moves to the rooms step with the last night at check-in + nights − 1, never before check-in, and an empty room choice; it fails exactly past 9999-12-31 |
| `CreateBookingWizard.DoubleBookingAccepted` | line-bot-server/message_handlers/handle_create_booking_messages.py:133-145 | A room that a live booking holds on those very nights is still appended, because only table membership and the current choice are checked |
| `CreateBookingWizard.NotesFinishStoresEmpty` | line-bot-server/message_handlers/handle_create_booking_messages.py:251 | The notes finish command stores empty notes and moves to the confirmation |
| `CreateBookingWizard.ConfirmUpserts` | line-bot-server/message_handlers/handle_create_booking_messages.py:286-307 | Confirming upserts a new booking (id -1, status new, unpaid, empty deposit note) carrying every collected value, with 1 to 15 nights and distinct rooms, and clears the session |
| `CreateBookingWizard.NewBookingInserts` | utils/data_access/booking_dao.py:152-169 | A booking with id -1 is never found, so it is inserted under the next serial id with its rooms, and every stored booking keeps its row |
| `EditBookingWizard.ChangesOf` | line-bot-server/message_handlers/handle_edit_booking_messages.py:37 | Set data shows no changes. Dict data runs the as-written summary: a phone without '+886' raises UnboundLocalError, a check-out past 9999-12-31 raises OverflowError, and otherwise it is the fixed summary of the draft |
| `EditBookingWizard.HandleEditBooking` | line-bot-server/message_handlers/handle_edit_booking_messages.py:20-45 | Cancel, finish and back are checked first, in that order, at any step. Cancel clears. Finish moves to the confirmation exactly when the change summary can be shown, and a phone without '+886' makes it raise UnboundLocalError. Back returns to the menu |
| `EditBookingWizard.Store` | line-bot-server/message_handlers/handle_edit_booking_messages.py:85-104 | Storing an edit succeeds exactly on dict data, applies the edit and returns to the menu; set data raises TypeError |
| `EditBookingWizard.MenuTarget` | line-bot-server/message_handlers/handle_edit_booking_messages.py:47-83 | A menu command never opens the menu itself, the nights step or the confirmation |
| `EditBookingWizard.EditStepPromise` | line-bot-server/message_handlers/handle_edit_booking_messages.py:47-258 | An answer the step does not take leaves the session as it is; at the confirmation, showing the changes again may raise OverflowError, or UnboundLocalError exactly when the phone lacks '+886'. An accepted answer stores its key and returns to the menu, except that a check-in date leads to the nights step and a room to another room; the session stays well formed and nothing is called. The only other exceptions are OverflowError at the nights step and AttributeError at the confirmation, which upserts and clears |
| `EditBookingWizard.EditConfirmMerges` | line-bot-server/message_handlers/handle_edit_booking_messages.py:233-258 | Confirming a booking that is no longer found raises AttributeError; otherwise it upserts the stored booking merged with the draft and clears the session |
| `EditBookingWizard.Merge` | line-bot-server/message_handlers/handle_edit_booking_messages.py:234-253 | The stored booking with every edited key written over it; `EditBookingWizard.MergeOverwritesPresentKeys` and `EditBookingWizard.MergeIdempotent` state it |
| `EditBookingWizard.MergeOverwritesPresentKeys` | line-bot-server/message_handlers/handle_edit_booking_messages.py:234-253 | Each key in the draft overwrites its field; the id, status, deposit status and note, and timestamps are kept; with no listed key the booking is unchanged |
| `EditBookingWizard.MergeIdempotent` | line-bot-server/message_handlers/handle_edit_booking_messages.py:234-253 | Applying the same edits twice gives the same booking as once |
| `EditBookingWizard.TrimmedMergeSame` | utils/booking_utils.py:62-82 | The corrected trim never changes what is saved, and it leaves a change listed exactly when the merge changes the booking |
| `EditBookingWizard.TrimAsWrittenDropsRoomEdit` | utils/booking_utils.py:79-80 | A new room string that equals the customer's name is dropped by the as-written trim, though the untrimmed merge would have saved it |
| `EditBookingWizard.CheckInAfterLastNightSaved` | line-bot-server/message_handlers/handle_edit_booking_messages.py:105-129 | A new check-in date after the stored last night is accepted; then finish raises UnboundLocalError if the stored draft's phone lacks '+886', and otherwise finish and confirm upsert a booking whose check-in is after its last night |
| `EditBookingWizard.LocalPhoneBlocksSave` | line-bot-server/message_handlers/handle_edit_booking_messages.py:95-103 | A valid phone typed in local form is stored as typed, and the finish command that follows raises UnboundLocalError, so the edit can never be confirmed |
| `EditBookingWizard.EditUpdatesInPlace` | line-bot-server/message_handlers/handle_edit_booking_messages.py:254 | Upserting the merge of a found booking keeps its id, inserts nothing and assigns exactly the merged rooms |
| `CreateClosureWizard.Previous` | line-bot-server/message_handlers/handle_create_closure_messages.py:11-16 | Only the start date has no previous step; the nights and rooms steps go back to the start date; the reason and confirmation go back one place |
| `CreateClosureWizard.PreviousStep` | line-bot-server/message_handlers/handle_create_closure_messages.py:31-34 | `PREVIOUS_STEP[step]` succeeds exactly for a closure step other than the start date, and raises KeyError otherwise |
| `CreateClosureWizard.DraftClosure` | line-bot-server/message_handlers/handle_create_closure_messages.py:171-177 | The closure is built exactly when the start, last date, reason and rooms are present; a missing key raises KeyError |
| `CreateClosureWizard.HandleCreateClosure` | line-bot-server/message_handlers/handle_create_closure_messages.py:25-40 | Cancel always clears the session. Back with no step clears it too. Back from the start date raises KeyError |
| `CreateClosureWizard.ClosureStepPromise` | line-bot-server/message_handlers/handle_create_closure_messages.py:42-185 | An answer the step does not take leaves the session as it is. An accepted answer keeps the session well formed, calls nothing and advances one step, except that a room is appended and the step stays. The only exception is OverflowError at the nights step. The confirmation inserts the closure and clears the session |
| `CreateClosureWizard.ClosureBack` | line-bot-server/message_handlers/handle_create_closure_messages.py:31-40 | Back from any later step lands on its previous step and keeps the room choice, even on the rooms step |
| `CreateClosureWizard.ReasonFinishStoresEmpty` | line-bot-server/message_handlers/handle_create_closure_messages.py:142 | The reason finish command stores an empty reason and moves to the confirmation |
| `CreateClosureWizard.ClosureConfirmInserts` | line-bot-server/message_handlers/handle_create_closure_messages.py:161-185 | Confirming inserts a closure with id -1 and the collected dates, reason and distinct rooms over 1 to 15 nights. It reports success exactly when the returned id is truthy, and clears the session either way |
| `PrepaidBookingWizard.Previous` | line-bot-server/message_handlers/handle_prepaid_booking_messages.py:7-10 | Only the amount has no previous step; the others go back one place |
| `PrepaidBookingWizard.PreviousStep` | line-bot-server/message_handlers/handle_prepaid_booking_messages.py:25-28 | `PREVIOUS_STEP[step]` succeeds exactly for a deposit step other than the amount, and raises KeyError otherwise |
| `PrepaidBookingWizard.HandlePrepaidBooking` | line-bot-server/message_handlers/handle_prepaid_booking_messages.py:19-32 | Cancel always clears the session. Back with no step clears it too. Back from the amount raises KeyError |
| `PrepaidBookingWizard.PrepaidStepPromise` | line-bot-server/message_handlers/handle_prepaid_booking_messages.py:34-98 | A bad amount re-prompts with the booking's deposit, or raises AttributeError when the booking is gone; other untaken answers leave the session as it is. An accepted answer advances one step, and the amount step stores the amount. The confirmation records the deposit and clears the session |
| `PrepaidBookingWizard.PrepaidBack` | line-bot-server/message_handlers/handle_prepaid_booking_messages.py:25-58 | Back lands on the previous step; landing on the amount re-reads the booking and raises AttributeError when it is gone |
| `PrepaidBookingWizard.NoteFinishStoresEmpty` | line-bot-server/message_handlers/handle_prepaid_booking_messages.py:70 | The note finish command stores an empty note and moves to the confirmation |
| `PrepaidBookingWizard.PrepaidConfirmUpdates` | line-bot-server/message_handlers/handle_prepaid_booking_messages.py:82-98 | Confirming records the collected amount (0 to 100000) and note for the booking. It reports success exactly when the update returns a true value, and clears the session either way |
| `DefaultDispatch.SaturdayOffsets` | line-bot-server/message_handlers/handle_default_messages.py:66-84 | "This Saturday" is a Saturday from one day back to five days ahead; "last Saturday" is the Saturday seven days before it |
| `DefaultDispatch.CheckOutTodaySearch` | line-bot-server/message_handlers/handle_default_messages.py:42-48 | Check-out today searches the last nights of yesterday, and raises OverflowError exactly on 0001-01-01 |
| `DefaultDispatch.CheckInTodaySearch` | line-bot-server/message_handlers/handle_default_messages.py:50-55 | Check-in today searches today's check-ins |
| `DefaultDispatch.CheckInTomorrowSearch` | line-bot-server/message_handlers/handle_default_messages.py:57-62 | Check-in tomorrow searches tomorrow's check-ins, and raises OverflowError exactly on 9999-12-31 |
| `DefaultDispatch.ThisSaturdaySearch` | line-bot-server/message_handlers/handle_default_messages.py:64-72 | This Saturday's search is of a Saturday from one day back to five days ahead, and raises OverflowError exactly when that date leaves the calendar |
| `DefaultDispatch.LastSaturdaySearch` | line-bot-server/message_handlers/handle_default_messages.py:74-82 | Last Saturday's search is of the Saturday seven days before this one, and raises OverflowError exactly when that date falls before 0001-01-01 |
| `DefaultDispatch.CreateStartsWizard` | line-bot-server/message_handlers/handle_default_messages.py:86-97 | The create command starts the create-booking wizard at its first step with empty data, whatever the session held |
| `DefaultDispatch.OtherMessageSearched` | line-bot-server/message_handlers/handle_default_messages.py:113-121 | Any other message that is not an edit command is searched as a keyword, leaving the session alone |
| `DefaultDispatch.DispatchWith` | line-bot-server/message_handlers/handle_default_messages.py:9-121 | Faults only on date overflow or a placeholder-free edit template; only a wizard start changes the session, and it starts the create or the edit wizard; a date searched is a representable day |
| `DefaultDispatch.HandleDefaultAsWritten` | line-bot-server/message_handlers/handle_default_messages.py:9-121 | As written: besides the dispatch's faults and frame, an edit session it starts holds the one-element set `{booking_id}` |
| `DefaultDispatch.HandleDefault` | line-bot-server/message_handlers/handle_default_messages.py:9-121 | Corrected: an edit session it starts holds a dict with a positive booking id and nothing else |
| `DefaultDispatch.EditCommandStoresSet` | line-bot-server/message_handlers/handle_default_messages.py:99-111 | As written, an edit command starts the edit wizard with the set `{id}` as its data, a session the edit wizard cannot run |
| `DefaultDispatch.SetDataNeverSaves` | line-bot-server/message_handlers/handle_edit_booking_messages.py:20-258 | With set data, every message to the edit wizard raises TypeError, clears the session, or leaves the data as it is; nothing is ever saved |
| `DefaultDispatch.EditCommandStartsEdit` | line-bot-server/message_handlers/handle_default_messages.py:99-111 | With the id stored under its key, an edit command starts a well-formed edit session at the menu holding only the id |

## Left out

- LINE reply texts, quick-reply buttons and carousels are not modelled. Each handler reports only what it did: a re-prompt, a started wizard, a search, or a success or failure notice.
- The 30% deposit suggestion (`line-bot-server/message_handlers/handle_create_booking_messages.py:190`, `202`) is left out. It is a float computation that only labels a button.
- Money is an exact `real`, not a binary float. Only the `int()` truncations the code applies are modelled.
- The bot's command strings and step names come from two modules that are not part of this model. The create-booking, create-closure, edit, cancel-booking and default handlers import `app_const/line_config.py`. The deposit, closure-cancel, restore and monthly-report handlers import `const/line_config.py`; the only `const/line_config.py` shown is the server's and defines no deposit step name, so the deposit wizard's step names are assumed. The wizards therefore take the command strings as a `Commands` parameter, and the steps are distinct constructors.
- The closure wizard's room reset on "back" (`line-bot-server/message_handlers/handle_create_closure_messages.py:35-36`) is not modelled. It compares the step with the create-booking rooms step, a different constant, so with distinct steps it never fires.
- The closure preview text shown before confirmation is not modelled. It only feeds a reply.
- `search_booking_by_keyword` (`utils/data_access/booking_dao.py:188-248`) is not modelled. The default handler's fallback is modelled as a keyword search that changes no session data.
- The prompt-only keyword-search command (`line-bot-server/message_handlers/handle_default_messages.py:11-40`) is not modelled beyond its reply.
- `get_customer_by_phone_number` (`utils/data_access/booking_dao.py:410-434`) has no member of its own. It runs the same first-match phone lookup as `BookingDao.FindCustomer`.
- `insert_closure` and `update_booking_prepaid` are not part of this model, because the DAO shown does not define them. The id and the truth value they return are parameters of the closure and deposit wizards.
- The cancel, restore and cancel-closure handlers, the monthly report, and the notification, export and backup jobs are not modelled. They are confirm prompts, or they call DAO methods that do not exist.
- The wall clock is a parameter: `today` for the date commands and `now` for timestamps.
- Notion's ISO time strings and their time-zone conversion (`scheduler/jobs/sync_bookings_with_notion.py:106-107`) are not modelled. An edit time is an already-normalised integer.
- Notion returns pages in an order the code does not fix. Google returns events the same way. The model takes that order as given.
- The order of `STRING_AGG` in `get_booking_info` is likewise not fixed by the query. The model joins rooms in assignment order.
- The closure branch of the calendar job (`scheduler/jobs/sync_bookings_to_google_calendar.py:42-52`, `132-206`) is not modelled. It reads fields that `ClosureInfo` does not define, and `get_latest_closures` is not in the DAO shown. Its call at line 43 sits outside any `try`, so with that DAO the job raises AttributeError there, after the booking pass has written its sync record; `GoogleCalendarSync.SyncToGoogleCalendar` models the job up to that record.
- Database connection failures, for which DAO methods return None, are not modelled. Neither are SQL errors or connection pooling.
- The Notion and Google clients are reduced to a list of pages or events and a predicate saying which call raises. A Notion database query answers with one result page of at most 100 pages, Notion's page size when the request names none (`NotionSync.QueryPage`).
- Python's `int()` tolerance of surrounding whitespace and of non-ASCII digits is not modelled; its underscores between digits are. So are `\d` and `isdigit()` on non-ASCII digits. Only ASCII digits are modelled.
- Logging is not modelled. That includes the rearranger's warning about blocks longer than 13 lines and the order in which `validate_booking` prints its warnings; the warnings are modelled as a set.
- `NotionSync.Resolve`: its own contract bounds only the sizes. What survives is stated by `NotionSync.LastWriteWins`, `NotionSync.SurvivesOnOneSide` and `NotionSync.SkippedOnBothSides`.
- `NotionSync.FetchChanged`: its own contract states only timestamps and the 100-result bound. Soundness and completeness within the result page are `NotionSync.FetchSound` and `NotionSync.FetchComplete`.
- `NotionSync.WriteAll`: its own contract bounds only the page count. Order and effect are `NotionSync.WriteAllSnoc`, `NotionSync.PutPageFinds` and `NotionSync.LastWriteFound`.
- `NotionSync.WriteToDb`: states validity and the untouched tables only. Each upsert's effect is `BookingDao.UpsertBooking`.
- `NotionSync.Reconcile`: states the bound, the origin of the database survivors and the failed-query case only. The rest is `NotionSync.Exchange`.
- `GoogleCalendarSync.Plan`: its own contract counts the calls only. Their effect on the calendar is `GoogleCalendarSync.PlanEffect`.
- `BookingDao.PriceEstimate`: its own contract states only the empty cases. The Saturday rule and the sum are `BookingDao.SingleRoomNight`, `BookingDao.WeekPrice` and `BookingDao.EstimatePrice`.
- `EditBookingWizard.MenuTarget`: states only which steps the menu can never open. The step each command opens is stated through `EditBookingWizard.EditStepPromise`.
- `Text.Strip`: its own contract states only that the ends are not whitespace. The exact result is `Text.StripPadded`.
- `Text.Split`: its own contract states only that there is a part. The round trips are `Text.JoinOfSplit` and `Text.SplitOfJoin`.
- `BookingUtils.NormalCardReadsIdPhone`: stated only for bookings a reader can parse back unambiguously: a positive id, check-in not after the last night, a non-negative total, no colon in the name, phone, notes, source or rooms, and no line break in the phone. The card must also format without error.
- `BookingUtils.NormalCardReadsDates`: stated only for the same readable bookings as `BookingUtils.NormalCardReadsIdPhone`, whose card formats without error.
- `BookingUtils.NormalCardReadsCounts`: stated only for the same readable bookings as `BookingUtils.NormalCardReadsIdPhone`, whose card formats without error.
- `BookingUtils.ChangesSummaryReads`: stated only for drafts whose name, phone, notes, source and rooms hold no full-width colon; a colon inside a value could make a search stop on the wrong line.
- `NotionSync.Decode`: skips two kinds of page that the program's loader keeps, because a booking here holds day numbers. One is a page whose date has no end (a single-day Notion date; the loader stores None as the last date). The other is a date text carrying a time, which the loader stores as text. `NotionSync.DecodeNarrowsLoad` and `NotionSync.OpenRangeSkipped` state the gap exactly.
- The Google list query's server-side `q=` search (`scheduler/jobs/sync_bookings_to_google_calendar.py:80-84`) is taken to return every event, so the client-side test alone decides which events are a booking's. The program's `GoogleCalendarSync.MatchTest.Substring` test is what the job runs; the corrected `Prefix` test is used only by the lemmas about the corrected job.

## Findings

| source | as written | input that shows it | evidently intended | confidence | as-written member | corrected member |
|---|---|---|---|---|---|---|
| line-bot-server/message_handlers/handle_default_messages.py:111 | The edit command stores `{ booking_id }`, a set, as the session data | Any edit command that names a booking: every later edit step indexes the set and raises TypeError, so nothing is ever saved | Store `{'booking_id': booking_id}`, the dict the edit wizard reads | high, not executed | `DefaultDispatch.EditCommandStoresSet`, `DefaultDispatch.SetDataNeverSaves` | `DefaultDispatch.EditCommandStartsEdit` |
| utils/booking_utils.py:89-92 | `phone_number` is assigned only when the new phone starts with '+886', then read unconditionally | An edited phone typed as `0912345678`, which the edit wizard stores as typed, raises UnboundLocalError when the changes are shown, so that edit can never be confirmed | Show every other phone unchanged | high, not executed | `BookingUtils.FormatBookingChanges`, `BookingUtils.LocalPhoneBreaksSummary`, `EditBookingWizard.LocalPhoneBlocksSave` | `BookingUtils.FormatBookingChangesFixed`, `BookingUtils.ChangesSummaryReads` |
| utils/booking_utils.py:79-80 | The new rooms are compared with the stored customer name | Stored name `AB` and rooms `C`, edited rooms `AB`: the room edit is trimmed away. The bug is latent: nothing in the code shown calls `trim_booking_changes`, so no saved booking is affected today | Compare the new rooms with the stored rooms | medium (latent, no caller), not executed | `BookingUtils.TrimBookingChanges`, `EditBookingWizard.TrimAsWrittenDropsRoomEdit` | `BookingUtils.TrimBookingChangesFixed`, `EditBookingWizard.TrimmedMergeSame` |
| utils/rearrange_and_check_raw_bookings.py:39-41 | The missing-id scan runs over `range(1, len(booking_dict))` | Blocks with ids 1 and 3: the scan covers only id 1, so the missing id 2 is not reported | Scan up to the largest id | medium, not executed | `Rearrange.MissingIdsAsWritten`, `Rearrange.MissingScanStopsShort`, `Rearrange.ProcessBookings` | `Rearrange.MissingIds`, `Rearrange.MissingIdsComplete`, `Rearrange.MissingReport`, `Rearrange.ProcessedMissing` |
| scheduler/jobs/sync_bookings_to_google_calendar.py:86-88 | An event matches when its description merely contains `ＩＤ：<id>` | Syncing booking 4 also matches the event of booking 42, whose description holds `ＩＤ：42`; that event is updated or deleted. This needs Google's server-side `q` search for `ＩＤ：4` to return booking 42's event, which the code does not show | Match the id line exactly | medium (depends on Google's server-side search), not executed | `GoogleCalendarSync.SubstringKeyCollides`, `GoogleCalendarSync.AsWrittenOverwritesOtherBooking` | `GoogleCalendarSync.MatchesOwnIdOnly`, `GoogleCalendarSync.CorrectedPassKeepsOthers` |
| scheduler/jobs/sync_bookings_with_notion.py:64-70 | One `databases.query` call with no `start_cursor`; `has_more` is never read, so only the first result page of at most 100 pages is decoded | 101 decodable pages edited after the last pass: the pass fetches at most 100, logs success, and the watermark moves past the others' edit times, so they are not synced until edited again | Follow `next_cursor` until `has_more` is false | high (relies on Notion's 100-result page size, which the code does not set), not executed | `NotionSync.FetchChanged`, `NotionSync.OverflowPagesLost`, `NotionSync.OverflowExample`, `NotionSync.PassedOverPageStays` | `NotionSync.FetchAllChanged`, `NotionSync.FetchAllComplete`, `NotionSync.FewChangesAllFetched` |

=== FILE: booking_dao.dfy ===
/** The booking database as abstract tables: bookings keyed by id, customers (whose id is
    their position plus one), room assignments in insertion order, rooms, and sync
    records. Each operation is a pure function from the tables before to the tables after
    (and the value the data-access method returns). Timestamps the database stamps come in
    as a `now` parameter. */
module BookingDao {
  import opened Wrappers
  import opened Text
  import opened Calendar
  import opened Records
  import opened BookingUtils

  /** Timestamps; 0 is `datetime.min`. */
  type Time = nat
  const MinTime: Time := 0

  datatype BookingRow = BookingRow(
    customerId: nat,
    status: string,
    checkInDate: Day,
    lastDate: Day,
    totalPrice: real,
    prepayment: real,
    prepaymentNote: string,
    prepaymentStatus: string,
    source: string,
    notes: string,
    created: Time,
    modified: Time)

  datatype CustomerRow = CustomerRow(name: string, phoneNumber: string)

  datatype RoomRow = RoomRow(roomId: char, roomStatus: string, holidayPrice: int, weekdayPrice: int)

  datatype RoomBooking = RoomBooking(bookingId: nat, roomId: char)

  datatype SyncRecord = SyncRecord(syncType: string, syncedBookingIds: string, success: bool,
                                   errorMessage: Option<string>, syncedTime: Time)

  datatype Db = Db(
    bookings: map<nat, BookingRow>,
    customers: seq<CustomerRow>,
    roomBookings: seq<RoomBooking>,
    rooms: seq<RoomRow>,
    syncRecords: seq<SyncRecord>,
    nextBookingId: nat)

  /** The table constraints the operations rely on: serial booking ids below the next one,
      customer references that resolve, assignments of stored bookings, unique room ids. */
  predicate Valid(db: Db) {
    (forall id :: id in db.bookings ==>
       1 <= id < db.nextBookingId && 1 <= db.bookings[id].customerId <= |db.customers|)
    && (forall k :: 0 <= k < |db.roomBookings| ==> db.roomBookings[k].bookingId in db.bookings)
    && (forall i, j :: 0 <= i < j < |db.rooms| ==> db.rooms[i].roomId != db.rooms[j].roomId)
    && db.nextBookingId >= 1
  }

  // ---------------------------------------------------------------------------
  // Rooms
  // ---------------------------------------------------------------------------

  /** `get_all_room_ids`: every room id, in table order. */
  function AllRoomIds(db: Db): (r: seq<char>)
    ensures |r| == |db.rooms|
    ensures forall i :: 0 <= i < |r| ==> r[i] == db.rooms[i].roomId
  {
    IdsOf(db.rooms)
  }

  function IdsOf(rs: seq<RoomRow>): (r: seq<char>)
    ensures |r| == |rs|
    ensures forall i :: 0 <= i < |r| ==> r[i] == rs[i].roomId
  {
    if |rs| == 0 then [] else [rs[0].roomId] + IdsOf(rs[1..])
  }

  predicate KnownRoom(db: Db, c: char) {
    exists i :: 0 <= i < |db.rooms| && db.rooms[i].roomId == c
  }

  /** The row of a room id, the first one in table order. */
  function RoomOf(db: Db, c: char): (r: Option<RoomRow>)
    ensures r.Some? <==> KnownRoom(db, c)
    ensures r.Some? ==> r.value in db.rooms && r.value.roomId == c
  {
    FindRoom(db.rooms, c)
  }

  function FindRoom(rs: seq<RoomRow>, c: char): (r: Option<RoomRow>)
    ensures r.Some? <==> exists i :: 0 <= i < |rs| && rs[i].roomId == c
    ensures r.Some? ==> r.value in rs && r.value.roomId == c
  {
    if |rs| == 0 then None
    else if rs[0].roomId == c then Some(rs[0])
    else
      var r := FindRoom(rs[1..], c);
      assert forall i :: 1 <= i < |rs| ==> rs[i] == rs[1..][i - 1];
      r
  }

  /** A string none of whose characters exists is empty. */
  lemma NoMemberEmpty(s: string)
    ensures (forall c :: c !in s) ==> s == ""
  {
    if |s| > 0 {
      assert s[0] in s;
    }
  }

  // ---------------------------------------------------------------------------
  // get_booking_info
  // ---------------------------------------------------------------------------

  /** The rooms of a booking as the join with Rooms and STRING_AGG read them: its
      assignments to known rooms, in insertion order. */
  function JoinedRooms(db: Db, rbs: seq<RoomBooking>, id: nat): (r: string)
    ensures |r| <= |rbs|
    ensures forall c :: c in r <==> exists k :: 0 <= k < |rbs| && rbs[k] == RoomBooking(id, c) && KnownRoom(db, c)
  {
    if |rbs| == 0 then ""
    else
      var rest := JoinedRooms(db, rbs[1..], id);
      assert forall k :: 1 <= k < |rbs| ==> rbs[k] == rbs[1..][k - 1];
      if rbs[0].bookingId == id && KnownRoom(db, rbs[0].roomId) then [rbs[0].roomId] + rest else rest
  }

  /** The room characters assigned to a booking, in insertion order, whether known or not. */
  function AssignedRooms(rbs: seq<RoomBooking>, id: nat): (r: string)
    ensures forall c :: c in r <==> RoomBooking(id, c) in rbs
  {
    if |rbs| == 0 then ""
    else
      var rest := AssignedRooms(rbs[1..], id);
      if rbs[0].bookingId == id then [rbs[0].roomId] + rest else rest
  }

  /** `get_booking_info(id)`: the booking joined with its customer and its rooms. The joins
      are inner joins, so a booking with no (known) room is not found. */
  function GetBookingInfo(db: Db, id: int): (r: Option<Booking>)
    ensures r.Some? <==> (id >= 0 && id in db.bookings
                          && 1 <= db.bookings[id].customerId <= |db.customers|
                          && JoinedRooms(db, db.roomBookings, id) != "")
    ensures r.Some? ==> (r.value.bookingId == id
      && r.value.status == db.bookings[id].status
      && r.value.customerName == db.customers[db.bookings[id].customerId - 1].name
      && r.value.phoneNumber == db.customers[db.bookings[id].customerId - 1].phoneNumber
      && r.value.roomIds == JoinedRooms(db, db.roomBookings, id)
      && r.value.checkInDate == db.bookings[id].checkInDate
      && r.value.lastDate == db.bookings[id].lastDate
      && r.value.totalPrice == db.bookings[id].totalPrice
      && r.value.notes == db.bookings[id].notes
      && r.value.source == db.bookings[id].source
      && r.value.prepayment == db.bookings[id].prepayment
      && r.value.prepaymentNote == db.bookings[id].prepaymentNote
      && r.value.prepaymentStatus == db.bookings[id].prepaymentStatus
      && r.value.created == Some(db.bookings[id].created)
      && r.value.modified == Some(db.bookings[id].modified))
  {
    if id < 0 || id !in db.bookings then None
    else
      var row := db.bookings[id];
      if !(1 <= row.customerId <= |db.customers|) then None
      else
        var rooms := JoinedRooms(db, db.roomBookings, id);
        if rooms == "" then None
        else
          var c := db.customers[row.customerId - 1];
          Some(Booking(id, row.status, c.name, c.phoneNumber, row.checkInDate, row.lastDate,
                       row.totalPrice, row.notes, row.source, row.prepayment, row.prepaymentNote,
                       row.prepaymentStatus, rooms, Some(row.created), Some(row.modified)))
  }

  // ---------------------------------------------------------------------------
  // upsert_customer
  // ---------------------------------------------------------------------------

  predicate IsPlaceholderPhone(p: string) {
    EndsWith(p, InvalidPhonePostfix)
  }

  /** The position of the first customer the predicate-selected column matches. */
  function FindCustomer(cs: seq<CustomerRow>, byPhone: bool, key: string): (r: Option<nat>)
    ensures r.Some? ==> (r.value < |cs|
      && (if byPhone then cs[r.value].phoneNumber == key else cs[r.value].name == key))
    ensures r.Some? ==> forall k :: 0 <= k < r.value ==>
      (if byPhone then cs[k].phoneNumber != key else cs[k].name != key)
    ensures r.None? <==> forall k :: 0 <= k < |cs| ==>
      (if byPhone then cs[k].phoneNumber != key else cs[k].name != key)
  {
    if |cs| == 0 then None
    else if (if byPhone then cs[0].phoneNumber == key else cs[0].name == key) then Some(0)
    else
      match FindCustomer(cs[1..], byPhone, key)
      case None => None
      case Some(k) => Some(k + 1)
  }

  /** Which existing customer `upsert_customer` looks up: by phone unless the phone is a
      placeholder, else by name unless the name is generic, else none. */
  function CustomerLookup(db: Db, name: string, phone: string): (r: Option<nat>)
    ensures r.Some? ==> r.value < |db.customers|
    ensures r.Some? && !IsPlaceholderPhone(phone) ==> db.customers[r.value].phoneNumber == phone
    ensures r.Some? && IsPlaceholderPhone(phone) ==> db.customers[r.value].name == name && !IsGenericName(name)
  {
    if !IsPlaceholderPhone(phone) then FindCustomer(db.customers, true, phone)
    else if !IsGenericName(name) then FindCustomer(db.customers, false, name)
    else None
  }

  /** `upsert_customer(Customer(name, phone))`: the customer id, after renaming a generic
      name to a non-generic one, replacing a placeholder phone by a real one, or inserting a
      new customer when the lookup finds none. */
  function UpsertCustomer(db: Db, name: string, phone: string): (r: (Db, nat))
    ensures 1 <= r.1 <= |r.0.customers|
    ensures r.0 == db.(customers := r.0.customers)
    ensures CustomerLookup(db, name, phone).None? ==>
      r.0.customers == db.customers + [CustomerRow(name, phone)] && r.1 == |r.0.customers|
    ensures CustomerLookup(db, name, phone).Some? ==>
      r.1 == CustomerLookup(db, name, phone).value + 1 && |r.0.customers| == |db.customers|
    ensures forall k :: 0 <= k < |db.customers| && k != r.1 - 1 ==> r.0.customers[k] == db.customers[k]
    ensures CustomerLookup(db, name, phone).Some? ==>
      var old_ := db.customers[r.1 - 1];
      r.0.customers[r.1 - 1].name
        == (if IsGenericName(old_.name) && !IsGenericName(name) then name else old_.name)
  {
    match CustomerLookup(db, name, phone)
    case None =>
      (db.(customers := db.customers + [CustomerRow(name, phone)]), |db.customers| + 1)
    case Some(k) =>
      var c := db.customers[k];
      var newName := if IsGenericName(c.name) && !IsGenericName(name) then name else c.name;
      var newPhone :=
        if IsPlaceholderPhone(c.phoneNumber) && !IsPlaceholderPhone(phone) then phone else c.phoneNumber;
      (db.(customers := db.customers[k := CustomerRow(newName, newPhone)]), k + 1)
  }

  /** The placeholder-phone replacement never fires: a lookup by phone finds a customer with
      that very phone, and a lookup by name only happens for a placeholder phone. So
      `upsert_customer` never changes a stored phone number. */
  lemma UpsertCustomerKeepsPhones(db: Db, name: string, phone: string)
    ensures var db' := UpsertCustomer(db, name, phone).0;
      forall k :: 0 <= k < |db.customers| ==> db'.customers[k].phoneNumber == db.customers[k].phoneNumber
  {
  }

  /** A real phone already on file always resolves to the first customer holding it, and
      then no customer is inserted. */
  lemma UpsertCustomerByPhone(db: Db, name: string, phone: string, k: nat)
    requires !IsPlaceholderPhone(phone) && k < |db.customers| && db.customers[k].phoneNumber == phone
    ensures |UpsertCustomer(db, name, phone).0.customers| == |db.customers|
    ensures UpsertCustomer(db, name, phone).1 <= k + 1
    ensures db.customers[UpsertCustomer(db, name, phone).1 - 1].phoneNumber == phone
  {
  }

  /** Upserting preserves the table constraints. */
  lemma UpsertCustomerValid(db: Db, name: string, phone: string)
    requires Valid(db)
    ensures Valid(UpsertCustomer(db, name, phone).0)
  {
  }

  // ---------------------------------------------------------------------------
  // upsert_booking
  // ---------------------------------------------------------------------------

  function Assignments(id: nat, rooms: string): (r: seq<RoomBooking>)
    ensures |r| == |rooms|
    ensures forall k :: 0 <= k < |r| ==> r[k] == RoomBooking(id, rooms[k])
  {
    if |rooms| == 0 then [] else [RoomBooking(id, rooms[0])] + Assignments(id, rooms[1..])
  }

  /** The assignments of every booking but `id`, in order. */
  function WithoutBooking(rbs: seq<RoomBooking>, id: nat): (r: seq<RoomBooking>)
    ensures forall x :: x in r <==> x in rbs && x.bookingId != id
    ensures forall other :: other != id ==> AssignedRooms(r, other) == AssignedRooms(rbs, other)
    ensures AssignedRooms(r, id) == ""
  {
    if |rbs| == 0 then []
    else if rbs[0].bookingId == id then WithoutBooking(rbs[1..], id)
    else [rbs[0]] + WithoutBooking(rbs[1..], id)
  }

  lemma {:induction false} AssignedAppend(a: seq<RoomBooking>, b: seq<RoomBooking>, id: nat)
    ensures AssignedRooms(a + b, id) == AssignedRooms(a, id) + AssignedRooms(b, id)
    decreases |a|
  {
    if |a| > 0 {
      assert (a + b)[1..] == a[1..] + b;
      AssignedAppend(a[1..], b, id);
    } else {
      assert a + b == b;
    }
  }

  lemma {:induction false} AssignedOwn(id: nat, rooms: string, other: nat)
    ensures AssignedRooms(Assignments(id, rooms), other) == if other == id then rooms else ""
    decreases |rooms|
  {
    if |rooms| > 0 {
      AssignedOwn(id, rooms[1..], other);
      assert Assignments(id, rooms)[1..] == Assignments(id, rooms[1..]);
    }
  }

  /** The stored row for a booking: the update branch keeps the id's creation time and
      prepayment note, the insert branch starts with an empty note. */
  function RowOf(b: Booking, customerId: nat, note: string, created: Time, now: Time): BookingRow {
    BookingRow(customerId, b.status, b.checkInDate, b.lastDate, b.totalPrice, b.prepayment, note,
               b.prepaymentStatus, b.source, b.notes, created, now)
  }

  /** The update branch's room step: delete the booking's assignments, then add one per
      room character. */
  function ReplaceAssignments(rbs: seq<RoomBooking>, id: nat, rooms: string): (r: seq<RoomBooking>)
    ensures AssignedRooms(r, id) == rooms
    ensures forall other :: other != id ==> AssignedRooms(r, other) == AssignedRooms(rbs, other)
    ensures forall k :: 0 <= k < |r| ==> r[k] in rbs || r[k].bookingId == id
  {
    var kept := WithoutBooking(rbs, id);
    AssignedAppend(kept, Assignments(id, rooms), id);
    AssignedOwn(id, rooms, id);
    forall other | other != id ensures AssignedRooms(kept + Assignments(id, rooms), other) == AssignedRooms(rbs, other) {
      AssignedAppend(kept, Assignments(id, rooms), other);
      AssignedOwn(id, rooms, other);
    }
    kept + Assignments(id, rooms)
  }

  /** The insert branch's room step: add one assignment per room character for a booking
      that has none. */
  function AddAssignments(rbs: seq<RoomBooking>, id: nat, rooms: string): (r: seq<RoomBooking>)
    requires forall k :: 0 <= k < |rbs| ==> rbs[k].bookingId != id
    ensures AssignedRooms(r, id) == rooms
    ensures forall other :: other != id ==> AssignedRooms(r, other) == AssignedRooms(rbs, other)
    ensures forall k :: 0 <= k < |r| ==> r[k] in rbs || r[k].bookingId == id
  {
    forall c ensures c !in AssignedRooms(rbs, id) {
      assert RoomBooking(id, c) !in rbs;
    }
    NoMemberEmpty(AssignedRooms(rbs, id));
    AssignedAppend(rbs, Assignments(id, rooms), id);
    AssignedOwn(id, rooms, id);
    forall other | other != id ensures AssignedRooms(rbs + Assignments(id, rooms), other) == AssignedRooms(rbs, other) {
      AssignedAppend(rbs, Assignments(id, rooms), other);
      AssignedOwn(id, rooms, other);
    }
    rbs + Assignments(id, rooms)
  }

  /** An insert under the next serial id, with one assignment per room character. */
  function InsertBookingRow(db: Db, row: BookingRow, rooms: string): (r: (Db, nat))
    requires Valid(db) && 1 <= row.customerId <= |db.customers|
    ensures r.1 == db.nextBookingId && r.1 !in db.bookings
    ensures Valid(r.0)
    ensures r.0 == db.(bookings := db.bookings[r.1 := row], roomBookings := r.0.roomBookings,
                       nextBookingId := r.1 + 1)
    ensures AssignedRooms(r.0.roomBookings, r.1) == rooms
    ensures forall other :: other != r.1 ==> AssignedRooms(r.0.roomBookings, other) == AssignedRooms(db.roomBookings, other)
  {
    var id := db.nextBookingId;
    (db.(bookings := db.bookings[id := row], roomBookings := AddAssignments(db.roomBookings, id, rooms),
         nextBookingId := id + 1), id)
  }

  /** Is `b.booking_id` an existing booking, as `upsert_booking` asks after upserting the
      customer? */
  predicate Updates(db: Db, b: Booking) {
    GetBookingInfo(UpsertCustomer(db, b.customerName, b.phoneNumber).0, b.bookingId).Some?
  }

  /** `upsert_booking(b)`: upsert the customer, then update the booking found under
      `b.booking_id` (replacing its room assignments) or insert a new one under the next
      serial id, ignoring `b.booking_id`; returns the id written. */
  function UpsertBooking(db: Db, b: Booking, now: Time): (r: (Db, nat))
    requires Valid(db)
    ensures Valid(r.0)
    ensures Updates(db, b) ==> r.1 == b.bookingId && r.1 in db.bookings && r.0.nextBookingId == db.nextBookingId
    ensures !Updates(db, b) ==>
      r.1 == db.nextBookingId && r.1 !in db.bookings && r.0.nextBookingId == db.nextBookingId + 1
    ensures r.1 in r.0.bookings && AssignedRooms(r.0.roomBookings, r.1) == b.roomIds
    ensures forall id :: id != r.1 ==> AssignedRooms(r.0.roomBookings, id) == AssignedRooms(db.roomBookings, id)
    ensures r.0.bookings == UpsertCustomer(db, b.customerName, b.phoneNumber).0.bookings[r.1 := r.0.bookings[r.1]]
    ensures r.0.bookings[r.1] == RowOf(b, UpsertCustomer(db, b.customerName, b.phoneNumber).1,
      if r.1 in db.bookings then db.bookings[r.1].prepaymentNote else "",
      if r.1 in db.bookings then db.bookings[r.1].created else now, now)
    ensures r.0.customers == UpsertCustomer(db, b.customerName, b.phoneNumber).0.customers
    ensures r.0.rooms == db.rooms && r.0.syncRecords == db.syncRecords
  {
    var (db1, cid) := UpsertCustomer(db, b.customerName, b.phoneNumber);
    UpsertCustomerValid(db, b.customerName, b.phoneNumber);
    if GetBookingInfo(db1, b.bookingId).Some? then
      var id: nat := b.bookingId;
      var old_ := db1.bookings[id];
      (UpdateBookingRow(db1, id, RowOf(b, cid, old_.prepaymentNote, old_.created, now), b.roomIds), id)
    else
      InsertBookingRow(db1, RowOf(b, cid, "", now, now), b.roomIds)
  }

  /** The update branch: overwrite the stored row and replace its room assignments. */
  function UpdateBookingRow(db: Db, id: nat, row: BookingRow, rooms: string): (r: Db)
    requires Valid(db) && id in db.bookings && 1 <= row.customerId <= |db.customers|
    ensures Valid(r)
    ensures r == db.(bookings := db.bookings[id := row], roomBookings := r.roomBookings)
    ensures AssignedRooms(r.roomBookings, id) == rooms
    ensures forall other :: other != id ==> AssignedRooms(r.roomBookings, other) == AssignedRooms(db.roomBookings, other)
  {
    db.(bookings := db.bookings[id := row], roomBookings := ReplaceAssignments(db.roomBookings, id, rooms))
  }

  /** A booking upserted without rooms cannot be found again, so upserting it a second time
      inserts a second row under a fresh id. */
  lemma RoomlessUpsertDuplicates(db: Db, b: Booking, now: Time, later: Time)
    requires Valid(db) && b.roomIds == ""
    ensures var (db1, id1) := UpsertBooking(db, b, now);
      var (db2, id2) := UpsertBooking(db1, b.(bookingId := id1), later);
      id2 != id1 && id2 !in db1.bookings && |db2.bookings| == |db1.bookings| + 1
  {
    var (db1, id1) := UpsertBooking(db, b, now);
    var c1 := UpsertCustomer(db1, b.customerName, b.phoneNumber).0;
    assert JoinedRooms(c1, c1.roomBookings, id1) == "" by {
      assert c1.roomBookings == db1.roomBookings;
      assert AssignedRooms(db1.roomBookings, id1) == "";
      forall c ensures c !in JoinedRooms(c1, c1.roomBookings, id1) {
        assert RoomBooking(id1, c) !in db1.roomBookings;
      }
      NoMemberEmpty(JoinedRooms(c1, c1.roomBookings, id1));
    }
    var (db2, id2) := UpsertBooking(db1, b.(bookingId := id1), later);
    assert id2 == db1.nextBookingId;
    assert db2.bookings == db1.bookings[id2 := db2.bookings[id2]];
  }

  // ---------------------------------------------------------------------------
  // get_available_room_ids
  // ---------------------------------------------------------------------------

  /** The inclusive ranges [a1, b1] and [a2, b2] share a day. */
  predicate Overlap(a1: Day, b1: Day, a2: Day, b2: Day) {
    a2 <= b1 && b2 >= a1
  }

  /** The overlap test is the same as a shared day, when both ranges are non-empty. */
  lemma OverlapMeansSharedDay(a1: Day, b1: Day, a2: Day, b2: Day)
    requires a1 <= b1 && a2 <= b2
    ensures Overlap(a1, b1, a2, b2) <==> exists d: Day :: Within(d, a1, b1) && Within(d, a2, b2)
  {
    if Overlap(a1, b1, a2, b2) {
      var d: Day := if a1 < a2 then a2 else a1;
      assert Within(d, a1, b1) && Within(d, a2, b2);
    }
  }

  predicate Within(d: Day, first: Day, last: Day) {
    first <= d <= last
  }

  /** Does a live booking hold room `c` on some day of [checkIn, last]? */
  predicate Blocked(db: Db, c: char, checkIn: Day, last: Day) {
    exists k :: 0 <= k < |db.roomBookings| && db.roomBookings[k].roomId == c
      && db.roomBookings[k].bookingId in db.bookings
      && db.bookings[db.roomBookings[k].bookingId].status != StatusCanceled
      && Overlap(checkIn, last, db.bookings[db.roomBookings[k].bookingId].checkInDate,
                 db.bookings[db.roomBookings[k].bookingId].lastDate)
  }

  /** `get_available_room_ids(check_in, last)`: the rooms open for sale that no live
      booking holds on a day of the range, in table order. */
  function AvailableRoomIds(db: Db, checkIn: Day, last: Day): (r: seq<char>)
    ensures forall c :: c in r <==>
      exists i :: 0 <= i < |db.rooms| && db.rooms[i].roomId == c
        && db.rooms[i].roomStatus == "available" && !Blocked(db, c, checkIn, last)
  {
    AvailableAmong(db, db.rooms, checkIn, last)
  }

  function AvailableAmong(db: Db, rs: seq<RoomRow>, checkIn: Day, last: Day): (r: seq<char>)
    ensures forall c :: c in r <==>
      exists i :: 0 <= i < |rs| && rs[i].roomId == c
        && rs[i].roomStatus == "available" && !Blocked(db, c, checkIn, last)
  {
    if |rs| == 0 then []
    else
      var rest := AvailableAmong(db, rs[1..], checkIn, last);
      assert forall i :: 1 <= i < |rs| ==> rs[i] == rs[1..][i - 1];
      if rs[0].roomStatus == "available" && !Blocked(db, rs[0].roomId, checkIn, last)
      then [rs[0].roomId] + rest else rest
  }

  /** A room a live booking holds is not offered for the booking's last night. */
  lemma LastNightIsTaken(db: Db, k: nat, c: char)
    requires 0 <= k < |db.roomBookings| && db.roomBookings[k].roomId == c
    requires db.roomBookings[k].bookingId in db.bookings
    requires db.bookings[db.roomBookings[k].bookingId].status != StatusCanceled
    requires db.bookings[db.roomBookings[k].bookingId].checkInDate <= db.bookings[db.roomBookings[k].bookingId].lastDate
    ensures var row := db.bookings[db.roomBookings[k].bookingId];
      c !in AvailableRoomIds(db, row.lastDate, row.lastDate)
  {
    var row := db.bookings[db.roomBookings[k].bookingId];
    assert Blocked(db, c, row.lastDate, row.lastDate);
  }

  // ---------------------------------------------------------------------------
  // get_total_price_estimation
  // ---------------------------------------------------------------------------

  const Saturday: int := 5

  /** One night's price of a known room: the holiday price on Saturdays. */
  function NightPrice(room: RoomRow, d: Day): int {
    if Weekday(d) == Saturday then room.holidayPrice else room.weekdayPrice
  }

  /** The price of one night for the rooms before the first unknown one, and whether every
      room was known. */
  function DayPrice(db: Db, rooms: seq<char>, d: Day): (r: (int, bool))
    ensures r.1 <==> forall i :: 0 <= i < |rooms| ==> KnownRoom(db, rooms[i])
  {
    if |rooms| == 0 then (0, true)
    else
      match RoomOf(db, rooms[0])
      case None => (0, false)
      case Some(room) =>
        var rest := DayPrice(db, rooms[1..], d);
        assert forall i :: 1 <= i < |rooms| ==> rooms[i] == rooms[1..][i - 1];
        (NightPrice(room, d) + rest.0, rest.1)
  }

  /** The sum over the nights [from, last] of the price of all rooms, every room known. */
  function RangePrice(db: Db, rooms: seq<char>, from: Day, last: Day): int
    decreases last + 1 - from
  {
    if from > last then 0 else DayPrice(db, rooms, from).0 + RangePrice(db, rooms, from + 1, last)
  }

  /** What `get_total_price_estimation` returns: None for no rooms (an empty `IN ()` is a
      query error); 0 for an empty range; on an unknown room, the KeyError stops the first
      night's sum and the partial total is returned; otherwise the full sum. */
  function PriceEstimate(db: Db, rooms: seq<char>, checkIn: Day, last: Day): (r: Option<int>)
    ensures r.None? <==> |rooms| == 0
    ensures |rooms| > 0 && checkIn > last ==> r == Some(0)
  {
    if |rooms| == 0 then None
    else if checkIn > last then Some(0)
    else if DayPrice(db, rooms, checkIn).1 then Some(RangePrice(db, rooms, checkIn, last))
    else Some(DayPrice(db, rooms, checkIn).0)
  }

  /** The estimation loop: nights in order, and for each night the rooms in order. */
  method EstimatePrice(db: Db, rooms: seq<char>, checkIn: Day, last: Day) returns (r: Option<int>)
    ensures r == PriceEstimate(db, rooms, checkIn, last)
  {
    if |rooms| == 0 {
      return None;
    }
    var total := 0;
    var d := checkIn;
    while d <= last
      invariant checkIn <= d && (checkIn <= last ==> d <= last + 1)
      invariant DayPrice(db, rooms, checkIn).1 || d == checkIn
      invariant total + RangePrice(db, rooms, d, last) == RangePrice(db, rooms, checkIn, last)
      decreases last + 1 - d
    {
      var i := 0;
      var dayTotal := 0;
      while i < |rooms|
        invariant 0 <= i <= |rooms|
        invariant forall j :: 0 <= j < i ==> KnownRoom(db, rooms[j])
        invariant dayTotal + DayPrice(db, rooms[i..], d).0 == DayPrice(db, rooms, d).0
        decreases |rooms| - i
      {
        assert rooms[i..][1..] == rooms[i + 1..];
        var found := RoomOf(db, rooms[i]);
        if found.None? {
          PartialDay(db, rooms, i, d);
          return Some(total + dayTotal);
        }
        dayTotal := dayTotal + NightPrice(found.value, d);
        i := i + 1;
      }
      assert rooms[i..] == [];
      total := total + dayTotal;
      d := d + 1;
    }
    return Some(total);
  }

  /** Stopping at the first unknown room on the first night gives the partial sum. */
  lemma PartialDay(db: Db, rooms: seq<char>, i: nat, d: Day)
    requires i < |rooms| && !KnownRoom(db, rooms[i])
    ensures !DayPrice(db, rooms, d).1
  {
  }

  /** With a single known room, a night costs that room's holiday price on a Saturday and
      its weekday price otherwise. */
  lemma SingleRoomNight(db: Db, room: RoomRow, d: Day)
    requires RoomOf(db, room.roomId) == Some(room)
    ensures DayPrice(db, [room.roomId], d) == (NightPrice(room, d), true)
  {
    assert [room.roomId][1..] == [];
  }

  /** Any seven consecutive nights in one known room hold exactly one Saturday: one
      holiday night and six weekday nights. */
  lemma {:induction false} WeekPrice(db: Db, room: RoomRow, from: Day)
    requires RoomOf(db, room.roomId) == Some(room)
    ensures RangePrice(db, [room.roomId], from, from + 6) == room.holidayPrice + 6 * room.weekdayPrice
  {
    var rs := [room.roomId];
    SingleRoomNight(db, room, from);
    SingleRoomNight(db, room, from + 1);
    SingleRoomNight(db, room, from + 2);
    SingleRoomNight(db, room, from + 3);
    SingleRoomNight(db, room, from + 4);
    SingleRoomNight(db, room, from + 5);
    SingleRoomNight(db, room, from + 6);
    RangeUnfold(db, rs, from, from + 6);
    RangeUnfold(db, rs, from + 1, from + 6);
    RangeUnfold(db, rs, from + 2, from + 6);
    RangeUnfold(db, rs, from + 3, from + 6);
    RangeUnfold(db, rs, from + 4, from + 6);
    RangeUnfold(db, rs, from + 5, from + 6);
    RangeUnfold(db, rs, from + 6, from + 6);
    WeekNights(room, from);
  }

  lemma WeekNights(room: RoomRow, from: Day)
    ensures NightPrice(room, from) + NightPrice(room, from + 1) + NightPrice(room, from + 2)
      + NightPrice(room, from + 3) + NightPrice(room, from + 4) + NightPrice(room, from + 5)
      + NightPrice(room, from + 6) == room.holidayPrice + 6 * room.weekdayPrice
  {
    var w := from % 7;
    WeekdayShift(from, 1);
    WeekdayShift(from, 2);
    WeekdayShift(from, 3);
    WeekdayShift(from, 4);
    WeekdayShift(from, 5);
    WeekdayShift(from, 6);
  }

  lemma WeekdayShift(from: Day, k: nat)
    ensures Weekday(from + k) == (from % 7 + k) % 7
  {
    var q := from / 7;
    assert from == 7 * q + from % 7;
    assert from + k == 7 * q + (from % 7 + k);
  }

  lemma RangeUnfold(db: Db, rooms: seq<char>, from: Day, last: Day)
    requires from <= last
    ensures RangePrice(db, rooms, from, last) == DayPrice(db, rooms, from).0 + RangePrice(db, rooms, from + 1, last)
  {
  }

  // ---------------------------------------------------------------------------
  // get_latest_bookings
  // ---------------------------------------------------------------------------

  /** A booking the query sees (it survives the inner joins) that was created or modified
      at or after `since`. */
  predicate ChangedSince(db: Db, id: nat, since: Time) {
    GetBookingInfo(db, id).Some? && (db.bookings[id].created >= since || db.bookings[id].modified >= since)
  }

  /** `get_latest_bookings(since)`: at most one booking, the most recently created of those
      created or modified since `since`. Equal creation times fall to the lowest id. */
  method GetLatestBookings(db: Db, since: Time) returns (r: seq<Booking>)
    requires Valid(db)
    ensures |r| <= 1
    ensures |r| == 0 <==> forall id :: id in db.bookings ==> !ChangedSince(db, id, since)
    ensures |r| == 1 ==> r[0].bookingId >= 0 && ChangedSince(db, r[0].bookingId, since)
                         && GetBookingInfo(db, r[0].bookingId) == Some(r[0])
    ensures |r| == 1 ==> forall id :: id in db.bookings && ChangedSince(db, id, since) ==>
                           db.bookings[id].created <= db.bookings[r[0].bookingId].created
  {
    var best: Option<nat> := None;
    var id := 0;
    while id < db.nextBookingId
      invariant 0 <= id <= db.nextBookingId
      invariant best.None? <==> forall j :: 0 <= j < id && j in db.bookings ==> !ChangedSince(db, j, since)
      invariant best.Some? ==> best.value < id && ChangedSince(db, best.value, since)
      invariant best.Some? ==> forall j :: 0 <= j < id && j in db.bookings && ChangedSince(db, j, since) ==>
                                 db.bookings[j].created <= db.bookings[best.value].created
    {
      if id in db.bookings && ChangedSince(db, id, since)
         && (best.None? || db.bookings[id].created > db.bookings[best.value].created) {
        best := Some(id);
      }
      id := id + 1;
    }
    if best.None? {
      return [];
    }
    return [GetBookingInfo(db, best.value).value];
  }

  /** The date `search_booking_by_date` compares: the check-in date, or the last night. */
  function SearchedDate(b: Booking, isCheckIn: bool): Day {
    if isCheckIn then b.checkInDate else b.lastDate
  }

  /** A booking the date search finds: it survives the inner joins and its searched date
      is `date`. */
  predicate FoundOn(db: Db, id: int, date: Day, isCheckIn: bool) {
    GetBookingInfo(db, id).Some? && SearchedDate(GetBookingInfo(db, id).value, isCheckIn) == date
  }

  /** The values `f` gives for ids `0 .. n - 1` that `keep` accepts, in id order, with
      their ids: the scan a query with `ORDER BY booking_id` performs. */
  method Collect<T>(n: nat, f: nat -> Option<T>, keep: T -> bool) returns (r: seq<T>, ids: seq<nat>)
    ensures |r| == |ids|
    ensures forall k :: 0 <= k < |r| ==> ids[k] < n && f(ids[k]) == Some(r[k]) && keep(r[k])
    ensures forall i, j :: 0 <= i < j < |ids| ==> ids[i] < ids[j]
    ensures forall j :: 0 <= j < n && f(j).Some? && keep(f(j).value) ==> j in ids
  {
    r, ids := [], [];
    var id := 0;
    while id < n
      invariant 0 <= id <= n && |r| == |ids|
      invariant forall k :: 0 <= k < |r| ==> ids[k] < id && f(ids[k]) == Some(r[k]) && keep(r[k])
      invariant forall i, j :: 0 <= i < j < |ids| ==> ids[i] < ids[j]
      invariant forall j :: 0 <= j < id && f(j).Some? && keep(f(j).value) ==> j in ids
    {
      var v := f(id);
      if v.Some? && keep(v.value) {
        r, ids := r + [v.value], ids + [id];
      }
      id := id + 1;
    }
  }

  /** `search_booking_by_date(date, is_check_in)`: every booking found on `date` once, in
      ascending id order, and nothing else. */
  method SearchBookingByDate(db: Db, date: Day, isCheckIn: bool) returns (r: seq<Booking>)
    ensures forall k :: 0 <= k < |r| ==>
      FoundOn(db, r[k].bookingId, date, isCheckIn) && GetBookingInfo(db, r[k].bookingId) == Some(r[k])
    ensures forall i, j :: 0 <= i < j < |r| ==> r[i].bookingId < r[j].bookingId
    ensures Valid(db) ==> forall id :: id in db.bookings && FoundOn(db, id, date, isCheckIn) ==> id in Ids(r)
  {
    var ids;
    r, ids := Collect(db.nextBookingId, (j: nat) => GetBookingInfo(db, j),
                      (b: Booking) => SearchedDate(b, isCheckIn) == date);
    assert forall k :: 0 <= k < |r| ==> r[k].bookingId == ids[k];
    assert Ids(r) == ids;
  }

  // ---------------------------------------------------------------------------
  // Sync records
  // ---------------------------------------------------------------------------

  /** A record that `get_latest_sync_time(sync_type)` considers. */
  predicate CountsFor(rec: SyncRecord, syncType: string) {
    rec.syncType == syncType && rec.success
  }

  /** `get_latest_sync_time(sync_type)`: the greatest synced time among the successful
      records of that type, or `datetime.min` when there are none. */
  function LatestSyncTime(db: Db, syncType: string): (r: Time)
    ensures forall k :: 0 <= k < |db.syncRecords| && CountsFor(db.syncRecords[k], syncType) ==>
              db.syncRecords[k].syncedTime <= r
    ensures r == MinTime || exists k :: 0 <= k < |db.syncRecords| && CountsFor(db.syncRecords[k], syncType)
                                        && db.syncRecords[k].syncedTime == r
  {
    LatestAmong(db.syncRecords, syncType)
  }

  function LatestAmong(rs: seq<SyncRecord>, syncType: string): (r: Time)
    ensures forall k :: 0 <= k < |rs| && CountsFor(rs[k], syncType) ==> rs[k].syncedTime <= r
    ensures r == MinTime || exists k :: 0 <= k < |rs| && CountsFor(rs[k], syncType) && rs[k].syncedTime == r
  {
    if |rs| == 0 then MinTime
    else
      var rest := LatestAmong(rs[..|rs| - 1], syncType);
      var last := rs[|rs| - 1];
      assert forall k :: 0 <= k < |rs| - 1 ==> rs[k] == rs[..|rs| - 1][k];
      if CountsFor(last, syncType) && last.syncedTime > rest then last.syncedTime else rest
  }

  /** The time a sync job looks back to: the last successful pass of its type, raised to
      the configured minimum when it is earlier. */
  function SyncLowerBound(latest: Time, minTime: Time): (r: Time)
    ensures r >= latest && r >= minTime
    ensures r == latest || r == minTime
  {
    if latest < minTime then minTime else latest
  }

  /** The ids a job logs for the bookings it handled. */
  function Ids(bs: seq<Booking>): (r: seq<int>)
    ensures |r| == |bs|
    ensures forall k :: 0 <= k < |r| ==> r[k] == bs[k].bookingId
  {
    if |bs| == 0 then [] else [bs[0].bookingId] + Ids(bs[1..])
  }

  lemma {:induction false} IdsAppend(a: seq<Booking>, b: seq<Booking>)
    ensures Ids(a + b) == Ids(a) + Ids(b)
  {
  }

  /** The separator of the logged id list. */
  const IdSeparator: string := " , "

  function IdStrings(ids: seq<int>): (r: seq<string>)
    ensures |r| == |ids|
    ensures forall k :: 0 <= k < |r| ==> r[k] == IntToString(ids[k])
  {
    if |ids| == 0 then [] else [IntToString(ids[0])] + IdStrings(ids[1..])
  }

  /** `' , '.join(str(id) for id in ids)`. */
  function JoinIds(ids: seq<int>): string {
    Join(IdStrings(ids), IdSeparator)
  }

  /** `log_sync_record`: append a record stamped with the database's current time and
      return its serial id. */
  function LogSyncRecord(db: Db, syncType: string, ids: seq<int>, success: bool,
                         errorMessage: Option<string>, now: Time): (r: (Db, nat))
    ensures r.0 == db.(syncRecords := r.0.syncRecords)
    ensures |r.0.syncRecords| == |db.syncRecords| + 1 && r.1 == |r.0.syncRecords|
    ensures r.0.syncRecords[..|db.syncRecords|] == db.syncRecords
    ensures r.0.syncRecords[|db.syncRecords|]
            == SyncRecord(syncType, JoinIds(ids), success, errorMessage, now)
  {
    var db' := db.(syncRecords := db.syncRecords + [SyncRecord(syncType, JoinIds(ids), success, errorMessage, now)]);
    (db', |db'.syncRecords|)
  }

  /** A failed record never moves the watermark of any sync type. */
  lemma FailedLogKeepsWatermark(db: Db, syncType: string, ids: seq<int>, err: Option<string>,
                                now: Time, anyType: string)
    ensures LatestSyncTime(LogSyncRecord(db, syncType, ids, false, err, now).0, anyType)
            == LatestSyncTime(db, anyType)
  {
    var rs := LogSyncRecord(db, syncType, ids, false, err, now).0.syncRecords;
    assert rs[..|rs| - 1] == db.syncRecords;
  }

  /** A successful record stamped no earlier than the watermark becomes the watermark of
      its own type, and leaves the other types' watermarks alone. */
  lemma SuccessLogAdvances(db: Db, syncType: string, ids: seq<int>, now: Time, other: string)
    requires now >= LatestSyncTime(db, syncType)
    ensures LatestSyncTime(LogSyncRecord(db, syncType, ids, true, None, now).0, syncType) == now
    ensures other != syncType ==>
      LatestSyncTime(LogSyncRecord(db, syncType, ids, true, None, now).0, other) == LatestSyncTime(db, other)
  {
    var rs := LogSyncRecord(db, syncType, ids, true, None, now).0.syncRecords;
    assert rs[..|rs| - 1] == db.syncRecords;
  }

  /** The logged id list splits back into the ids. */
  lemma JoinIdsRoundTrip(ids: seq<int>)
    requires |ids| > 0
    ensures |Split(JoinIds(ids), IdSeparator)| == |ids|
    ensures forall k :: 0 <= k < |ids| ==> ParseInt(Split(JoinIds(ids), IdSeparator)[k]) == Some(ids[k])
  {
    var parts := IdStrings(ids);
    forall k | 0 <= k < |parts| ensures ' ' !in parts[k] {
      IdWithoutSpace(ids[k]);
    }
    forall k | 0 <= k < |parts| - 1 ensures CleanPart(parts[k], IdSeparator) {
      CleanWithoutLeadChar(parts[k], IdSeparator);
    }
    NoLeadNoContains(parts[|parts| - 1], IdSeparator);
    SplitOfJoin(parts, IdSeparator);
    forall k | 0 <= k < |ids| ensures ParseInt(parts[k]) == Some(ids[k]) {
      ParseIntOfIntToString(ids[k]);
    }
  }

  lemma IdWithoutSpace(i: int)
    ensures ' ' !in IntToString(i)
  {
    var n: nat := if i < 0 then -i else i;
    var digits := NatToString(n);
    assert forall j :: 0 <= j < |digits| ==> IsDigit(digits[j]);
    assert IntToString(i) == if i < 0 then "-" + digits else digits;
  }
}

=== FILE: booking_utils.dfy ===
/** The booking text formatters: the full booking card (`normal`), the short carousel
    card, the Google Calendar event description, the summary of pending edits, and the
    generic-name test. Every card is a run of labelled lines `word：value`. */
module BookingUtils {
  import opened Wrappers
  import opened Text
  import opened Calendar
  import opened Patterns
  import opened Records
  import opened InputUtils

  // ---------------------------------------------------------------------------
  // Label words
  // ---------------------------------------------------------------------------

  const IdWord: string := "ＩＤ"
  const NameWord: string := "姓名"
  const PhoneWord: string := "電話"
  const CheckInWord: string := "入住日期"
  const CheckOutWord: string := "退房日期"
  const NightsWord: string := "晚數"
  const TotalWord: string := "總金額"
  const NotesWord: string := "備註"
  const SourceWord: string := "來源"
  const PrepaymentWord: string := "訂金"
  const RoomsWord: string := "預計讓他睡"
  /** The carousel card's shorter check-in label. */
  const StayWord: string := "入住"

  const BookingHeader: string := "[訂單]"
  /** The change summary opens with this word as a label with nothing after it. */
  const ChangesWord: string := "更改項目"
  const ChangesHeader: string := ChangesWord + [Colon] + "\n"

  /** A text that is `lines`, each followed by a line break. */
  function Terminated(lines: seq<string>): string {
    Join(lines + [""], "\n")
  }

  /** The number of nights a booking spans, both ends included. */
  function Nights(b: Booking): int {
    b.lastDate - b.checkInDate + 1
  }

  /** The prepayment entry's value: the whole amount, `元/`, and the status label. */
  function AmountValue(prepayment: real, mark: string): string {
    IntToString(Trunc(prepayment)) + AmountSeparator + mark
  }

  // ---------------------------------------------------------------------------
  // format_booking_info
  // ---------------------------------------------------------------------------

  /** The labels of the normal card, in order. */
  const NormalWords: seq<string> :=
    [IdWord, NameWord, PhoneWord, CheckInWord, CheckOutWord, NightsWord, TotalWord, NotesWord,
     SourceWord, PrepaymentWord, RoomsWord]

  /** The values of the normal card, one per label. */
  datatype CardValues = CardValues(id: string, name: string, phone: string, checkIn: string,
                                   checkOut: string, nights: string, total: string, notes: string,
                                   source: string, prepayment: string, rooms: string)

  /** The values of the normal card, for a booking whose phone is already in display form
      and whose prepayment status is already the label: the id only when positive. */
  function NormalValues(b: Booking, checkOut: Day): CardValues {
    CardValues(if b.bookingId > 0 then IntToString(b.bookingId) else "",
               b.customerName, b.phoneNumber, FormatDate(b.checkInDate, '/'), FormatDate(checkOut, '/'),
               IntToString(Nights(b)), IntToString(Trunc(b.totalPrice)), b.notes, b.source,
               AmountValue(b.prepayment, b.prepaymentStatus), b.roomIds)
  }

  /** The values in label order. */
  function ValueList(v: CardValues): (r: seq<string>)
    ensures |r| == 11
    ensures r[0] == v.id && r[1] == v.name && r[2] == v.phone && r[3] == v.checkIn
    ensures r[4] == v.checkOut && r[5] == v.nights && r[6] == v.total && r[7] == v.notes
    ensures r[8] == v.source && r[9] == v.prepayment && r[10] == v.rooms
  {
    [v.id, v.name, v.phone, v.checkIn, v.checkOut, v.nights, v.total, v.notes, v.source,
     v.prepayment, v.rooms]
  }

  function NormalHeader(b: Booking): string {
    BookingHeader + StatusMark(b.status).GetOr("")
  }

  /** The normal card: the header line, then one labelled line per value. */
  function NormalCard(header: string, v: CardValues): string {
    Join([header] + EntryLines(Card(NormalWords, ValueList(v))), "\n")
  }

  function NormalText(b: Booking, checkOut: Day): string {
    NormalCard(NormalHeader(b), NormalValues(b, checkOut))
  }

  function CalendarEntries(b: Booking): seq<Entry> {
    [ Entry(IdWord, IntToString(b.bookingId)),
      Entry(PhoneWord, b.phoneNumber),
      Entry(PrepaymentWord, AmountValue(b.prepayment, b.prepaymentStatus)),
      Entry(SourceWord, b.source),
      Entry(NotesWord, b.notes) ]
  }

  function CarouselEntries(b: Booking): seq<Entry> {
    [ Entry(NameWord, b.customerName),
      Entry(PhoneWord, b.phoneNumber),
      Entry(StayWord, FormatDate(b.checkInDate, '/')),
      Entry(NightsWord, IntToString(Nights(b))),
      Entry(TotalWord, IntToString(Trunc(b.totalPrice))) ]
  }

  /** The booking as `format_booking_info` leaves it once the text is made: the phone in
      display form and the prepayment status replaced by its label. */
  function Rewritten(b: Booking): Booking
    requires PrepaymentLabel(b.prepaymentStatus).Some?
  {
    b.(phoneNumber := DisplayPhone(b.phoneNumber), prepaymentStatus := PrepaymentLabel(b.prepaymentStatus).value)
  }

  /** What `format_booking_info` leaves behind: its return value, or the exception it
      raised, and the argument object as the call left it (the function assigns to it). */
  datatype Formatted = Formatted(text: Result<Option<string>>, after: Option<Booking>)

  /** `format_booking_info(booking, variant)`. The phone is rewritten to display form on the
      argument first; computing the check-out date can overflow; the prepayment status is
      then looked up in the label map (KeyError when it is not `unpaid`/`paid`) and the
      label is written back onto the argument. `carousel` and `calendar` select the short
      texts and any other variant the normal card. */
  function FormatBookingInfo(booking: Option<Booking>, variant: string): (r: Formatted)
    ensures booking.None? ==> r == Formatted(Ok(None), None)
    ensures booking.Some? ==>
      r.after.Some? && r.after.value.phoneNumber == DisplayPhone(booking.value.phoneNumber)
    ensures booking.Some? ==>
      (r.text.Err? <==> booking.value.lastDate + 1 >= MaxDay
                        || PrepaymentLabel(booking.value.prepaymentStatus).None?)
    ensures booking.Some? && booking.value.lastDate + 1 >= MaxDay ==> r.text == Err(OverflowError)
    ensures booking.Some? && r.text.Err? ==>
      r.after == Some(booking.value.(phoneNumber := DisplayPhone(booking.value.phoneNumber)))
    ensures booking.Some? && r.text.Ok? ==>
      r.text.value.Some?
      && r.after == Some(booking.value.(phoneNumber := DisplayPhone(booking.value.phoneNumber),
                                        prepaymentStatus := PrepaymentLabel(booking.value.prepaymentStatus).value))
  {
    match booking
    case None => Formatted(Ok(None), None)
    case Some(b0) =>
      var b1 := b0.(phoneNumber := DisplayPhone(b0.phoneNumber));
      match AddDays(b1.lastDate, 1)
      case Err(f) => Formatted(Err(f), Some(b1))
      case Ok(checkOut) =>
        match PrepaymentLabel(b1.prepaymentStatus)
        case None => Formatted(Err(KeyError), Some(b1))
        case Some(_) =>
          var b2 := Rewritten(b0);
          Formatted(Ok(Some(VariantText(b2, checkOut, variant))), Some(b2))
  }

  /** The text of the chosen variant for the rewritten booking. */
  function VariantText(b: Booking, checkOut: Day, variant: string): string {
    if variant == "carousel" then Terminated(EntryLines(CarouselEntries(b)))
    else if variant == "calendar" then Terminated(EntryLines(CalendarEntries(b)))
    else NormalText(b, checkOut)
  }

  /** Formatting the same object a second time fails: the first call replaced its
      prepayment status by a label the map does not know. */
  lemma FormatTwiceFails(b: Booking, first: string, second: string)
    requires FormatBookingInfo(Some(b), first).text.Ok?
    ensures FormatBookingInfo(FormatBookingInfo(Some(b), first).after, second).text == Err(KeyError)
  {
  }

  /** Every variant other than the two short ones yields the normal card. */
  lemma OtherVariantsAreNormal(b: Option<Booking>, variant: string)
    requires variant != "carousel" && variant != "calendar"
    ensures FormatBookingInfo(b, variant) == FormatBookingInfo(b, "normal")
  {
  }

  /** The event description opens with the booking's id line, whatever the id's sign. */
  lemma CalendarOpensWithId(b: Booking)
    requires FormatBookingInfo(Some(b), "calendar").text.Ok?
    ensures StartsWith(FormatBookingInfo(Some(b), "calendar").text.value.value,
                       IdWord + [Colon] + IntToString(b.bookingId) + "\n")
  {
    var b2 := FormatBookingInfo(Some(b), "calendar").after.value;
    var lines := EntryLines(CalendarEntries(b2)) + [""];
    assert lines[0] == IdWord + [Colon] + IntToString(b.bookingId);
    assert Join(lines, "\n") == lines[0] + "\n" + Join(lines[1..], "\n");
  }

  /** `str(i)` holds neither a colon nor a line break. */
  lemma IntToStringPlain(i: int)
    ensures Colon !in IntToString(i) && '\n' !in IntToString(i)
  {
    IntToStringChars(i);
  }

  /** The last character of each label of the normal card. */
  const NormalLasts: string := "Ｄ名話期期數額註源金睡"

  lemma NormalWordsPlain()
    ensures forall i :: 0 <= i < 11 ==>
      |NormalWords[i]| > 0 && NormalWords[i][|NormalWords[i]| - 1] == NormalLasts[i]
      && Colon !in NormalWords[i] && '\n' !in NormalWords[i]
  {
  }

  lemma NormalWordsApart()
    ensures WordsApart(NormalWords)
  {
    var ws := NormalWords;
    NormalWordsPlain();
    forall i, j | 0 <= i < 11 && 0 <= j < 11 && i != j ensures !EndsWith(ws[i], ws[j]) {
      TailsApart(ws[i], ws[j]);
    }
  }

  /** The display form of a phone adds no character but its leading '0'. */
  lemma DisplayPhonePlain(p: string)
    ensures forall c :: c in DisplayPhone(p) ==> c == '0' || c in p
  {
    if StartsWith(p, "+886") {
      var r := DisplayPhone(p);
      assert forall i :: 1 <= i < |r| ==> r[i] == p[i + 3];
    }
  }

  /** The normal card of `b` once the call has rewritten the phone and the status. */
  lemma NormalTextOf(b: Booking)
    requires FormatBookingInfo(Some(b), "normal").text.Ok?
    ensures PrepaymentLabel(b.prepaymentStatus).Some? && b.lastDate + 1 < MaxDay
    ensures FormatBookingInfo(Some(b), "normal").text.value == Some(NormalText(Rewritten(b), b.lastDate + 1))
  {
    FormattedText(b, "normal");
  }

  /** A call that gets past the overflow and the label lookup returns the chosen variant
      of the rewritten booking, with the check-out date one day after the last night. */
  lemma FormattedText(b: Booking, variant: string)
    requires PrepaymentLabel(b.prepaymentStatus).Some? && b.lastDate + 1 < MaxDay
    ensures FormatBookingInfo(Some(b), variant).text == Ok(Some(VariantText(Rewritten(b), b.lastDate + 1, variant)))
  {
    var b1 := b.(phoneNumber := DisplayPhone(b.phoneNumber));
    assert AddDays(b1.lastDate, 1) == Ok(b.lastDate + 1);
    assert PrepaymentLabel(b1.prepaymentStatus) == PrepaymentLabel(b.prepaymentStatus);
  }

  /** No value of the card holds a colon. */
  predicate PlainValues(v: CardValues) {
    Colon !in v.id && Colon !in v.name && Colon !in v.phone && Colon !in v.checkIn
    && Colon !in v.checkOut && Colon !in v.nights && Colon !in v.total && Colon !in v.notes
    && Colon !in v.source && Colon !in v.prepayment && Colon !in v.rooms
  }

  /** Searching the normal card for its `i`-th label is matching that label's value, when
      no value holds a colon. */
  lemma NormalField(header: string, v: CardValues, i: nat, group: Group)
    requires Colon !in header && PlainValues(v) && i < 11
    ensures Search(NormalCard(header, v), NormalWords[i] + [Colon], group) == MatchAt(group, ValueList(v)[i])
  {
    var vs := ValueList(v);
    NormalWordsApart();
    CardLabelled(NormalWords, vs);
    ReadEntry(header, Card(NormalWords, vs), i, group);
  }

  /** Every label of the normal card reads back its own value. */
  lemma NormalCardFields(header: string, v: CardValues, group: Group)
    requires Colon !in header && PlainValues(v)
    ensures var text := NormalCard(header, v);
      && Search(text, IdWord + [Colon], group) == MatchAt(group, v.id)
      && Search(text, NameWord + [Colon], group) == MatchAt(group, v.name)
      && Search(text, PhoneWord + [Colon], group) == MatchAt(group, v.phone)
      && Search(text, CheckInWord + [Colon], group) == MatchAt(group, v.checkIn)
      && Search(text, CheckOutWord + [Colon], group) == MatchAt(group, v.checkOut)
      && Search(text, NightsWord + [Colon], group) == MatchAt(group, v.nights)
      && Search(text, TotalWord + [Colon], group) == MatchAt(group, v.total)
      && Search(text, NotesWord + [Colon], group) == MatchAt(group, v.notes)
      && Search(text, SourceWord + [Colon], group) == MatchAt(group, v.source)
      && Search(text, PrepaymentWord + [Colon], group) == MatchAt(group, v.prepayment)
      && Search(text, RoomsWord + [Colon], group) == MatchAt(group, v.rooms)
  {
    NormalField(header, v, 0, group);
    NormalField(header, v, 1, group);
    NormalField(header, v, 2, group);
    NormalField(header, v, 3, group);
    NormalField(header, v, 4, group);
    NormalField(header, v, 5, group);
    NormalField(header, v, 6, group);
    NormalField(header, v, 7, group);
    NormalField(header, v, 8, group);
    NormalField(header, v, 9, group);
    NormalField(header, v, 10, group);
  }

  /** The values of a booking's card hold no colon when its text fields hold none. */
  lemma NormalValuesPlain(b: Booking, checkOut: Day)
    requires b.checkInDate < MaxDay && checkOut < MaxDay
    requires Colon !in b.customerName && Colon !in b.phoneNumber && Colon !in b.notes
    requires Colon !in b.source && Colon !in b.roomIds && Colon !in b.prepaymentStatus
    ensures PlainValues(NormalValues(b, checkOut))
  {
    IntToStringPlain(b.bookingId);
    IntToStringPlain(Nights(b));
    IntToStringPlain(Trunc(b.totalPrice));
    IntToStringPlain(Trunc(b.prepayment));
    MatchDateWhole(b.checkInDate);
    MatchDateWhole(checkOut);
  }

  /** A card whose id, nights and total are digits, whose phone is one line and whose
      dates are slash dates reads those six values back under the patterns that parse them. */
  lemma NormalCardReads(header: string, v: CardValues)
    requires Colon !in header && PlainValues(v)
    requires AllDigits(v.id) && AllDigits(v.nights) && AllDigits(v.total) && '\n' !in v.phone
    requires MatchAt(SlashDate, v.checkIn) == Some([v.checkIn])
    requires MatchAt(SlashDate, v.checkOut) == Some([v.checkOut])
    ensures var text := NormalCard(header, v);
      && Search(text, IdWord + [Colon], Digits) == Some([v.id])
      && Search(text, PhoneWord + [Colon], Group.OptLine) == Some([v.phone])
      && Search(text, CheckInWord + [Colon], SlashDate) == Some([v.checkIn])
      && Search(text, CheckOutWord + [Colon], SlashDate) == Some([v.checkOut])
      && Search(text, NightsWord + [Colon], Digits) == Some([v.nights])
      && Search(text, TotalWord + [Colon], Digits) == Some([v.total])
  {
    NormalField(header, v, 0, Digits);
    MatchDigitsWhole(v.id);
    NormalField(header, v, 2, Group.OptLine);
    MatchLineWhole(v.phone);
    NormalField(header, v, 3, SlashDate);
    NormalField(header, v, 4, SlashDate);
    NormalField(header, v, 5, Digits);
    MatchDigitsWhole(v.nights);
    NormalField(header, v, 6, Digits);
    MatchDigitsWhole(v.total);
  }

  /** What a rewritten booking's card needs for its six fields to read back. */
  predicate Readable(b: Booking, checkOut: Day) {
    && b.bookingId > 0 && b.checkInDate <= b.lastDate && b.totalPrice >= 0.0
    && b.checkInDate < MaxDay && checkOut < MaxDay
    && Colon !in b.customerName && Colon !in b.phoneNumber && '\n' !in b.phoneNumber
    && Colon !in b.notes && Colon !in b.source && Colon !in b.roomIds && Colon !in b.prepaymentStatus
  }

  /** `str(i)` of a non-negative integer is all digits. */
  lemma NonNegativeDigits(i: int)
    requires i >= 0
    ensures AllDigits(IntToString(i))
  {
  }

  /** The dates of a card read back whole under the slash-date pattern. */
  lemma NormalDatesReadable(b: Booking, checkOut: Day)
    requires b.checkInDate < MaxDay && checkOut < MaxDay
    ensures MatchAt(SlashDate, NormalValues(b, checkOut).checkIn) == Some([NormalValues(b, checkOut).checkIn])
    ensures MatchAt(SlashDate, NormalValues(b, checkOut).checkOut) == Some([NormalValues(b, checkOut).checkOut])
  {
    MatchDateWhole(b.checkInDate);
    MatchDateWhole(checkOut);
  }

  /** The id, nights and total of a readable booking's card are digits and its phone is
      one line. */
  lemma NormalValuesDigits(b: Booking, checkOut: Day)
    requires b.bookingId > 0 && b.checkInDate <= b.lastDate && b.totalPrice >= 0.0 && '\n' !in b.phoneNumber
    ensures AllDigits(NormalValues(b, checkOut).id) && AllDigits(NormalValues(b, checkOut).nights)
    ensures AllDigits(NormalValues(b, checkOut).total) && '\n' !in NormalValues(b, checkOut).phone
  {
    NonNegativeDigits(b.bookingId);
    NonNegativeDigits(Nights(b));
    NonNegativeDigits(Trunc(b.totalPrice));
  }

  /** The card of a readable booking meets what `NormalCardReads` asks of its values. */
  lemma NormalValuesReadable(b: Booking, checkOut: Day)
    requires Readable(b, checkOut)
    ensures var v := NormalValues(b, checkOut);
      && Colon !in NormalHeader(b) && PlainValues(v)
      && AllDigits(v.id) && AllDigits(v.nights) && AllDigits(v.total) && '\n' !in v.phone
      && MatchAt(SlashDate, v.checkIn) == Some([v.checkIn])
      && MatchAt(SlashDate, v.checkOut) == Some([v.checkOut])
  {
    assert Colon !in NormalHeader(b);
    NormalValuesPlain(b, checkOut);
    NormalValuesDigits(b, checkOut);
    NormalDatesReadable(b, checkOut);
  }

  /** The id and the phone read back from the card `text` of a rewritten booking. */
  lemma NormalTextIdPhone(b: Booking, checkOut: Day, text: string)
    requires text == NormalText(b, checkOut) && Readable(b, checkOut)
    ensures Search(text, IdWord + [Colon], Digits) == Some([IntToString(b.bookingId)])
    ensures Search(text, PhoneWord + [Colon], Group.OptLine) == Some([b.phoneNumber])
  {
    NormalValuesReadable(b, checkOut);
    NormalCardReads(NormalHeader(b), NormalValues(b, checkOut));
  }

  /** The check-in and check-out dates read back from the card `text`. */
  lemma NormalTextDates(b: Booking, checkOut: Day, text: string)
    requires text == NormalText(b, checkOut) && Readable(b, checkOut)
    ensures Search(text, CheckInWord + [Colon], SlashDate) == Some([FormatDate(b.checkInDate, '/')])
    ensures Search(text, CheckOutWord + [Colon], SlashDate) == Some([FormatDate(checkOut, '/')])
  {
    NormalValuesReadable(b, checkOut);
    NormalCardReads(NormalHeader(b), NormalValues(b, checkOut));
  }

  /** The nights and the total read back from the card `text`. */
  lemma NormalTextCounts(b: Booking, checkOut: Day, text: string)
    requires text == NormalText(b, checkOut) && Readable(b, checkOut)
    ensures Search(text, NightsWord + [Colon], Digits) == Some([IntToString(Nights(b))])
    ensures Search(text, TotalWord + [Colon], Digits) == Some([IntToString(Trunc(b.totalPrice))])
  {
    NormalValuesReadable(b, checkOut);
    NormalCardReads(NormalHeader(b), NormalValues(b, checkOut));
  }

  /** What the read-back asks of the booking: a positive id, at least one night, a
      non-negative price, no colon in the text fields and a one-line phone. */
  predicate ReadableBooking(b: Booking) {
    && b.bookingId > 0 && b.checkInDate <= b.lastDate && b.totalPrice >= 0.0
    && Colon !in b.customerName && Colon !in b.phoneNumber && '\n' !in b.phoneNumber
    && Colon !in b.notes && Colon !in b.source && Colon !in b.roomIds
  }

  /** A readable booking stays readable once rewritten. */
  lemma RewrittenReadable(b: Booking)
    requires PrepaymentLabel(b.prepaymentStatus).Some? && ReadableBooking(b) && b.lastDate + 1 < MaxDay
    ensures Readable(Rewritten(b), b.lastDate + 1)
  {
    DisplayPhonePlain(b.phoneNumber);
    assert Colon !in PrepaymentLabel(b.prepaymentStatus).value;
  }

  /** The normal text of a readable booking is the card of the rewritten booking. */
  lemma NormalCardReadable(b: Booking)
    requires FormatBookingInfo(Some(b), "normal").text.Ok? && ReadableBooking(b)
    ensures PrepaymentLabel(b.prepaymentStatus).Some?
    ensures Readable(Rewritten(b), b.lastDate + 1)
    ensures FormatBookingInfo(Some(b), "normal").text.value.value == NormalText(Rewritten(b), b.lastDate + 1)
  {
    NormalTextOf(b);
    RewrittenReadable(b);
  }

  /** The normal card's id and phone read back: the id when positive, the phone in
      display form. */
  lemma NormalCardReadsIdPhone(b: Booking)
    requires FormatBookingInfo(Some(b), "normal").text.Ok? && ReadableBooking(b)
    ensures var text := FormatBookingInfo(Some(b), "normal").text.value.value;
      && Search(text, IdWord + [Colon], Digits) == Some([IntToString(b.bookingId)])
      && Search(text, PhoneWord + [Colon], Group.OptLine) == Some([DisplayPhone(b.phoneNumber)])
  {
    NormalCardReadable(b);
    NormalTextIdPhone(Rewritten(b), b.lastDate + 1, FormatBookingInfo(Some(b), "normal").text.value.value);
  }

  /** The normal card's dates read back: the check-in date, and the check-out date one day
      after the last night. */
  lemma NormalCardReadsDates(b: Booking)
    requires FormatBookingInfo(Some(b), "normal").text.Ok? && ReadableBooking(b)
    ensures var text := FormatBookingInfo(Some(b), "normal").text.value.value;
      && Search(text, CheckInWord + [Colon], SlashDate) == Some([FormatDate(b.checkInDate, '/')])
      && Search(text, CheckOutWord + [Colon], SlashDate) == Some([FormatDate(b.lastDate + 1, '/')])
  {
    NormalCardReadable(b);
    NormalTextDates(Rewritten(b), b.lastDate + 1, FormatBookingInfo(Some(b), "normal").text.value.value);
  }

  /** The normal card's counts read back: the nights with both ends counted and the price
      truncated to a whole number. */
  lemma NormalCardReadsCounts(b: Booking)
    requires FormatBookingInfo(Some(b), "normal").text.Ok? && ReadableBooking(b)
    ensures var text := FormatBookingInfo(Some(b), "normal").text.value.value;
      && Search(text, NightsWord + [Colon], Digits) == Some([IntToString(Nights(b))])
      && Search(text, TotalWord + [Colon], Digits) == Some([IntToString(Trunc(b.totalPrice))])
  {
    NormalCardReadable(b);
    var b2 := Rewritten(b);
    assert Nights(b2) == Nights(b) && Trunc(b2.totalPrice) == Trunc(b.totalPrice);
    NormalTextCounts(Rewritten(b), b.lastDate + 1, FormatBookingInfo(Some(b), "normal").text.value.value);
  }

  /** The normal card opens with the header line, marked only for a canceled booking. */
  lemma NormalCardOpens(header: string, v: CardValues)
    ensures StartsWith(NormalCard(header, v), header + "\n")
  {
    var lines := [header] + EntryLines(Card(NormalWords, ValueList(v)));
    assert Join(lines, "\n") == lines[0] + "\n" + Join(lines[1..], "\n");
  }

  /** An empty id shows as a bare id line, with nothing after the label. */
  lemma NormalCardEmptyId(header: string, v: CardValues)
    requires v.id == ""
    ensures Contains(NormalCard(header, v), "\n" + IdWord + [Colon] + "\n")
  {
    var lines := [header] + EntryLines(Card(NormalWords, ValueList(v)));
    assert Join(lines, "\n") == lines[0] + "\n" + Join(lines[1..], "\n");
    assert lines[1] == IdWord + [Colon];
    assert Join(lines[1..], "\n") == lines[1] + "\n" + Join(lines[2..], "\n");
    var mid := "\n" + IdWord + [Colon] + "\n";
    var tail := mid + Join(lines[2..], "\n");
    assert NormalCard(header, v) == lines[0] + tail;
    assert StartsWith(tail, mid);
    ContainsSuffixOf(lines[0], tail, mid);
  }

  /** A booking without a positive id shows an empty id line, so no digits follow the
      label; the card opens with the header, marked only for a canceled booking. */
  lemma NormalCardHeader(b: Booking)
    requires FormatBookingInfo(Some(b), "normal").text.Ok?
    ensures var text := FormatBookingInfo(Some(b), "normal").text.value.value;
      StartsWith(text, BookingHeader + (if b.status == StatusCanceled then CanceledMark else "") + "\n")
    ensures var text := FormatBookingInfo(Some(b), "normal").text.value.value;
      b.bookingId <= 0 ==> Contains(text, "\n" + IdWord + [Colon] + "\n")
  {
    NormalTextOf(b);
    var b2 := Rewritten(b);
    var checkOut := b.lastDate + 1;
    var header := NormalHeader(b2);
    var v := NormalValues(b2, checkOut);
    assert header == BookingHeader + (if b.status == StatusCanceled then CanceledMark else "");
    NormalCardOpens(header, v);
    if b.bookingId <= 0 {
      NormalCardEmptyId(header, v);
    }
  }

  // ---------------------------------------------------------------------------
  // trim_booking_changes
  // ---------------------------------------------------------------------------

  /** `o` with the entry dropped when it equals the stored value. */
  function DropIfSame<T(==)>(o: Option<T>, stored: T): (r: Option<T>)
    ensures r.Some? <==> o.Some? && o.value != stored
    ensures r.Some? ==> r == o
  {
    if o == Some(stored) then None else o
  }

  /** A price entry is an integer and the stored price a number: they are equal when they
      denote the same value. */
  function DropPriceIfSame(o: Option<int>, stored: real): (r: Option<int>)
    ensures r.Some? <==> o.Some? && o.value as real != stored
    ensures r.Some? ==> r == o
  {
    if o.Some? && o.value as real == stored then None else o
  }

  /** `trim_booking_changes` as written: every edited field equal to the stored one is
      dropped, except that the room list is dropped when it spells the customer's name. */
  function TrimBookingChanges(d: Draft, b: Booking): (r: Draft)
    ensures r.roomIds.Some? <==> d.roomIds.Some? && d.roomIds.value != b.customerName
    ensures r.customerName.Some? <==> d.customerName.Some? && d.customerName.value != b.customerName
    ensures r.(roomIds := d.roomIds) == TrimBookingChangesFixed(d, b).(roomIds := d.roomIds)
  {
    d.(customerName := DropIfSame(d.customerName, b.customerName),
       phoneNumber := DropIfSame(d.phoneNumber, b.phoneNumber),
       checkInDate := DropIfSame(d.checkInDate, b.checkInDate),
       lastDate := DropIfSame(d.lastDate, b.lastDate),
       totalPrice := DropPriceIfSame(d.totalPrice, b.totalPrice),
       notes := DropIfSame(d.notes, b.notes),
       source := DropIfSame(d.source, b.source),
       prepayment := DropPriceIfSame(d.prepayment, b.prepayment),
       roomIds := DropIfSame(d.roomIds, b.customerName))
  }

  /** `trim_booking_changes` with the room list compared to the stored rooms. */
  function TrimBookingChangesFixed(d: Draft, b: Booking): (r: Draft)
    ensures r.roomIds.Some? <==> d.roomIds.Some? && d.roomIds.value != b.roomIds
    ensures r.bookingId == d.bookingId && r.numNights == d.numNights && r.startDate == d.startDate
    ensures r.prepaymentNote == d.prepaymentNote && r.reason == d.reason
  {
    d.(customerName := DropIfSame(d.customerName, b.customerName),
       phoneNumber := DropIfSame(d.phoneNumber, b.phoneNumber),
       checkInDate := DropIfSame(d.checkInDate, b.checkInDate),
       lastDate := DropIfSame(d.lastDate, b.lastDate),
       totalPrice := DropPriceIfSame(d.totalPrice, b.totalPrice),
       notes := DropIfSame(d.notes, b.notes),
       source := DropIfSame(d.source, b.source),
       prepayment := DropPriceIfSame(d.prepayment, b.prepayment),
       roomIds := DropIfSame(d.roomIds, b.roomIds))
  }

  // ---------------------------------------------------------------------------
  // format_booking_changes
  // ---------------------------------------------------------------------------

  /** Does the draft hold any key the change summary lists? */
  predicate HasListedChange(d: Draft) {
    d.customerName.Some? || d.phoneNumber.Some? || d.checkInDate.Some? || d.lastDate.Some?
    || d.totalPrice.Some? || d.notes.Some? || d.source.Some? || d.prepayment.Some?
    || d.roomIds.Some?
  }

  /** The line for an optional field: nothing when the key is absent. */
  function OptLine(word: string, o: Option<string>): (r: string)
    ensures r == "" <==> o.None?
    ensures EmptyOrBreak(r)
  {
    if o.Some? then EntryLine(Entry(word, o.value)) + "\n" else ""
  }

  /** The summary's label words in order. */
  const ChangeWords: seq<string> :=
    [NameWord, PhoneWord, CheckInWord, CheckOutWord, TotalWord, NotesWord, SourceWord, PrepaymentWord, RoomsWord]

  /** The summary's candidate values in order, None when the key is absent; the two dates
      come already written out. */
  function ChangeValues(d: Draft, checkIn: Option<string>, checkOut: Option<string>): (r: seq<Option<string>>)
    ensures |r| == |ChangeWords|
  {
    [ d.customerName, ShowPhone(d.phoneNumber), checkIn, checkOut,
      ShowInt(d.totalPrice, ""), d.notes, d.source, ShowInt(d.prepayment, "元"), d.roomIds ]
  }

  /** One line per value, empty when the value is absent. */
  function OptLines(words: seq<string>, values: seq<Option<string>>): (r: seq<string>)
    requires |words| == |values|
    ensures |r| == |values|
    ensures forall k :: 0 <= k < |r| ==> r[k] == OptLine(words[k], values[k])
  {
    if |words| == 0 then [] else [OptLine(words[0], values[0])] + OptLines(words[1..], values[1..])
  }

  function ChangeLines(d: Draft, checkIn: Option<string>, checkOut: Option<string>): (r: seq<string>)
    ensures |r| == 9
  {
    OptLines(ChangeWords, ChangeValues(d, checkIn, checkOut))
  }

  function ShowPhone(o: Option<string>): (r: Option<string>)
    ensures r.Some? <==> o.Some?
  {
    if o.Some? then Some(DisplayPhone(o.value)) else None
  }

  function ShowDate(o: Option<Day>): (r: Option<string>)
    ensures r.Some? <==> o.Some?
  {
    if o.Some? then Some(FormatDate(o.value, '/')) else None
  }

  function ShowInt(o: Option<int>, unit: string): (r: Option<string>)
    ensures r.Some? <==> o.Some?
  {
    if o.Some? then Some(IntToString(o.value) + unit) else None
  }

  /** A line is present exactly when its key is, and every present line ends in a break. */
  lemma ChangeLinesShape(d: Draft, checkIn: Option<string>, checkOut: Option<string>)
    requires checkIn.Some? <==> d.checkInDate.Some?
    requires checkOut.Some? <==> d.lastDate.Some?
    ensures (forall k :: 0 <= k < 9 ==> ChangeLines(d, checkIn, checkOut)[k] == "") <==> !HasListedChange(d)
    ensures forall k :: 0 <= k < 9 ==> EmptyOrBreak(ChangeLines(d, checkIn, checkOut)[k])
  {
    var vs := ChangeValues(d, checkIn, checkOut);
    var lines := ChangeLines(d, checkIn, checkOut);
    assert !HasListedChange(d) <==> (vs[0].None? && vs[1].None? && vs[2].None? && vs[3].None?
      && vs[4].None? && vs[5].None? && vs[6].None? && vs[7].None? && vs[8].None?);
    if !HasListedChange(d) {
      forall k | 0 <= k < 9 ensures lines[k] == "" {
        assert k == 0 || k == 1 || k == 2 || k == 3 || k == 4 || k == 5 || k == 6 || k == 7 || k == 8;
      }
    } else {
      assert lines[0] != "" || lines[1] != "" || lines[2] != "" || lines[3] != "" || lines[4] != ""
        || lines[5] != "" || lines[6] != "" || lines[7] != "" || lines[8] != "";
    }
  }

  /** The check-out date of an edited last night, when one was given. */
  function CheckOutOf(d: Draft): (r: Result<Option<Day>>)
    ensures r.Err? <==> d.lastDate.Some? && d.lastDate.value + 1 >= MaxDay
    ensures r.Ok? ==> (r.value.Some? <==> d.lastDate.Some?)
    ensures r.Ok? && r.value.Some? ==> r.value.value == d.lastDate.value + 1
  {
    if d.lastDate.None? then Ok(None)
    else
      match AddDays(d.lastDate.value, 1)
      case Ok(c) => Ok(Some(c))
      case Err(f) => Err(f)
  }

  /** The draft holds a phone number the as-written summary cannot show: one without the
      '+886' prefix, such as a local `09…` number as typed. */
  predicate PhoneUnbound(d: Draft) {
    d.phoneNumber.Some? && !StartsWith(d.phoneNumber.value, "+886")
  }

  /** `format_booking_changes` as written: a phone number is shown through a local that is
      only assigned for a '+886' number, so any other phone raises UnboundLocalError. */
  function FormatBookingChanges(d: Draft): (r: Result<Option<string>>)
    ensures PhoneUnbound(d) ==> r == Err(UnboundLocalError)
    ensures !PhoneUnbound(d) ==> r == FormatBookingChangesFixed(d)
  {
    if PhoneUnbound(d) then Err(UnboundLocalError)
    else FormatBookingChangesFixed(d)
  }

  /** `format_booking_changes` with the phone shown in display form whatever its prefix:
      the header, then one line per listed key that is present, or None when there is none. */
  function FormatBookingChangesFixed(d: Draft): (r: Result<Option<string>>)
    ensures r.Err? <==> d.lastDate.Some? && d.lastDate.value + 1 >= MaxDay
    ensures r.Ok? ==> (r.value.None? <==> !HasListedChange(d))
    ensures r.Ok? && r.value.Some? ==> StartsWith(r.value.value, ChangesHeader)
    ensures r.Ok? && r.value.Some? ==> EndsWith(r.value.value, "\n")
  {
    match CheckOutOf(d)
    case Err(f) => Err(f)
    case Ok(checkOut) =>
      var checkIn := ShowDate(d.checkInDate);
      ChangeLinesShape(d, checkIn, ShowDate(checkOut));
      Ok(Summary(ChangeLines(d, checkIn, ShowDate(checkOut))))
  }

  /** The header followed by the lines, or None when every line is empty. */
  function Summary(lines: seq<string>): (r: Option<string>)
    requires forall k :: 0 <= k < |lines| ==> EmptyOrBreak(lines[k])
    ensures r.None? <==> forall k :: 0 <= k < |lines| ==> lines[k] == ""
    ensures r.Some? ==> StartsWith(r.value, ChangesHeader) && EndsWith(r.value, "\n")
  {
    var body := Concat(lines);
    ConcatEmpty(lines);
    ConcatEndsInBreak(lines);
    if body == "" then None
    else
      var text := ChangesHeader + body;
      assert text[|text| - 1] == body[|body| - 1];
      Some(text)
  }

  predicate EmptyOrBreak(s: string) {
    s == "" || s[|s| - 1] == '\n'
  }

  function Concat(parts: seq<string>): string {
    if |parts| == 0 then "" else parts[0] + Concat(parts[1..])
  }

  /** A concatenation is empty exactly when every piece is. */
  lemma {:induction false} ConcatEmpty(parts: seq<string>)
    ensures Concat(parts) == "" <==> forall k :: 0 <= k < |parts| ==> parts[k] == ""
  {
    if |parts| > 0 {
      ConcatEmpty(parts[1..]);
      assert forall k :: 1 <= k < |parts| ==> parts[k] == parts[1..][k - 1];
    }
  }

  /** A concatenation of pieces that are empty or end in a line break is empty or ends in one. */
  lemma {:induction false} ConcatEndsInBreak(parts: seq<string>)
    requires forall k :: 0 <= k < |parts| ==> EmptyOrBreak(parts[k])
    ensures EmptyOrBreak(Concat(parts))
  {
    if |parts| > 0 {
      assert forall k :: 0 <= k < |parts[1..]| ==> parts[1..][k] == parts[k + 1];
      ConcatEndsInBreak(parts[1..]);
      var rest := Concat(parts[1..]);
      if rest != "" {
        assert (parts[0] + rest)[|parts[0] + rest| - 1] == rest[|rest| - 1];
      }
    }
  }

  /** A concatenation whose pieces but one are empty is that piece. */
  lemma {:induction false} ConcatOnly(parts: seq<string>, i: nat)
    requires i < |parts|
    requires forall k :: 0 <= k < |parts| && k != i ==> parts[k] == ""
    ensures Concat(parts) == parts[i]
  {
    ConcatEmpty(parts[1..]);
    if i > 0 {
      assert forall k :: 0 <= k < |parts[1..]| && k != i - 1 ==> parts[1..][k] == parts[k + 1];
      ConcatOnly(parts[1..], i - 1);
    } else {
      assert forall k :: 0 <= k < |parts[1..]| ==> parts[1..][k] == parts[k + 1];
    }
  }

  /** A phone typed in local form makes the as-written summary fail, while the fixed one
      shows it unchanged. */
  lemma LocalPhoneBreaksSummary(p: string)
    requires StartsWith(p, "0")
    ensures FormatBookingChanges(EmptyDraft.(phoneNumber := Some(p))) == Err(UnboundLocalError)
    ensures FormatBookingChangesFixed(EmptyDraft.(phoneNumber := Some(p)))
         == Ok(Some(ChangesHeader + PhoneWord + [Colon] + p + "\n"))
  {
    var d := EmptyDraft.(phoneNumber := Some(p));
    assert !StartsWith(p, "+886") by { assert p[0] == '0'; }
    assert CheckOutOf(d) == Ok(None);
    var lines := ChangeLines(d, None, None);
    var vs := ChangeValues(d, None, None);
    assert vs[1] == Some(p);
    assert lines[1] == PhoneWord + [Colon] + p + "\n";
    forall k | 0 <= k < 9 && k != 1 ensures lines[k] == "" {
      assert k == 0 || k == 2 || k == 3 || k == 4 || k == 5 || k == 6 || k == 7 || k == 8;
    }
    ConcatOnly(lines, 1);
    assert ChangesHeader + lines[1] == ChangesHeader + PhoneWord + [Colon] + p + "\n";
  }

  // ---------------------------------------------------------------------------
  // Reading the change summary back
  // ---------------------------------------------------------------------------

  /** The last character of the header word and of each summary label. */
  const ChangeLasts: string := "目名話期期額註源金睡"

  lemma ChangeWordsPlain()
    ensures forall i :: 0 <= i < 10 ==>
      var w := ([ChangesWord] + ChangeWords)[i];
      |w| > 0 && w[|w| - 1] == ChangeLasts[i] && Colon !in w && '\n' !in w
  {
  }

  lemma ChangeWordsApart()
    ensures WordsApart([ChangesWord] + ChangeWords)
  {
    var ws := [ChangesWord] + ChangeWords;
    ChangeWordsPlain();
    forall i, j | 0 <= i < 10 && 0 <= j < 10 && i != j ensures !EndsWith(ws[i], ws[j]) {
      TailsApart(ws[i], ws[j]);
    }
  }

  /** The positions, in order, of the values that are present. */
  function PresentAt(values: seq<Option<string>>): (idx: seq<nat>)
    ensures forall i :: 0 <= i < |idx| ==> idx[i] < |values| && values[idx[i]].Some?
    ensures forall i, j :: 0 <= i < j < |idx| ==> idx[i] < idx[j]
    ensures forall k :: 0 <= k < |values| && values[k].Some? ==> k in idx
    decreases |values|
  {
    if |values| == 0 then []
    else
      var n := |values| - 1;
      var rest := PresentAt(values[..n]);
      assert forall k :: 0 <= k < n ==> values[..n][k] == values[k];
      if values[n].Some? then rest + [n] else rest
  }

  /** The entries of the present values under their words, in the order of the words. */
  function Present(words: seq<string>, values: seq<Option<string>>): (es: seq<Entry>)
    requires |words| == |values|
    ensures |es| == |PresentAt(values)|
    ensures forall i :: 0 <= i < |es| ==>
      es[i] == Entry(words[PresentAt(values)[i]], values[PresentAt(values)[i]].value)
    decreases |values|
  {
    if |values| == 0 then []
    else
      var n := |values| - 1;
      var rest := Present(words[..n], values[..n]);
      assert forall k :: 0 <= k < n ==> words[..n][k] == words[k] && values[..n][k] == values[k];
      if values[n].Some? then rest + [Entry(words[n], values[n].value)] else rest
  }

  lemma {:induction false} ConcatSnoc(parts: seq<string>, p: string)
    ensures Concat(parts + [p]) == Concat(parts) + p
    decreases |parts|
  {
    if |parts| == 0 {
      assert [p][1..] == [];
    } else {
      assert (parts + [p])[1..] == parts[1..] + [p];
      ConcatSnoc(parts[1..], p);
    }
  }

  lemma {:induction false} TerminatedSnoc(lines: seq<string>, l: string)
    ensures Terminated(lines + [l]) == Terminated(lines) + l + "\n"
    decreases |lines|
  {
    if |lines| == 0 {
      assert [l] + [""] == [l, ""] && [l, ""][1..] == [""];
      assert [] + [""] == [""];
    } else {
      assert (lines + [l] + [""])[1..] == lines[1..] + [l] + [""];
      assert (lines + [""])[1..] == lines[1..] + [""];
      TerminatedSnoc(lines[1..], l);
    }
  }

  /** Lines that end in a break are the lines joined by breaks, and one more break. */
  lemma {:induction false} TerminatedJoin(lines: seq<string>)
    requires |lines| > 0
    ensures Terminated(lines) == Join(lines, "\n") + "\n" + ""
    decreases |lines|
  {
    if |lines| == 1 {
      assert lines + [""] == [lines[0], ""] && [lines[0], ""][1..] == [""];
      assert Join([""], "\n") == "";
      assert Join(lines, "\n") == lines[0];
    } else {
      assert (lines + [""])[1..] == lines[1..] + [""];
      TerminatedJoin(lines[1..]);
    }
  }

  /** The optional lines, concatenated, are the present values' labelled lines, in order,
      each ended by a break. */
  lemma {:induction false} OptLinesText(words: seq<string>, values: seq<Option<string>>)
    requires |words| == |values|
    ensures Concat(OptLines(words, values)) == Terminated(EntryLines(Present(words, values)))
    decreases |values|
  {
    if |values| == 0 {
      assert EntryLines([]) + [""] == [""];
    } else {
      var n := |values| - 1;
      var front := OptLines(words[..n], values[..n]);
      var last := OptLine(words[n], values[n]);
      OptLinesSnoc(words, values);
      ConcatSnoc(front, last);
      OptLinesText(words[..n], values[..n]);
      var rest := Present(words[..n], values[..n]);
      if values[n].Some? {
        var e := Entry(words[n], values[n].value);
        assert Present(words, values) == rest + [e];
        EntryLinesSnoc(rest, e);
        TerminatedSnoc(EntryLines(rest), EntryLine(e));
        var t := Terminated(EntryLines(rest));
        assert last == EntryLine(e) + "\n";
        assert Concat(OptLines(words, values)) == t + last;
        AppendAssoc(t, EntryLine(e), "\n");
      } else {
        assert Present(words, values) == rest;
        assert last == "";
        assert Concat(OptLines(words, values)) == Concat(front) + "";
        assert Concat(front) + "" == Concat(front);
      }
    }
  }

  lemma AppendAssoc(a: string, b: string, c: string)
    ensures a + (b + c) == a + b + c
  {
  }

  lemma {:induction false} EntryLinesSnoc(es: seq<Entry>, e: Entry)
    ensures EntryLines(es + [e]) == EntryLines(es) + [EntryLine(e)]
  {
    var all := EntryLines(es + [e]);
    var sum := EntryLines(es) + [EntryLine(e)];
    forall i | 0 <= i < |all| ensures all[i] == sum[i] {
      if i < |es| {
        assert (es + [e])[i] == es[i];
      }
    }
  }

  lemma {:induction false} TerminatedCons(h: string, lines: seq<string>)
    ensures Terminated([h] + lines) == h + "\n" + Terminated(lines)
  {
    assert ([h] + lines + [""])[1..] == lines + [""];
  }

  /** Searching lines that each end in a break is searching each line in turn. */
  lemma {:induction false} SearchTerminated(lines: seq<string>, key: string, group: Group)
    requires |lines| > 0 && |key| > 0 && '\n' !in key
    ensures Search(Terminated(lines), key, group) == FirstHit(lines, key, group)
  {
    TerminatedJoin(lines);
    SearchAcrossLines(Join(lines, "\n"), "", key, group);
    SearchEmpty(key, group);
    SearchLines(lines, key, group);
  }

  lemma {:induction false} OptLinesSnoc(words: seq<string>, values: seq<Option<string>>)
    requires |words| == |values| > 0
    ensures var n := |values| - 1;
      OptLines(words, values) == OptLines(words[..n], values[..n]) + [OptLine(words[n], values[n])]
  {
    var n := |values| - 1;
    var all := OptLines(words, values);
    var front := OptLines(words[..n], values[..n]);
    var last := OptLine(words[n], values[n]);
    assert |all| == |front| + 1;
    forall k | 0 <= k < n ensures all[k] == front[k] {
      assert words[..n][k] == words[k] && values[..n][k] == values[k];
    }
    assert all[n] == last;
    forall k | 0 <= k < |all| ensures all[k] == (front + [last])[k] {
      if k < n {
        assert (front + [last])[k] == front[k];
      }
    }
    assert all == front + [last];
  }

  /** Distinct positions of words a search can tell apart hold distinct words. */
  lemma {:induction false} ApartDistinct(words: seq<string>, i: nat, j: nat)
    requires WordsApart(words) && i < |words| && j < |words| && i != j
    ensures words[i] != words[j]
  {
    assert !EndsWith(words[i], words[j]);
    assert words[j][|words[j]| - |words[j]|..] == words[j];
  }

  /** A header entry with an empty value, then the entries of the present values. */
  function Listed(head: string, words: seq<string>, values: seq<Option<string>>): (es: seq<Entry>)
    requires |words| == |values|
    ensures |es| == |PresentAt(values)| + 1 && es[0] == Entry(head, "")
    ensures forall i :: 1 <= i < |es| ==>
      es[i] == Entry(words[PresentAt(values)[i - 1]], values[PresentAt(values)[i - 1]].value)
  {
    [Entry(head, "")] + Present(words, values)
  }

  /** In the entries of a header then the present values, a word's label is found exactly
      when its value is present, and then with that value. */
  lemma {:induction false} PresentLookup(head: string, words: seq<string>, values: seq<Option<string>>, k: nat)
    requires |words| == |values| && k < |words|
    requires WordsApart([head] + words)
    ensures Lookup(Listed(head, words, values), words[k]) == values[k]
  {
    var es := Listed(head, words, values);
    var idx := PresentAt(values);
    var word := words[k];
    PresentWords(head, words, values, k);
    if values[k].Some? {
      var j :| 0 <= j < |idx| && idx[j] == k;
      assert es[j + 1].word == word;
      var r := Lookup(es, word);
      assert r.Some?;
      var i :| 0 <= i < |es| && es[i] == Entry(word, r.value);
      assert idx[i - 1] == k;
    } else {
      assert forall i :: 0 <= i < |es| ==> es[i].word != word;
    }
  }

  /** Which entries of a header then the present values carry a given word. */
  lemma {:induction false} PresentWords(head: string, words: seq<string>, values: seq<Option<string>>, k: nat)
    requires |words| == |values| && k < |words|
    requires WordsApart([head] + words)
    ensures forall i :: 0 <= i < |Listed(head, words, values)| ==>
      var e := Listed(head, words, values)[i];
      (e.word == words[k] <==> i > 0 && PresentAt(values)[i - 1] == k)
      && (e.word == words[k] || !EndsWith(e.word, words[k]))
      && Colon !in e.word
  {
    var es := Listed(head, words, values);
    var idx := PresentAt(values);
    var ws := [head] + words;
    assert ws[k + 1] == words[k];
    forall i | 0 <= i < |es|
      ensures es[i].word == words[k] <==> i > 0 && idx[i - 1] == k
      ensures es[i].word == words[k] || !EndsWith(es[i].word, words[k])
      ensures Colon !in es[i].word
    {
      var m := if i == 0 then 0 else idx[i - 1] + 1;
      assert es[i].word == ws[m];
      if m != k + 1 {
        ApartDistinct(ws, m, k + 1);
      }
    }
  }

  /** A text that is a header line `head：`, then one labelled line per present value,
      answers a search for a word's label with that word's value, and with nothing when
      the value is absent. */
  lemma {:induction false} ReadPresent(head: string, words: seq<string>, values: seq<Option<string>>, k: nat, group: Group)
    requires |words| == |values| && k < |words|
    requires WordsApart([head] + words)
    requires forall i :: 0 <= i < |values| && values[i].Some? ==> Colon !in values[i].value
    ensures Search(Terminated(EntryLines(Listed(head, words, values))), words[k] + [Colon], group)
         == if values[k].Some? then MatchAt(group, values[k].value) else None
  {
    var es := Listed(head, words, values);
    var idx := PresentAt(values);
    var word := words[k];
    var key := word + [Colon];
    assert '\n' !in key by {
      assert ([head] + words)[k + 1] == word;
      assert key[|word|] == Colon;
    }
    SearchTerminated(EntryLines(es), key, group);
    PresentWords(head, words, values, k);
    forall i | 0 <= i < |es| ensures Colon !in es[i].value {
      if i > 0 {
        assert es[i].value == values[idx[i - 1]].value;
      }
    }
    assert Colon !in word by {
      assert ([head] + words)[k + 1] == word;
    }
    SearchEntries(es, word, group);
    PresentLookup(head, words, values, k);
  }

  /** The written-out values the summary lists, once the check-out date is known. */
  function SummaryValues(d: Draft): (vs: seq<Option<string>>)
    requires CheckOutOf(d).Ok?
    ensures |vs| == |ChangeWords|
  {
    ChangeValues(d, ShowDate(d.checkInDate), ShowDate(CheckOutOf(d).value))
  }

  /** The free-text keys of a draft hold no full-width colon. */
  predicate PlainTexts(d: Draft) {
    (d.customerName.Some? ==> Colon !in d.customerName.value)
    && (d.phoneNumber.Some? ==> Colon !in d.phoneNumber.value)
    && (d.notes.Some? ==> Colon !in d.notes.value)
    && (d.source.Some? ==> Colon !in d.source.value)
    && (d.roomIds.Some? ==> Colon !in d.roomIds.value)
  }

  /** A written-out date is digits and separators. */
  lemma DatePlain(d: Day)
    ensures Colon !in FormatDate(d, '/')
  {
    var c := FromDay(d);
    var y := NatToString(c.year);
    var m := NatToString(c.month);
    var dd := NatToString(c.day);
    assert forall ch :: ch in PadZeros(y, 4) ==> ch == '0' || ch in y;
    assert forall ch :: ch in PadZeros(m, 2) ==> ch == '0' || ch in m;
    assert forall ch :: ch in PadZeros(dd, 2) ==> ch == '0' || ch in dd;
    DigitsPlain(y);
    DigitsPlain(m);
    DigitsPlain(dd);
  }

  lemma {:induction false} IntPlain(i: int, unit: string)
    requires Colon !in unit
    ensures Colon !in IntToString(i) + unit
  {
    IntToStringChars(i);
  }

  /** Every value the summary lists is free of the full-width colon. */
  lemma {:induction false} SummaryValuesPlain(d: Draft)
    requires CheckOutOf(d).Ok? && PlainTexts(d)
    ensures forall i :: 0 <= i < 9 && SummaryValues(d)[i].Some? ==> Colon !in SummaryValues(d)[i].value
  {
    var vs := SummaryValues(d);
    TextValuesPlain(d);
    DateValuesPlain(d);
    AmountValuesPlain(d);
    forall i | 0 <= i < 9 && vs[i].Some? ensures Colon !in vs[i].value {
      assert i == 0 || i == 1 || i == 2 || i == 3 || i == 4 || i == 5 || i == 6 || i == 7 || i == 8;
    }
  }

  lemma {:induction false} TextValuesPlain(d: Draft)
    requires CheckOutOf(d).Ok? && PlainTexts(d)
    ensures var vs := SummaryValues(d);
      forall i :: i in {0, 1, 5, 6, 8} && vs[i].Some? ==> Colon !in vs[i].value
  {
    if d.phoneNumber.Some? {
      DisplayPhonePlain(d.phoneNumber.value);
    }
  }

  lemma {:induction false} DateValuesPlain(d: Draft)
    requires CheckOutOf(d).Ok?
    ensures var vs := SummaryValues(d);
      (vs[2].Some? ==> Colon !in vs[2].value) && (vs[3].Some? ==> Colon !in vs[3].value)
  {
    if d.checkInDate.Some? {
      DatePlain(d.checkInDate.value);
    }
    if CheckOutOf(d).value.Some? {
      DatePlain(CheckOutOf(d).value.value);
    }
  }

  lemma {:induction false} AmountValuesPlain(d: Draft)
    requires CheckOutOf(d).Ok?
    ensures var vs := SummaryValues(d);
      (vs[4].Some? ==> Colon !in vs[4].value) && (vs[7].Some? ==> Colon !in vs[7].value)
  {
    if d.totalPrice.Some? {
      IntPlain(d.totalPrice.value, "");
    }
    if d.prepayment.Some? {
      IntPlain(d.prepayment.value, "元");
    }
  }

  /** The fixed summary is the header line, then one line `word：value` for each present
      key in the order of ChangeWords, and nothing else; searching it for a key's label
      finds that key's written-out value, and finds nothing for an absent key. */
  lemma {:induction false} ChangesSummaryReads(d: Draft, k: nat, group: Group)
    requires FormatBookingChangesFixed(d).Ok? && FormatBookingChangesFixed(d).value.Some?
    requires PlainTexts(d) && k < |ChangeWords|
    ensures var text := FormatBookingChangesFixed(d).value.value;
      var vs := SummaryValues(d);
      text == Terminated(EntryLines(Listed(ChangesWord, ChangeWords, vs)))
      && Search(text, ChangeWords[k] + [Colon], group)
         == if vs[k].Some? then MatchAt(group, vs[k].value) else None
  {
    var vs := SummaryValues(d);
    SummaryText(d);
    ChangeWordsApart();
    SummaryValuesPlain(d);
    ReadPresent(ChangesWord, ChangeWords, vs, k, group);
  }

  lemma {:induction false} SummaryText(d: Draft)
    requires FormatBookingChangesFixed(d).Ok? && FormatBookingChangesFixed(d).value.Some?
    ensures FormatBookingChangesFixed(d).value.value
         == Terminated(EntryLines(Listed(ChangesWord, ChangeWords, SummaryValues(d))))
  {
    var vs := SummaryValues(d);
    assert FormatBookingChangesFixed(d).value.value == ChangesHeader + Concat(OptLines(ChangeWords, vs));
    HeaderThenLines(vs);
  }

  /** The header, then the optional lines, is the header entry and the present entries,
      each line ended by a break. */
  lemma {:induction false} HeaderThenLines(vs: seq<Option<string>>)
    requires |vs| == |ChangeWords|
    ensures ChangesHeader + Concat(OptLines(ChangeWords, vs))
         == Terminated(EntryLines(Listed(ChangesWord, ChangeWords, vs)))
  {
    OptLinesText(ChangeWords, vs);
    var ps := Present(ChangeWords, vs);
    var h := Entry(ChangesWord, "");
    assert ([h] + ps)[1..] == ps;
    assert EntryLines([h] + ps) == [EntryLine(h)] + EntryLines(ps);
    TerminatedCons(EntryLine(h), EntryLines(ps));
    assert EntryLine(h) + "\n" == ChangesHeader;
  }


  // ---------------------------------------------------------------------------
  // is_generic_name
  // ---------------------------------------------------------------------------

  /** Does `name` contain one of `fragments`? */
  function ContainsAny(name: string, fragments: seq<string>): (r: bool)
    ensures r <==> exists i :: 0 <= i < |fragments| && Contains(name, fragments[i])
  {
    if |fragments| == 0 then false
    else if Contains(name, fragments[0]) then true
    else
      var r := ContainsAny(name, fragments[1..]);
      assert forall i :: 1 <= i < |fragments| ==> fragments[i] == fragments[1..][i - 1];
      r
  }

  /** `is_generic_name`: the name contains 先生, 小姐 or 無名氏. */
  predicate IsGenericName(name: string) {
    ContainsAny(name, GenericNames)
  }

  /** Any name with a generic fragment inside it is generic, whatever surrounds it. */
  lemma GenericWithin(pre: string, i: nat, post: string)
    requires i < |GenericNames|
    ensures IsGenericName(pre + GenericNames[i] + post)
  {
    var s := pre + GenericNames[i] + post;
    assert s[|pre|..|pre| + |GenericNames[i]|] == GenericNames[i];
    ContainsAt(s, GenericNames[i], |pre|);
  }

  /** A name without the first character of any fragment is not generic. */
  lemma PlainNameNotGeneric(name: string)
    requires '先' !in name && '小' !in name && '無' !in name
    ensures !IsGenericName(name)
  {
    forall i | 0 <= i < |GenericNames| ensures !Contains(name, GenericNames[i]) {
      NoLeadNoContains(name, GenericNames[i]);
    }
  }
}

=== FILE: calendar.dfy ===
/** The proleptic Gregorian calendar of Python's `datetime.date`, with dates as day
    numbers: day 0 is 0001-01-01 (a Monday), so `date.weekday()` is `d % 7` (`WeekdayAnchors`).
    Covers the conversions the back office uses: `strftime('%Y<sep>%m<sep>%d')`,
    `strptime(s, '%Y<sep>%m<sep>%d')` and `date + timedelta(days=n)`. */
module Calendar {
  import opened Wrappers
  import opened Text

  /** A date, as the number of days since 0001-01-01. */
  type Day = nat

  datatype Civil = Civil(year: int, month: int, day: int)

  predicate IsLeap(y: int) {
    y % 4 == 0 && (y % 100 != 0 || y % 400 == 0)
  }

  function DaysInYear(y: int): int {
    if IsLeap(y) then 366 else 365
  }

  function DaysInMonth(y: int, m: int): int
    requires 1 <= m <= 12
  {
    if m == 2 then (if IsLeap(y) then 29 else 28)
    else if m == 4 || m == 6 || m == 9 || m == 11 then 30
    else 31
  }

  /** A year-month-day triple naming a real day (years past 9999 are not rejected). */
  predicate ValidCivil(c: Civil) {
    1 <= c.year && 1 <= c.month <= 12 && 1 <= c.day <= DaysInMonth(c.year, c.month)
  }

  /** Days from 0001-01-01 to January 1st of year `y`, by the closed form Python uses. */
  function DaysBeforeYear(y: int): int
    requires y >= 1
  {
    var x := y - 1;
    x * 365 + x / 4 - x / 100 + x / 400
  }

  /** Days from January 1st to the first of month `m` of year `y`. */
  function DaysBeforeMonth(y: int, m: int): int
    requires 1 <= m <= 12
  {
    [0, 31, 59, 90, 120, 151, 181, 212, 243, 273, 304, 334][m - 1]
    + (if m > 2 && IsLeap(y) then 1 else 0)
  }

  // ---------------------------------------------------------------------------
  // The year and month tables are consistent with the lengths
  // ---------------------------------------------------------------------------

  lemma LeapRule(y: int)
    requires y >= 1
    ensures y % 400 == 0 ==> y % 100 == 0
    ensures y % 100 == 0 ==> y % 4 == 0
  {
    if y % 400 == 0 {
      Multiple100(4 * (y / 400));
    }
    if y % 100 == 0 {
      Multiple4(25 * (y / 100));
    }
  }

  lemma Multiple100(k: int)
    ensures (100 * k) % 100 == 0
  {
  }

  lemma Multiple4(k: int)
    ensures (4 * k) % 4 == 0
  {
  }

  lemma DivStep4(x: int)
    requires x >= 0
    ensures (x + 1) / 4 == x / 4 + (if (x + 1) % 4 == 0 then 1 else 0)
  {
  }

  lemma DivStep100(x: int)
    requires x >= 0
    ensures (x + 1) / 100 == x / 100 + (if (x + 1) % 100 == 0 then 1 else 0)
  {
  }

  lemma DivStep400(x: int)
    requires x >= 0
    ensures (x + 1) / 400 == x / 400 + (if (x + 1) % 400 == 0 then 1 else 0)
  {
  }

  lemma DaysBeforeYearStep(y: int)
    requires y >= 1
    ensures DaysBeforeYear(y + 1) == DaysBeforeYear(y) + DaysInYear(y)
  {
    var x := y - 1;
    DivStep4(x);
    DivStep100(x);
    DivStep400(x);
    LeapRule(y);
    assert (x + 1) * 365 == x * 365 + 365;
  }

  lemma {:induction false} DaysBeforeYearMonotonic(a: int, b: int)
    requires 1 <= a <= b
    ensures DaysBeforeYear(a) + 365 * (b - a) <= DaysBeforeYear(b)
    decreases b - a
  {
    if a < b {
      DaysBeforeYearStep(a);
      DaysBeforeYearMonotonic(a + 1, b);
    }
  }

  lemma DaysBeforeMonthStep(y: int, m: int)
    requires 1 <= m < 12
    ensures DaysBeforeMonth(y, m + 1) == DaysBeforeMonth(y, m) + DaysInMonth(y, m)
  {
  }

  lemma {:induction false} DaysBeforeMonthBound(y: int, m: int)
    requires 1 <= m <= 12
    ensures DaysBeforeMonth(y, m) + DaysInMonth(y, m) <= DaysInYear(y)
  {
  }

  lemma {:induction false} DaysBeforeMonthMonotonic(y: int, a: int, b: int)
    requires 1 <= a < b <= 12
    ensures DaysBeforeMonth(y, a) + DaysInMonth(y, a) <= DaysBeforeMonth(y, b)
    decreases b - a
  {
    DaysBeforeMonthStep(y, a);
    if a + 1 < b {
      DaysBeforeMonthMonotonic(y, a + 1, b);
    }
  }

  // ---------------------------------------------------------------------------
  // Day numbers and civil dates
  // ---------------------------------------------------------------------------

  /** `date(y, m, d).toordinal() - 1`. */
  function ToDay(c: Civil): (d: Day)
    requires ValidCivil(c)
    ensures DaysBeforeYear(c.year) <= d < DaysBeforeYear(c.year + 1)
  {
    DaysBeforeYearMonotonic(1, c.year);
    DaysBeforeYearStep(c.year);
    DaysBeforeMonthBound(c.year, c.month);
    DaysBeforeYear(c.year) + DaysBeforeMonth(c.year, c.month) + c.day - 1
  }

  function YearOf(d: Day, y: int): (r: int)
    requires y >= 1 && DaysBeforeYear(y) <= d
    ensures r >= y && DaysBeforeYear(r) <= d < DaysBeforeYear(r + 1)
    decreases d - DaysBeforeYear(y)
  {
    DaysBeforeYearStep(y);
    if d < DaysBeforeYear(y + 1) then y else YearOf(d, y + 1)
  }

  function MonthOf(y: int, doy: int, m: int): (r: int)
    requires 1 <= m <= 12 && DaysBeforeMonth(y, m) <= doy < DaysInYear(y)
    ensures m <= r <= 12
    ensures DaysBeforeMonth(y, r) <= doy < DaysBeforeMonth(y, r) + DaysInMonth(y, r)
    decreases 12 - m
  {
    if m == 12 || doy < DaysBeforeMonth(y, m + 1) then
      (if m < 12 then DaysBeforeMonthStep(y, m); m else m)
    else MonthOf(y, doy, m + 1)
  }

  /** `date.fromordinal(d + 1)`, as a year-month-day triple. */
  function FromDay(d: Day): (c: Civil)
    ensures ValidCivil(c) && ToDay(c) == d
  {
    var y := YearOf(d, 1);
    DaysBeforeYearStep(y);
    var m := MonthOf(y, d - DaysBeforeYear(y), 1);
    Civil(y, m, d - DaysBeforeYear(y) - DaysBeforeMonth(y, m) + 1)
  }

  /** Each valid civil date has exactly one day number: converting there and back is
      the identity. */
  lemma CivilRoundTrip(c: Civil)
    requires ValidCivil(c)
    ensures FromDay(ToDay(c)) == c
  {
    var e := FromDay(ToDay(c));
    SameYear(c, e);
    SameMonth(c, e);
  }

  lemma SameYear(c: Civil, e: Civil)
    requires ValidCivil(c) && ValidCivil(e) && ToDay(c) == ToDay(e)
    ensures c.year == e.year
  {
    if c.year < e.year {
      DaysBeforeYearMonotonic(c.year + 1, e.year);
    } else if e.year < c.year {
      DaysBeforeYearMonotonic(e.year + 1, c.year);
    }
  }

  lemma SameMonth(c: Civil, e: Civil)
    requires ValidCivil(c) && ValidCivil(e) && ToDay(c) == ToDay(e) && c.year == e.year
    ensures c == e
  {
    if c.month < e.month {
      DaysBeforeMonthMonotonic(c.year, c.month, e.month);
    } else if e.month < c.month {
      DaysBeforeMonthMonotonic(c.year, e.month, c.month);
    }
  }

  lemma ToDayInjective(a: Civil, b: Civil)
    requires ValidCivil(a) && ValidCivil(b) && ToDay(a) == ToDay(b)
    ensures a == b
  {
    CivilRoundTrip(a);
    CivilRoundTrip(b);
  }

  /** `date.weekday()`: 0 is Monday, 5 is Saturday. */
  function Weekday(d: Day): (w: int)
    ensures 0 <= w < 7
  {
    d % 7
  }

  /** The numbering agrees with the real calendar: 0001-01-01 was a Monday (weekday 0),
      2000-02-29 a Tuesday, 2024-01-06 a Saturday (weekday 5) and 9999-12-31 a Friday. */
  lemma WeekdayAnchors()
    ensures Weekday(ToDay(Civil(1, 1, 1))) == 0
    ensures Weekday(ToDay(Civil(2000, 2, 29))) == 1
    ensures Weekday(ToDay(Civil(2024, 1, 6))) == 5
    ensures Weekday(ToDay(Civil(9999, 12, 31))) == 4
  {
  }

  /** One past the last representable day, 9999-12-31. */
  const MaxDay: nat := 3652059

  lemma MaxDayIsYear10000()
    ensures DaysBeforeYear(10000) == MaxDay
  {
  }

  /** `date + timedelta(days=n)`; a result outside 0001-01-01 .. 9999-12-31 raises
      OverflowError. */
  function AddDays(d: Day, n: int): (r: Result<Day>)
    ensures r.Ok? <==> 0 <= d + n < MaxDay
    ensures r.Ok? ==> r.value - d == n
  {
    if 0 <= d + n < MaxDay then Ok(d + n) else Err(OverflowError)
  }

  // ---------------------------------------------------------------------------
  // strftime and strptime for '%Y<sep>%m<sep>%d'
  // ---------------------------------------------------------------------------

  /** `k` zero digits. */
  function Zeros(k: nat): (z: string)
    ensures |z| == k && forall i :: 0 <= i < k ==> z[i] == '0'
  {
    seq(k, _ => '0')
  }

  /** `s` left-padded with '0' to at least `width` characters. */
  function PadZeros(s: string, width: nat): (r: string)
    ensures |r| == if |s| < width then width else |s|
    ensures r == Zeros(|r| - |s|) + s
  {
    if |s| < width then Zeros(width - |s|) + s else Zeros(0) + s
  }

  /** `strftime('%Y' + sep + '%m' + sep + '%d')`: a four-digit year, two-digit month and day. */
  function FormatDate(d: Day, sep: char): string {
    Render(FromDay(d), sep)
  }

  function Render(c: Civil, sep: char): string
    requires c.year >= 0 && c.month >= 0 && c.day >= 0
  {
    PadZeros(NatToString(c.year), 4) + [sep]
    + PadZeros(NatToString(c.month), 2) + [sep]
    + PadZeros(NatToString(c.day), 2)
  }

  /** The strings strptime's `%m` accepts: `1[0-2]|0[1-9]|[1-9]`. */
  predicate MonthToken(t: string) {
    (|t| == 1 && '1' <= t[0] <= '9')
    || (|t| == 2 && ((t[0] == '0' && '1' <= t[1] <= '9') || (t[0] == '1' && '0' <= t[1] <= '2')))
  }

  /** The strings strptime's `%d` accepts in full: `3[01]|[12]\d|0[1-9]|[1-9]| [1-9]`. */
  predicate DayToken(t: string) {
    (|t| == 1 && '1' <= t[0] <= '9')
    || (|t| == 2 && ((t[0] == '3' && (t[1] == '0' || t[1] == '1'))
                     || ((t[0] == '1' || t[0] == '2') && IsDigit(t[1]))
                     || ((t[0] == '0' || t[0] == ' ') && '1' <= t[1] <= '9')))
  }

  /** The numeric value of a month or day token (a leading blank counts as nothing). */
  function TokenValue(t: string): nat
    requires MonthToken(t) || DayToken(t)
  {
    if t[0] == ' ' then DigitsValue(t[1..]) else DigitsValue(t)
  }

  /** The lexical half of `strptime(s, '%Y<sep>%m<sep>%d')`: the year, month and day the
      text spells, before any calendar check. The separator is neither a digit nor a blank,
      so the month token always ends at the first separator after the year. */
  function ScanDate(s: string, sep: char): (r: Option<Civil>)
    requires !IsDigit(sep) && sep != ' '
    ensures r.Some? ==> 0 <= r.value.year <= 9999 && 1 <= r.value.month <= 12
    ensures r.Some? ==> 1 <= r.value.day <= 31
  {
    if |s| >= 5 && DigitsOnly(s[..4]) && s[4] == sep then
      var rest := s[5..];
      match IndexOf(rest, [sep])
      case Some(k) =>
        var mt, dt := rest[..k], rest[k + 1..];
        if MonthToken(mt) && DayToken(dt) then
          TokenBounds(mt, dt);
          YearBound(s[..4]);
          Some(Civil(DigitsValue(s[..4]), TokenValue(mt), TokenValue(dt)))
        else None
      case None => None
    else None
  }

  lemma YearBound(s: string)
    requires |s| == 4 && DigitsOnly(s)
    ensures DigitsValue(s) <= 9999
  {
    DigitsValueBound(s);
    assert Pow10(4) == 10000;
  }

  lemma TokenBounds(mt: string, dt: string)
    requires MonthToken(mt) && DayToken(dt)
    ensures 1 <= TokenValue(mt) <= 12 && 1 <= TokenValue(dt) <= 31
  {
    if |mt| == 1 { DigitsValueOne(mt); } else { DigitsValueTwo(mt); }
    if |dt| == 1 {
      DigitsValueOne(dt);
    } else if dt[0] == ' ' {
      DigitsValueOne(dt[1..]);
    } else {
      DigitsValueTwo(dt);
    }
  }

  /** `datetime.strptime(s, '%Y<sep>%m<sep>%d')`: None where strptime raises ValueError,
      which is when the text is malformed or names no real day (year 0, February 30th, a
      February 29th outside a leap year, ...). */
  function ParseDate(s: string, sep: char): (r: Option<Day>)
    requires !IsDigit(sep) && sep != ' '
    ensures r.Some? <==> ScanDate(s, sep).Some? && ValidCivil(ScanDate(s, sep).value)
    ensures r.Some? ==> FromDay(r.value) == ScanDate(s, sep).value
    ensures r.Some? ==> r.value < MaxDay
  {
    match ScanDate(s, sep)
    case Some(c) => CivilDay(c)
    case None => None
  }

  /** `date(y, m, d)` for a year below 10000: the day number, or None (ValueError) when the
      triple names no real day. */
  function CivilDay(c: Civil): (r: Option<Day>)
    requires c.year <= 9999
    ensures r.Some? <==> ValidCivil(c)
    ensures r.Some? ==> FromDay(r.value) == c && r.value < MaxDay
  {
    if ValidCivil(c) then
      CivilRoundTrip(c);
      DaysBeforeYearMonotonic(c.year + 1, 10000);
      Some(ToDay(c))
    else None
  }

  // ---------------------------------------------------------------------------
  // Formatting then parsing is the identity
  // ---------------------------------------------------------------------------

  lemma {:induction false} DigitsValueLeadingZeros(z: string, s: string)
    requires DigitsOnly(s) && forall i :: 0 <= i < |z| ==> z[i] == '0'
    ensures DigitsOnly(z + s) && DigitsValue(z + s) == DigitsValue(s)
    decreases |s|
  {
    if |s| == 0 {
      DigitsValueZeros(z);
      assert z + s == z;
    } else {
      var t := z + s;
      assert t[..|t| - 1] == z + s[..|s| - 1];
      DigitsValueLeadingZeros(z, s[..|s| - 1]);
    }
  }

  lemma {:induction false} DigitsValueZeros(z: string)
    requires forall i :: 0 <= i < |z| ==> z[i] == '0'
    ensures DigitsOnly(z) && DigitsValue(z) == 0
    decreases |z|
  {
    if |z| > 0 {
      DigitsValueZeros(z[..|z| - 1]);
    }
  }

  lemma PaddedValue(n: nat, width: nat)
    ensures DigitsOnly(PadZeros(NatToString(n), width))
    ensures DigitsValue(PadZeros(NatToString(n), width)) == n
  {
    var s := NatToString(n);
    var p := PadZeros(s, width);
    DigitsValueLeadingZeros(Zeros(|p| - |s|), s);
    NatToStringRoundTrip(n);
  }

  lemma TwoDigits(n: nat)
    requires 1 <= n <= 31
    ensures |PadZeros(NatToString(n), 2)| == 2
    ensures n <= 9 ==> ['0', DigitChar(n)] == PadZeros(NatToString(n), 2)
    ensures n >= 10 ==> [DigitChar(n / 10), DigitChar(n % 10)] == PadZeros(NatToString(n), 2)
  {
    if n <= 9 {
      assert NatToString(n) == [DigitChar(n)];
      assert PadZeros([DigitChar(n)], 2) == ['0', DigitChar(n)];
    } else {
      var q, r := n / 10, n % 10;
      assert q < 10 && r < 10;
      assert NatToString(q) == [DigitChar(q)];
      assert NatToString(n) == [DigitChar(q), DigitChar(r)];
    }
  }

  /** The two-digit rendering of a month or day is a token strptime reads back as the
      same number. */
  lemma TwoDigitToken(n: nat)
    requires 1 <= n <= 31
    ensures DayToken(PadZeros(NatToString(n), 2))
    ensures n <= 12 ==> MonthToken(PadZeros(NatToString(n), 2))
    ensures TokenValue(PadZeros(NatToString(n), 2)) == n
  {
    TwoDigits(n);
    if n <= 9 {
      OneDigitToken(n);
    } else {
      TensToken(n);
    }
  }

  lemma OneDigitToken(n: nat)
    requires 1 <= n <= 9
    ensures DayToken(['0', DigitChar(n)]) && MonthToken(['0', DigitChar(n)])
    ensures TokenValue(['0', DigitChar(n)]) == n
  {
    DigitsValueTwo(['0', DigitChar(n)]);
  }

  lemma TensToken(n: nat)
    requires 10 <= n <= 31
    ensures DayToken([DigitChar(n / 10), DigitChar(n % 10)])
    ensures n <= 12 ==> MonthToken([DigitChar(n / 10), DigitChar(n % 10)])
    ensures TokenValue([DigitChar(n / 10), DigitChar(n % 10)]) == n
  {
    CharOfDigit(n / 10);
    DigitsValueTwo([DigitChar(n / 10), DigitChar(n % 10)]);
  }

  lemma CharOfDigit(q: nat)
    requires q < 10
    ensures q == 1 ==> DigitChar(q) == '1'
    ensures q == 2 ==> DigitChar(q) == '2'
    ensures q == 3 ==> DigitChar(q) == '3'
  {
  }

  lemma {:induction false} ShortYear(y: nat)
    requires y < 10000
    ensures |NatToString(y)| <= 4
  {
    if y >= 10 {
      assert |NatToString(y)| == |NatToString(y / 10)| + 1;
      if y / 10 >= 10 {
        assert |NatToString(y / 10)| == |NatToString(y / 100)| + 1;
        if y / 100 >= 10 {
          assert |NatToString(y / 100)| == |NatToString(y / 1000)| + 1;
        }
      }
    }
  }

  /** The text of a formatted date splits into exactly the tokens that were joined. */
  lemma ScanParts(ys: string, ms: string, ds: string, sep: char)
    requires !IsDigit(sep) && sep != ' '
    requires |ys| == 4 && DigitsOnly(ys) && MonthToken(ms) && DayToken(ds) && |ms| == 2
    ensures ScanDate(ys + [sep] + ms + [sep] + ds, sep)
         == Some(Civil(DigitsValue(ys), TokenValue(ms), TokenValue(ds)))
  {
    var s := ys + [sep] + ms + [sep] + ds;
    assert s[..4] == ys && s[4] == sep;
    var rest := s[5..];
    assert rest == (ms + [sep]) + ds;
    MonthEndsAtSeparator(ms, ds, sep);
    assert rest[..2] == ms && rest[3..] == ds;
  }

  lemma MonthEndsAtSeparator(ms: string, ds: string, sep: char)
    requires !IsDigit(sep) && sep != ' ' && MonthToken(ms) && |ms| == 2
    ensures IndexOf((ms + [sep]) + ds, [sep]) == Some(2)
  {
    assert ms == [ms[0], ms[1]] && sep != ms[0] && sep != ms[1];
    CleanWithoutLeadChar(ms, [sep]);
    IndexOfExtend(ms + [sep], ds, [sep], 2);
  }

  /** Formatting a date and parsing it back with the same separator gives the date back,
      for every date up to 9999-12-31. */
  lemma ParseFormatRoundTrip(d: Day, sep: char)
    requires !IsDigit(sep) && sep != ' '
    requires d < DaysBeforeYear(10000)
    ensures ParseDate(FormatDate(d, sep), sep) == Some(d)
  {
    var c := FromDay(d);
    if c.year >= 10000 {
      DaysBeforeYearMonotonic(10000, c.year);
    }
    ScanRendered(c, sep);
    CivilRoundTrip(c);
  }

  /** A rendered civil date with a year below 10000 scans back to itself. */
  lemma ScanRendered(c: Civil, sep: char)
    requires !IsDigit(sep) && sep != ' '
    requires ValidCivil(c) && c.year < 10000
    ensures ScanDate(Render(c, sep), sep) == Some(c)
  {
    var ys := PadZeros(NatToString(c.year), 4);
    var ms := PadZeros(NatToString(c.month), 2);
    var ds := PadZeros(NatToString(c.day), 2);
    ShortYear(c.year);
    PaddedValue(c.year, 4);
    TwoDigitToken(c.month);
    TwoDigitToken(c.day);
    TwoDigits(c.month);
    ScanParts(ys, ms, ds, sep);
    assert Render(c, sep) == ys + [sep] + ms + [sep] + ds;
  }

  /** A string accepted by strptime is a real date whose rendering is canonical: it parses
      to the same day. */
  lemma ParsedDateReformats(s: string, sep: char)
    requires !IsDigit(sep) && sep != ' '
    requires ParseDate(s, sep).Some?
    ensures ParseDate(FormatDate(ParseDate(s, sep).value, sep), sep) == ParseDate(s, sep)
  {
    var d := ParseDate(s, sep).value;
    var c := FromDay(d);
    if d >= DaysBeforeYear(10000) {
      DaysBeforeYearMonotonic(c.year + 1, 10000);
    }
    ParseFormatRoundTrip(d, sep);
  }

  /** A rendered date up to 9999-12-31 is four digits, the separator, two digits, the
      separator and two digits. */
  lemma FormatDateShape(d: Day, sep: char)
    requires d < MaxDay
    ensures DateShaped(FormatDate(d, sep), sep)
  {
    YearOfBoundedDay(d);
    CivilShape(FromDay(d), sep);
  }

  lemma CivilShape(c: Civil, sep: char)
    requires 0 <= c.year < 10000 && 1 <= c.month <= 12 && 1 <= c.day <= 31
    ensures DateShaped(Render(c, sep), sep)
  {
    var ys := PadZeros(NatToString(c.year), 4);
    var ms := PadZeros(NatToString(c.month), 2);
    var ds := PadZeros(NatToString(c.day), 2);
    ShortYear(c.year);
    TwoDigits(c.month);
    TwoDigits(c.day);
    PaddedValue(c.year, 4);
    PaddedValue(c.month, 2);
    PaddedValue(c.day, 2);
    JoinedShape(ys, ms, ds, sep);
    assert Render(c, sep) == ys + [sep] + ms + [sep] + ds;
  }

  predicate DateShaped(t: string, sep: char) {
    |t| == 10 && t[4] == sep && t[7] == sep
    && DigitsOnly(t[..4]) && DigitsOnly(t[5..7]) && DigitsOnly(t[8..])
  }

  lemma YearOfBoundedDay(d: Day)
    requires d < MaxDay
    ensures FromDay(d).year < 10000
  {
    var c := FromDay(d);
    MaxDayIsYear10000();
    if c.year >= 10000 {
      DaysBeforeYearMonotonic(10000, c.year);
    }
  }

  lemma JoinedShape(ys: string, ms: string, ds: string, sep: char)
    requires |ys| == 4 && |ms| == 2 && |ds| == 2
    requires DigitsOnly(ys) && DigitsOnly(ms) && DigitsOnly(ds)
    ensures DateShaped(ys + [sep] + ms + [sep] + ds, sep)
  {
    var t := ys + [sep] + ms + [sep] + ds;
    assert t[..4] == ys && t[5..7] == ms && t[8..] == ds;
  }
}

=== FILE: calendar_sync.dfy ===
/** The one-way mirror of bookings onto Google Calendar. Each pass takes the bookings the
    database changed since the last successful pass and, booking by booking, lists the
    events whose description carries the booking's id line, then deletes, updates or
    inserts events so that a live booking has exactly one event and a canceled one has
    none. The first failing booking aborts the rest; one sync record is logged either way.

    The calendar is a sequence of events plus the id the next insert receives; the
    client's calls become an emitted list of operations, and its failures a `CalendarApi`
    value that says which call raises. */
module GoogleCalendarSync {
  import opened Wrappers
  import opened Text
  import opened Calendar
  import opened Patterns
  import opened Records
  import opened BookingUtils
  import opened BookingDao

  const CalendarSyncType: string := "sql_to_google_calendar"

  // ---------------------------------------------------------------------------
  // Events
  // ---------------------------------------------------------------------------

  /** The parts of an event this job writes: the all-day dates are days, the reminder and
      time zone are the same for every event and left out. */
  datatype EventBody = EventBody(summary: string, description: string, start: Day, end: Day)

  datatype Event = Event(id: nat, body: EventBody)

  /** The events in listing order, and the id the next inserted event receives. */
  datatype EventCalendar = EventCalendar(events: seq<Event>, nextId: nat)

  predicate UniqueEventIds(es: seq<Event>) {
    forall i, j :: 0 <= i < j < |es| ==> es[i].id != es[j].id
  }

  /** Event ids are unique and below the next id. */
  predicate CalendarValid(cal: EventCalendar) {
    UniqueEventIds(cal.events) && forall k :: 0 <= k < |cal.events| ==> cal.events[k].id < cal.nextId
  }

  /** Two events of a calendar with unique ids that share an id are the same event. */
  lemma SameIdSameEvent(es: seq<Event>, e1: Event, e2: Event)
    requires UniqueEventIds(es) && e1 in es && e2 in es && e1.id == e2.id
    ensures e1 == e2
  {
    var i :| 0 <= i < |es| && es[i] == e1;
    var j :| 0 <= j < |es| && es[j] == e2;
    assert i == j;
  }

  /** The fullwidth comma of the summary. */
  const SummaryComma: char := '\U{FF0C}'

  /** `name，rooms，int(total_price)`. */
  function EventSummary(b: Booking): string {
    b.customerName + [SummaryComma] + b.roomIds + [SummaryComma] + IntToString(Trunc(b.totalPrice))
  }

  /** The event body for a booking: the summary, the calendar variant of the booking
      text as the description, and the check-in date to the last night, with no day
      added. Formatting the description can raise, and the raise aborts the job. */
  function EventBodyOf(b: Booking): (r: Result<EventBody>)
    ensures r.Ok? <==> FormatBookingInfo(Some(b), "calendar").text.Ok?
    ensures r.Ok? ==> r.value.start == b.checkInDate && r.value.end == b.lastDate
    ensures r.Ok? ==> StartsWith(r.value.description, IdLine(b.bookingId))
  {
    match FormatBookingInfo(Some(b), "calendar").text
    case Err(f) => Err(f)
    case Ok(text) =>
      CalendarOpensWithId(b);
      Ok(EventBody(EventSummary(b), text.value, b.checkInDate, b.lastDate))
  }

  /** The event of a one-night stay starts and ends on the same date. */
  lemma OneNightEndsOnStart(b: Booking)
    requires b.lastDate == b.checkInDate && EventBodyOf(b).Ok?
    ensures EventBodyOf(b).value.end == EventBodyOf(b).value.start
  {
  }

  // ---------------------------------------------------------------------------
  // Finding a booking's events
  // ---------------------------------------------------------------------------

  /** The text the job searches for: `ＩＤ：<id>`. */
  function EventKey(id: int): string {
    IdWord + [Colon] + IntToString(id)
  }

  /** The whole first line of a booking's description. */
  function IdLine(id: int): string {
    EventKey(id) + "\n"
  }

  /** How a listed event is taken for a booking's own. The program's test: the key occurs
      anywhere in the description. The corrected test: the description opens with the
      whole id line. */
  datatype MatchTest = Substring | Prefix

  /** A key and the test it is used with. */
  datatype EventQuery = EventQuery(key: string, test: MatchTest)

  /** What each test looks for when booking `id` is written: the program looks for
      `ＩＤ：<id>`, the corrected job for `ＩＤ：<id>` and the line break after it. */
  function QueryFor(test: MatchTest, id: int): (q: EventQuery)
    ensures q.test == test
    ensures test == Substring ==> q.key == EventKey(id)
    ensures test == Prefix ==> q.key == IdLine(id)
  {
    match test
    case Substring => EventQuery(EventKey(id), Substring)
    case Prefix => EventQuery(IdLine(id), Prefix)
  }

  predicate Matches(e: Event, q: EventQuery) {
    match q.test
    case Substring => Contains(e.body.description, q.key)
    case Prefix => StartsWith(e.body.description, q.key)
  }

  /** The events taken for the booking's, in listing order. The list query's `q=` search
      on the server is taken to return every event, so this test alone decides. */
  function Matching(es: seq<Event>, q: EventQuery): (r: seq<Event>)
    ensures |r| <= |es|
    ensures forall e :: e in r <==> e in es && Matches(e, q)
    ensures UniqueEventIds(es) ==> UniqueEventIds(r)
  {
    if |es| == 0 then []
    else
      var rest := Matching(es[1..], q);
      assert forall e :: e in es <==> e == es[0] || e in es[1..];
      if Matches(es[0], q) then
        assert UniqueEventIds(es) ==> forall k :: 0 <= k < |rest| ==> rest[k] in es[1..];
        [es[0]] + rest
      else rest
  }

  /** A booking's own event body is taken for the booking's under either test. */
  lemma OwnBodyMatches(b: Booking, test: MatchTest, x: nat)
    requires EventBodyOf(b).Ok?
    ensures Matches(Event(x, EventBodyOf(b).value), QueryFor(test, b.bookingId))
  {
    var d := EventBodyOf(b).value.description;
    if test == Substring {
      assert EventKey(b.bookingId) <= IdLine(b.bookingId) <= d;
    }
  }

  /** The key of booking 4 is found inside the description of booking 42. */
  lemma SubstringKeyCollides(b: Booking)
    requires b.bookingId == 42 && EventBodyOf(b).Ok?
    ensures Contains(EventBodyOf(b).value.description, EventKey(4))
  {
    var d := EventBodyOf(b).value.description;
    assert IntToString(42) == "42" by {
      assert NatToString(42) == NatToString(4) + [DigitChar(2)];
    }
    assert IntToString(4) == "4";
    assert d[..|EventKey(4)|] == EventKey(4) by {
      assert IdLine(42)[..|EventKey(4)|] == EventKey(4);
    }
    ContainsAt(d, EventKey(4), 0);
  }

  /** A description opens with at most one id line. */
  lemma {:induction false} OwnLineOnly(d: string, i: int, j: int)
    requires StartsWith(d, IdLine(i)) && i != j
    ensures !StartsWith(d, IdLine(j))
  {
    if StartsWith(d, IdLine(j)) {
      IntToStringPlain(i);
      IntToStringPlain(j);
      LineUnique(d, IdWord + [Colon], IntToString(i), IntToString(j));
      IntToStringInjective(i, j);
      assert false;
    }
  }

  /** Two lines opening a text after the same prefix are the same line. */
  lemma LineUnique(s: string, p: string, a: string, c: string)
    requires StartsWith(s, p + a + "\n") && StartsWith(s, p + c + "\n")
    requires '\n' !in a && '\n' !in c
    ensures a == c
  {
    var n := |p|;
    assert s[n + |a|] == (p + a + "\n")[n + |a|] == '\n';
    assert s[n + |c|] == (p + c + "\n")[n + |c|] == '\n';
    assert forall k :: n <= k < n + |a| ==> s[k] == (p + a + "\n")[k] == a[k - n];
    assert forall k :: n <= k < n + |c| ==> s[k] == (p + c + "\n")[k] == c[k - n];
    assert |a| == |c|;
    assert a == s[n..n + |a|] == c;
  }

  /** With the corrected test, a booking's event is matched by its own id and by no other. */
  lemma MatchesOwnIdOnly(b: Booking, e: Event, id: int)
    requires EventBodyOf(b).Ok? && e.body == EventBodyOf(b).value
    ensures Matches(e, QueryFor(Prefix, id)) <==> id == b.bookingId
  {
    if id != b.bookingId {
      IntToStringPlain(b.bookingId);
      IntToStringPlain(id);
      OwnLineOnly(e.body.description, b.bookingId, id);
    }
  }

  // ---------------------------------------------------------------------------
  // The write plan of one booking
  // ---------------------------------------------------------------------------

  datatype Op = Delete(eventId: nat) | Update(eventId: nat, body: EventBody) | Insert(body: EventBody)

  function DeleteOps(es: seq<Event>): (r: seq<Op>)
    ensures |r| == |es| && forall k :: 0 <= k < |r| ==> r[k] == Delete(es[k].id)
  {
    if |es| == 0 then [] else [Delete(es[0].id)] + DeleteOps(es[1..])
  }

  /** The calls for one booking given the events found for it: a canceled booking deletes
      them all (none at all when there are none); a live one deletes all but the last
      and updates the last, or inserts one event when there are none. */
  function Plan(canceled: bool, existing: seq<Event>, body: EventBody): (r: seq<Op>)
    ensures canceled ==> |r| == |existing|
    ensures !canceled ==> |r| == if |existing| == 0 then 1 else |existing|
  {
    if canceled then DeleteOps(existing)
    else if |existing| == 0 then [Insert(body)]
    else DeleteOps(existing[..|existing| - 1]) + [Update(existing[|existing| - 1].id, body)]
  }

  /** The events without the one of id `id`. */
  function Without(es: seq<Event>, id: nat): (r: seq<Event>)
    ensures forall e :: e in r <==> e in es && e.id != id
    ensures UniqueEventIds(es) ==> UniqueEventIds(r)
  {
    if |es| == 0 then []
    else
      var rest := Without(es[1..], id);
      assert forall e :: e in es <==> e == es[0] || e in es[1..];
      if es[0].id == id then rest
      else
        assert UniqueEventIds(es) ==> forall k :: 0 <= k < |rest| ==> rest[k] in es[1..];
        [es[0]] + rest
  }

  /** The events with the body of the one of id `id` replaced. */
  function Replace(es: seq<Event>, id: nat, body: EventBody): (r: seq<Event>)
    ensures |r| == |es|
    ensures forall k :: 0 <= k < |r| ==> r[k] == if es[k].id == id then Event(id, body) else es[k]
  {
    if |es| == 0 then []
    else [if es[0].id == id then Event(id, body) else es[0]] + Replace(es[1..], id, body)
  }

  function ApplyOp(cal: EventCalendar, op: Op): (r: EventCalendar) {
    match op
    case Delete(id) => cal.(events := Without(cal.events, id))
    case Update(id, body) => cal.(events := Replace(cal.events, id, body))
    case Insert(body) => EventCalendar(cal.events + [Event(cal.nextId, body)], cal.nextId + 1)
  }

  /** The calendar after the calls, in order. */
  function Apply(cal: EventCalendar, ops: seq<Op>): (r: EventCalendar)
    decreases |ops|
  {
    if |ops| == 0 then cal else Apply(ApplyOp(cal, ops[0]), ops[1..])
  }

  lemma {:induction false} ApplyAppend(cal: EventCalendar, a: seq<Op>, b: seq<Op>)
    ensures Apply(cal, a + b) == Apply(Apply(cal, a), b)
    decreases |a|
  {
    if |a| == 0 {
      assert a + b == b;
    } else {
      assert (a + b)[1..] == a[1..] + b;
      ApplyAppend(ApplyOp(cal, a[0]), a[1..], b);
    }
  }

  function IdsOf(es: seq<Event>): set<nat> {
    set e | e in es :: e.id
  }

  /** Deleting a list of events removes exactly the events with their ids and keeps the
      calendar valid. */
  lemma {:induction false} DeleteAllEffect(cal: EventCalendar, del: seq<Event>)
    requires CalendarValid(cal)
    ensures var r := Apply(cal, DeleteOps(del));
      CalendarValid(r) && r.nextId == cal.nextId
      && forall e :: e in r.events <==> e in cal.events && e.id !in IdsOf(del)
    decreases |del|
  {
    if |del| > 0 {
      var cal1 := ApplyOp(cal, Delete(del[0].id));
      assert DeleteOps(del)[1..] == DeleteOps(del[1..]);
      assert forall k :: 0 <= k < |cal1.events| ==> cal1.events[k] in cal.events;
      DeleteAllEffect(cal1, del[1..]);
      assert forall e :: e in del <==> e == del[0] || e in del[1..];
    }
  }

  /** A canceled booking leaves no event of its own, and every other event as it was. */
  lemma CanceledEffect(cal: EventCalendar, q: EventQuery, body: EventBody)
    requires CalendarValid(cal)
    ensures var r := Apply(cal, Plan(true, Matching(cal.events, q), body));
      CalendarValid(r) && Matching(r.events, q) == []
      && forall e :: e in r.events <==> e in cal.events && !Matches(e, q)
  {
    var m := Matching(cal.events, q);
    DeleteAllEffect(cal, m);
    var r := Apply(cal, DeleteOps(m));
    forall e | e in cal.events
      ensures e.id in IdsOf(m) <==> Matches(e, q)
    {
      if e.id in IdsOf(m) {
        var e' :| e' in m && e'.id == e.id;
        SameIdSameEvent(cal.events, e, e');
      }
    }
    NoneMatching(r.events, q);
  }

  lemma NoneMatching(es: seq<Event>, q: EventQuery)
    requires forall e :: e in es ==> !Matches(e, q)
    ensures Matching(es, q) == []
  {
    var m := Matching(es, q);
    assert forall k :: 0 <= k < |m| ==> m[k] in m;
  }

  /** A live booking with no event gets exactly one new event, and nothing else changes. */
  lemma InsertEffect(cal: EventCalendar, q: EventQuery, body: EventBody)
    requires CalendarValid(cal) && Matching(cal.events, q) == []
    ensures var r := Apply(cal, Plan(false, [], body));
      CalendarValid(r) && r.events == cal.events + [Event(cal.nextId, body)]
  {
  }

  /** A live booking with events keeps only the last of them, with the new body; nothing
      else changes. */
  lemma UpdateEffect(cal: EventCalendar, q: EventQuery, body: EventBody)
    requires CalendarValid(cal) && |Matching(cal.events, q)| > 0
    ensures var m := Matching(cal.events, q); var last := m[|m| - 1];
      var r := Apply(cal, Plan(false, m, body));
      CalendarValid(r) && Event(last.id, body) in r.events
      && forall e :: e in r.events <==> e == Event(last.id, body) || (e in cal.events && !Matches(e, q))
  {
    var m := Matching(cal.events, q);
    var last := m[|m| - 1];
    var front := m[..|m| - 1];
    ApplyAppend(cal, DeleteOps(front), [Update(last.id, body)]);
    DeleteAllEffect(cal, front);
    var cal1 := Apply(cal, DeleteOps(front));
    DuplicatesDeleted(cal, q);
    ReplaceEffect(cal1, last, body);
    var r := cal1.(events := Replace(cal1.events, last.id, body));
    assert [Update(last.id, body)][1..] == [];
    assert Apply(cal1, [Update(last.id, body)]) == Apply(r, []) == r;
  }

  /** Deleting all the booking's events but the last leaves that one as the only event of
      the booking, and every other event in place. */
  lemma DuplicatesDeleted(cal: EventCalendar, q: EventQuery)
    requires CalendarValid(cal) && |Matching(cal.events, q)| > 0
    ensures var m := Matching(cal.events, q); var last := m[|m| - 1];
      var cal1 := Apply(cal, DeleteOps(m[..|m| - 1]));
      last in cal1.events
      && (forall e :: e in cal1.events && Matches(e, q) ==> e == last)
      && (forall e :: e in cal.events && !Matches(e, q) ==> e in cal1.events && e.id != last.id)
  {
    var m := Matching(cal.events, q);
    DeleteAllEffect(cal, m[..|m| - 1]);
    LastSurvives(cal, q);
    OnlyLastMatches(cal, q);
    OthersSurvive(cal, q);
  }

  lemma LastSurvives(cal: EventCalendar, q: EventQuery)
    requires CalendarValid(cal) && |Matching(cal.events, q)| > 0
    ensures var m := Matching(cal.events, q);
      m[|m| - 1] in cal.events && m[|m| - 1].id !in IdsOf(m[..|m| - 1])
  {
    var m := Matching(cal.events, q);
    var last := m[|m| - 1];
    var front := m[..|m| - 1];
    assert last in m;
    assert forall k :: 0 <= k < |front| ==> front[k] == m[k] && front[k].id != last.id;
  }

  lemma OnlyLastMatches(cal: EventCalendar, q: EventQuery)
    requires CalendarValid(cal) && |Matching(cal.events, q)| > 0
    ensures var m := Matching(cal.events, q);
      forall e :: e in cal.events && Matches(e, q) && e.id !in IdsOf(m[..|m| - 1]) ==> e == m[|m| - 1]
  {
    var m := Matching(cal.events, q);
    var front := m[..|m| - 1];
    forall e | e in cal.events && Matches(e, q) && e.id !in IdsOf(front)
      ensures e == m[|m| - 1]
    {
      assert e in m;
      var k :| 0 <= k < |m| && m[k] == e;
      assert k < |m| - 1 ==> e in front;
    }
  }

  lemma OthersSurvive(cal: EventCalendar, q: EventQuery)
    requires CalendarValid(cal) && |Matching(cal.events, q)| > 0
    ensures var m := Matching(cal.events, q);
      forall e :: e in cal.events && !Matches(e, q) ==> e.id !in IdsOf(m[..|m| - 1]) && e.id != m[|m| - 1].id
  {
    var m := Matching(cal.events, q);
    var front := m[..|m| - 1];
    forall e | e in cal.events && !Matches(e, q)
      ensures e.id !in IdsOf(front) && e.id != m[|m| - 1].id
    {
      assert forall x :: x in front ==> x in m;
      NotAmongMatches(cal.events, q, e, front);
      assert m[|m| - 1] in m;
      NotAmongMatches(cal.events, q, e, [m[|m| - 1]]);
      assert m[|m| - 1].id in IdsOf([m[|m| - 1]]);
    }
  }

  /** An event that is not the booking's shares no id with the booking's events. */
  lemma NotAmongMatches(es: seq<Event>, q: EventQuery, e: Event, ms: seq<Event>)
    requires UniqueEventIds(es) && e in es && !Matches(e, q)
    requires forall x :: x in ms ==> x in es && Matches(x, q)
    ensures e.id !in IdsOf(ms)
  {
    forall x | x in ms ensures x.id != e.id {
      if x.id == e.id {
        SameIdSameEvent(es, e, x);
      }
    }
  }

  /** Replacing the body of the one event of an id in a valid calendar. */
  lemma ReplaceEffect(cal: EventCalendar, target: Event, body: EventBody)
    requires CalendarValid(cal) && target in cal.events
    ensures var r := cal.(events := Replace(cal.events, target.id, body));
      CalendarValid(r) && Event(target.id, body) in r.events
      && forall e :: e in r.events <==> e == Event(target.id, body) || (e in cal.events && e.id != target.id)
  {
    var es := Replace(cal.events, target.id, body);
    assert forall k :: 0 <= k < |es| ==> es[k].id == cal.events[k].id;
    forall e
      ensures e in es <==> e == Event(target.id, body) || (e in cal.events && e.id != target.id)
    {
      ReplaceMember(cal.events, target, body, e);
    }
  }

  /** The events after a replacement: the new one, and the others of another id. */
  lemma ReplaceMember(es: seq<Event>, target: Event, body: EventBody, e: Event)
    requires target in es
    ensures e in Replace(es, target.id, body) <==> e == Event(target.id, body) || (e in es && e.id != target.id)
  {
    var r := Replace(es, target.id, body);
    if e in r {
      var k :| 0 <= k < |r| && r[k] == e;
      assert r[k] == if es[k].id == target.id then Event(target.id, body) else es[k];
    }
    if e == Event(target.id, body) {
      var k :| 0 <= k < |es| && es[k] == target;
      assert r[k] == e;
    } else if e in es && e.id != target.id {
      var j :| 0 <= j < |es| && es[j] == e;
      assert r[j] == e;
    }
  }

  /** After a live booking's calls, exactly one of the calendar's events is the booking's,
      and it holds the new body: the last event found when there were some, a new one
      otherwise. After a canceled booking's calls, none is. Every event that was not the
      booking's is left as it was. */
  lemma PlanEffect(cal: EventCalendar, q: EventQuery, canceled: bool, body: EventBody)
    requires CalendarValid(cal) && Matches(Event(cal.nextId, body), q)
    ensures var m := Matching(cal.events, q);
      var r := Apply(cal, Plan(canceled, m, body));
      CalendarValid(r)
      && (forall e :: e in cal.events && !Matches(e, q) ==> e in r.events)
      && (canceled ==> Matching(r.events, q) == [])
      && (!canceled ==> |Matching(r.events, q)| == 1 && Matching(r.events, q)[0].body == body)
      && (!canceled && |m| > 0 ==> Matching(r.events, q)[0].id == m[|m| - 1].id)
      && (!canceled && |m| == 0 ==> Matching(r.events, q)[0].id == cal.nextId)
  {
    var m := Matching(cal.events, q);
    var r := Apply(cal, Plan(canceled, m, body));
    if canceled {
      CanceledEffect(cal, q, body);
    } else if |m| == 0 {
      InsertEffect(cal, q, body);
      forall e | e in cal.events ensures !Matches(e, q) {
      }
      OnlyMatch(r.events, q, Event(cal.nextId, body));
    } else {
      UpdateEffect(cal, q, body);
      OnlyMatch(r.events, q, Event(m[|m| - 1].id, body));
    }
  }

  /** When one event is the only one matching, the match list is that event alone. */
  lemma {:induction false} OnlyMatch(es: seq<Event>, q: EventQuery, x: Event)
    requires UniqueEventIds(es) && x in es && Matches(x, q)
    requires forall e :: e in es && Matches(e, q) ==> e == x
    ensures Matching(es, q) == [x]
    decreases |es|
  {
    var tail := es[1..];
    assert forall e :: e in es <==> e == es[0] || e in tail;
    assert UniqueEventIds(tail) by {
      assert forall i, j :: 0 <= i < j < |tail| ==> tail[i] == es[i + 1] && tail[j] == es[j + 1];
    }
    if es[0] == x {
      forall e | e in tail
        ensures !Matches(e, q)
      {
        var j :| 0 <= j < |tail| && tail[j] == e;
        assert es[j + 1] == e && es[0].id != es[j + 1].id;
      }
      NoneMatching(tail, q);
    } else {
      OnlyMatch(tail, q, x);
    }
  }

  // ---------------------------------------------------------------------------
  // The job
  // ---------------------------------------------------------------------------

  /** Every call keeps event ids unique and below the next id. */
  lemma {:induction false} ApplyKeepsValid(cal: EventCalendar, ops: seq<Op>)
    requires CalendarValid(cal)
    ensures CalendarValid(Apply(cal, ops))
    decreases |ops|
  {
    if |ops| > 0 {
      var cal1 := ApplyOp(cal, ops[0]);
      assert CalendarValid(cal1) by {
        match ops[0]
        case Delete(id) =>
          assert forall k :: 0 <= k < |cal1.events| ==> cal1.events[k] in cal.events;
        case Update(id, body) =>
        case Insert(body) =>
      }
      ApplyKeepsValid(cal1, ops[1..]);
    }
  }

  /** Where the calendar client raises: at call `call` for the booking at position
      `booking`, counting the list query as call 0 and the planned calls from 1. */
  datatype FailPoint = FailPoint(booking: nat, call: nat)

  datatype CalendarApi = CalendarApi(failsAt: Option<FailPoint>)

  predicate FailsOn(api: CalendarApi, k: nat) {
    api.failsAt.Some? && api.failsAt.value.booking == k
  }

  /** The planned calls for a booking against the calendar as it stands, with the events
      that `test` takes for the booking's. */
  function PlanFor(cal: EventCalendar, b: Booking, body: EventBody, test: MatchTest): seq<Op> {
    Plan(b.status == StatusCanceled, Matching(cal.events, QueryFor(test, b.bookingId)), body)
  }

  /** One booking's writes, given its event body as `EventBodyOf` builds it (a raise there
      aborts before any call): list the booking's events, then make the planned calls; a
      raising call leaves the calls before it done. */
  function WriteBooking(cal: EventCalendar, b: Booking, body: Result<EventBody>, k: nat, api: CalendarApi,
                        test: MatchTest)
    : (r: (EventCalendar, bool))
    requires CalendarValid(cal)
    ensures CalendarValid(r.0)
    ensures body.Err? ==> r == (cal, false)
    ensures body.Ok? && !FailsOn(api, k) ==> r.1
    ensures !r.1 ==> body.Err? || FailsOn(api, k)
    ensures r.1 ==> body.Ok?
  {
    match body
    case Err(_) => (cal, false)
    case Ok(body) =>
      var ops := PlanFor(cal, b, body, test);
      ApplyKeepsValid(cal, ops);
      if FailsOn(api, k) && api.failsAt.value.call <= |ops| then
        var call := api.failsAt.value.call;
        ApplyKeepsValid(cal, ops[..if call == 0 then 0 else call - 1]);
        (Apply(cal, ops[..if call == 0 then 0 else call - 1]), false)
      else (Apply(cal, ops), true)
  }

  /** A booking whose writes all went through leaves the calendar its plan makes. */
  lemma WriteBookingApplies(cal: EventCalendar, b: Booking, body: Result<EventBody>, k: nat, api: CalendarApi,
                            test: MatchTest)
    requires CalendarValid(cal) && WriteBooking(cal, b, body, k, api, test).1
    ensures WriteBooking(cal, b, body, k, api, test).0 == Apply(cal, PlanFor(cal, b, body.value, test))
  {
  }

  function Bodies(bs: seq<Booking>): (r: seq<Result<EventBody>>)
    ensures |r| == |bs| && forall j :: 0 <= j < |bs| ==> r[j] == EventBodyOf(bs[j])
  {
    if |bs| == 0 then [] else [EventBodyOf(bs[0])] + Bodies(bs[1..])
  }

  /** `write_bookings_to_google_calendar`: each booking in turn; the first failing booking
      re-raises and the rest are not written. */
  function WriteBookings(cal: EventCalendar, bs: seq<Booking>, bodies: seq<Result<EventBody>>, api: CalendarApi,
                         k: nat, test: MatchTest)
    : (r: (EventCalendar, bool))
    requires CalendarValid(cal) && |bodies| == |bs|
    ensures CalendarValid(r.0)
    ensures Clear(bodies, api, k) ==> r.1
    ensures r.1 ==> AllOk(bodies)
    decreases |bs|
  {
    if |bs| == 0 then (cal, true)
    else
      var (cal1, ok) := WriteBooking(cal, bs[0], bodies[0], k, api, test);
      ShiftBodies(bodies, api, k);
      if !ok then (cal1, false)
      else
        WriteBookings(cal1, bs[1..], bodies[1..], api, k + 1, test)
  }

  /** Every body was built and no call raises for the bookings from position `k` on. */
  predicate Clear(bodies: seq<Result<EventBody>>, api: CalendarApi, k: nat) {
    forall j :: 0 <= j < |bodies| ==> bodies[j].Ok? && !FailsOn(api, k + j)
  }

  predicate AllOk(bodies: seq<Result<EventBody>>) {
    forall j :: 0 <= j < |bodies| ==> bodies[j].Ok?
  }

  /** `Clear` and `AllOk` of a list, from its head and its tail. */
  lemma ShiftBodies(bodies: seq<Result<EventBody>>, api: CalendarApi, k: nat)
    requires |bodies| > 0
    ensures Clear(bodies, api, k) <==> bodies[0].Ok? && !FailsOn(api, k) && Clear(bodies[1..], api, k + 1)
    ensures AllOk(bodies) <==> bodies[0].Ok? && AllOk(bodies[1..])
  {
    assert forall j :: 1 <= j < |bodies| ==> bodies[j] == bodies[1..][j - 1] && k + j == k + 1 + (j - 1);
  }

  datatype CalendarPassResult = CalendarPassResult(bound: Time, success: bool, db: Db, cal: EventCalendar)

  /** The pass once the database side is known: nothing to write when no booking changed;
      otherwise the writes, whose failure makes the pass unsuccessful. The sync record
      lists every fetched id either way. */
  function CalendarPass(db: Db, cal: EventCalendar, ds: seq<Booking>, bound: Time, api: CalendarApi, now: Time,
                        test: MatchTest)
    : (r: CalendarPassResult)
    requires CalendarValid(cal)
    ensures CalendarValid(r.cal) && r.bound == bound
    ensures |ds| == 0 ==> r.success && r.cal == cal
    ensures (forall j :: 0 <= j < |ds| ==> EventBodyOf(ds[j]).Ok? && !FailsOn(api, j)) ==> r.success
    ensures r.db == db.(syncRecords := db.syncRecords
                          + [SyncRecord(CalendarSyncType, JoinIds(Ids(ds)), r.success, None, now)])
  {
    var (cal1, ok) := if |ds| == 0 then (cal, true) else WriteBookings(cal, ds, Bodies(ds), api, 0, test);
    var logged := LogSyncRecord(db, CalendarSyncType, Ids(ds), ok, None, now).0;
    assert logged.syncRecords == logged.syncRecords[..|db.syncRecords|] + [logged.syncRecords[|db.syncRecords|]];
    CalendarPassResult(bound, ok, logged, cal1)
  }

  /** A successful pass over one booking leaves its events as the plan intends, for the
      events the test takes for the booking's: one of them, holding its body, when it is
      live; none when it is canceled. Every event the test does not take is left as it
      was. With the program's test, "not taken" means the description does not contain
      `ＩＤ：<id>` anywhere. */
  lemma OneBookingPass(db: Db, cal: EventCalendar, b: Booking, bound: Time, api: CalendarApi, now: Time,
                       test: MatchTest)
    requires CalendarValid(cal) && CalendarPass(db, cal, [b], bound, api, now, test).success
    ensures EventBodyOf(b).Ok?
    ensures var r := CalendarPass(db, cal, [b], bound, api, now, test).cal; var q := QueryFor(test, b.bookingId);
      (forall e :: e in cal.events && !Matches(e, q) ==> e in r.events)
      && (b.status == StatusCanceled ==> Matching(r.events, q) == [])
      && (b.status != StatusCanceled ==>
            |Matching(r.events, q)| == 1 && Matching(r.events, q)[0].body == EventBodyOf(b).value)
  {
    var bodies := Bodies([b]);
    var (cal1, ok) := WriteBooking(cal, b, bodies[0], 0, api, test);
    assert [b][1..] == [] && bodies[1..] == [];
    assert WriteBookings(cal, [b], bodies, api, 0, test) == WriteBookings(cal1, [], [], api, 1, test);
    WriteBookingApplies(cal, b, bodies[0], 0, api, test);
    OwnBodyMatches(b, test, cal.nextId);
    PlanEffect(cal, QueryFor(test, b.bookingId), b.status == StatusCanceled, EventBodyOf(b).value);
  }

  /** With the corrected test, a successful pass over one booking keeps every event that
      opens with another booking's id line. */
  lemma CorrectedPassKeepsOthers(db: Db, cal: EventCalendar, b: Booking, bound: Time, api: CalendarApi, now: Time)
    requires CalendarValid(cal) && CalendarPass(db, cal, [b], bound, api, now, Prefix).success
    ensures forall e, j ::
              e in cal.events && StartsWith(e.body.description, IdLine(j)) && j != b.bookingId
              ==> e in CalendarPass(db, cal, [b], bound, api, now, Prefix).cal.events
  {
    OneBookingPass(db, cal, b, bound, api, now, Prefix);
    forall e, j | e in cal.events && StartsWith(e.body.description, IdLine(j)) && j != b.bookingId
      ensures !Matches(e, QueryFor(Prefix, b.bookingId))
    {
      OwnLineOnly(e.body.description, j, b.bookingId);
    }
  }

  /** The program's pass: syncing live booking 4 into a calendar that holds only booking
      42's event takes that event for booking 4's own and overwrites it, so no event
      describes booking 42 afterwards. */
  lemma AsWrittenOverwritesOtherBooking(db: Db, b42: Booking, b4: Booking, id: nat, bound: Time, now: Time)
    requires b42.bookingId == 42 && b4.bookingId == 4 && b4.status != StatusCanceled
    requires EventBodyOf(b42).Ok? && EventBodyOf(b4).Ok?
    ensures var cal := EventCalendar([Event(id, EventBodyOf(b42).value)], id + 1);
      var r := CalendarPass(db, cal, [b4], bound, CalendarApi(None), now, Substring);
      r.success && forall k :: 0 <= k < |r.cal.events| ==> !StartsWith(r.cal.events[k].body.description, IdLine(42))
  {
    var e := Event(id, EventBodyOf(b42).value);
    var cal0 := EventCalendar([e], id + 1);
    var api := CalendarApi(None);
    SubstringKeyCollides(b42);
    var q := QueryFor(Substring, 4);
    assert Matches(e, q);
    assert Matching([e], q) == [e] by {
      assert [e][1..] == [];
    }
    var body := EventBodyOf(b4).value;
    assert PlanFor(cal0, b4, body, Substring) == [Update(id, body)];
    var cal1 := ApplyOp(cal0, Update(id, body));
    assert cal1.events == Replace([e], id, body) == [Event(id, body)];
    assert [Update(id, body)][1..] == [];
    assert Apply(cal0, [Update(id, body)]) == Apply(cal1, []) == cal1;
    var bodies := Bodies([b4]);
    assert [b4][1..] == [] && bodies[1..] == [];
    assert WriteBooking(cal0, b4, bodies[0], 0, api, Substring) == (cal1, true);
    assert WriteBookings(cal0, [b4], bodies, api, 0, Substring) == WriteBookings(cal1, [], [], api, 1, Substring);
    OwnLineOnly(body.description, 4, 42);
  }

  /** A failed pass does not move the watermark, so the next pass fetches the same
      bookings again. */
  lemma FailedPassRetries(db: Db, cal: EventCalendar, ds: seq<Booking>, bound: Time, api: CalendarApi, now: Time,
                          test: MatchTest)
    requires CalendarValid(cal) && !CalendarPass(db, cal, ds, bound, api, now, test).success
    ensures LatestSyncTime(CalendarPass(db, cal, ds, bound, api, now, test).db, CalendarSyncType)
         == LatestSyncTime(db, CalendarSyncType)
  {
    FailedLogKeepsWatermark(db, CalendarSyncType, Ids(ds), None, now, CalendarSyncType);
  }

  /** `sync_bookings_to_google_calendar`, booking part: one pass with the program's
      substring test, returned with the database side `get_latest_bookings` gave for the
      bound. */
  method SyncToGoogleCalendar(db: Db, cal: EventCalendar, minTime: Time, api: CalendarApi, now: Time)
    returns (r: CalendarPassResult, ds: seq<Booking>)
    requires Valid(db) && CalendarValid(cal)
    ensures r.bound == SyncLowerBound(LatestSyncTime(db, CalendarSyncType), minTime)
    ensures |ds| <= 1
    ensures |ds| == 0 <==> forall id :: id in db.bookings ==> !ChangedSince(db, id, r.bound)
    ensures |ds| == 1 ==> ds[0].bookingId >= 0 && ChangedSince(db, ds[0].bookingId, r.bound)
    ensures r == CalendarPass(db, cal, ds, r.bound, api, now, Substring)
  {
    var bound := SyncLowerBound(LatestSyncTime(db, CalendarSyncType), minTime);
    ds := GetLatestBookings(db, bound);
    r := CalendarPass(db, cal, ds, bound, api, now, Substring);
  }
}

=== FILE: closure_utils.dfy ===
/** The closure text formatter: the full closure card and the Google Calendar event
    description of a room closure. */
module ClosureUtils {
  import opened Wrappers
  import opened Text
  import opened Calendar
  import opened Patterns
  import opened Records

  const ClosureHeader: string := "[關房]"
  const ClosureIdWord: string := "ＣＬＩＤ"
  const StartWord: string := "開始日期"
  const EndWord: string := "結束日期"
  const RoomWord: string := "房間"
  const ReasonWord: string := "原因"

  const ClosureWords: seq<string> := [StartWord, EndWord, RoomWord, ReasonWord]

  /** The lines of the closure card after its header, the dates already written out. */
  function ClosureEntries(start: string, end: string, rooms: string, reason: string): seq<Entry> {
    Card(ClosureWords, [start, end, rooms, reason])
  }

  function CalendarEntries(c: Closure): seq<Entry> {
    [ Entry(ClosureIdWord, IntToString(c.closureId)), Entry(ReasonWord, c.reason) ]
  }

  /** `format_closure_info(closure, variant)`: nothing for no closure; the two-line event
      description, each line terminated, for `calendar`; otherwise the header and four
      labelled lines with no final line break. */
  function FormatClosureInfo(closure: Option<Closure>, variant: string): (r: Option<string>)
    ensures r.Some? <==> closure.Some?
    ensures closure.Some? && variant != "calendar" ==> StartsWith(r.value, ClosureHeader + "\n")
    ensures closure.Some? && variant == "calendar" ==>
      StartsWith(r.value, ClosureIdWord + [Colon] + IntToString(closure.value.closureId) + "\n")
  {
    match closure
    case None => None
    case Some(c) =>
      if variant == "calendar" then
        var lines := EntryLines(CalendarEntries(c)) + [""];
        assert Join(lines, "\n") == lines[0] + "\n" + Join(lines[1..], "\n");
        Some(Join(lines, "\n"))
      else
        var lines := [ClosureHeader]
          + EntryLines(ClosureEntries(FormatDate(c.startDate, '/'), FormatDate(c.lastDate, '/'), c.roomIds, c.reason));
        assert Join(lines, "\n") == lines[0] + "\n" + Join(lines[1..], "\n");
        Some(Join(lines, "\n"))
  }

  /** Every variant other than `calendar` yields the normal card. */
  lemma OtherVariantsAreNormal(c: Option<Closure>, variant: string)
    requires variant != "calendar"
    ensures FormatClosureInfo(c, variant) == FormatClosureInfo(c, "normal")
  {
  }

  /** The event description splits into exactly the id line, the reason line and the empty
      remainder after the final line break. */
  lemma CalendarLines(c: Closure)
    requires '\n' !in c.reason
    ensures Split(FormatClosureInfo(Some(c), "calendar").value, "\n")
         == [ClosureIdWord + [Colon] + IntToString(c.closureId), ReasonWord + [Colon] + c.reason, ""]
  {
    var parts := EntryLines(CalendarEntries(c)) + [""];
    assert parts == [ClosureIdWord + [Colon] + IntToString(c.closureId), ReasonWord + [Colon] + c.reason, ""];
    IdLinePlain(c.closureId);
    CleanWithoutLeadChar(parts[0], "\n");
    CleanWithoutLeadChar(parts[1], "\n");
    SplitOfJoin(parts, "\n");
  }

  lemma IdLinePlain(id: int)
    ensures '\n' !in ClosureIdWord + [Colon] + IntToString(id)
  {
    DigitsPlain(NatToString(if id < 0 then -id else id));
    assert IntToString(id) == if id < 0 then "-" + NatToString(-id) else NatToString(id);
  }

  /** The closure card reads back: searching it for each label recovers the dates, the
      rooms and the reason, when rooms and reason are single colon-free lines. */
  lemma NormalReadsBack(c: Closure)
    requires c.startDate < MaxDay && c.lastDate < MaxDay
    requires Colon !in c.roomIds && '\n' !in c.roomIds && |c.roomIds| > 0
    requires Colon !in c.reason && '\n' !in c.reason
    ensures var text := FormatClosureInfo(Some(c), "normal").value;
      Search(text, StartWord + [Colon], SlashDate) == Some([FormatDate(c.startDate, '/')])
      && Search(text, EndWord + [Colon], SlashDate) == Some([FormatDate(c.lastDate, '/')])
      && Search(text, RoomWord + [Colon], Line) == Some([c.roomIds])
      && Search(text, ReasonWord + [Colon], OptLine) == Some([c.reason])
  {
    FormatDateShape(c.startDate, '/');
    FormatDateShape(c.lastDate, '/');
    CardReadsBack(FormatDate(c.startDate, '/'), FormatDate(c.lastDate, '/'), c.roomIds, c.reason);
  }

  lemma CardReadsBack(start: string, end: string, rooms: string, reason: string)
    requires DateShaped(start, '/') && DateShaped(end, '/')
    requires Colon !in rooms && '\n' !in rooms && |rooms| > 0
    requires Colon !in reason && '\n' !in reason
    ensures var text := Join([ClosureHeader] + EntryLines(ClosureEntries(start, end, rooms, reason)), "\n");
      Search(text, StartWord + [Colon], SlashDate) == Some([start])
      && Search(text, EndWord + [Colon], SlashDate) == Some([end])
      && Search(text, RoomWord + [Colon], Line) == Some([rooms])
      && Search(text, ReasonWord + [Colon], OptLine) == Some([reason])
  {
    var es := ClosureEntries(start, end, rooms, reason);
    ShapedDate(start);
    ShapedDate(end);
    MatchLineWhole(rooms);
    MatchLineWhole(reason);
    ClosureLabelled(start, end, rooms, reason);
    ReadEntry(ClosureHeader, es, 0, SlashDate);
    ReadEntry(ClosureHeader, es, 1, SlashDate);
    ReadEntry(ClosureHeader, es, 2, Line);
    ReadEntry(ClosureHeader, es, 3, OptLine);
  }

  lemma ClosureLabelled(start: string, end: string, rooms: string, reason: string)
    requires Colon !in start && Colon !in end && Colon !in rooms && Colon !in reason
    ensures Labelled(ClosureEntries(start, end, rooms, reason))
  {
    ClosureWordsApart();
    CardLabelled(ClosureWords, [start, end, rooms, reason]);
  }

  lemma ClosureWordsApart()
    ensures WordsApart(ClosureWords)
  {
    var ws := ClosureWords;
    assert |ws| == 4;
    forall i | 0 <= i < 4 ensures |ws[i]| > 0 && Colon !in ws[i] && '\n' !in ws[i] {
    }
    forall i, j | 0 <= i < 4 && 0 <= j < 4 && i != j ensures !EndsWith(ws[i], ws[j]) {
      TailsApart(ws[i], ws[j]);
    }
  }

  /** The dates found on the closure card parse back to the closure's own dates. */
  lemma NormalDatesParse(c: Closure)
    requires c.startDate < MaxDay && c.lastDate < MaxDay
    ensures ParseDate(FormatDate(c.startDate, '/'), '/') == Some(c.startDate)
    ensures ParseDate(FormatDate(c.lastDate, '/'), '/') == Some(c.lastDate)
  {
    MaxDayIsYear10000();
    ParseFormatRoundTrip(c.startDate, '/');
    ParseFormatRoundTrip(c.lastDate, '/');
  }
}

=== FILE: create_booking.dfy ===
/** The create-booking wizard: name, phone, check-in date, nights, rooms, total price,
    deposit, source and notes, one message each, then a confirmation that upserts the new
    booking. "Back" follows a fixed map of previous steps; cancel clears the session. */
module CreateBookingWizard {
  import opened Wrappers
  import opened Text
  import opened Calendar
  import opened Records
  import opened InputUtils
  import opened BookingUtils
  import opened BookingDao
  import opened Sessions

  /** Position of a step in the wizard. */
  function Rank(c: CreateStep): nat {
    match c
    case GetCustomerName => 0
    case GetPhoneNumber => 1
    case GetCheckInDate => 2
    case GetNumNights => 3
    case SelectRooms => 4
    case GetTotalPrice => 5
    case GetPrepayment => 6
    case SelectSource => 7
    case GetNotes => 8
    case ConfirmBooking => 9
  }

  /** `PREVIOUS_STEP`: every step but the first goes back one place, except that the rooms
      step goes back past the nights step to the check-in date. */
  function Previous(c: CreateStep): (r: Option<CreateStep>)
    ensures r.None? <==> c == GetCustomerName
    ensures c == GetNumNights || c == SelectRooms ==> r == Some(GetCheckInDate)
    ensures r.Some? && c != SelectRooms ==> Rank(r.value) + 1 == Rank(c)
  {
    match c
    case GetCustomerName => None
    case GetPhoneNumber => Some(GetCustomerName)
    case GetCheckInDate => Some(GetPhoneNumber)
    case GetNumNights => Some(GetCheckInDate)
    case SelectRooms => Some(GetCheckInDate)
    case GetTotalPrice => Some(SelectRooms)
    case GetPrepayment => Some(GetTotalPrice)
    case SelectSource => Some(GetPrepayment)
    case GetNotes => Some(SelectSource)
    case ConfirmBooking => Some(GetNotes)
  }

  /** `PREVIOUS_STEP[step]`: a step that is not a key raises KeyError. */
  function PreviousStep(step: Step): (r: Result<Step>)
    ensures r.Ok? <==> step.Create? && step.c != GetCustomerName
    ensures r.Ok? ==> r.value == Create(Previous(step.c).value)
    ensures r.Err? ==> r.fault == KeyError
  {
    if step.Create? && Previous(step.c).Some? then Ok(Create(Previous(step.c).value)) else Err(KeyError)
  }

  /** The booking the notes and confirm steps build from the draft: a new booking (id -1,
      status `new`, deposit unpaid with an empty note); a missing key raises KeyError. */
  function DraftBooking(d: Draft): (r: Result<Booking>)
    ensures r.Ok? <==> (d.customerName.Some? && d.phoneNumber.Some? && d.checkInDate.Some?
                        && d.lastDate.Some? && d.totalPrice.Some? && d.notes.Some? && d.source.Some?
                        && d.prepayment.Some? && d.roomIds.Some?)
    ensures r.Err? ==> r.fault == KeyError
  {
    var name :- Get(d.customerName);
    var phone :- Get(d.phoneNumber);
    var checkIn :- Get(d.checkInDate);
    var last :- Get(d.lastDate);
    var total :- Get(d.totalPrice);
    var notes :- Get(d.notes);
    var source :- Get(d.source);
    var prepayment :- Get(d.prepayment);
    var rooms :- Get(d.roomIds);
    Ok(Booking(-1, StatusNew, name, phone, checkIn, last, total as real, notes, source,
               prepayment as real, "", Unpaid, rooms, None, None))
  }

  /** `handle_create_booking_messages(msg, session)`. */
  function HandleCreateBooking(msg: string, s: Session, db: Db, cmds: Commands): (r: Result<Outcome>)
    ensures msg == cmds.cancel ==> r == Ok(Quit)
    ensures msg != cmds.cancel && msg == cmds.back && s.step.None? ==> r == Ok(Quit)
    ensures msg != cmds.cancel && msg == cmds.back && s.step == Some(Create(GetCustomerName)) ==>
      r == Err(KeyError)
  {
    if msg == cmds.cancel then Ok(Quit)
    else if msg == cmds.back then
      match s.step
      case None => Ok(Quit)
      case Some(step) =>
        var prev :- PreviousStep(step);
        var data :- if prev == Create(SelectRooms) then ResetRooms(s.data) else Ok(s.data);
        CreateAt(s.(step := Some(prev), data := data), msg, true, db, cmds)
    else CreateAt(s, msg, false, db, cmds)
  }

  /** The branch for the session's step; a step of another wizard matches no branch. */
  function CreateAt(s: Session, msg: string, isPrev: bool, db: Db, cmds: Commands): Result<Outcome> {
    match s.step
    case Some(Create(c)) => CreateInput(c, s, msg, isPrev, db, cmds)
    case _ => Ok(Stay(s))
  }

  /** One message at step `c`; `isPrev` when "back" has just landed here. */
  function CreateInput(c: CreateStep, s: Session, msg: string, isPrev: bool, db: Db, cmds: Commands): Result<Outcome> {
    match c
    case GetCustomerName => NameStep(s, msg, isPrev)
    case GetPhoneNumber => PhoneStep(s, msg, isPrev)
    case GetCheckInDate => CheckInStep(s, msg, isPrev)
    case GetNumNights => NightsStep(s, msg)
    case SelectRooms => RoomsStep(s, msg, isPrev, db, cmds)
    case GetTotalPrice => TotalStep(s, msg, isPrev)
    case GetPrepayment => PrepaymentStep(s, msg, isPrev)
    case SelectSource => SourceStep(s, msg, isPrev)
    case GetNotes => NotesStep(s, msg, isPrev, cmds)
    case ConfirmBooking => ConfirmStep(s, msg, cmds)
  }

  function NameStep(s: Session, msg: string, isPrev: bool): Result<Outcome> {
    if isPrev || msg == "" then Ok(Stay(s))
    else
      var d :- DraftOf(s.data);
      Ok(Move(s, Create(GetPhoneNumber), d.(customerName := Some(msg))))
  }

  /** The phone is stored as typed, without the '+886' rewrite. */
  function PhoneStep(s: Session, msg: string, isPrev: bool): Result<Outcome> {
    if isPrev || !IsValidPhoneNumber(msg) then Ok(Stay(s))
    else
      var d :- DraftOf(s.data);
      Ok(Move(s, Create(GetCheckInDate), d.(phoneNumber := Some(msg))))
  }

  function CheckInStep(s: Session, msg: string, isPrev: bool): Result<Outcome> {
    if isPrev || !IsValidDate(msg) then Ok(Stay(s))
    else
      var d :- DraftOf(s.data);
      Ok(Move(s, Create(GetNumNights), d.(checkInDate := ParseDate(msg, '-'))))
  }

  /** No step goes back to the nights step, and this one does not test `isPrev`. */
  function NightsStep(s: Session, msg: string): Result<Outcome> {
    if !IsValidNumNights(msg) then Ok(Stay(s))
    else
      var d :- DraftOf(s.data);
      var first :- Get(d.checkInDate);
      var last :- LastNight(first, msg);
      Ok(Move(s, Create(SelectRooms),
              d.(numNights := Some(DigitsValue(msg)), lastDate := Some(last), roomIds := Some(""))))
  }

  /** Both branches read the dates (as arguments of the availability query or of the price
      estimate); every other message than the finish command reads the chosen rooms (the
      re-prompt shows them), and a room is appended after the tests of `RoomAcceptable`
      only. */
  function RoomsStep(s: Session, msg: string, isPrev: bool, db: Db, cmds: Commands): Result<Outcome> {
    var d :- DraftOf(s.data);
    var checkIn :- Get(d.checkInDate);
    var last :- Get(d.lastDate);
    if msg != cmds.roomsFinish then
      var chosen :- Get(d.roomIds);
      if isPrev || !RoomAcceptable(db, chosen, msg) then Ok(Stay(s))
      else Ok(Move(s, Create(SelectRooms), d.(roomIds := Some(chosen + msg))))
    else
      var _ :- Get(d.roomIds);
      Ok(Move(s, Create(GetTotalPrice), d))
  }

  /** The re-prompt reads the rooms and dates for its price estimate. */
  function TotalStep(s: Session, msg: string, isPrev: bool): Result<Outcome> {
    var d :- DraftOf(s.data);
    if isPrev || !IsValidPrice(msg) then
      var _ :- Get(d.roomIds);
      var _ :- Get(d.checkInDate);
      var _ :- Get(d.lastDate);
      Ok(Stay(s))
    else
      Ok(Move(s, Create(GetPrepayment), d.(totalPrice := Some(DigitsValue(msg)))))
  }

  /** The re-prompt reads the total price for its deposit suggestion. */
  function PrepaymentStep(s: Session, msg: string, isPrev: bool): Result<Outcome> {
    var d :- DraftOf(s.data);
    if isPrev || !IsValidPrice(msg) then
      var _ :- Get(d.totalPrice);
      Ok(Stay(s))
    else
      Ok(Move(s, Create(SelectSource), d.(prepayment := Some(DigitsValue(msg)))))
  }

  function SourceStep(s: Session, msg: string, isPrev: bool): Result<Outcome> {
    if isPrev || msg !in ValidBookingSources then Ok(Stay(s))
    else
      var d :- DraftOf(s.data);
      Ok(Move(s, Create(GetNotes), d.(source := Some(msg))))
  }

  /** The notes (empty for the finish command), then the booking's preview
      `format_booking_info(booking, 'normal')`. Of the preview only its failure matters
      here, and for the unpaid booking it builds that is exactly an overflowing check-out
      date (`PreviewFailsOnOverflow`). */
  function NotesStep(s: Session, msg: string, isPrev: bool, cmds: Commands): Result<Outcome> {
    if isPrev then Ok(Stay(s))
    else
      var d0 :- DraftOf(s.data);
      var d := d0.(notes := Some(if msg == cmds.notesFinish then "" else msg));
      var b :- DraftBooking(d);
      var _ :- AddDays(b.lastDate, 1);
      Ok(Move(s, Create(ConfirmBooking), d))
  }

  function ConfirmStep(s: Session, msg: string, cmds: Commands): Result<Outcome> {
    if msg != cmds.confirmBooking then Ok(Stay(s))
    else
      var d :- DraftOf(s.data);
      var b :- DraftBooking(d);
      Ok(Outcome(Cleared, Upsert(b), Silent))
  }

  // ---------------------------------------------------------------------------
  // What a step accepts, and the keys a step can rely on
  // ---------------------------------------------------------------------------

  /** The answer each step accepts: a non-empty name, a valid phone, a valid Y-m-d date, a
      night count of 1 to 15, a room of the table not chosen yet (or the finish command), a
      price of 0 to 100000, a known source, any note, and the confirm command. */
  predicate Accepts(c: CreateStep, msg: string, db: Db, chosen: string, cmds: Commands) {
    match c
    case GetCustomerName => msg != ""
    case GetPhoneNumber => IsValidPhoneNumber(msg)
    case GetCheckInDate => IsValidDate(msg)
    case GetNumNights => IsValidNumNights(msg)
    case SelectRooms => msg == cmds.roomsFinish || RoomAcceptable(db, chosen, msg)
    case GetTotalPrice => IsValidPrice(msg)
    case GetPrepayment => IsValidPrice(msg)
    case SelectSource => msg in ValidBookingSources
    case GetNotes => true
    case ConfirmBooking => msg == cmds.confirmBooking
  }

  /** What the wizard has collected by the time it waits at `c`: every earlier step's key,
      and, from the rooms step on, a stay of 1 to 15 nights ending on the last date and a
      room choice without duplicates. */
  predicate Ready(c: CreateStep, d: Draft) {
    (Rank(c) >= 1 ==> d.customerName.Some?)
    && (Rank(c) >= 2 ==> d.phoneNumber.Some?)
    && (Rank(c) >= 3 ==> d.checkInDate.Some?)
    && (Rank(c) >= 4 ==>
          d.numNights.Some? && d.lastDate.Some? && d.roomIds.Some?
          && d.checkInDate.value <= d.lastDate.value
          && d.numNights.value == d.lastDate.value - d.checkInDate.value + 1 <= 15
          && NoDuplicates(d.roomIds.value))
    && (Rank(c) >= 6 ==> d.totalPrice.Some?)
    && (Rank(c) >= 7 ==> d.prepayment.Some?)
    && (Rank(c) >= 8 ==> d.source.Some?)
    && (Rank(c) >= 9 ==> d.notes.Some?)
  }

  /** A session this wizard runs, holding what its step relies on. */
  predicate Wf(s: Session) {
    s.flow == Some(CreateBookingFlow) && s.step.Some? && s.step.value.Create?
    && s.data.Fields? && Ready(s.step.value.c, s.data.draft)
  }

  /** The command strings that must differ for the wizard to tell them apart. */
  predicate DistinctCommands(cmds: Commands) {
    cmds.cancel != cmds.back && cmds.back != cmds.roomsFinish && cmds.back != cmds.confirmBooking
    && cmds.cancel != cmds.confirmBooking && cmds.cancel != cmds.roomsFinish
    && cmds.cancel != cmds.notesFinish && cmds.back != cmds.notesFinish
  }

  // ---------------------------------------------------------------------------
  // Properties
  // ---------------------------------------------------------------------------

  /** What the wizard promises for one message (neither cancel nor back) at step `c` of a
      session it runs: an answer the step does not accept leaves the session as it is; an
      accepted one moves one step on (a room stays at the rooms step to take another, the
      confirmation clears the session) and keeps what the next step relies on. The only
      exception is a date past 9999-12-31, which the nights step (the last night) and the
      notes step (the check-out date of the preview) can raise. */
  predicate Promised(c: CreateStep, msg: string, s: Session, db: Db, cmds: Commands, r: Result<Outcome>)
    requires Wf(s)
  {
    if !Accepts(c, msg, db, s.data.draft.roomIds.GetOr(""), cmds) then r == Ok(Stay(s))
    else
      && (r.Err? ==> r.fault == OverflowError && (c == GetNumNights || c == GetNotes))
      && (r.Ok? && c == ConfirmBooking ==> r.value.session == Cleared)
      && (r.Ok? && c != ConfirmBooking ==> Wf(r.value.session))
      && (r.Ok? && c == SelectRooms && msg != cmds.roomsFinish ==>
            r.value.session.step == s.step
            && r.value.session.data.draft.roomIds == Some(s.data.draft.roomIds.GetOr("") + msg))
      && (r.Ok? && c != ConfirmBooking && !(c == SelectRooms && msg != cmds.roomsFinish) ==>
            Rank(r.value.session.step.value.c) == Rank(c) + 1)
  }

  /** Every message other than cancel and back does what `Promised` says. */
  lemma CreateStepPromise(c: CreateStep, msg: string, s: Session, db: Db, cmds: Commands)
    requires Wf(s) && s.step == Some(Create(c)) && msg != cmds.cancel && msg != cmds.back
    ensures Promised(c, msg, s, db, cmds, HandleCreateBooking(msg, s, db, cmds))
  {
    assert HandleCreateBooking(msg, s, db, cmds) == CreateInput(c, s, msg, false, db, cmds);
    match c
    case GetCustomerName => NameKeeps(msg, s, db, cmds);
    case GetPhoneNumber => PhoneKeeps(msg, s, db, cmds);
    case GetCheckInDate => CheckInKeeps(msg, s, db, cmds);
    case GetNumNights => NightsKeeps(msg, s, db, cmds);
    case SelectRooms => RoomsKeeps(msg, s, db, cmds);
    case GetTotalPrice => TotalKeeps(msg, s, db, cmds);
    case GetPrepayment => PrepaymentKeeps(msg, s, db, cmds);
    case SelectSource => SourceKeeps(msg, s, db, cmds);
    case GetNotes => NotesKeeps(msg, s, db, cmds);
    case ConfirmBooking => ConfirmKeeps(msg, s, db, cmds);
  }

  lemma NameKeeps(msg: string, s: Session, db: Db, cmds: Commands)
    requires Wf(s) && s.step == Some(Create(GetCustomerName))
    ensures Promised(GetCustomerName, msg, s, db, cmds, NameStep(s, msg, false))
  {
  }

  lemma PhoneKeeps(msg: string, s: Session, db: Db, cmds: Commands)
    requires Wf(s) && s.step == Some(Create(GetPhoneNumber))
    ensures Promised(GetPhoneNumber, msg, s, db, cmds, PhoneStep(s, msg, false))
  {
  }

  lemma CheckInKeeps(msg: string, s: Session, db: Db, cmds: Commands)
    requires Wf(s) && s.step == Some(Create(GetCheckInDate))
    ensures Promised(GetCheckInDate, msg, s, db, cmds, CheckInStep(s, msg, false))
  {
  }

  lemma NightsKeeps(msg: string, s: Session, db: Db, cmds: Commands)
    requires Wf(s) && s.step == Some(Create(GetNumNights))
    ensures Promised(GetNumNights, msg, s, db, cmds, NightsStep(s, msg))
  {
  }

  lemma RoomsKeeps(msg: string, s: Session, db: Db, cmds: Commands)
    requires Wf(s) && s.step == Some(Create(SelectRooms))
    ensures Promised(SelectRooms, msg, s, db, cmds, RoomsStep(s, msg, false, db, cmds))
  {
    if msg != cmds.roomsFinish && RoomAcceptable(db, s.data.draft.roomIds.value, msg) {
      AppendRoomKeepsDistinct(db, s.data.draft.roomIds.value, msg);
    }
  }

  lemma TotalKeeps(msg: string, s: Session, db: Db, cmds: Commands)
    requires Wf(s) && s.step == Some(Create(GetTotalPrice))
    ensures Promised(GetTotalPrice, msg, s, db, cmds, TotalStep(s, msg, false))
  {
  }

  lemma PrepaymentKeeps(msg: string, s: Session, db: Db, cmds: Commands)
    requires Wf(s) && s.step == Some(Create(GetPrepayment))
    ensures Promised(GetPrepayment, msg, s, db, cmds, PrepaymentStep(s, msg, false))
  {
  }

  lemma SourceKeeps(msg: string, s: Session, db: Db, cmds: Commands)
    requires Wf(s) && s.step == Some(Create(SelectSource))
    ensures Promised(SelectSource, msg, s, db, cmds, SourceStep(s, msg, false))
  {
  }

  lemma NotesKeeps(msg: string, s: Session, db: Db, cmds: Commands)
    requires Wf(s) && s.step == Some(Create(GetNotes))
    ensures Promised(GetNotes, msg, s, db, cmds, NotesStep(s, msg, false, cmds))
  {
    var d := s.data.draft.(notes := Some(if msg == cmds.notesFinish then "" else msg));
    var b := DraftBooking(d);
    assert b.Ok?;
    assert Ready(ConfirmBooking, d);
  }

  /** The preview of a booking with an unpaid deposit fails exactly when its check-out
      date does, and then with the same exception. */
  lemma PreviewFailsOnOverflow(b: Booking)
    requires b.prepaymentStatus == Unpaid
    ensures FormatBookingInfo(Some(b), "normal").text.Err? <==> AddDays(b.lastDate, 1).Err?
    ensures AddDays(b.lastDate, 1).Err? ==>
      FormatBookingInfo(Some(b), "normal").text == Err(AddDays(b.lastDate, 1).fault)
  {
  }

  lemma ConfirmKeeps(msg: string, s: Session, db: Db, cmds: Commands)
    requires Wf(s) && s.step == Some(Create(ConfirmBooking))
    ensures Promised(ConfirmBooking, msg, s, db, cmds, ConfirmStep(s, msg, cmds))
  {
  }

  /** "Back" from any step but the first lands on `PREVIOUS_STEP[step]` and re-prompts
      there; landing on the rooms step empties the room choice. Nothing else changes. */
  lemma CreateBack(c: CreateStep, s: Session, db: Db, cmds: Commands)
    requires Wf(s) && s.step == Some(Create(c)) && c != GetCustomerName && DistinctCommands(cmds)
    ensures var p := Previous(c).value;
      var data := if p == SelectRooms then Fields(s.data.draft.(roomIds := Some(""))) else s.data;
      HandleCreateBooking(cmds.back, s, db, cmds) == Ok(Stay(s.(step := Some(Create(p)), data := data)))
      && Wf(s.(step := Some(Create(p)), data := data))
  {
  }

  /** The nights step sets the last night to check-in + nights - 1, which is never before
      the check-in date, and empties the room choice; it fails only past 9999-12-31. */
  lemma NightsSetLastDate(msg: string, s: Session, db: Db, cmds: Commands)
    requires Wf(s) && s.step == Some(Create(GetNumNights)) && msg != cmds.cancel && msg != cmds.back
    requires IsValidNumNights(msg)
    ensures var r := HandleCreateBooking(msg, s, db, cmds);
      var first := s.data.draft.checkInDate.value;
      && (r.Ok? <==> first + DigitsValue(msg) - 1 < MaxDay)
      && (r.Ok? ==> r.value.session.step == Some(Create(SelectRooms))
                    && r.value.session.data.draft.lastDate == Some(first + DigitsValue(msg) - 1)
                    && first <= r.value.session.data.draft.lastDate.value
                    && r.value.session.data.draft.roomIds == Some(""))
  {
    assert HandleCreateBooking(msg, s, db, cmds) == NightsStep(s, msg);
  }

  /** The room test asks only whether the room exists and is not chosen yet: a room that
      a live booking holds on those very nights is accepted all the same. */
  lemma DoubleBookingAccepted(room: char, s: Session, db: Db, cmds: Commands)
    requires Wf(s) && s.step == Some(Create(SelectRooms))
    requires [room] != cmds.cancel && [room] != cmds.back && [room] != cmds.roomsFinish
    requires room in AllRoomIds(db) && room !in s.data.draft.roomIds.value
    requires Blocked(db, room, s.data.draft.checkInDate.value, s.data.draft.lastDate.value)
    ensures HandleCreateBooking([room], s, db, cmds)
         == Ok(Move(s, Create(SelectRooms), s.data.draft.(roomIds := Some(s.data.draft.roomIds.value + [room]))))
  {
    assert HandleCreateBooking([room], s, db, cmds) == RoomsStep(s, [room], false, db, cmds);
  }

  /** The notes finish command stores empty notes. */
  lemma NotesFinishStoresEmpty(s: Session, db: Db, cmds: Commands)
    requires Wf(s) && s.step == Some(Create(GetNotes)) && DistinctCommands(cmds)
    ensures var r := HandleCreateBooking(cmds.notesFinish, s, db, cmds);
      r.Ok? ==> r.value.session.step == Some(Create(ConfirmBooking))
                && r.value.session.data.draft.notes == Some("")
  {
    assert HandleCreateBooking(cmds.notesFinish, s, db, cmds) == NotesStep(s, cmds.notesFinish, false, cmds);
  }

  /** The confirm command clears the session and upserts, once, the new booking the draft
      describes: id -1, status `new`, an unpaid deposit with an empty note, the chosen
      rooms in order without duplicates, and a stay of 1 to 15 nights. */
  lemma ConfirmUpserts(s: Session, db: Db, cmds: Commands)
    requires Wf(s) && s.step == Some(Create(ConfirmBooking)) && DistinctCommands(cmds)
    ensures var r := HandleCreateBooking(cmds.confirmBooking, s, db, cmds);
      var d := s.data.draft;
      && r.Ok? && r.value.session == Cleared && r.value.call.Upsert?
      && var b := r.value.call.info;
      && b.bookingId == -1 && b.status == StatusNew
      && b.prepaymentStatus == Unpaid && b.prepaymentNote == ""
      && b.customerName == d.customerName.value && b.phoneNumber == d.phoneNumber.value
      && b.checkInDate == d.checkInDate.value && b.lastDate == d.lastDate.value
      && b.totalPrice == d.totalPrice.value as real && b.prepayment == d.prepayment.value as real
      && b.source == d.source.value && b.notes == d.notes.value && b.roomIds == d.roomIds.value
      && b.checkInDate <= b.lastDate <= b.checkInDate + 14 && NoDuplicates(b.roomIds)
  {
    assert HandleCreateBooking(cmds.confirmBooking, s, db, cmds) == ConfirmStep(s, cmds.confirmBooking, cmds);
  }

  /** Upserting a booking with id -1 always inserts: the booking gets the next serial id,
      its rooms are the given ones, and every stored booking keeps its row. */
  lemma NewBookingInserts(db: Db, b: Booking, now: Time)
    requires Valid(db) && b.bookingId == -1
    ensures var (db1, id) := UpsertBooking(db, b, now);
      && id == db.nextBookingId && id !in db.bookings && db1.nextBookingId == id + 1
      && id in db1.bookings && AssignedRooms(db1.roomBookings, id) == b.roomIds
      && db1.bookings[id].status == b.status
      && db1.bookings[id].checkInDate == b.checkInDate && db1.bookings[id].lastDate == b.lastDate
      && forall other :: other in db.bookings ==> other in db1.bookings && db1.bookings[other] == db.bookings[other]
  {
    assert !Updates(db, b);
  }
}

=== FILE: create_closure.dfy ===
/** The room-closure wizard: start date, nights, rooms and a reason, then a confirmation
    that inserts the closure. "Back" follows a fixed map of previous steps; cancel clears
    the session. */
module CreateClosureWizard {
  import opened Wrappers
  import opened Text
  import opened Calendar
  import opened Records
  import opened InputUtils
  import opened BookingDao
  import opened Sessions

  /** Position of a step in the wizard. */
  function Rank(k: ClosureStep): nat {
    match k
    case GetStartDate => 0
    case GetClosureNights => 1
    case SelectClosureRooms => 2
    case GetReason => 3
    case ConfirmClosure => 4
  }

  /** `PREVIOUS_STEP`: the nights and rooms steps go back to the start date, the reason to
      the rooms, the confirmation to the reason; the start date has no entry. */
  function Previous(k: ClosureStep): (r: Option<ClosureStep>)
    ensures r.None? <==> k == GetStartDate
    ensures k == GetClosureNights || k == SelectClosureRooms ==> r == Some(GetStartDate)
    ensures r.Some? && k != SelectClosureRooms ==> Rank(r.value) + 1 == Rank(k)
  {
    match k
    case GetStartDate => None
    case GetClosureNights => Some(GetStartDate)
    case SelectClosureRooms => Some(GetStartDate)
    case GetReason => Some(SelectClosureRooms)
    case ConfirmClosure => Some(GetReason)
  }

  /** `PREVIOUS_STEP[step]`: a step that is not a key raises KeyError. */
  function PreviousStep(step: Step): (r: Result<Step>)
    ensures r.Ok? <==> step.Close? && step.k != GetStartDate
    ensures r.Ok? ==> r.value == Close(Previous(step.k).value)
    ensures r.Err? ==> r.fault == KeyError
  {
    if step.Close? && Previous(step.k).Some? then Ok(Close(Previous(step.k).value)) else Err(KeyError)
  }

  /** The closure the reason and confirm steps build from the draft: a new closure (id -1)
      with the chosen rooms joined into one string; a missing key raises KeyError. */
  function DraftClosure(d: Draft): (r: Result<Closure>)
    ensures r.Ok? <==> (d.startDate.Some? && d.lastDate.Some? && d.reason.Some? && d.roomIds.Some?)
    ensures r.Err? ==> r.fault == KeyError
  {
    var start :- Get(d.startDate);
    var last :- Get(d.lastDate);
    var reason :- Get(d.reason);
    var rooms :- Get(d.roomIds);
    Ok(Closure(-1, start, last, reason, rooms, None, None, None))
  }

  /** `handle_create_closure_messages(msg, session)`; `inserted` is what `insert_closure`
      returns when the confirmation calls it. After "back" the source resets the room
      choice only when the new step equals the create-booking rooms step, a step of
      another wizard, so the reset is left out: it never happens here. */
  function HandleCreateClosure(msg: string, s: Session, db: Db, inserted: Option<int>, cmds: Commands)
    : (r: Result<Outcome>)
    ensures msg == cmds.cancel ==> r == Ok(Quit)
    ensures msg != cmds.cancel && msg == cmds.back && s.step.None? ==> r == Ok(Quit)
    ensures msg != cmds.cancel && msg == cmds.back && s.step == Some(Close(GetStartDate)) ==>
      r == Err(KeyError)
  {
    if msg == cmds.cancel then Ok(Quit)
    else if msg == cmds.back then
      match s.step
      case None => Ok(Quit)
      case Some(step) =>
        var prev :- PreviousStep(step);
        ClosureAt(s.(step := Some(prev)), msg, true, db, inserted, cmds)
    else ClosureAt(s, msg, false, db, inserted, cmds)
  }

  /** The branch for the session's step; a step of another wizard matches no branch. */
  function ClosureAt(s: Session, msg: string, isPrev: bool, db: Db, inserted: Option<int>, cmds: Commands)
    : Result<Outcome>
  {
    match s.step
    case Some(Close(k)) => ClosureInput(k, s, msg, isPrev, db, inserted, cmds)
    case _ => Ok(Stay(s))
  }

  /** One message at step `k`; `isPrev` when "back" has just landed here. */
  function ClosureInput(k: ClosureStep, s: Session, msg: string, isPrev: bool, db: Db, inserted: Option<int>,
                        cmds: Commands): Result<Outcome>
  {
    match k
    case GetStartDate => StartStep(s, msg, isPrev)
    case GetClosureNights => NightsStep(s, msg)
    case SelectClosureRooms => RoomsStep(s, msg, isPrev, db, cmds)
    case GetReason => ReasonStep(s, msg, isPrev, cmds)
    case ConfirmClosure => ConfirmStep(s, msg, inserted, cmds)
  }

  function StartStep(s: Session, msg: string, isPrev: bool): Result<Outcome> {
    if isPrev || !IsValidDate(msg) then Ok(Stay(s))
    else
      var d :- DraftOf(s.data);
      Ok(Move(s, Close(GetClosureNights), d.(startDate := ParseDate(msg, '-'))))
  }

  /** No step goes back to the nights step, and this one does not test `isPrev`. */
  function NightsStep(s: Session, msg: string): Result<Outcome> {
    if !IsValidNumNights(msg) then Ok(Stay(s))
    else
      var d :- DraftOf(s.data);
      var first :- Get(d.startDate);
      var last :- LastNight(first, msg);
      Ok(Move(s, Close(SelectClosureRooms),
              d.(numNights := Some(DigitsValue(msg)), lastDate := Some(last), roomIds := Some(""))))
  }

  /** Any other message than the finish command reads the dates for the availability
      query and the chosen rooms (the re-prompt shows them); a room is appended after the
      tests of `RoomAcceptable` only. */
  function RoomsStep(s: Session, msg: string, isPrev: bool, db: Db, cmds: Commands): Result<Outcome> {
    if msg != cmds.closureRoomsFinish then
      var d :- DraftOf(s.data);
      var start :- Get(d.startDate);
      var last :- Get(d.lastDate);
      var chosen :- Get(d.roomIds);
      if isPrev || !RoomAcceptable(db, chosen, msg) then Ok(Stay(s))
      else Ok(Move(s, Close(SelectClosureRooms), d.(roomIds := Some(chosen + msg))))
    else Ok(Stay(s.(step := Some(Close(GetReason)))))
  }

  /** The reason (empty for the finish command), then the closure's preview, which needs
      every key of the closure. */
  function ReasonStep(s: Session, msg: string, isPrev: bool, cmds: Commands): Result<Outcome> {
    if isPrev then Ok(Stay(s))
    else
      var d0 :- DraftOf(s.data);
      var d := d0.(reason := Some(if msg == cmds.reasonFinish then "" else msg));
      var _ :- DraftClosure(d);
      Ok(Move(s, Close(ConfirmClosure), d))
  }

  /** The confirm command inserts the closure and clears the session whatever the insert
      returns; the notice says whether the returned id is truthy. */
  function ConfirmStep(s: Session, msg: string, inserted: Option<int>, cmds: Commands): Result<Outcome> {
    if msg != cmds.confirmClosure then Ok(Stay(s))
    else
      var d :- DraftOf(s.data);
      var c :- DraftClosure(d);
      Ok(Outcome(Cleared, InsertClosure(c), if Truthy(inserted) then Succeeded else Failed))
  }

  // ---------------------------------------------------------------------------
  // What a step accepts, and the keys a step can rely on
  // ---------------------------------------------------------------------------

  /** The answer each step accepts: a valid Y-m-d date, a night count of 1 to 15, a room of
      the table not chosen yet (or the finish command), any reason, and the confirm
      command. */
  predicate Accepts(k: ClosureStep, msg: string, db: Db, chosen: string, cmds: Commands) {
    match k
    case GetStartDate => IsValidDate(msg)
    case GetClosureNights => IsValidNumNights(msg)
    case SelectClosureRooms => msg == cmds.closureRoomsFinish || RoomAcceptable(db, chosen, msg)
    case GetReason => true
    case ConfirmClosure => msg == cmds.confirmClosure
  }

  /** What the wizard has collected by the time it waits at `k`: the start date, then a
      closure of 1 to 15 nights ending on the last date and a room choice without
      duplicates, then the reason. */
  predicate Ready(k: ClosureStep, d: Draft) {
    (Rank(k) >= 1 ==> d.startDate.Some?)
    && (Rank(k) >= 2 ==>
          d.numNights.Some? && d.lastDate.Some? && d.roomIds.Some?
          && d.startDate.value <= d.lastDate.value
          && d.numNights.value == d.lastDate.value - d.startDate.value + 1 <= 15
          && NoDuplicates(d.roomIds.value))
    && (Rank(k) >= 4 ==> d.reason.Some?)
  }

  /** A session this wizard runs, holding what its step relies on. */
  predicate Wf(s: Session) {
    s.flow == Some(CreateClosureFlow) && s.step.Some? && s.step.value.Close?
    && s.data.Fields? && Ready(s.step.value.k, s.data.draft)
  }

  /** The command strings that must differ for the wizard to tell them apart. */
  predicate DistinctCommands(cmds: Commands) {
    cmds.cancel != cmds.back && cmds.cancel != cmds.confirmClosure && cmds.back != cmds.confirmClosure
    && cmds.cancel != cmds.reasonFinish && cmds.back != cmds.reasonFinish && cmds.back != cmds.closureRoomsFinish
  }

  // ---------------------------------------------------------------------------
  // Properties
  // ---------------------------------------------------------------------------

  /** What the wizard promises for one message (neither cancel nor back) at step `k` of a
      session it runs: an answer the step does not accept leaves the session as it is; an
      accepted one moves one step on (a room stays at the rooms step to take another, the
      confirmation clears the session) and keeps what the next step relies on. The only
      exception is a last night past 9999-12-31. */
  predicate Promised(k: ClosureStep, msg: string, s: Session, db: Db, cmds: Commands, r: Result<Outcome>)
    requires Wf(s)
  {
    if !Accepts(k, msg, db, s.data.draft.roomIds.GetOr(""), cmds) then r == Ok(Stay(s))
    else
      && (r.Err? ==> r.fault == OverflowError && k == GetClosureNights)
      && (r.Ok? && k == ConfirmClosure ==> r.value.session == Cleared && r.value.call.InsertClosure?)
      && (r.Ok? && k != ConfirmClosure ==> Wf(r.value.session) && r.value.call == NoCall)
      && (r.Ok? && k == SelectClosureRooms && msg != cmds.closureRoomsFinish ==>
            r.value.session.step == s.step
            && r.value.session.data.draft.roomIds == Some(s.data.draft.roomIds.GetOr("") + msg))
      && (r.Ok? && k != ConfirmClosure && !(k == SelectClosureRooms && msg != cmds.closureRoomsFinish) ==>
            Rank(r.value.session.step.value.k) == Rank(k) + 1)
  }

  /** Every message other than cancel and back does what `Promised` says. */
  lemma ClosureStepPromise(k: ClosureStep, msg: string, s: Session, db: Db, inserted: Option<int>, cmds: Commands)
    requires Wf(s) && s.step == Some(Close(k)) && msg != cmds.cancel && msg != cmds.back
    ensures Promised(k, msg, s, db, cmds, HandleCreateClosure(msg, s, db, inserted, cmds))
  {
    assert HandleCreateClosure(msg, s, db, inserted, cmds) == ClosureInput(k, s, msg, false, db, inserted, cmds);
    match k
    case SelectClosureRooms => RoomsKeeps(msg, s, db, cmds);
    case GetReason => ReasonKeeps(msg, s, db, cmds);
    case _ =>
  }

  lemma RoomsKeeps(msg: string, s: Session, db: Db, cmds: Commands)
    requires Wf(s) && s.step == Some(Close(SelectClosureRooms))
    ensures Promised(SelectClosureRooms, msg, s, db, cmds, RoomsStep(s, msg, false, db, cmds))
  {
    var chosen := s.data.draft.roomIds.value;
    if msg != cmds.closureRoomsFinish && RoomAcceptable(db, chosen, msg) {
      AppendRoomKeepsDistinct(db, chosen, msg);
    }
  }

  lemma ReasonKeeps(msg: string, s: Session, db: Db, cmds: Commands)
    requires Wf(s) && s.step == Some(Close(GetReason))
    ensures Promised(GetReason, msg, s, db, cmds, ReasonStep(s, msg, false, cmds))
  {
    var d := s.data.draft.(reason := Some(if msg == cmds.reasonFinish then "" else msg));
    assert DraftClosure(d).Ok?;
  }

  /** "Back" from any step but the first lands on `PREVIOUS_STEP[step]` and re-prompts
      there; the room choice is kept even on landing on the rooms step. */
  lemma ClosureBack(k: ClosureStep, s: Session, db: Db, inserted: Option<int>, cmds: Commands)
    requires Wf(s) && s.step == Some(Close(k)) && k != GetStartDate && DistinctCommands(cmds)
    ensures var p := Previous(k).value;
      && HandleCreateClosure(cmds.back, s, db, inserted, cmds) == Ok(Stay(s.(step := Some(Close(p)))))
      && Wf(s.(step := Some(Close(p))))
  {
  }

  /** The reason finish command stores an empty reason. */
  lemma ReasonFinishStoresEmpty(s: Session, db: Db, inserted: Option<int>, cmds: Commands)
    requires Wf(s) && s.step == Some(Close(GetReason)) && DistinctCommands(cmds)
    ensures var r := HandleCreateClosure(cmds.reasonFinish, s, db, inserted, cmds);
      && r.Ok? && r.value.session.step == Some(Close(ConfirmClosure))
      && r.value.session.data.draft.reason == Some("")
  {
    assert HandleCreateClosure(cmds.reasonFinish, s, db, inserted, cmds)
        == ReasonStep(s, cmds.reasonFinish, false, cmds);
    assert DraftClosure(s.data.draft.(reason := Some(""))).Ok?;
  }

  /** The confirm command inserts, once, the closure the draft describes (id -1, a span of
      1 to 15 nights, rooms without duplicates), reports success exactly when the returned
      id is truthy, and clears the session either way. */
  lemma ClosureConfirmInserts(s: Session, db: Db, inserted: Option<int>, cmds: Commands)
    requires Wf(s) && s.step == Some(Close(ConfirmClosure)) && DistinctCommands(cmds)
    ensures var r := HandleCreateClosure(cmds.confirmClosure, s, db, inserted, cmds);
      var d := s.data.draft;
      && r.Ok? && r.value.session == Cleared && r.value.call.InsertClosure?
      && (r.value.notice == Succeeded <==> Truthy(inserted))
      && (r.value.notice == Failed <==> !Truthy(inserted))
      && var c := r.value.call.closure;
      && c.closureId == -1 && c.startDate == d.startDate.value && c.lastDate == d.lastDate.value
      && c.reason == d.reason.value && c.roomIds == d.roomIds.value
      && c.startDate <= c.lastDate <= c.startDate + 14 && NoDuplicates(c.roomIds)
  {
    assert HandleCreateClosure(cmds.confirmClosure, s, db, inserted, cmds)
        == ConfirmStep(s, cmds.confirmClosure, inserted, cmds);
  }
}

=== FILE: default_dispatch.dfy ===
/** The dispatch of a message that arrives while no wizard runs: the search commands
    (by keyword, and by a date relative to today), the commands that start the create and
    edit wizards, and, for anything else, a keyword search. */
module DefaultDispatch {
  import opened Wrappers
  import opened Calendar
  import opened Records
  import opened InputUtils
  import opened BookingDao
  import opened Sessions
  import EditBookingWizard

  /** What the dispatch asks for: the keyword prompt, a search of the bookings whose
      check-in date (or last night) is `date` (`search_booking_by_date`), the first prompt
      of a wizard, or a keyword search. */
  datatype Reply =
    | KeywordPrompt
    | DateSearch(date: Day, isCheckIn: bool)
    | WizardStarted
    | KeywordSearch(keyword: string)

  datatype Dispatched = Dispatched(session: Session, reply: Reply)

  /** Days from today to the Saturday of this week (Monday to Sunday), `5 - weekday()`. */
  function ThisSaturdayOffset(today: Day): int {
    5 - Weekday(today)
  }

  /** Days from today to the Saturday of last week, `-2 - weekday()`. */
  function LastSaturdayOffset(today: Day): int {
    -2 - Weekday(today)
  }

  /** A search `offset` days from today; the date overflows before 0001-01-01 and after
      9999-12-31. */
  function SearchOn(s: Session, today: Day, offset: int, isCheckIn: bool): Result<Dispatched> {
    var date :- AddDays(today, offset);
    Ok(Dispatched(s, DateSearch(date, isCheckIn)))
  }

  /** The data the edit command stores, as written: the set `{booking_id}`. */
  function EditDataAsWritten(id: int): Data {
    IdSet({id})
  }

  /** The data the edit wizard reads: a dict holding the booking id. */
  function EditData(id: int): Data {
    Fields(EmptyDraft.(bookingId := Some(id)))
  }

  /** `handle_default_messages(msg, session)` with the data the edit command stores given
      by `editData`. The commands are checked in this order; the edit command is any message
      that `extract_booking_id` matches against the edit template. */
  function DispatchWith(msg: string, s: Session, today: Day, cmds: Commands, editData: int -> Data)
    : (r: Result<Dispatched>)
    ensures r.Err? ==> r.fault == OverflowError || r.fault == IndexError
    ensures r.Ok? && r.value.reply != WizardStarted ==> r.value.session == s
    ensures r.Ok? && r.value.reply.DateSearch? ==> r.value.reply.date < MaxDay
    ensures r.Ok? && r.value.reply == WizardStarted ==>
      r.value.session.flow == Some(CreateBookingFlow) || r.value.session.flow == Some(EditBookingFlow)
  {
    if msg == cmds.searchByKeyword then Ok(Dispatched(s, KeywordPrompt))
    else if msg == cmds.checkOutToday then SearchOn(s, today, -1, false)
    else if msg == cmds.checkInToday then SearchOn(s, today, 0, true)
    else if msg == cmds.checkInTomorrow then SearchOn(s, today, 1, true)
    else if msg == cmds.checkInThisSaturday then SearchOn(s, today, ThisSaturdayOffset(today), true)
    else if msg == cmds.checkInLastSaturday then SearchOn(s, today, LastSaturdayOffset(today), true)
    else if msg == cmds.createBooking then
      Ok(Dispatched(Session(Some(CreateBookingFlow), Some(Create(GetCustomerName)), Fields(EmptyDraft)), WizardStarted))
    else
      var id :- ExtractBookingId(msg, cmds.editBooking);
      if id.Some? then
        Ok(Dispatched(Session(Some(EditBookingFlow), Some(Edit(SelectAttribute)), editData(id.value)), WizardStarted))
      else Ok(Dispatched(s, KeywordSearch(msg)))
  }

  /** The dispatch as written: the edit command stores a set. Only a wizard start touches
      the session, and an edit session it starts holds a set, never a dict. */
  function HandleDefaultAsWritten(msg: string, s: Session, today: Day, cmds: Commands): (r: Result<Dispatched>)
    ensures r.Err? ==> r.fault == OverflowError || r.fault == IndexError
    ensures r.Ok? && r.value.reply != WizardStarted ==> r.value.session == s
    ensures r.Ok? && r.value.reply == WizardStarted && r.value.session.flow == Some(EditBookingFlow) ==>
      r.value.session.data.IdSet? && |r.value.session.data.ids| == 1
  {
    DispatchWith(msg, s, today, cmds, EditDataAsWritten)
  }

  /** The dispatch with the edit command storing the booking id under its key: an edit
      session it starts holds a dict with a positive booking id and nothing else. */
  function HandleDefault(msg: string, s: Session, today: Day, cmds: Commands): (r: Result<Dispatched>)
    ensures r.Err? ==> r.fault == OverflowError || r.fault == IndexError
    ensures r.Ok? && r.value.reply != WizardStarted ==> r.value.session == s
    ensures r.Ok? && r.value.reply == WizardStarted && r.value.session.flow == Some(EditBookingFlow) ==>
      r.value.session.data.Fields? && r.value.session.data.draft.bookingId.Some?
      && r.value.session.data.draft.bookingId.value > 0
      && r.value.session.data.draft == EmptyDraft.(bookingId := r.value.session.data.draft.bookingId)
  {
    DispatchWith(msg, s, today, cmds, EditData)
  }

  // ---------------------------------------------------------------------------
  // Properties
  // ---------------------------------------------------------------------------

  /** The command strings that the dispatch tests before the edit template, told apart. */
  predicate DistinctCommands(cmds: Commands) {
    var cs := [cmds.searchByKeyword, cmds.checkOutToday, cmds.checkInToday, cmds.checkInTomorrow,
               cmds.checkInThisSaturday, cmds.checkInLastSaturday, cmds.createBooking];
    forall i, j :: 0 <= i < j < |cs| ==> cs[i] != cs[j]
  }

  /** "This Saturday" is a Saturday, at most one day back (on a Sunday) and at most five
      days ahead (on a Monday); "last Saturday" is the Saturday seven days before it. */
  lemma SaturdayOffsets(today: Day)
    ensures today + ThisSaturdayOffset(today) >= 0 ==> Weekday(today + ThisSaturdayOffset(today)) == 5
    ensures -1 <= ThisSaturdayOffset(today) <= 5
    ensures LastSaturdayOffset(today) == ThisSaturdayOffset(today) - 7
    ensures today + LastSaturdayOffset(today) >= 0 ==> Weekday(today + LastSaturdayOffset(today)) == 5
  {
  }

  /** The date commands, told apart from each other and from the keyword command. */
  lemma DateCommandsApart(cmds: Commands)
    requires DistinctCommands(cmds)
    ensures cmds.checkOutToday != cmds.searchByKeyword
    ensures cmds.checkInToday !in {cmds.searchByKeyword, cmds.checkOutToday}
    ensures cmds.checkInTomorrow !in {cmds.searchByKeyword, cmds.checkOutToday, cmds.checkInToday}
    ensures cmds.checkInThisSaturday
            !in {cmds.searchByKeyword, cmds.checkOutToday, cmds.checkInToday, cmds.checkInTomorrow}
    ensures cmds.checkInLastSaturday
            !in {cmds.searchByKeyword, cmds.checkOutToday, cmds.checkInToday, cmds.checkInTomorrow,
                 cmds.checkInThisSaturday}
  {
    var cs := [cmds.searchByKeyword, cmds.checkOutToday, cmds.checkInToday, cmds.checkInTomorrow,
               cmds.checkInThisSaturday, cmds.checkInLastSaturday, cmds.createBooking];
    assert cs[0] != cs[1] && cs[0] != cs[2] && cs[1] != cs[2] && cs[0] != cs[3] && cs[1] != cs[3] && cs[2] != cs[3];
    assert cs[0] != cs[4] && cs[1] != cs[4] && cs[2] != cs[4] && cs[3] != cs[4];
    assert cs[0] != cs[5] && cs[1] != cs[5] && cs[2] != cs[5] && cs[3] != cs[5] && cs[4] != cs[5];
  }

  /** Check-out today looks up the last nights of yesterday, and overflows on 0001-01-01. */
  lemma CheckOutTodaySearch(s: Session, today: Day, cmds: Commands)
    requires DistinctCommands(cmds) && today < MaxDay
    ensures var r := HandleDefault(cmds.checkOutToday, s, today, cmds);
      (today >= 1 ==> r == Ok(Dispatched(s, DateSearch(today - 1, false))))
      && (today == 0 ==> r == Err(OverflowError))
  {
    DateCommandsApart(cmds);
  }

  /** Check-in today looks up today's check-ins. */
  lemma CheckInTodaySearch(s: Session, today: Day, cmds: Commands)
    requires DistinctCommands(cmds) && today < MaxDay
    ensures HandleDefault(cmds.checkInToday, s, today, cmds) == Ok(Dispatched(s, DateSearch(today, true)))
  {
    DateCommandsApart(cmds);
  }

  /** Check-in tomorrow looks up tomorrow's check-ins, and overflows on 9999-12-31. */
  lemma CheckInTomorrowSearch(s: Session, today: Day, cmds: Commands)
    requires DistinctCommands(cmds) && today < MaxDay
    ensures var r := HandleDefault(cmds.checkInTomorrow, s, today, cmds);
      (today + 1 < MaxDay ==> r == Ok(Dispatched(s, DateSearch(today + 1, true))))
      && (today + 1 == MaxDay ==> r == Err(OverflowError))
  {
    DateCommandsApart(cmds);
  }

  /** This Saturday's check-ins: a Saturday from one day back to five days ahead, unless
      that date leaves the calendar. */
  lemma ThisSaturdaySearch(s: Session, today: Day, cmds: Commands)
    requires DistinctCommands(cmds) && today < MaxDay
    ensures var r := HandleDefault(cmds.checkInThisSaturday, s, today, cmds);
      && (r.Ok? <==> today + ThisSaturdayOffset(today) < MaxDay)
      && (r.Ok? ==> r.value.session == s && r.value.reply.DateSearch? && r.value.reply.isCheckIn
                    && Weekday(r.value.reply.date) == 5
                    && today - 1 <= r.value.reply.date <= today + 5)
  {
    DateCommandsApart(cmds);
    SaturdayOffsets(today);
  }

  /** Last Saturday's check-ins: the Saturday seven days before this one, unless that
      date falls before 0001-01-01. */
  lemma LastSaturdaySearch(s: Session, today: Day, cmds: Commands)
    requires DistinctCommands(cmds) && today < MaxDay
    ensures var r := HandleDefault(cmds.checkInLastSaturday, s, today, cmds);
      && (r.Ok? <==> today + LastSaturdayOffset(today) >= 0)
      && (r.Ok? ==> r.value.session == s && r.value.reply.DateSearch? && r.value.reply.isCheckIn
                    && Weekday(r.value.reply.date) == 5
                    && today - 8 <= r.value.reply.date <= today - 2
                    && r.value.reply.date + 7 == today + ThisSaturdayOffset(today))
  {
    DateCommandsApart(cmds);
    SaturdayOffsets(today);
  }

  /** The create command starts the create-booking wizard at its first step with empty
      data, whatever the session held. */
  lemma CreateStartsWizard(s: Session, today: Day, cmds: Commands)
    requires DistinctCommands(cmds)
    ensures HandleDefault(cmds.createBooking, s, today, cmds)
         == Ok(Dispatched(Session(Some(CreateBookingFlow), Some(Create(GetCustomerName)), Fields(EmptyDraft)),
                          WizardStarted))
  {
    var cs := [cmds.searchByKeyword, cmds.checkOutToday, cmds.checkInToday, cmds.checkInTomorrow,
               cmds.checkInThisSaturday, cmds.checkInLastSaturday, cmds.createBooking];
    assert cs[0] != cs[6] && cs[1] != cs[6] && cs[2] != cs[6] && cs[3] != cs[6] && cs[4] != cs[6] && cs[5] != cs[6];
  }

  /** A message that is none of the commands above: when the edit template matches it the
      edit wizard starts at its menu; otherwise it is searched for as a keyword. */
  predicate OtherMessage(msg: string, cmds: Commands) {
    msg != cmds.searchByKeyword && msg != cmds.checkOutToday && msg != cmds.checkInToday
    && msg != cmds.checkInTomorrow && msg != cmds.checkInThisSaturday
    && msg != cmds.checkInLastSaturday && msg != cmds.createBooking
  }

  /** Any other message that the edit template does not match is searched for as a
      keyword, leaving the session alone. */
  lemma OtherMessageSearched(msg: string, s: Session, today: Day, cmds: Commands)
    requires OtherMessage(msg, cmds) && ExtractBookingId(msg, cmds.editBooking) == Ok(None)
    ensures HandleDefault(msg, s, today, cmds) == Ok(Dispatched(s, KeywordSearch(msg)))
    ensures HandleDefaultAsWritten(msg, s, today, cmds) == Ok(Dispatched(s, KeywordSearch(msg)))
  {
  }

  /** As written, an edit command stores the set `{id}` as the session data. */
  lemma EditCommandStoresSet(msg: string, s: Session, today: Day, cmds: Commands, id: int)
    requires OtherMessage(msg, cmds) && ExtractBookingId(msg, cmds.editBooking) == Ok(Some(id))
    ensures var r := HandleDefaultAsWritten(msg, s, today, cmds);
      && r.Ok? && r.value.session.flow == Some(EditBookingFlow)
      && r.value.session.step == Some(Edit(SelectAttribute))
      && r.value.session.data == IdSet({id})
      && !EditBookingWizard.Wf(r.value.session)
  {
  }

  /** An edit session whose data is a set never saves anything: each message either
      raises TypeError (on the first attempt to store an answer or to confirm) or leaves
      the set in place (or clears the session) without any call. */
  lemma SetDataNeverSaves(msg: string, s: Session, db: Db, cmds: Commands)
    requires s.data.IdSet?
    ensures var r := EditBookingWizard.HandleEditBooking(msg, s, db, cmds);
      && (r.Err? ==> r.fault == TypeError)
      && (r.Ok? ==> r.value.call == NoCall && (r.value.session == Cleared || r.value.session.data == s.data))
  {
    var r := EditBookingWizard.HandleEditBooking(msg, s, db, cmds);
    if msg != cmds.cancel && msg != cmds.editFinish && msg != cmds.back && s.step.Some? && s.step.value.Edit? {
      var e := s.step.value.e;
      assert r == EditBookingWizard.EditInput(e, s, msg, db, cmds);
      if e == SelectAttribute {
        assert r == EditBookingWizard.MenuStep(s, msg, cmds);
      }
    }
  }

  /** With the booking id stored under its key, an edit command starts a session the edit
      wizard runs, at its menu, holding nothing but the id. */
  lemma EditCommandStartsEdit(msg: string, s: Session, today: Day, cmds: Commands, id: int)
    requires OtherMessage(msg, cmds) && ExtractBookingId(msg, cmds.editBooking) == Ok(Some(id))
    ensures var r := HandleDefault(msg, s, today, cmds);
      && r.Ok? && r.value.reply == WizardStarted
      && r.value.session == Session(Some(EditBookingFlow), Some(Edit(SelectAttribute)),
                                    Fields(EmptyDraft.(bookingId := Some(id))))
      && EditBookingWizard.Wf(r.value.session)
      && !HasAnyEdit(r.value.session.data.draft)
  {
  }

  /** Does the draft hold any edited key? */
  predicate HasAnyEdit(d: Draft) {
    d.customerName.Some? || d.phoneNumber.Some? || d.checkInDate.Some? || d.numNights.Some?
    || d.lastDate.Some? || d.roomIds.Some? || d.totalPrice.Some? || d.prepayment.Some?
    || d.source.Some? || d.notes.Some?
  }
}

=== FILE: edit_booking.dfy ===
/** The edit-booking wizard: from a menu of attributes the staff pick one, answer it, and
    come back to the menu; the finish command shows the collected changes, and the confirm
    command writes them over the stored booking. Cancel clears the session; "back" returns
    to the menu from anywhere. */
module EditBookingWizard {
  import opened Wrappers
  import opened Text
  import opened Calendar
  import opened Records
  import opened InputUtils
  import opened BookingUtils
  import opened BookingDao
  import opened Sessions

  /** `format_booking_changes(session['data'])`, as written: on a set every `key in data`
      test is false, so the summary is empty; on a dict a phone without '+886' raises
      UnboundLocalError, and an edited last night at the end of time OverflowError. */
  function ChangesOf(data: Data): (r: Result<Option<string>>)
    ensures data.IdSet? ==> r == Ok(None)
    ensures data.Fields? && PhoneUnbound(data.draft) ==> r == Err(UnboundLocalError)
    ensures r.Err? <==> data.Fields? && (PhoneUnbound(data.draft) || CheckOutOf(data.draft).Err?)
    ensures r.Ok? && data.Fields? ==> r == FormatBookingChangesFixed(data.draft)
  {
    match data
    case IdSet(_) => Ok(None)
    case Fields(d) => FormatBookingChanges(d)
  }

  /** `handle_edit_booking_messages(msg, session)`. Cancel, finish and back are checked
      first, in this order, whatever the step. */
  function HandleEditBooking(msg: string, s: Session, db: Db, cmds: Commands): (r: Result<Outcome>)
    ensures msg == cmds.cancel ==> r == Ok(Quit)
    ensures msg != cmds.cancel && msg == cmds.editFinish ==>
      (r.Ok? <==> ChangesOf(s.data).Ok?)
      && (s.data.Fields? && PhoneUnbound(s.data.draft) ==> r == Err(UnboundLocalError))
      && (r.Ok? ==> r.value == Stay(s.(step := Some(Edit(ConfirmChanges)))))
    ensures msg != cmds.cancel && msg != cmds.editFinish && msg == cmds.back ==>
      r == Ok(Stay(s.(step := Some(Edit(SelectAttribute)))))
  {
    if msg == cmds.cancel then Ok(Quit)
    else if msg == cmds.editFinish then
      var _ :- ChangesOf(s.data);
      Ok(Stay(s.(step := Some(Edit(ConfirmChanges)))))
    else if msg == cmds.back then Ok(Stay(s.(step := Some(Edit(SelectAttribute)))))
    else
      match s.step
      case Some(Edit(e)) => EditInput(e, s, msg, db, cmds)
      case _ => Ok(Stay(s))
  }

  /** One message at step `e`. */
  function EditInput(e: EditStep, s: Session, msg: string, db: Db, cmds: Commands): Result<Outcome> {
    match e
    case SelectAttribute => MenuStep(s, msg, cmds)
    case EditCustomerName =>
      if msg == "" then Ok(Stay(s)) else Store(s, (d: Draft) => d.(customerName := Some(msg)))
    case EditPhoneNumber =>
      if !IsValidPhoneNumber(msg) then Ok(Stay(s)) else Store(s, (d: Draft) => d.(phoneNumber := Some(msg)))
    case EditCheckInDate =>
      if !IsValidDate(msg) then Ok(Stay(s))
      else
        var d :- DraftOf(s.data);
        Ok(Move(s, Edit(EditNumNights), d.(checkInDate := ParseDate(msg, '-'))))
    case EditNumNights => NightsStep(s, msg)
    case EditRooms => RoomsStep(s, msg, db, cmds)
    case EditTotalPrice =>
      if !IsValidPrice(msg) then Ok(Stay(s)) else Store(s, (d: Draft) => d.(totalPrice := Some(DigitsValue(msg))))
    case EditPrepayment =>
      if !IsValidPrice(msg) then Ok(Stay(s)) else Store(s, (d: Draft) => d.(prepayment := Some(DigitsValue(msg))))
    case EditSource =>
      if msg !in ValidBookingSources then Ok(Stay(s)) else Store(s, (d: Draft) => d.(source := Some(msg)))
    case EditNotes => Store(s, (d: Draft) => d.(notes := Some(msg)))
    case ConfirmChanges => ConfirmStep(s, msg, db, cmds)
  }

  /** Assign an edited value and return to the menu. */
  function Store(s: Session, edit: Draft -> Draft): (r: Result<Outcome>)
    ensures r.Ok? <==> s.data.Fields?
    ensures r.Ok? ==> r.value == Move(s, Edit(SelectAttribute), edit(s.data.draft))
    ensures r.Err? ==> r.fault == TypeError
  {
    var d :- DraftOf(s.data);
    Ok(Move(s, Edit(SelectAttribute), edit(d)))
  }

  /** The menu: each attribute command opens its step; the room command also empties the
      room choice. Anything else re-prompts. */
  function MenuStep(s: Session, msg: string, cmds: Commands): Result<Outcome> {
    if msg == cmds.editName then Ok(Stay(s.(step := Some(Edit(EditCustomerName)))))
    else if msg == cmds.editPhone then Ok(Stay(s.(step := Some(Edit(EditPhoneNumber)))))
    else if msg == cmds.editDates then Ok(Stay(s.(step := Some(Edit(EditCheckInDate)))))
    else if msg == cmds.editRooms then
      var data :- ResetRooms(s.data);
      Ok(Stay(s.(step := Some(Edit(EditRooms)), data := data)))
    else if msg == cmds.editTotal then Ok(Stay(s.(step := Some(Edit(EditTotalPrice)))))
    else if msg == cmds.editPrepayment then Ok(Stay(s.(step := Some(Edit(EditPrepayment)))))
    else if msg == cmds.editSource then Ok(Stay(s.(step := Some(Edit(EditSource)))))
    else if msg == cmds.editNotes then Ok(Stay(s.(step := Some(Edit(EditNotes)))))
    else Ok(Stay(s))
  }

  /** The nights of the edited stay, counted from the edited check-in date. */
  function NightsStep(s: Session, msg: string): Result<Outcome> {
    if !IsValidNumNights(msg) then Ok(Stay(s))
    else
      var d :- DraftOf(s.data);
      var first :- Get(d.checkInDate);
      var last :- LastNight(first, msg);
      Ok(Move(s, Edit(SelectAttribute), d.(numNights := Some(DigitsValue(msg)), lastDate := Some(last))))
  }

  /** Rooms are offered from the whole table, without the chosen ones; every message but
      the finish command reads the choice (the re-prompt shows it, an accepted room is
      appended to it). */
  function RoomsStep(s: Session, msg: string, db: Db, cmds: Commands): Result<Outcome> {
    if msg != cmds.editRoomsFinish then
      var d :- DraftOf(s.data);
      var chosen :- Get(d.roomIds);
      if !RoomAcceptable(db, chosen, msg) then Ok(Stay(s))
      else Ok(Move(s, Edit(EditRooms), d.(roomIds := Some(chosen + msg))))
    else Ok(Stay(s.(step := Some(Edit(SelectAttribute)))))
  }

  /** The stored booking with every edited key written over it; `room_ids` is joined into
      one string. The other fields keep their stored values. */
  function Merge(b: Booking, d: Draft): Booking {
    b.(customerName := d.customerName.GetOr(b.customerName),
       phoneNumber := d.phoneNumber.GetOr(b.phoneNumber),
       checkInDate := d.checkInDate.GetOr(b.checkInDate),
       lastDate := d.lastDate.GetOr(b.lastDate),
       totalPrice := if d.totalPrice.Some? then d.totalPrice.value as real else b.totalPrice,
       notes := d.notes.GetOr(b.notes),
       source := d.source.GetOr(b.source),
       prepayment := if d.prepayment.Some? then d.prepayment.value as real else b.prepayment,
       roomIds := d.roomIds.GetOr(b.roomIds))
  }

  /** Anything but the confirm command shows the changes again; confirm fetches the stored
      booking, merges the changes into it and upserts it, then clears the session. A
      booking that is not found is None, and setting an attribute on it (or upserting it)
      raises AttributeError. */
  function ConfirmStep(s: Session, msg: string, db: Db, cmds: Commands): Result<Outcome> {
    if msg != cmds.confirm then
      var _ :- ChangesOf(s.data);
      Ok(Stay(s))
    else
      var d :- DraftOf(s.data);
      var id :- Get(d.bookingId);
      match GetBookingInfo(db, id)
      case None => Err(AttributeError)
      case Some(b) => Ok(Outcome(Cleared, Upsert(Merge(b, d)), Silent))
  }

  // ---------------------------------------------------------------------------
  // Properties
  // ---------------------------------------------------------------------------

  /** The step a menu command opens, the first match winning; None for anything else. */
  function MenuTarget(msg: string, cmds: Commands): (r: Option<EditStep>)
    ensures r.Some? ==> r.value !in {SelectAttribute, EditNumNights, ConfirmChanges}
  {
    if msg == cmds.editName then Some(EditCustomerName)
    else if msg == cmds.editPhone then Some(EditPhoneNumber)
    else if msg == cmds.editDates then Some(EditCheckInDate)
    else if msg == cmds.editRooms then Some(EditRooms)
    else if msg == cmds.editTotal then Some(EditTotalPrice)
    else if msg == cmds.editPrepayment then Some(EditPrepayment)
    else if msg == cmds.editSource then Some(EditSource)
    else if msg == cmds.editNotes then Some(EditNotes)
    else None
  }

  /** The answers step `e` takes; `chosen` is the room choice so far. */
  predicate EditAccepts(e: EditStep, msg: string, db: Db, chosen: string, cmds: Commands) {
    match e
    case SelectAttribute => MenuTarget(msg, cmds).Some?
    case EditCustomerName => msg != ""
    case EditPhoneNumber => IsValidPhoneNumber(msg)
    case EditCheckInDate => IsValidDate(msg)
    case EditNumNights => IsValidNumNights(msg)
    case EditRooms => msg == cmds.editRoomsFinish || RoomAcceptable(db, chosen, msg)
    case EditTotalPrice => IsValidPrice(msg)
    case EditPrepayment => IsValidPrice(msg)
    case EditSource => msg in ValidBookingSources
    case EditNotes => true
    case ConfirmChanges => msg == cmds.confirm
  }

  /** A session this wizard runs: the booking id is known, the nights step has a check-in
      date to count from, the rooms step has a choice to extend, and no room is chosen
      twice. */
  predicate Wf(s: Session) {
    s.flow == Some(EditBookingFlow) && s.step.Some? && s.step.value.Edit? && s.data.Fields?
    && var d := s.data.draft;
    && d.bookingId.Some?
    && (s.step.value.e == EditNumNights ==> d.checkInDate.Some?)
    && (s.step.value.e == EditRooms ==> d.roomIds.Some?)
    && (d.roomIds.Some? ==> NoDuplicates(d.roomIds.value))
  }

  /** Where an accepted answer at step `e` leads from draft `d`: the menu opens the chosen
      step (the room step with an empty choice); each edit step stores its own key (the
      nights step also the last night, check-in + nights - 1) and returns to the menu,
      except that a check-in date leads on to the nights and a room to another room. */
  predicate EditedTo(e: EditStep, msg: string, d: Draft, cmds: Commands, next: Session)
    requires e != ConfirmChanges
  {
    next.data.Fields? && next.step.Some? && next.step.value.Edit?
    && var d' := next.data.draft;
    var e' := next.step.value.e;
    match e
    case SelectAttribute =>
      MenuTarget(msg, cmds).Some? && e' == MenuTarget(msg, cmds).value
      && d' == (if e' == EditRooms then d.(roomIds := Some("")) else d)
    case EditCustomerName => e' == SelectAttribute && d' == d.(customerName := Some(msg))
    case EditPhoneNumber => e' == SelectAttribute && d' == d.(phoneNumber := Some(msg))
    case EditCheckInDate =>
      e' == EditNumNights && ParseDate(msg, '-').Some? && d' == d.(checkInDate := ParseDate(msg, '-'))
    case EditNumNights =>
      e' == SelectAttribute && d.checkInDate.Some? && IsValidNumNights(msg)
      && d' == d.(numNights := Some(DigitsValue(msg)), lastDate := Some(d.checkInDate.value + DigitsValue(msg) - 1))
    case EditRooms =>
      if msg == cmds.editRoomsFinish then e' == SelectAttribute && d' == d
      else e' == EditRooms && d' == d.(roomIds := Some(d.roomIds.GetOr("") + msg))
    case EditTotalPrice => e' == SelectAttribute && IsValidPrice(msg) && d' == d.(totalPrice := Some(DigitsValue(msg)))
    case EditPrepayment => e' == SelectAttribute && IsValidPrice(msg) && d' == d.(prepayment := Some(DigitsValue(msg)))
    case EditSource => e' == SelectAttribute && d' == d.(source := Some(msg))
    case EditNotes => e' == SelectAttribute && d' == d.(notes := Some(msg))
  }

  /** What the wizard promises for one message other than cancel, finish and back at step
      `e`: an answer the step does not take leaves the session as it is (at the
      confirmation, showing the changes again can overflow); an accepted one goes where
      `EditedTo` says, calls nothing and keeps `Wf`, except that the confirmation clears
      the session and upserts. The only exceptions are an overflowing last night, a phone
      the summary cannot show when the changes are shown again, and a booking that is no
      longer found at the confirmation. */
  predicate Promised(e: EditStep, msg: string, s: Session, db: Db, cmds: Commands, r: Result<Outcome>)
    requires Wf(s)
  {
    var d := s.data.draft;
    if !EditAccepts(e, msg, db, d.roomIds.GetOr(""), cmds) then
      r == Ok(Stay(s))
      || (e == ConfirmChanges && r.Err? && r.fault in {OverflowError, UnboundLocalError}
          && (r.fault == UnboundLocalError <==> PhoneUnbound(d)))
    else
      && (r.Err? ==>
            (e == EditNumNights && r.fault == OverflowError) || (e == ConfirmChanges && r.fault == AttributeError))
      && (r.Ok? && e == ConfirmChanges ==> r.value.session == Cleared && r.value.call.Upsert?)
      && (r.Ok? && e != ConfirmChanges ==>
            r.value.call == NoCall && Wf(r.value.session) && EditedTo(e, msg, d, cmds, r.value.session))
  }

  /** Every message other than cancel, finish and back does what `Promised` says. */
  lemma EditStepPromise(e: EditStep, msg: string, s: Session, db: Db, cmds: Commands)
    requires Wf(s) && s.step == Some(Edit(e))
    requires msg != cmds.cancel && msg != cmds.editFinish && msg != cmds.back
    ensures Promised(e, msg, s, db, cmds, HandleEditBooking(msg, s, db, cmds))
  {
    var r := HandleEditBooking(msg, s, db, cmds);
    assert r == EditInput(e, s, msg, db, cmds);
    match e
    case SelectAttribute => MenuKeeps(msg, s, db, cmds);
    case EditCheckInDate => CheckInKeeps(msg, s, db, cmds);
    case EditNumNights => NightsKeeps(msg, s, db, cmds);
    case EditRooms => RoomsKeeps(msg, s, db, cmds);
    case ConfirmChanges => ConfirmKeeps(msg, s, db, cmds);
    case _ => StoreKeeps(e, msg, s, db, cmds);
  }

  lemma MenuKeeps(msg: string, s: Session, db: Db, cmds: Commands)
    requires Wf(s) && s.step == Some(Edit(SelectAttribute))
    ensures Promised(SelectAttribute, msg, s, db, cmds, MenuStep(s, msg, cmds))
  {
  }

  lemma CheckInKeeps(msg: string, s: Session, db: Db, cmds: Commands)
    requires Wf(s) && s.step == Some(Edit(EditCheckInDate))
    ensures Promised(EditCheckInDate, msg, s, db, cmds, EditInput(EditCheckInDate, s, msg, db, cmds))
  {
  }

  lemma NightsKeeps(msg: string, s: Session, db: Db, cmds: Commands)
    requires Wf(s) && s.step == Some(Edit(EditNumNights))
    ensures Promised(EditNumNights, msg, s, db, cmds, NightsStep(s, msg))
  {
  }

  lemma RoomsKeeps(msg: string, s: Session, db: Db, cmds: Commands)
    requires Wf(s) && s.step == Some(Edit(EditRooms))
    ensures Promised(EditRooms, msg, s, db, cmds, RoomsStep(s, msg, db, cmds))
  {
    if msg != cmds.editRoomsFinish && RoomAcceptable(db, s.data.draft.roomIds.value, msg) {
      AppendRoomKeepsDistinct(db, s.data.draft.roomIds.value, msg);
    }
  }

  lemma StoreKeeps(e: EditStep, msg: string, s: Session, db: Db, cmds: Commands)
    requires Wf(s) && s.step == Some(Edit(e))
    requires e in {EditCustomerName, EditPhoneNumber, EditTotalPrice, EditPrepayment, EditSource, EditNotes}
    ensures Promised(e, msg, s, db, cmds, EditInput(e, s, msg, db, cmds))
  {
  }

  lemma ConfirmKeeps(msg: string, s: Session, db: Db, cmds: Commands)
    requires Wf(s) && s.step == Some(Edit(ConfirmChanges))
    ensures Promised(ConfirmChanges, msg, s, db, cmds, ConfirmStep(s, msg, db, cmds))
  {
  }

  /** The command strings the wizard must tell apart. */
  predicate DistinctCommands(cmds: Commands) {
    cmds.confirm != cmds.cancel && cmds.confirm != cmds.editFinish && cmds.confirm != cmds.back
    && cmds.editFinish != cmds.cancel
  }

  /** The confirm command reads the stored booking again: when it is found, the session is
      cleared and the booking is upserted once with the edited keys written over it; when
      it is not, AttributeError. */
  lemma EditConfirmMerges(s: Session, db: Db, cmds: Commands)
    requires Wf(s) && s.step == Some(Edit(ConfirmChanges)) && DistinctCommands(cmds)
    ensures var r := HandleEditBooking(cmds.confirm, s, db, cmds);
      var found := GetBookingInfo(db, s.data.draft.bookingId.value);
      && (found.None? ==> r == Err(AttributeError))
      && (found.Some? ==> r == Ok(Outcome(Cleared, Upsert(Merge(found.value, s.data.draft)), Silent)))
  {
    assert HandleEditBooking(cmds.confirm, s, db, cmds) == ConfirmStep(s, cmds.confirm, db, cmds);
  }

  /** Merging writes a field exactly when the draft holds its key, and leaves the id, the
      status, the deposit note and status and the timestamps as stored; a draft without any
      listed key leaves the booking as it is. */
  lemma MergeOverwritesPresentKeys(b: Booking, d: Draft)
    ensures var m := Merge(b, d);
      && m.bookingId == b.bookingId && m.status == b.status
      && m.prepaymentNote == b.prepaymentNote && m.prepaymentStatus == b.prepaymentStatus
      && m.created == b.created && m.modified == b.modified
      && (d.customerName.Some? ==> m.customerName == d.customerName.value)
      && (d.phoneNumber.Some? ==> m.phoneNumber == d.phoneNumber.value)
      && (d.checkInDate.Some? ==> m.checkInDate == d.checkInDate.value)
      && (d.lastDate.Some? ==> m.lastDate == d.lastDate.value)
      && (d.totalPrice.Some? ==> m.totalPrice == d.totalPrice.value as real)
      && (d.notes.Some? ==> m.notes == d.notes.value)
      && (d.source.Some? ==> m.source == d.source.value)
      && (d.prepayment.Some? ==> m.prepayment == d.prepayment.value as real)
      && (d.roomIds.Some? ==> m.roomIds == d.roomIds.value)
    ensures !HasListedChange(d) ==> Merge(b, d) == b
  {
  }

  /** Merging is idempotent: confirming the same edits twice gives the same booking. */
  lemma MergeIdempotent(b: Booking, d: Draft)
    ensures Merge(Merge(b, d), d) == Merge(b, d)
  {
  }

  /** Trimming with the room list compared to the stored rooms drops only edits that
      change nothing: merging the trimmed draft gives the same booking, and the trimmed
      draft lists a change exactly when merging changes the booking. */
  lemma TrimmedMergeSame(b: Booking, d: Draft)
    ensures Merge(b, TrimBookingChangesFixed(d, b)) == Merge(b, d)
    ensures HasListedChange(TrimBookingChangesFixed(d, b)) <==> Merge(b, d) != b
  {
    var m := Merge(b, d);
    if m != b {
      if m.customerName != b.customerName {} else if m.phoneNumber != b.phoneNumber {}
      else if m.checkInDate != b.checkInDate {} else if m.lastDate != b.lastDate {}
      else if m.totalPrice != b.totalPrice {} else if m.notes != b.notes {}
      else if m.source != b.source {} else if m.prepayment != b.prepayment {}
      else {
        assert m.roomIds != b.roomIds;
      }
    }
  }

  /** `trim_booking_changes` as written compares the room list with the customer's name:
      a room edit that spells the name is dropped, so merging the trimmed draft keeps the
      old rooms. */
  lemma TrimAsWrittenDropsRoomEdit(b: Booking, d: Draft)
    requires d.roomIds == Some(b.customerName) && b.roomIds != b.customerName
    ensures Merge(b, TrimBookingChanges(d, b)).roomIds == b.roomIds
    ensures Merge(b, d).roomIds == b.customerName != b.roomIds
  {
  }

  /** Nothing relates an edited check-in date to the stored last night: after a new
      check-in date, finish and confirm without the nights step save a booking whose
      check-in date is after its last night, unless the draft already holds a phone the
      summary cannot show, in which case finish raises. */
  lemma CheckInAfterLastNightSaved(msg: string, s: Session, db: Db, cmds: Commands)
    requires Wf(s) && s.step == Some(Edit(EditCheckInDate)) && DistinctCommands(cmds)
    requires msg != cmds.cancel && msg != cmds.editFinish && msg != cmds.back && IsValidDate(msg)
    requires s.data.draft.lastDate.None?
    requires var b := GetBookingInfo(db, s.data.draft.bookingId.value);
      b.Some? && ParseDate(msg, '-').value > b.value.lastDate
    ensures var r1 := HandleEditBooking(msg, s, db, cmds);
      && r1.Ok?
      && var r2 := HandleEditBooking(cmds.editFinish, r1.value.session, db, cmds);
      && (PhoneUnbound(s.data.draft) ==> r2 == Err(UnboundLocalError))
      && (!PhoneUnbound(s.data.draft) ==>
            && r2.Ok? && r2.value.session.step == Some(Edit(ConfirmChanges))
            && var r3 := HandleEditBooking(cmds.confirm, r2.value.session, db, cmds);
            && r3.Ok? && r3.value.call.Upsert?
            && r3.value.call.info.checkInDate > r3.value.call.info.lastDate)
  {
    var d1 := s.data.draft.(checkInDate := ParseDate(msg, '-'));
    var s1 := s.(step := Some(Edit(EditNumNights)), data := Fields(d1));
    assert HandleEditBooking(msg, s, db, cmds) == Ok(Stay(s1));
    if !PhoneUnbound(s.data.draft) {
      var s2 := s1.(step := Some(Edit(ConfirmChanges)));
      assert ChangesOf(s1.data).Ok?;
      assert HandleEditBooking(cmds.editFinish, s1, db, cmds) == Ok(Stay(s2));
      EditConfirmMerges(s2, db, cmds);
    }
  }

  /** A phone typed in local form is accepted and stored as typed, and from then on the
      finish command raises UnboundLocalError: the edit can no longer be saved, only
      cancelled. */
  lemma LocalPhoneBlocksSave(msg: string, s: Session, db: Db, cmds: Commands)
    requires Wf(s) && s.step == Some(Edit(EditPhoneNumber)) && DistinctCommands(cmds)
    requires msg != cmds.cancel && msg != cmds.editFinish && msg != cmds.back
    requires IsValidPhoneNumber(msg) && StartsWith(msg, "0")
    ensures var r1 := HandleEditBooking(msg, s, db, cmds);
      && r1.Ok? && r1.value.session.data.Fields?
      && r1.value.session.data.draft.phoneNumber == Some(msg)
      && HandleEditBooking(cmds.editFinish, r1.value.session, db, cmds) == Err(UnboundLocalError)
  {
    assert !StartsWith(msg, "+886") by { assert msg[0] == '0'; }
    var s1 := Move(s, Edit(SelectAttribute), s.data.draft.(phoneNumber := Some(msg)));
    assert HandleEditBooking(msg, s, db, cmds) == Ok(s1);
  }

  /** The confirmation writes in place: when the booking is found, upserting the merged
      booking keeps its id, inserts nothing, and assigns it exactly the merged rooms. */
  lemma EditUpdatesInPlace(db: Db, id: int, d: Draft, now: Time)
    requires Valid(db) && GetBookingInfo(db, id).Some?
    ensures var m := Merge(GetBookingInfo(db, id).value, d);
      var (db1, written) := UpsertBooking(db, m, now);
      && written == id && db1.nextBookingId == db.nextBookingId
      && AssignedRooms(db1.roomBookings, written) == m.roomIds
      && db1.bookings.Keys == db.bookings.Keys
  {
    var b := GetBookingInfo(db, id).value;
    var m := Merge(b, d);
    var (dbc, cid) := UpsertCustomer(db, m.customerName, m.phoneNumber);
    assert dbc == db.(customers := dbc.customers);
    assert |dbc.customers| >= |db.customers|;
    var rooms := JoinedRooms(db, db.roomBookings, id);
    assert rooms[0] in rooms;
    assert JoinedRooms(dbc, dbc.roomBookings, id) != "" by {
      assert rooms[0] in JoinedRooms(dbc, dbc.roomBookings, id);
    }
    assert Updates(db, m);
  }
}

=== FILE: historical_import.dfy ===
/** The historical importer: booking cards in a text file, separated by blank lines, are
    parsed field by field with regular-expression searches, sanity-checked, and handed to
    `upsert_booking`. */
module HistoricalImport {
  import opened Wrappers
  import opened Text
  import opened Calendar
  import opened Patterns
  import opened Records
  import opened InputUtils
  import opened BookingUtils

  /** The dict `parse_booking` builds. The check-in date stays the matched text; the last
      night is the parsed check-out date minus one day. */
  datatype Parsed = Parsed(
    status: string,
    bookingId: int,
    customerName: string,
    phoneNumber: Option<string>,   // the key is absent when the card has no phone line
    roomNameString: string,
    checkInDate: string,
    lastDate: Day,
    totalPrice: real,
    source: string,
    prepayment: real,
    prepaymentStatus: string,
    notes: string)

  /** The first group of `re.search(word + '：' + group, text)`. */
  function Capture(text: string, word: string, group: Group): (r: Option<string>)
    ensures r.Some? <==> Search(text, word + [Colon], group).Some?
    ensures r.Some? ==> r.value == Search(text, word + [Colon], group).value[0]
  {
    match Search(text, word + [Colon], group)
    case Some(gs) => Some(gs[0])
    case None => None
  }

  /** `source.replace('_', '.')`, with `Booking.com` mapped back to `Booking_com`. */
  function SourceOf(raw: string): (r: string)
    ensures r == "Booking_com" || '_' !in r
    ensures |r| == |raw|
  {
    var s := ReplaceChar(raw, '_', '.');
    if s == "Booking.com" then "Booking_com" else s
  }

  /** Every valid source survives the underscore rewrite unchanged. */
  lemma ValidSourcesKept(v: string)
    requires v in ValidBookingSources
    ensures SourceOf(v) == v
  {
    var s := ReplaceChar(v, '_', '.');
    if v == "Booking_com" {
      assert s == "Booking.com";
    } else {
      assert '_' !in v;
      assert s == v;
    }
  }

  /** Any other source spelled with underscores comes back with dots. */
  lemma UnderscoreBecomesDot(raw: string, i: nat)
    requires i < |raw| && raw[i] == '_' && ReplaceChar(raw, '_', '.') != "Booking.com"
    ensures SourceOf(raw)[i] == '.'
  {
  }

  /** The texts the searches of `parse_booking` capture; the phone line is optional. */
  datatype CardTexts = CardTexts(
    id: string, name: string, phone: Option<string>, rooms: string, checkIn: string,
    checkOut: string, total: string, source: string, prepayment: seq<string>, notes: string)

  /** The searches of `parse_booking`: None when any required one finds nothing. */
  function CardFields(text: string): (r: Option<CardTexts>)
    ensures r.Some? <==>
      (Capture(text, IdWord, Digits).Some? && Capture(text, NameWord, Line).Some?
       && Capture(text, RoomsWord, Line).Some? && Capture(text, CheckInWord, SlashDate).Some?
       && Capture(text, CheckOutWord, SlashDate).Some?
       && Capture(text, TotalWord, Digits).Some? && Capture(text, SourceWord, Line).Some?
       && Search(text, PrepaymentWord + [Colon], AmountAndLabel).Some?
       && Capture(text, NotesWord, OptLine).Some?)
    ensures r.Some? ==> r.value == CardTexts(
      Capture(text, IdWord, Digits).value, Capture(text, NameWord, Line).value,
      Capture(text, PhoneWord, Phone), Capture(text, RoomsWord, Line).value,
      Capture(text, CheckInWord, SlashDate).value, Capture(text, CheckOutWord, SlashDate).value,
      Capture(text, TotalWord, Digits).value, Capture(text, SourceWord, Line).value,
      Search(text, PrepaymentWord + [Colon], AmountAndLabel).value, Capture(text, NotesWord, OptLine).value)
    ensures r.Some? ==> DigitsOnly(r.value.id) && DigitsOnly(r.value.total)
                        && |r.value.prepayment| == 2 && DigitsOnly(r.value.prepayment[0])
  {
    var id :- Capture(text, IdWord, Digits);
    var name :- Capture(text, NameWord, Line);
    var rooms :- Capture(text, RoomsWord, Line);
    var checkIn :- Capture(text, CheckInWord, SlashDate);
    var checkOut :- Capture(text, CheckOutWord, SlashDate);
    var total :- Capture(text, TotalWord, Digits);
    var source :- Capture(text, SourceWord, Line);
    var pre :- Search(text, PrepaymentWord + [Colon], AmountAndLabel);
    var notes :- Capture(text, NotesWord, OptLine);
    Some(CardTexts(id, name, Capture(text, PhoneWord, Phone), rooms, checkIn, checkOut, total, source, pre, notes))
  }

  /** `parse_booking(text)`: None where any required search fails, the check-out date does
      not parse, or the day before it does not exist; every one of these raises inside the
      `try`. */
  function ParseBooking(text: string): (r: Option<Parsed>)
    ensures r.Some? <==>
      CardFields(text).Some? && ParseDate(CardFields(text).value.checkOut, '/').Some?
      && ParseDate(CardFields(text).value.checkOut, '/').value > 0
    ensures r.Some? ==> r.value.lastDate + 1 == ParseDate(CardFields(text).value.checkOut, '/').value
  {
    var c :- CardFields(text);
    var checkOut :- ParseDate(c.checkOut, '/');
    var last :- DayBefore(checkOut);
    var phone := match c.phone
                 case Some(p) => Some(FormatPhoneNumber(p))
                 case None => None;
    Some(Assemble(Contains(text, CanceledMark), c.id, c.name, phone, c.rooms, c.checkIn, last,
                  c.total, c.source, c.prepayment, c.notes))
  }

  /** What the fields of a parsed card mean: a cancellation mark makes it canceled, a paid
      deposit otherwise makes it prepaid; the phone is the formatted phone capture when there
      is one; the numbers are non-negative; the source has its underscores rewritten. */
  lemma ParsedFields(text: string)
    requires ParseBooking(text).Some?
    ensures var p := ParseBooking(text).value;
      (p.status == StatusCanceled <==> Contains(text, CanceledMark))
      && (p.prepaymentStatus == Paid <==> Search(text, PrepaymentWord + [Colon], AmountAndLabel).value[1] == PaidLabel)
      && (p.status == StatusPrepaid <==> !Contains(text, CanceledMark) && p.prepaymentStatus == Paid)
      && p.status in {StatusNew, StatusPrepaid, StatusCanceled} && p.prepaymentStatus in {Paid, Unpaid}
    ensures var p := ParseBooking(text).value;
      (p.phoneNumber.Some? <==> Capture(text, PhoneWord, Phone).Some?)
      && (p.phoneNumber.Some? ==> p.phoneNumber.value == FormatPhoneNumber(Capture(text, PhoneWord, Phone).value))
    ensures var p := ParseBooking(text).value;
      p.bookingId >= 0 && p.totalPrice >= 0.0 && p.prepayment >= 0.0
      && p.source == SourceOf(Capture(text, SourceWord, Line).value)
  {
  }

  /** The dict built from the captured texts: a cancellation mark outranks a paid deposit
      for the status, while the deposit alone decides the prepayment status. */
  function Assemble(canceled: bool, id: string, name: string, phone: Option<string>, rooms: string,
                    checkIn: string, last: Day, total: string, source: string, pre: seq<string>,
                    notes: string): (r: Parsed)
    requires DigitsOnly(id) && DigitsOnly(total) && |pre| == 2 && DigitsOnly(pre[0])
    ensures r.status == StatusCanceled <==> canceled
    ensures r.prepaymentStatus == Paid <==> pre[1] == PaidLabel
    ensures r.status == StatusPrepaid <==> !canceled && r.prepaymentStatus == Paid
    ensures r.status in {StatusNew, StatusPrepaid, StatusCanceled}
    ensures r.prepaymentStatus in {Paid, Unpaid}
    ensures r.phoneNumber == phone && r.lastDate == last && r.source == SourceOf(source)
    ensures r.bookingId >= 0 && r.totalPrice >= 0.0 && r.prepayment >= 0.0
  {
    var paid := pre[1] == PaidLabel;
    var status := if canceled then StatusCanceled else if paid then StatusPrepaid else StatusNew;
    Parsed(status, DigitsValue(id), name, phone, rooms, checkIn, last,
           DigitsValue(total) as real, SourceOf(source), DigitsValue(pre[0]) as real,
           if paid then Paid else Unpaid, notes)
  }

  /** `date - timedelta(days=1)`: None where the subtraction overflows. */
  function DayBefore(d: Day): (r: Option<Day>)
    ensures r.Some? <==> 0 < d <= MaxDay
    ensures r.Some? ==> r.value + 1 == d
  {
    match AddDays(d, -1)
    case Ok(v) => Some(v)
    case Err(_) => None
  }

  /** The sanity warnings `validate_booking` logs. */
  datatype Warning = InvalidId | NoName | NoPhone | NoRoom | NoCheckIn | NoLastDate | NoPrice | InvalidSource

  /** `validate_booking`: the warnings it logs (their order is left out); a dict without
      a phone number raises KeyError when the check reaches it. */
  function ValidateBooking(p: Parsed): (r: Result<set<Warning>>)
    ensures r.Err? <==> p.phoneNumber.None?
    ensures r.Err? ==> r.fault == KeyError
    ensures r.Ok? ==> forall w :: w in r.value <==> Warns(p, w)
  {
    match p.phoneNumber
    case None => Err(KeyError)
    case Some(phone) => Ok(IdentityWarnings(p, phone) + StayWarnings(p))
  }

  /** When each warning is due: a non-positive id, an empty name, phone, room line or
      check-in, a non-positive price, a source outside the known list. The last night is
      always set by the parser, so its warning never fires. */
  predicate Warns(p: Parsed, w: Warning)
    requires p.phoneNumber.Some?
  {
    match w
    case InvalidId => p.bookingId <= 0
    case NoName => p.customerName == ""
    case NoPhone => p.phoneNumber.value == ""
    case NoRoom => p.roomNameString == ""
    case NoCheckIn => p.checkInDate == ""
    case NoLastDate => false
    case NoPrice => p.totalPrice <= 0.0
    case InvalidSource => p.source !in ValidBookingSources
  }

  /** The warnings about who booked: id, name and phone. */
  function IdentityWarnings(p: Parsed, phone: string): (r: set<Warning>)
    requires p.phoneNumber == Some(phone)
    ensures forall w :: w in r <==> Warns(p, w) && w in {InvalidId, NoName, NoPhone}
  {
    When(p.bookingId <= 0, InvalidId) + When(|p.customerName| <= 0, NoName) + When(|phone| <= 0, NoPhone)
  }

  /** The warnings about the stay: rooms, check-in, price and source. */
  function StayWarnings(p: Parsed): (r: set<Warning>)
    requires p.phoneNumber.Some?
    ensures forall w :: w in r <==> Warns(p, w) && w !in {InvalidId, NoName, NoPhone}
  {
    When(|p.roomNameString| <= 0, NoRoom) + When(|p.checkInDate| <= 0, NoCheckIn)
    + When(p.totalPrice <= 0.0, NoPrice) + When(p.source !in ValidBookingSources, InvalidSource)
  }

  function When(c: bool, w: Warning): (r: set<Warning>)
    ensures forall x :: x in r <==> c && x == w
  {
    if c then {w} else {}
  }

  /** On a parsed card, only the id, the price and the source can draw a warning: every
      other field comes from a non-empty capture. */
  lemma ParsedWarnings(text: string)
    requires ParseBooking(text).Some? && ParseBooking(text).value.phoneNumber.Some?
    ensures var w := ValidateBooking(ParseBooking(text).value);
      w.Ok? && w.value <= {InvalidId, NoPrice, InvalidSource}
  {
    var p := ParseBooking(text).value;
    ParsedFields(text);
    var phone := Capture(text, PhoneWord, Phone).value;
    assert |phone| > 0;
    FormatPhoneNonEmpty(phone);
  }

  lemma FormatPhoneNonEmpty(p: string)
    requires |p| > 0
    ensures |FormatPhoneNumber(p)| > 0
  {
  }

  /** `extract_room_ids(all_room_ids, room_name_string)`: the characters of the string that
      are room ids, in order and with repeats. */
  function ExtractRoomIds(allRoomIds: seq<char>, s: string): (r: string)
    ensures |r| <= |s|
    ensures forall c :: c in r <==> c in s && c in allRoomIds
  {
    if |s| == 0 then ""
    else
      var rest := ExtractRoomIds(allRoomIds, s[1..]);
      assert forall c :: c in s <==> c == s[0] || c in s[1..];
      if s[0] in allRoomIds then [s[0]] + rest else rest
  }

  /** Extraction distributes over concatenation: it is a filter. */
  lemma {:induction false} ExtractAppend(allRoomIds: seq<char>, a: string, b: string)
    ensures ExtractRoomIds(allRoomIds, a + b) == ExtractRoomIds(allRoomIds, a) + ExtractRoomIds(allRoomIds, b)
    decreases |a|
  {
    if |a| > 0 {
      assert (a + b)[1..] == a[1..] + b;
      ExtractAppend(allRoomIds, a[1..], b);
    } else {
      assert a + b == b;
    }
  }

  /** A string of known rooms is kept whole, and so extraction is idempotent. */
  lemma {:induction false} ExtractKnown(allRoomIds: seq<char>, s: string)
    requires forall i :: 0 <= i < |s| ==> s[i] in allRoomIds
    ensures ExtractRoomIds(allRoomIds, s) == s
    decreases |s|
  {
    if |s| > 0 {
      ExtractKnown(allRoomIds, s[1..]);
    }
  }

  lemma ExtractIdempotent(allRoomIds: seq<char>, s: string)
    ensures ExtractRoomIds(allRoomIds, ExtractRoomIds(allRoomIds, s)) == ExtractRoomIds(allRoomIds, s)
  {
    var r := ExtractRoomIds(allRoomIds, s);
    forall i | 0 <= i < |r| ensures r[i] in allRoomIds {
      assert r[i] in r;
    }
    ExtractKnown(allRoomIds, r);
  }

  // ---------------------------------------------------------------------------
  // The import loop
  // ---------------------------------------------------------------------------

  /** What the loop hands to the database for one card. `upsert_booking` casts the check-in
      text to a date only when it writes the booking row, after upserting the customer; a
      text that names no real day therefore writes the customer and then fails. */
  datatype Submission =
    | Write(booking: Booking)
    | CustomerOnly(name: string, phone: string)

  /** The fate of one block. */
  datatype BlockOutcome = Skip | Abort(fault: Fault) | Submit(s: Submission)

  /** One block of `import_historical_bookings`: empty and unparsable blocks are skipped,
      a card without a phone aborts the import, every other card is submitted with an
      empty prepayment note and the known room ids of its room line. */
  function ImportBlock(allRoomIds: seq<char>, block: string): (r: BlockOutcome)
    ensures r.Skip? <==> block == "" || ParseBooking(block).None?
    ensures r.Abort? <==> block != "" && ParseBooking(block).Some? && ParseBooking(block).value.phoneNumber.None?
    ensures r.Abort? ==> r.fault == KeyError
    ensures r.Submit? && r.s.Write? ==>
      var p := ParseBooking(block).value;
      var b := r.s.booking;
      b.bookingId == p.bookingId && b.status == p.status && b.customerName == p.customerName
      && b.phoneNumber == p.phoneNumber.value && Some(b.checkInDate) == ParseDate(p.checkInDate, '/')
      && b.lastDate == p.lastDate && b.prepaymentNote == "" && b.prepaymentStatus == p.prepaymentStatus
      && b.roomIds == ExtractRoomIds(allRoomIds, p.roomNameString)
      && b.source == p.source && b.notes == p.notes
      && b.totalPrice == p.totalPrice && b.prepayment == p.prepayment
    ensures r.Submit? ==> (r.s.CustomerOnly? <==> ParseDate(ParseBooking(block).value.checkInDate, '/').None?)
    ensures r.Submit? ==> Clean(allRoomIds, r.s)
  {
    if block == "" then Skip
    else match ParseBooking(block)
      case None => Skip
      case Some(p) =>
        match ValidateBooking(p)
        case Err(f) => Abort(f)
        case Ok(_) =>
          var phone := p.phoneNumber.value;
          match ParseDate(p.checkInDate, '/')
          case None => Submit(CustomerOnly(p.customerName, phone))
          case Some(checkIn) =>
            Submit(Write(Booking(p.bookingId, p.status, p.customerName, phone, checkIn, p.lastDate,
                                 p.totalPrice, p.notes, p.source, p.prepayment, "", p.prepaymentStatus,
                                 ExtractRoomIds(allRoomIds, p.roomNameString), None, None)))
  }

  /** The submissions made before the import stopped, and the fault that stopped it. */
  datatype ImportRun = ImportRun(submitted: seq<Submission>, fault: Option<Fault>)

  /** The outcome of every block, in order. */
  function Outcomes(allRoomIds: seq<char>, blocks: seq<string>): (r: seq<BlockOutcome>)
    ensures |r| == |blocks|
    ensures forall i :: 0 <= i < |blocks| ==> r[i] == ImportBlock(allRoomIds, blocks[i])
  {
    seq(|blocks|, i requires 0 <= i < |blocks| => ImportBlock(allRoomIds, blocks[i]))
  }

  lemma OutcomesAppend(allRoomIds: seq<char>, a: seq<string>, b: seq<string>)
    ensures Outcomes(allRoomIds, a + b) == Outcomes(allRoomIds, a) + Outcomes(allRoomIds, b)
  {
    var l := Outcomes(allRoomIds, a + b);
    var r := Outcomes(allRoomIds, a) + Outcomes(allRoomIds, b);
    forall i | 0 <= i < |l| ensures l[i] == r[i] {
      if i < |a| {
        assert (a + b)[i] == a[i];
      } else {
        assert (a + b)[i] == b[i - |a|];
      }
    }
  }

  /** The loop over block outcomes: skips are passed over, submissions kept in order, and
      the first abort ends the run. */
  function Run(os: seq<BlockOutcome>): (r: ImportRun)
    ensures |r.submitted| <= |os|
    ensures r.fault.None? <==> forall i :: 0 <= i < |os| ==> !os[i].Abort?
    ensures forall s :: s in r.submitted ==> Submit(s) in os
  {
    if |os| == 0 then ImportRun([], None)
    else
      var rest := Run(os[1..]);
      assert forall i :: 1 <= i < |os| ==> os[i] == os[1..][i - 1];
      match os[0]
      case Skip => rest
      case Abort(f) => ImportRun([], Some(f))
      case Submit(s) => ImportRun([s] + rest.submitted, rest.fault)
  }

  function ImportBlocks(allRoomIds: seq<char>, blocks: seq<string>): (r: ImportRun)
    ensures |r.submitted| <= |blocks|
    ensures r.fault.None? <==> forall i :: 0 <= i < |blocks| ==> !ImportBlock(allRoomIds, blocks[i]).Abort?
  {
    Run(Outcomes(allRoomIds, blocks))
  }

  /** `import_historical_bookings`: nothing at all when no room ids load; otherwise the
      blocks of the file split on blank lines, in order. */
  function ImportHistorical(allRoomIds: seq<char>, content: string): (r: ImportRun)
    ensures |allRoomIds| == 0 ==> r == ImportRun([], None)
    ensures |allRoomIds| > 0 ==> r == ImportBlocks(allRoomIds, Split(content, "\n\n"))
  {
    if |allRoomIds| == 0 then ImportRun([], None) else ImportBlocks(allRoomIds, Split(content, "\n\n"))
  }

  /** Blocks before an abort stay submitted: a later card without a phone does not undo
      the earlier ones. */
  lemma AbortKeepsEarlier(allRoomIds: seq<char>, done: seq<string>, bad: string, after: seq<string>)
    requires ImportBlock(allRoomIds, bad).Abort?
    requires forall i :: 0 <= i < |done| ==> !ImportBlock(allRoomIds, done[i]).Abort?
    ensures ImportBlocks(allRoomIds, done + [bad] + after)
         == ImportRun(ImportBlocks(allRoomIds, done).submitted, Some(KeyError))
  {
    var os := Outcomes(allRoomIds, done);
    var x := ImportBlock(allRoomIds, bad);
    var oa := Outcomes(allRoomIds, after);
    OutcomesAppend(allRoomIds, done + [bad], after);
    OutcomesAppend(allRoomIds, done, [bad]);
    assert Outcomes(allRoomIds, [bad]) == [x];
    assert Outcomes(allRoomIds, done + [bad] + after) == os + [x] + oa;
    RunStopsAtAbort(os, x, oa);
  }

  lemma {:induction false} RunStopsAtAbort(done: seq<BlockOutcome>, bad: BlockOutcome, after: seq<BlockOutcome>)
    requires bad.Abort?
    requires forall i :: 0 <= i < |done| ==> !done[i].Abort?
    ensures Run(done + [bad] + after) == ImportRun(Run(done).submitted, Some(bad.fault))
    decreases |done|
  {
    if |done| == 0 {
      assert done + [bad] + after == [bad] + after;
    } else {
      assert (done + [bad] + after)[1..] == done[1..] + [bad] + after;
      RunStopsAtAbort(done[1..], bad, after);
    }
  }

  /** A submission holding known rooms only and an empty prepayment note. */
  predicate Clean(allRoomIds: seq<char>, s: Submission) {
    s.Write? ==> s.booking.prepaymentNote == "" && forall c :: c in s.booking.roomIds ==> c in allRoomIds
  }

  /** Every booking the import writes holds known rooms only and an empty prepayment note. */
  lemma WrittenBookingsClean(allRoomIds: seq<char>, blocks: seq<string>)
    ensures forall s :: s in ImportBlocks(allRoomIds, blocks).submitted ==> Clean(allRoomIds, s)
  {
    var os := Outcomes(allRoomIds, blocks);
    forall s | s in Run(os).submitted ensures Clean(allRoomIds, s) {
      var i :| 0 <= i < |os| && os[i] == Submit(s);
    }
  }
}

=== FILE: input_utils.dfy ===
/** Validation and normalisation of what the staff type into the chat: dates, phone
    numbers, night counts, prices, and booking ids embedded in command templates. */
module InputUtils {
  import opened Wrappers
  import opened Text
  import opened Calendar
  import opened Patterns

  // ---------------------------------------------------------------------------
  // Dates
  // ---------------------------------------------------------------------------

  /** `strptime(s, '%Y-%m-%d')` does not raise. */
  predicate IsValidDate(s: string) {
    ParseDate(s, '-').Some?
  }

  /** The accepted strings are exactly the well-formed spellings of real calendar days. */
  lemma IsValidDateMeaning(s: string)
    ensures IsValidDate(s) <==> ScanDate(s, '-').Some? && ValidCivil(ScanDate(s, '-').value)
  {
  }

  /** Every date up to 9999-12-31, written as Y-m-d, is accepted and denotes itself. */
  lemma FormattedDateIsValid(d: Day)
    requires d < DaysBeforeYear(10000)
    ensures IsValidDate(FormatDate(d, '-'))
    ensures ParseDate(FormatDate(d, '-'), '-') == Some(d)
  {
    ParseFormatRoundTrip(d, '-');
  }

  // ---------------------------------------------------------------------------
  // Phone numbers
  // ---------------------------------------------------------------------------

  /** `is_valid_phone_number`: starts with '+' or '0' and has no blank; a '+' number is '+'
      then digits only; a '09' number has exactly ten characters (of any kind); any other
      '0' number is digits only. */
  predicate IsValidPhoneNumber(p: string) {
    if !(StartsWith(p, "+") || StartsWith(p, "0")) || ' ' in p then false
    else if StartsWith(p, "+") then AllDigits(p[1..])
    else if StartsWith(p, "09") then |p| == 10
    else AllDigits(p)
  }

  /** The four rules, character by character: a valid number is non-empty, opens with '+'
      or '0' and holds no blank; a '+' number is valid exactly when one or more digits
      follow the '+'; a '09' number exactly when it has ten characters; any other '0'
      number exactly when every character is a digit. */
  lemma PhoneNumberRules(p: string)
    ensures IsValidPhoneNumber(p) ==>
      |p| > 0 && (p[0] == '+' || p[0] == '0') && forall i :: 0 <= i < |p| ==> p[i] != ' '
    ensures |p| > 0 && p[0] == '+' ==>
      (IsValidPhoneNumber(p) <==> |p| >= 2 && forall i :: 1 <= i < |p| ==> '0' <= p[i] <= '9')
    ensures |p| >= 2 && p[0] == '0' && p[1] == '9' ==>
      (IsValidPhoneNumber(p) <==> |p| == 10 && forall i :: 0 <= i < |p| ==> p[i] != ' ')
    ensures |p| > 0 && p[0] == '0' && (|p| == 1 || p[1] != '9') ==>
      (IsValidPhoneNumber(p) <==> forall i :: 0 <= i < |p| ==> '0' <= p[i] <= '9')
  {
    if IsValidPhoneNumber(p) && StartsWith(p, "+") {
      assert forall i :: 1 <= i < |p| ==> p[i] == p[1..][i - 1];
    }
    if |p| > 0 && p[0] == '+' && |p| >= 2 && forall i :: 1 <= i < |p| ==> '0' <= p[i] <= '9' {
      assert forall i :: 0 <= i < |p[1..]| ==> p[1..][i] == p[i + 1];
      assert StartsWith(p, "+");
    }
    if |p| >= 2 && p[0] == '0' {
      assert StartsWith(p, "0");
      if p[1] == '9' { assert StartsWith(p, "09"); }
    }
    if |p| > 0 && p[0] == '0' {
      assert StartsWith(p, "0");
    }
  }

  /** A '09' number is not checked for digits, only counted. */
  lemma LocalMobileNotDigitChecked()
    ensures IsValidPhoneNumber("09ab-cd-ef")
  {
    PhoneNumberRules("09ab-cd-ef");
  }

  /** A blank anywhere rejects a number, even of the right length. */
  lemma BlankRejected()
    ensures !IsValidPhoneNumber("0912 45678")
  {
    assert "0912 45678"[4] == ' ';
  }

  /** `format_phone_number`: a leading '0' becomes the '+886' country prefix. */
  function FormatPhoneNumber(p: string): (r: string)
    ensures StartsWith(p, "0") ==> |r| == |p| + 3 && StartsWith(r, "+886") && r[4..] == p[1..]
    ensures !StartsWith(p, "0") ==> r == p
  {
    if StartsWith(p, "0") then "+886" + p[1..] else p
  }

  /** How a stored '+886' number is shown to staff: the local '0' form. */
  function DisplayPhone(p: string): (r: string)
    ensures StartsWith(p, "+886") ==> |r| == |p| - 3 && StartsWith(r, "0") && r[1..] == p[4..]
    ensures !StartsWith(p, "+886") ==> r == p
  {
    if StartsWith(p, "+886") then "0" + p[4..] else p
  }

  /** Normalising twice is normalising once. */
  lemma FormatPhoneIdempotent(p: string)
    ensures FormatPhoneNumber(FormatPhoneNumber(p)) == FormatPhoneNumber(p)
  {
    if StartsWith(p, "0") {
      assert FormatPhoneNumber(p)[0] == '+';
    }
  }

  /** Displaying undoes normalising, for every local number. */
  lemma DisplayUndoesFormat(p: string)
    requires StartsWith(p, "0")
    ensures DisplayPhone(FormatPhoneNumber(p)) == p
  {
    assert FormatPhoneNumber(p)[4..] == p[1..];
  }

  /** Normalising undoes displaying, for every '+886' number. */
  lemma FormatUndoesDisplay(p: string)
    requires StartsWith(p, "+886")
    ensures FormatPhoneNumber(DisplayPhone(p)) == p
  {
    assert p == "+886" + p[4..];
  }

  /** A valid all-digit local number stays valid once normalised, now in '+' form. */
  lemma FormatKeepsValidity(p: string)
    requires IsValidPhoneNumber(p) && AllDigits(p[1..])
    ensures IsValidPhoneNumber(FormatPhoneNumber(p)) && StartsWith(FormatPhoneNumber(p), "+")
  {
    var r := FormatPhoneNumber(p);
    if StartsWith(p, "0") {
      assert r[1..] == "886" + p[1..];
      assert forall i :: 0 <= i < |r| ==> r[i] != ' ' by {
        forall i | 0 <= i < |r| ensures r[i] != ' ' {
          if i >= 4 { assert r[i] == p[1..][i - 4]; }
        }
      }
    }
  }

  // ---------------------------------------------------------------------------
  // Numbers
  // ---------------------------------------------------------------------------

  /** `is_valid_num_nights`: a digit string denoting 1 to 15. */
  predicate IsValidNumNights(s: string) {
    AllDigits(s) && 1 <= DigitsValue(s) <= 15
  }

  /** `is_valid_price`: a digit string denoting 0 to 100000. */
  predicate IsValidPrice(s: string) {
    AllDigits(s) && 0 <= DigitsValue(s) <= 100000
  }

  /** The decimal spelling of a count is accepted exactly when the count is in range. */
  lemma NumNightsOfString(n: int)
    ensures IsValidNumNights(IntToString(n)) <==> 1 <= n <= 15
  {
    if n >= 0 {
      NatToStringRoundTrip(n);
    } else {
      assert IntToString(n)[0] == '-';
    }
  }

  /** The decimal spelling of a price is accepted exactly when the price is in range. */
  lemma PriceOfString(n: int)
    ensures IsValidPrice(IntToString(n)) <==> 0 <= n <= 100000
  {
    if n >= 0 {
      NatToStringRoundTrip(n);
    } else {
      assert IntToString(n)[0] == '-';
    }
  }

  // ---------------------------------------------------------------------------
  // Booking ids in command templates
  // ---------------------------------------------------------------------------

  const Placeholder: string := "{booking_id}"

  /** Does `s` match `parts[0] (\d+) parts[1] (\d+) ... parts[k]` in full? */
  predicate FullMatch(parts: seq<string>, s: string)
    requires |parts| > 0
    decreases |parts|, 0
  {
    if |parts| == 1 then s == parts[0]
    else
      StartsWith(s, parts[0])
      && GreedyDigits(parts[1..], s[|parts[0]|..], DigitRun(s[|parts[0]|..])) > 0
  }

  /** The longest digit run `n <= m` at the start of `s` after which `rest` matches in full
      (what a backtracking `\d+` settles on), or 0 if there is none. */
  function GreedyDigits(rest: seq<string>, s: string, m: nat): (n: nat)
    requires |rest| > 0 && m <= |s|
    ensures n <= m
    ensures n > 0 ==> FullMatch(rest, s[n..])
    ensures forall k :: n < k <= m ==> !FullMatch(rest, s[k..])
    decreases |rest|, m + 1
  {
    if m == 0 then 0
    else if FullMatch(rest, s[m..]) then m
    else GreedyDigits(rest, s, m - 1)
  }

  /** `extract_booking_id(command, template)`: the template with each `{booking_id}` read as
      `(\d+)` must match the whole command; the first group, as an integer, is the id when it
      is positive. A template with no placeholder that matches raises IndexError (there is
      no group 1). */
  function ExtractBookingId(command: string, template: string): (r: Result<Option<int>>)
    ensures r.Ok? && r.value.Some? ==> r.value.value > 0
    ensures r.Err? <==> |Split(template, Placeholder)| == 1 && command == template
    ensures r.Ok? && r.value.Some? ==>
      var parts := Split(template, Placeholder);
      |parts| > 1 && StartsWith(command, parts[0])
      && var s := command[|parts[0]|..];
      exists n :: 0 < n <= |s| && AllDigits(s[..n]) && DigitsValue(s[..n]) == r.value.value
                  && FullMatch(parts[1..], s[n..])
    ensures !FullMatch(Split(template, Placeholder), command) ==> r == Ok(None)
  {
    var parts := Split(template, Placeholder);
    SplitSingle(template, Placeholder);
    if !FullMatch(parts, command) then Ok(None)
    else if |parts| == 1 then Err(IndexError)
    else
      var s := command[|parts[0]|..];
      var n := GreedyDigits(parts[1..], s, DigitRun(s));
      assert s[..n] == s[..DigitRun(s)][..n];
      var id := DigitsValue(s[..n]);
      if id > 0 then
        assert n > 0 && AllDigits(s[..n]) && FullMatch(parts[1..], s[n..]);
        Ok(Some(id))
      else Ok(None)
  }

  /** A template with one placeholder: extracting from `template.format(booking_id=n)` gives
      back `n` exactly when `n` is positive. */
  lemma ExtractFromFormatted(pre: string, post: string, n: int)
    requires '{' !in pre && !Contains(post, Placeholder)
    ensures ExtractBookingId(pre + IntToString(n) + post, pre + Placeholder + post)
         == Ok(if n > 0 then Some(n) else None)
  {
    CleanWithoutLeadChar(pre, Placeholder);
    SplitCons(pre, Placeholder, post);
    assert Split(pre + Placeholder + post, Placeholder) == [pre, post];
    if n < 0 {
      ExtractNegative(pre, post, n);
    } else {
      ExtractNatural(pre, post, n);
    }
  }

  /** A negative number never matches: its sign is not a digit. */
  lemma ExtractNegative(pre: string, post: string, n: int)
    requires Split(pre + Placeholder + post, Placeholder) == [pre, post] && n < 0
    ensures ExtractBookingId(pre + IntToString(n) + post, pre + Placeholder + post) == Ok(None)
  {
    var command := pre + IntToString(n) + post;
    var s := command[|pre|..];
    assert s == IntToString(n) + post;
    assert s[0] == '-';
    assert DigitRun(s) == 0;
  }

  /** A natural number is read back whole; zero is then dropped as not positive. */
  lemma ExtractNatural(pre: string, post: string, n: nat)
    requires Split(pre + Placeholder + post, Placeholder) == [pre, post]
    ensures ExtractBookingId(pre + IntToString(n) + post, pre + Placeholder + post)
         == Ok(if n > 0 then Some(n) else None)
  {
    var command := pre + IntToString(n) + post;
    assert StartsWith(command, pre);
    var s := command[|pre|..];
    assert s == NatToString(n) + post;
    assert [pre, post][1..] == [post];
    GreedyOnDigits(NatToString(n), post);
    NatToStringRoundTrip(n);
  }

  /** After a run of digits and then `post`, `(\d+)post` takes exactly the digits, however
      `post` begins. */
  lemma GreedyOnDigits(ds: string, post: string)
    requires AllDigits(ds) && |ds| > 0
    ensures var s := ds + post;
      DigitRun(s) >= |ds| && GreedyDigits([post], s, DigitRun(s)) == |ds| && s[..|ds|] == ds
  {
    var s := ds + post;
    DigitRunAtLeast(ds, post);
    var run := DigitRun(s);
    assert s[|ds|..] == post;
    assert FullMatch([post], s[|ds|..]);
    var g := GreedyDigits([post], s, run);
    assert g >= |ds|;
    assert FullMatch([post], s[g..]);
    assert s[..|ds|] == ds;
  }

  lemma {:induction false} DigitRunAtLeast(ds: string, t: string)
    requires DigitsOnly(ds)
    ensures DigitRun(ds + t) >= |ds|
    decreases |ds|
  {
    if |ds| > 0 {
      assert (ds + t)[1..] == ds[1..] + t;
      DigitRunAtLeast(ds[1..], t);
    }
  }
}

=== FILE: legacy_import.dfy ===
/** The first, one-card importer: it parses a single booking card without guarding any
    search, upserts the customer by phone only, and inserts the booking in one transaction
    under a fresh id. */
module LegacyImport {
  import opened Wrappers
  import opened Text
  import opened Calendar
  import opened Patterns
  import opened Records
  import opened InputUtils
  import opened BookingUtils
  import opened BookingDao
  import opened HistoricalImport

  /** The dict this `parse_booking` builds: both dates stay the matched text, and the
      check-out date is what is later stored as the last night. */
  datatype LegacyParsed = LegacyParsed(
    status: string,
    bookingId: int,
    customerName: string,
    phoneNumber: string,
    roomNameString: string,
    checkInDate: string,
    checkOutDate: string,
    totalPrice: real,
    source: string,
    prepayment: real,
    notes: string)

  /** The phone rewrite of this importer: a leading '0' becomes '+886'. */
  function LegacyPhone(p: string): (r: string)
    ensures StartsWith(p, "0") ==> r == "+886" + p[1..]
    ensures !StartsWith(p, "0") ==> r == p
  {
    if |p| > 0 && p[0] == '0' then "+886" + p[1..] else p
  }

  /** On the digit strings this importer captures, its rewrite is `format_phone_number`. */
  lemma LegacyPhoneIsFormat(p: string)
    ensures LegacyPhone(p) == FormatPhoneNumber(p)
  {
  }

  /** `parse_booking(text)` of the one-card importer. A failed search calls `.group` on None
      and raises AttributeError; nothing catches it. */
  function LegacyParseBooking(text: string): (r: Result<LegacyParsed>)
    ensures r.Err? ==> r.fault == AttributeError
    ensures r.Ok? <==>
      (Capture(text, IdWord, Digits).Some? && Capture(text, NameWord, Line).Some?
       && Capture(text, PhoneWord, Digits).Some?
       && Capture(text, RoomsWord, Line).Some? && Capture(text, CheckInWord, SlashDate).Some?
       && Capture(text, CheckOutWord, SlashDate).Some?
       && Capture(text, TotalWord, Digits).Some? && Capture(text, SourceWord, Line).Some?
       && Search(text, PrepaymentWord + [Colon], AmountAndLabel).Some?
       && Capture(text, NotesWord, OptLine).Some?)
    ensures r.Ok? ==> (r.value.status == StatusPrepaid <==>
                         Search(text, PrepaymentWord + [Colon], AmountAndLabel).value[1] == PaidLabel)
    ensures r.Ok? ==> (r.value.status == StatusCanceled <==>
                         Contains(text, CanceledMark)
                         && Search(text, PrepaymentWord + [Colon], AmountAndLabel).value[1] != PaidLabel)
    ensures r.Ok? ==> r.value.phoneNumber == LegacyPhone(Capture(text, PhoneWord, Digits).value)
    ensures r.Ok? ==> r.value.checkOutDate == Capture(text, CheckOutWord, SlashDate).value
    ensures r.Ok? ==> r.value.source == ReplaceChar(Capture(text, SourceWord, Line).value, '_', '.')
  {
    var id :- Required(Capture(text, IdWord, Digits));
    var name :- Required(Capture(text, NameWord, Line));
    var phone :- Required(Capture(text, PhoneWord, Digits));
    var rooms :- Required(Capture(text, RoomsWord, Line));
    var checkIn :- Required(Capture(text, CheckInWord, SlashDate));
    var checkOut :- Required(Capture(text, CheckOutWord, SlashDate));
    var total :- Required(Capture(text, TotalWord, Digits));
    var source :- Required(Capture(text, SourceWord, Line));
    var pre :- Required(Search(text, PrepaymentWord + [Colon], AmountAndLabel));
    var notes :- Required(Capture(text, NotesWord, OptLine));
    var status := if pre[1] == PaidLabel then StatusPrepaid
                  else if Contains(text, CanceledMark) then StatusCanceled
                  else StatusNew;
    Ok(LegacyParsed(status, DigitsValue(id), name, LegacyPhone(phone), rooms, checkIn, checkOut,
                    DigitsValue(total) as real, ReplaceChar(source, '_', '.'),
                    DigitsValue(pre[0]) as real, notes))
  }

  /** `.group(1)` on a search result: AttributeError when there was no match. */
  function Required<T>(o: Option<T>): (r: Result<T>)
    ensures r.Ok? <==> o.Some?
    ensures r.Ok? ==> r.value == o.value
    ensures r.Err? ==> r.fault == AttributeError
  {
    match o
    case Some(v) => Ok(v)
    case None => Err(AttributeError)
  }

  /** A paid deposit outranks the cancellation mark: a canceled card with a paid deposit
      is imported as prepaid. */
  lemma PaidOverridesCanceled(text: string)
    requires LegacyParseBooking(text).Ok? && Contains(text, CanceledMark)
    requires Search(text, PrepaymentWord + [Colon], AmountAndLabel).value[1] == PaidLabel
    ensures LegacyParseBooking(text).value.status == StatusPrepaid
  {
  }

  /** This importer stores `Booking_com` as `Booking.com`: there is no mapping back. */
  lemma LegacySourceOfBookingCom()
    ensures ReplaceChar("Booking_com", '_', '.') == "Booking.com"
    ensures SourceOf("Booking_com") == "Booking_com"
  {
    assert ReplaceChar("Booking_com", '_', '.') == "Booking.com";
  }

  /** `insert_or_update_customer`: look up by phone only (for a non-empty phone without
      the placeholder suffix); rename a generic name to a non-generic one; otherwise insert. */
  function LegacyUpsertCustomer(db: Db, name: string, phone: string): (r: (Db, nat))
    ensures 1 <= r.1 <= |r.0.customers| && |db.customers| <= |r.0.customers|
    ensures r.0 == db.(customers := r.0.customers)
    ensures (phone == "" || IsPlaceholderPhone(phone) || FindCustomer(db.customers, true, phone).None?) ==>
      r.0.customers == db.customers + [CustomerRow(name, phone)]
    ensures phone != "" && !IsPlaceholderPhone(phone) && FindCustomer(db.customers, true, phone).Some? ==>
      r.1 == FindCustomer(db.customers, true, phone).value + 1 && |r.0.customers| == |db.customers|
      && r.0.customers[r.1 - 1].phoneNumber == phone
      && r.0.customers[r.1 - 1].name
         == (if IsGenericName(db.customers[r.1 - 1].name) && !IsGenericName(name) then name
             else db.customers[r.1 - 1].name)
    ensures forall k :: 0 <= k < |db.customers| && k != r.1 - 1 ==> r.0.customers[k] == db.customers[k]
  {
    var found := if phone != "" && !IsPlaceholderPhone(phone) then FindCustomer(db.customers, true, phone) else None;
    match found
    case None => (db.(customers := db.customers + [CustomerRow(name, phone)]), |db.customers| + 1)
    case Some(k) =>
      var c := db.customers[k];
      var newName := if IsGenericName(c.name) && !IsGenericName(name) then name else c.name;
      (db.(customers := db.customers[k := CustomerRow(newName, c.phoneNumber)]), k + 1)
  }

  /** The one difference from `upsert_customer`: with a placeholder phone, a customer of the
      same non-generic name is not looked up, so a new customer is always inserted. */
  lemma LegacyPlaceholderInserts(db: Db, name: string, phone: string)
    requires IsPlaceholderPhone(phone)
    ensures |LegacyUpsertCustomer(db, name, phone).0.customers| == |db.customers| + 1
  {
  }

  /** The customer upsert keeps the tables consistent: it touches only the customers, and
      never shortens them. */
  lemma LegacyUpsertValid(db: Db, name: string, phone: string)
    requires Valid(db)
    ensures Valid(LegacyUpsertCustomer(db, name, phone).0)
  {
    var db1 := LegacyUpsertCustomer(db, name, phone).0;
    assert db1.bookings == db.bookings && db1.roomBookings == db.roomBookings && db1.rooms == db.rooms;
  }

  /** The schema default of `prepayment_status`, which this importer never sets. */
  const DefaultPrepaymentStatus: string := Unpaid

  /** `insert_booking(booking_data)`: in one transaction, upsert the customer and insert the
      booking under a fresh id, with the check-out date as its last night and one room
      assignment per known room character. A date the database cannot read raises, and the
      uncommitted transaction leaves the tables as they were. */
  function LegacyInsertBooking(db: Db, p: LegacyParsed, now: Time): (r: Db)
    requires Valid(db)
    ensures Valid(r)
    ensures (ParseDate(p.checkInDate, '/').None? || ParseDate(p.checkOutDate, '/').None?) ==> r == db
    ensures ParseDate(p.checkInDate, '/').Some? && ParseDate(p.checkOutDate, '/').Some? ==>
      r == LegacyStore(db, p, ParseDate(p.checkInDate, '/').value, ParseDate(p.checkOutDate, '/').value, now)
  {
    var checkIn := ParseDate(p.checkInDate, '/');
    var checkOut := ParseDate(p.checkOutDate, '/');
    if checkIn.Some? && checkOut.Some? then LegacyStore(db, p, checkIn.value, checkOut.value, now) else db
  }

  /** The transaction once both dates are read: a fresh booking id, the dates as given, one
      assignment per known room, and every other booking and assignment as it was. */
  function LegacyStore(db: Db, p: LegacyParsed, checkIn: Day, last: Day, now: Time): (r: Db)
    requires Valid(db)
    ensures Valid(r)
    ensures var id := db.nextBookingId;
      r.nextBookingId == id + 1 && id in r.bookings && id !in db.bookings
      && r.bookings[id].checkInDate == checkIn && r.bookings[id].lastDate == last
      && r.bookings[id].status == p.status
      && AssignedRooms(r.roomBookings, id) == ExtractRoomIds(AllRoomIds(db), p.roomNameString)
      && (forall other :: other != id ==> AssignedRooms(r.roomBookings, other) == AssignedRooms(db.roomBookings, other))
      && (forall other :: other in db.bookings ==> other in r.bookings && r.bookings[other] == db.bookings[other])
  {
    var (db1, cid) := LegacyUpsertCustomer(db, p.customerName, p.phoneNumber);
    LegacyUpsertValid(db, p.customerName, p.phoneNumber);
    var row := BookingRow(cid, p.status, checkIn, last, p.totalPrice, p.prepayment, "",
                          DefaultPrepaymentStatus, p.source, p.notes, now, now);
    InsertBookingRow(db1, row, ExtractRoomIds(AllRoomIds(db1), p.roomNameString)).0
  }
}

=== FILE: notion_sync.dfy ===
/** The two-way reconciliation pass between the booking database and the Notion booking
    database. Both sides contribute the bookings changed since the last successful pass;
    a booking changed on both sides keeps only its later copy (ties go to Notion); the
    database's survivors are written to Notion page by page, then Notion's survivors are
    upserted into the database, and one sync record is logged either way.

    Notion is a sequence of pages, each holding the property values this job reads and
    writes. The Notion client is reduced to a `NotionApi` value that says which calls
    raise. */
module NotionSync {
  import opened Wrappers
  import opened Text
  import opened Calendar
  import opened Records
  import opened InputUtils
  import opened BookingUtils
  import opened BookingDao

  const NotionSyncType: string := "sql_with_notion"

  // ---------------------------------------------------------------------------
  // Conflict resolution
  // ---------------------------------------------------------------------------

  /** Every booking carries the timestamp the conflict test compares: the row's `modified`
      for the database side, the page's last edit for the Notion side. */
  predicate Stamped(bs: seq<Booking>) {
    forall k :: 0 <= k < |bs| ==> bs[k].modified.Some?
  }

  /** The database copy `d` beats the Notion copy `n` only when it was modified strictly
      later. */
  predicate DbWins(d: Booking, n: Booking) {
    d.modified.Some? && n.modified.Some? && d.modified.value > n.modified.value
  }

  predicate UniqueIds(bs: seq<Booking>) {
    forall i, j :: 0 <= i < j < |bs| ==> bs[i].bookingId != bs[j].bookingId
  }

  /** The two skip lists the nested loop builds. */
  datatype Skips = Skips(db: seq<int>, notion: seq<int>)

  /** The inner loop for one database booking `d`: every Notion booking of the same id
      puts the Notion id on the skip list when `d` wins, and `d`'s id otherwise. */
  function PairSkips(d: Booking, ns: seq<Booking>): (r: Skips)
    ensures forall id :: id in r.db <==>
      exists j :: 0 <= j < |ns| && ns[j].bookingId == id && d.bookingId == id && !DbWins(d, ns[j])
    ensures forall id :: id in r.notion <==>
      exists j :: 0 <= j < |ns| && ns[j].bookingId == id && d.bookingId == id && DbWins(d, ns[j])
  {
    if |ns| == 0 then Skips([], [])
    else
      var rest := PairSkips(d, ns[1..]);
      assert forall j :: 1 <= j < |ns| ==> ns[j] == ns[1..][j - 1];
      if d.bookingId != ns[0].bookingId then rest
      else if DbWins(d, ns[0]) then Skips(rest.db, [ns[0].bookingId] + rest.notion)
      else Skips([d.bookingId] + rest.db, rest.notion)
  }

  /** The outer loop over the database bookings. */
  function ConflictSkips(ds: seq<Booking>, ns: seq<Booking>): (r: Skips)
    ensures forall id :: id in r.db <==>
      exists i, j :: 0 <= i < |ds| && 0 <= j < |ns| && ds[i].bookingId == id && ns[j].bookingId == id
                     && !DbWins(ds[i], ns[j])
    ensures forall id :: id in r.notion <==>
      exists i, j :: 0 <= i < |ds| && 0 <= j < |ns| && ds[i].bookingId == id && ns[j].bookingId == id
                     && DbWins(ds[i], ns[j])
  {
    if |ds| == 0 then Skips([], [])
    else
      var first := PairSkips(ds[0], ns);
      var rest := ConflictSkips(ds[1..], ns);
      assert forall i :: 1 <= i < |ds| ==> ds[i] == ds[1..][i - 1];
      Skips(first.db + rest.db, first.notion + rest.notion)
  }

  /** `[b for b in bs if b.booking_id not in skip]`. */
  function Keep(bs: seq<Booking>, skip: seq<int>): (r: seq<Booking>)
    ensures |r| <= |bs|
    ensures forall k :: 0 <= k < |r| ==> r[k] in bs && r[k].bookingId !in skip
    ensures forall k :: 0 <= k < |bs| && bs[k].bookingId !in skip ==> bs[k] in r
  {
    if |bs| == 0 then []
    else
      var rest := Keep(bs[1..], skip);
      assert forall k :: 1 <= k < |bs| ==> bs[k] == bs[1..][k - 1];
      if bs[0].bookingId in skip then rest else [bs[0]] + rest
  }

  /** Filtering a concatenation filters each part: survivors keep their relative order. */
  lemma {:induction false} KeepAppend(a: seq<Booking>, b: seq<Booking>, skip: seq<int>)
    ensures Keep(a + b, skip) == Keep(a, skip) + Keep(b, skip)
  {
    if |a| > 0 {
      assert (a + b)[1..] == a[1..] + b;
      KeepAppend(a[1..], b, skip);
    } else {
      assert a + b == b;
    }
  }

  /** An id is among the survivors exactly when it is among the inputs and not skipped. */
  lemma {:induction false} KeptIds(bs: seq<Booking>, skip: seq<int>, id: int)
    ensures id in Ids(Keep(bs, skip)) <==> id in Ids(bs) && id !in skip
  {
    if |bs| > 0 {
      KeptIds(bs[1..], skip, id);
      assert Ids(bs) == [bs[0].bookingId] + Ids(bs[1..]);
      if bs[0].bookingId in skip {
        assert Keep(bs, skip) == Keep(bs[1..], skip);
      } else {
        assert Ids(Keep(bs, skip)) == [bs[0].bookingId] + Ids(Keep(bs[1..], skip));
      }
    }
  }

  datatype Resolved = Resolved(db: seq<Booking>, notion: seq<Booking>)

  /** The conflict filter of a pass: drop every database booking whose id some Notion
      booking ties or beats, and every Notion booking whose id a database booking beats. */
  function Resolve(ds: seq<Booking>, ns: seq<Booking>): (r: Resolved)
    requires Stamped(ds) && Stamped(ns)
    ensures |r.db| <= |ds| && |r.notion| <= |ns|
  {
    var s := ConflictSkips(ds, ns);
    Resolved(Keep(ds, s.db), Keep(ns, s.notion))
  }

  /** For a booking changed on both sides, the database copy survives exactly when it was
      modified strictly later, and the Notion copy survives otherwise, ties included. */
  lemma LastWriteWins(ds: seq<Booking>, ns: seq<Booking>, i: nat, j: nat)
    requires Stamped(ds) && Stamped(ns) && UniqueIds(ds) && UniqueIds(ns)
    requires i < |ds| && j < |ns| && ds[i].bookingId == ns[j].bookingId
    ensures var r := Resolve(ds, ns);
      (ds[i].bookingId in Ids(r.db) <==> ds[i].modified.value > ns[j].modified.value)
      && (ns[j].bookingId in Ids(r.notion) <==> ds[i].modified.value <= ns[j].modified.value)
  {
    var s := ConflictSkips(ds, ns);
    var id := ds[i].bookingId;
    KeptIds(ds, s.db, id);
    KeptIds(ns, s.notion, id);
    assert Ids(ds)[i] == id && Ids(ns)[j] == id;
  }

  /** With ids unique on each side, every id changed on either side survives on exactly
      one side, so no id is written in both directions. */
  lemma SurvivesOnOneSide(ds: seq<Booking>, ns: seq<Booking>, id: int)
    requires Stamped(ds) && Stamped(ns) && UniqueIds(ds) && UniqueIds(ns)
    requires id in Ids(ds) || id in Ids(ns)
    ensures (id in Ids(Resolve(ds, ns).db)) != (id in Ids(Resolve(ds, ns).notion))
  {
    if id in Ids(ds) && id in Ids(ns) {
      var i :| 0 <= i < |ds| && Ids(ds)[i] == id;
      var j :| 0 <= j < |ns| && Ids(ns)[j] == id;
      LastWriteWins(ds, ns, i, j);
    } else {
      var s := ConflictSkips(ds, ns);
      SkippedOnBothSides(ds, ns, id);
      KeptIds(ds, s.db, id);
      KeptIds(ns, s.notion, id);
    }
  }

  /** Only an id present on both sides is ever skipped. */
  lemma SkippedOnBothSides(ds: seq<Booking>, ns: seq<Booking>, id: int)
    ensures id in ConflictSkips(ds, ns).db ==> id in Ids(ds) && id in Ids(ns)
    ensures id in ConflictSkips(ds, ns).notion ==> id in Ids(ds) && id in Ids(ns)
  {
    var s := ConflictSkips(ds, ns);
    if id in s.db {
      var i, j :| 0 <= i < |ds| && 0 <= j < |ns| && ds[i].bookingId == id && ns[j].bookingId == id
                  && !DbWins(ds[i], ns[j]);
      assert Ids(ds)[i] == id && Ids(ns)[j] == id;
    }
    if id in s.notion {
      var i, j :| 0 <= i < |ds| && 0 <= j < |ns| && ds[i].bookingId == id && ns[j].bookingId == id
                  && DbWins(ds[i], ns[j]);
      assert Ids(ds)[i] == id && Ids(ns)[j] == id;
    }
  }

  // ---------------------------------------------------------------------------
  // Notion pages
  // ---------------------------------------------------------------------------

  datatype DateRange = DateRange(start: string, end: Option<string>)

  /** The property values of one page, as the job reads and writes them: rich-text and
      title properties are lists of text contents, an empty phone, date, number or select
      is None, checkboxes are booleans. */
  datatype Props = Props(
    title: seq<string>,         // ID
    name: seq<string>,          // 姓名
    phone: Option<string>,      // 電話
    date: Option<DateRange>,    // 日期(不含退房日)
    rooms: seq<string>,         // 房間, one tag name per room
    total: Option<real>,        // 總金額
    source: Option<string>,     // 來源
    prepayment: Option<real>,   // 訂金
    paid: bool,                 // 已付訂金
    note: seq<string>,          // 匯款摘要
    notes: seq<string>,         // 備註
    canceled: bool)             // 取消

  datatype Page = Page(props: Props, createdTime: Time, lastEditedTime: Time)

  /** `xs[0]` on a list, None (IndexError) when it is empty. */
  function First(xs: seq<string>): (r: Option<string>)
    ensures r.Some? <==> |xs| > 0
    ensures r.Some? ==> r.value == xs[0]
  {
    if |xs| > 0 then Some(xs[0]) else None
  }

  /** `xs[0] if xs else ''`. */
  function FirstOrEmpty(xs: seq<string>): (r: string)
    ensures |xs| > 0 ==> r == xs[0]
    ensures |xs| == 0 ==> r == ""
  {
    if |xs| > 0 then xs[0] else ""
  }

  /** Status from the two checkboxes: canceled wins, then a paid deposit means prepaid. */
  function StatusOf(canceled: bool, paid: bool): (r: string)
    ensures r == StatusCanceled <==> canceled
    ensures r == StatusPrepaid <==> !canceled && paid
    ensures r == StatusNew <==> !canceled && !paid
  {
    if canceled then StatusCanceled else if paid then StatusPrepaid else StatusNew
  }

  /** The pages the program's loader keeps: every field whose absence raises is present.
      The loader copies the two date texts unread, so it keeps a date with no end and a
      date text carrying a time of day. */
  predicate LoadsInSource(p: Props) {
    |p.title| > 0 && ParseInt(p.title[0]).Some?
    && |p.name| > 0 && p.phone.Some? && p.date.Some?
    && p.total.Some? && p.source.Some? && p.prepayment.Some?
  }

  /** The fields a page needs to decode: every one whose absence raises, and two bare
      `%Y-%m-%d` dates, since a booking here holds day numbers. */
  predicate Decodable(p: Props) {
    |p.title| > 0 && ParseInt(p.title[0]).Some?
    && |p.name| > 0 && p.phone.Some?
    && p.date.Some? && ParseDate(p.date.value.start, '-').Some?
    && p.date.value.end.Some? && ParseDate(p.date.value.end.value, '-').Some?
    && p.total.Some? && p.source.Some? && p.prepayment.Some?
  }

  /** `load_booking_info_from_notion_entry`: the booking a page holds, or None for a
      malformed page (any missing field or unreadable id or date). */
  function Decode(page: Page): (r: Option<Booking>)
    ensures r.Some? <==> Decodable(page.props)
  {
    var p := page.props;
    var titleText :- First(p.title);
    var id :- ParseInt(titleText);
    var name :- First(p.name);
    var phone :- p.phone;
    var range :- p.date;
    var checkIn :- ParseDate(range.start, '-');
    var endText :- range.end;
    var last :- ParseDate(endText, '-');
    var total :- p.total;
    var source :- p.source;
    var prepayment :- p.prepayment;
    var paymentStatus := if p.paid then Paid else Unpaid;
    Some(Booking(id, StatusOf(p.canceled, p.paid), name, FormatPhoneNumber(phone), checkIn, last,
                 total, FirstOrEmpty(p.notes), source, prepayment, FirstOrEmpty(p.note),
                 paymentStatus, Concat(p.rooms), Some(page.createdTime), Some(page.lastEditedTime)))
  }

  /** The model keeps exactly the pages the program keeps whose date range has an end and
      whose two date texts are bare dates; a range with no end, or a date text with a
      time of day, is a page the program passes on and the model skips. */
  lemma DecodeNarrowsLoad(page: Page)
    ensures Decode(page).Some? <==>
      LoadsInSource(page.props) && page.props.date.value.end.Some?
      && ParseDate(page.props.date.value.start, '-').Some?
      && ParseDate(page.props.date.value.end.value, '-').Some?
  {
  }

  /** A single-day Notion date, whose end is empty, is kept by the program and skipped
      here. */
  lemma OpenRangeSkipped(page: Page)
    requires LoadsInSource(page.props) && page.props.date.value.end.None?
    ensures Decode(page).None?
  {
  }

  /** The fields of a decoded page: the id and dates read back, the phone normalised, the
      room tags joined, the status derived from the two checkboxes, the page's timestamps. */
  lemma DecodeFields(page: Page)
    requires Decodable(page.props)
    ensures var r := Decode(page).value; var p := page.props;
      r.bookingId == ParseInt(p.title[0]).value
      && r.customerName == p.name[0]
      && r.phoneNumber == FormatPhoneNumber(p.phone.value)
      && r.checkInDate == ParseDate(p.date.value.start, '-').value
      && r.lastDate == ParseDate(p.date.value.end.value, '-').value
      && r.roomIds == Concat(p.rooms)
      && r.status == StatusOf(p.canceled, p.paid)
      && (r.prepaymentStatus == Paid <==> p.paid)
      && (r.prepaymentStatus == Unpaid <==> !p.paid)
      && r.prepaymentNote == FirstOrEmpty(p.note)
      && r.notes == FirstOrEmpty(p.notes)
      && r.created == Some(page.createdTime)
      && r.modified == Some(page.lastEditedTime)
  {
  }

  lemma DecodeStamped(page: Page)
    requires Decode(page).Some?
    ensures Decode(page).value.modified == Some(page.lastEditedTime)
  {
  }

  /** One tag per room character. */
  function RoomTags(rooms: string): (r: seq<string>)
    ensures |r| == |rooms|
    ensures forall k :: 0 <= k < |r| ==> r[k] == [rooms[k]]
  {
    if |rooms| == 0 then [] else [[rooms[0]]] + RoomTags(rooms[1..])
  }

  /** Joining the tags gives the room string back. */
  lemma {:induction false} RoomTagsJoin(rooms: string)
    ensures Concat(RoomTags(rooms)) == rooms
  {
    if |rooms| > 0 {
      assert RoomTags(rooms)[1..] == RoomTags(rooms[1..]);
      RoomTagsJoin(rooms[1..]);
    }
  }

  /** The properties `write_bookings_to_notion` builds for a booking: money truncated to
      an integer, dates as Y-m-d, the two checkboxes from the two statuses. */
  function Encode(b: Booking): (p: Props)
    ensures p.title == [IntToString(b.bookingId)] && p.name == [b.customerName]
    ensures p.total == Some(Trunc(b.totalPrice) as real) && p.prepayment == Some(Trunc(b.prepayment) as real)
    ensures p.paid <==> b.prepaymentStatus == Paid
    ensures p.canceled <==> b.status == StatusCanceled
  {
    Props([IntToString(b.bookingId)], [b.customerName], Some(b.phoneNumber),
          Some(DateRange(FormatDate(b.checkInDate, '-'), Some(FormatDate(b.lastDate, '-')))),
          RoomTags(b.roomIds), Some(Trunc(b.totalPrice) as real), Some(b.source),
          Some(Trunc(b.prepayment) as real), b.prepaymentStatus == Paid, [b.prepaymentNote],
          [b.notes], b.status == StatusCanceled)
  }

  /** What a booking looks like after a trip through Notion: the phone normalised, money
      truncated, the prepayment status reduced to paid or unpaid and the status re-derived
      from the checkboxes, the page's timestamps. */
  function ThroughNotion(b: Booking, created: Time, edited: Time): Booking {
    b.(phoneNumber := FormatPhoneNumber(b.phoneNumber),
       totalPrice := Trunc(b.totalPrice) as real,
       prepayment := Trunc(b.prepayment) as real,
       prepaymentStatus := if b.prepaymentStatus == Paid then Paid else Unpaid,
       status := StatusOf(b.status == StatusCanceled, b.prepaymentStatus == Paid),
       created := Some(created),
       modified := Some(edited))
  }

  /** Encoding a booking onto a page and decoding the page gives the booking back, up to
      the changes a trip through Notion makes; id, name, rooms, dates, source and notes
      come back unchanged. */
  lemma EncodeDecode(b: Booking, created: Time, edited: Time)
    requires b.checkInDate < MaxDay && b.lastDate < MaxDay
    ensures Decode(Page(Encode(b), created, edited)) == Some(ThroughNotion(b, created, edited))
  {
    var p := Encode(b);
    ParseIntOfIntToString(b.bookingId);
    MaxDayIsYear10000();
    ParseFormatRoundTrip(b.checkInDate, '-');
    ParseFormatRoundTrip(b.lastDate, '-');
    RoomTagsJoin(b.roomIds);
    assert Decodable(p);
  }

  /** The status survives the trip exactly for a booking whose status agrees with its
      deposit: canceled, or prepaid precisely when the deposit is paid. */
  lemma StatusSurvives(b: Booking, created: Time, edited: Time)
    requires b.status == StatusNew || b.status == StatusPrepaid || b.status == StatusCanceled
    requires b.status != StatusCanceled ==> (b.status == StatusPrepaid <==> b.prepaymentStatus == Paid)
    ensures ThroughNotion(b, created, edited).status == b.status
  {
  }

  /** A money amount with a fraction does not survive: the page holds its integer part. */
  lemma FractionLost(b: Booking, created: Time, edited: Time)
    requires b.totalPrice == 1.5
    ensures ThroughNotion(b, created, edited).totalPrice == 1.0 != b.totalPrice
  {
    assert Trunc(1.5) == 1;
  }

  /** One database query returns at most this many results: Notion's page size when the
      request names none. */
  const NotionPageSize: nat := 100

  /** The query's filter: the pages last edited strictly after the bound, in page order. */
  function EditedAfter(pages: seq<Page>, bound: Time): (r: seq<Page>)
    ensures |r| <= |pages|
    ensures forall k :: 0 <= k < |r| ==> r[k] in pages && r[k].lastEditedTime > bound
    ensures forall p :: p in pages && p.lastEditedTime > bound ==> p in r
  {
    if |pages| == 0 then []
    else
      var rest := EditedAfter(pages[1..], bound);
      assert forall p :: p in pages[1..] ==> p in pages;
      assert forall p :: p in pages ==> p == pages[0] || p in pages[1..];
      if pages[0].lastEditedTime > bound then [pages[0]] + rest else rest
  }

  /** Filtering a split list filters its halves. */
  lemma {:induction false} EditedAfterAppend(xs: seq<Page>, ys: seq<Page>, bound: Time)
    ensures EditedAfter(xs + ys, bound) == EditedAfter(xs, bound) + EditedAfter(ys, bound)
  {
    if |xs| > 0 {
      assert (xs + ys)[1..] == xs[1..] + ys;
      EditedAfterAppend(xs[1..], ys, bound);
    } else {
      assert xs + ys == ys;
    }
  }

  /** The single result page `notion.databases.query` answers with: the first
      `NotionPageSize` pages the filter admits. */
  function QueryPage(pages: seq<Page>, bound: Time): (r: seq<Page>)
    ensures |r| <= NotionPageSize
    ensures r <= EditedAfter(pages, bound)
    ensures |EditedAfter(pages, bound)| <= NotionPageSize ==> r == EditedAfter(pages, bound)
  {
    var e := EditedAfter(pages, bound);
    if |e| <= NotionPageSize then e else e[..NotionPageSize]
  }

  /** The decodable pages of a list whose edit time is after the bound, decoded, in order. */
  function FetchFrom(pages: seq<Page>, bound: Time): (r: seq<Booking>)
    ensures Stamped(r) && |r| <= |pages|
  {
    FetchStamped(pages, bound);
    Select(EditTimes(pages), Decoded(pages), bound)
  }

  /** `get_latest_bookings_from_notion` as written: one query, whose result page is decoded
      with malformed pages skipped. The job never asks for a further page, so at most
      `NotionPageSize` bookings come back however many pages changed. */
  function FetchChanged(pages: seq<Page>, bound: Time): (r: seq<Booking>)
    ensures Stamped(r) && |r| <= NotionPageSize
  {
    FetchFrom(QueryPage(pages, bound), bound)
  }

  /** The corrected fetch: the query followed through every result page, so all decodable
      pages edited after the bound come back. */
  function FetchAllChanged(pages: seq<Page>, bound: Time): (r: seq<Booking>)
    ensures Stamped(r) && |r| <= |pages|
  {
    FetchFrom(pages, bound)
  }

  function EditTimes(pages: seq<Page>): (r: seq<Time>)
    ensures |r| == |pages| && forall k :: 0 <= k < |r| ==> r[k] == pages[k].lastEditedTime
  {
    if |pages| == 0 then [] else [pages[0].lastEditedTime] + EditTimes(pages[1..])
  }

  function Decoded(pages: seq<Page>): (r: seq<Option<Booking>>)
    ensures |r| == |pages| && forall k :: 0 <= k < |r| ==> r[k] == Decode(pages[k])
  {
    if |pages| == 0 then [] else [Decode(pages[0])] + Decoded(pages[1..])
  }

  /** The present values whose time is strictly after the bound, in order. */
  function Select<T>(times: seq<Time>, xs: seq<Option<T>>, bound: Time): (r: seq<T>)
    requires |times| == |xs|
    ensures |r| <= |xs|
  {
    if |xs| == 0 then []
    else
      var rest := Select(times[1..], xs[1..], bound);
      if times[0] > bound && xs[0].Some? then [xs[0].value] + rest else rest
  }

  lemma {:induction false} SelectSound<T>(times: seq<Time>, xs: seq<Option<T>>, bound: Time, k: nat)
    requires |times| == |xs| && k < |Select(times, xs, bound)|
    ensures exists i :: 0 <= i < |xs| && times[i] > bound && xs[i] == Some(Select(times, xs, bound)[k])
  {
    var r := Select(times, xs, bound);
    var rest := Select(times[1..], xs[1..], bound);
    if times[0] > bound && xs[0].Some? && k == 0 {
      assert xs[0] == Some(r[0]);
    } else {
      var k' := if times[0] > bound && xs[0].Some? then k - 1 else k;
      assert r[k] == rest[k'];
      SelectSound(times[1..], xs[1..], bound, k');
      var i :| 0 <= i < |xs[1..]| && times[1..][i] > bound && xs[1..][i] == Some(rest[k']);
      assert times[i + 1] > bound && xs[i + 1] == Some(r[k]);
    }
  }

  lemma {:induction false} SelectComplete<T>(times: seq<Time>, xs: seq<Option<T>>, bound: Time, i: nat)
    requires |times| == |xs| && i < |xs| && times[i] > bound && xs[i].Some?
    ensures xs[i].value in Select(times, xs, bound)
  {
    if i > 0 {
      assert times[i] == times[1..][i - 1] && xs[i] == xs[1..][i - 1];
      SelectComplete(times[1..], xs[1..], bound, i - 1);
    }
  }

  lemma FetchStamped(pages: seq<Page>, bound: Time)
    ensures Stamped(Select(EditTimes(pages), Decoded(pages), bound))
  {
    var xs := Decoded(pages);
    forall i | 0 <= i < |xs| && xs[i].Some? ensures xs[i].value.modified.Some? {
      DecodeStamped(pages[i]);
    }
    SelectStamped(EditTimes(pages), xs, bound);
  }

  lemma {:induction false} SelectStamped(times: seq<Time>, xs: seq<Option<Booking>>, bound: Time)
    requires |times| == |xs|
    requires forall i :: 0 <= i < |xs| && xs[i].Some? ==> xs[i].value.modified.Some?
    ensures Stamped(Select(times, xs, bound))
  {
    if |xs| > 0 {
      assert forall i :: 0 <= i < |xs[1..]| ==> xs[1..][i] == xs[i + 1];
      SelectStamped(times[1..], xs[1..], bound);
    }
  }

  /** Every fetched booking is the decoding of a page edited after the bound. */
  lemma FetchSound(pages: seq<Page>, bound: Time, k: nat)
    requires k < |FetchChanged(pages, bound)|
    ensures exists i :: 0 <= i < |pages| && pages[i].lastEditedTime > bound
                        && Decode(pages[i]) == Some(FetchChanged(pages, bound)[k])
  {
    var q := QueryPage(pages, bound);
    SelectSound(EditTimes(q), Decoded(q), bound, k);
    var j :| 0 <= j < |q| && EditTimes(q)[j] > bound && Decoded(q)[j] == Some(FetchChanged(pages, bound)[k]);
    assert q[j] == EditedAfter(pages, bound)[j];
    var i :| 0 <= i < |pages| && pages[i] == q[j];
  }

  /** A decodable page edited after the bound is fetched when fewer than `NotionPageSize`
      pages before it were edited after the bound as well: it lies on the one result page. */
  lemma FetchComplete(pages: seq<Page>, bound: Time, i: nat)
    requires i < |pages| && pages[i].lastEditedTime > bound && Decode(pages[i]).Some?
    requires |EditedAfter(pages[..i], bound)| < NotionPageSize
    ensures Decode(pages[i]).value in FetchChanged(pages, bound)
  {
    var j := |EditedAfter(pages[..i], bound)|;
    EditedAfterAt(pages, bound, i);
    var q := QueryPage(pages, bound);
    assert j < |q| && q[j] == pages[i];
    SelectComplete(EditTimes(q), Decoded(q), bound, j);
  }

  /** A page the filter admits sits in the filtered list just after the admitted pages
      before it. */
  lemma EditedAfterAt(pages: seq<Page>, bound: Time, i: nat)
    requires i < |pages| && pages[i].lastEditedTime > bound
    ensures |EditedAfter(pages[..i], bound)| < |EditedAfter(pages, bound)|
    ensures EditedAfter(pages, bound)[|EditedAfter(pages[..i], bound)|] == pages[i]
  {
    assert pages == pages[..i] + pages[i..];
    EditedAfterAppend(pages[..i], pages[i..], bound);
    assert pages[i..][0] == pages[i];
    assert EditedAfter(pages[i..], bound)[0] == pages[i];
  }

  /** The corrected fetch misses nothing: every decodable page edited after the bound is
      fetched, wherever it lies. */
  lemma FetchAllComplete(pages: seq<Page>, bound: Time, i: nat)
    requires i < |pages| && pages[i].lastEditedTime > bound && Decode(pages[i]).Some?
    ensures Decode(pages[i]).value in FetchAllChanged(pages, bound)
  {
    SelectComplete(EditTimes(pages), Decoded(pages), bound, i);
  }

  /** One step of a fetch: the head page contributes its decoding when it qualifies. */
  lemma FetchFromCons(pages: seq<Page>, bound: Time)
    requires |pages| > 0
    ensures FetchFrom(pages, bound)
         == (if pages[0].lastEditedTime > bound && Decode(pages[0]).Some? then [Decode(pages[0]).value] else [])
            + FetchFrom(pages[1..], bound)
  {
    assert EditTimes(pages)[1..] == EditTimes(pages[1..]);
    assert Decoded(pages)[1..] == Decoded(pages[1..]);
  }

  /** Fetching from the filtered pages is fetching from all of them. */
  lemma {:induction false} FetchFromFiltered(pages: seq<Page>, bound: Time)
    ensures FetchFrom(EditedAfter(pages, bound), bound) == FetchFrom(pages, bound)
  {
    if |pages| > 0 {
      FetchFromCons(pages, bound);
      FetchFromFiltered(pages[1..], bound);
      var rest := EditedAfter(pages[1..], bound);
      if pages[0].lastEditedTime > bound {
        assert ([pages[0]] + rest)[1..] == rest;
        FetchFromCons([pages[0]] + rest, bound);
      }
    }
  }

  /** With at most `NotionPageSize` changed pages the single query sees them all, and the
      fetch as written agrees with the corrected one. */
  lemma FewChangesAllFetched(pages: seq<Page>, bound: Time)
    requires |EditedAfter(pages, bound)| <= NotionPageSize
    ensures FetchChanged(pages, bound) == FetchAllChanged(pages, bound)
  {
    FetchFromFiltered(pages, bound);
  }

  /** A fetch over pages that all qualify decodes every one of them. */
  lemma {:induction false} FetchFromAll(pages: seq<Page>, bound: Time)
    requires forall i :: 0 <= i < |pages| ==> pages[i].lastEditedTime > bound && Decode(pages[i]).Some?
    ensures |FetchFrom(pages, bound)| == |pages|
  {
    if |pages| > 0 {
      FetchFromCons(pages, bound);
      assert forall i :: 0 <= i < |pages[1..]| ==> pages[1..][i] == pages[i + 1];
      FetchFromAll(pages[1..], bound);
    }
  }

  /** More decodable changed pages than one result page holds: the fetch as written loses
      the overflow, and the corrected fetch returns every one. */
  lemma OverflowPagesLost(pages: seq<Page>, bound: Time)
    requires |pages| > NotionPageSize
    requires forall i :: 0 <= i < |pages| ==> pages[i].lastEditedTime > bound && Decode(pages[i]).Some?
    ensures |FetchChanged(pages, bound)| <= NotionPageSize < |pages| == |FetchAllChanged(pages, bound)|
  {
    FetchFromAll(pages, bound);
  }

  /** A concrete overflow: 101 pages, each holding a booking edited after the bound. */
  lemma OverflowExample(b: Booking)
    requires b.checkInDate < MaxDay && b.lastDate < MaxDay
    ensures |FetchChanged(seq(NotionPageSize + 1, _ => Page(Encode(b), 0, 1)), 0)|
          < |FetchAllChanged(seq(NotionPageSize + 1, _ => Page(Encode(b), 0, 1)), 0)|
  {
    var pages := seq(NotionPageSize + 1, _ => Page(Encode(b), 0, 1));
    EncodeDecode(b, 0, 1);
    OverflowPagesLost(pages, 0);
  }

  // ---------------------------------------------------------------------------
  // Writing to Notion
  // ---------------------------------------------------------------------------

  /** The plain text of a title: its contents joined. */
  function TitleText(p: Props): string {
    Concat(p.title)
  }

  /** The first page the query `title equals t` returns. */
  function FirstTitled(pages: seq<Page>, t: string): (r: Option<nat>)
    ensures r.Some? ==> r.value < |pages| && TitleText(pages[r.value].props) == t
    ensures r.Some? ==> forall k :: 0 <= k < r.value ==> TitleText(pages[k].props) != t
    ensures r.None? <==> forall k :: 0 <= k < |pages| ==> TitleText(pages[k].props) != t
  {
    if |pages| == 0 then None
    else if TitleText(pages[0].props) == t then Some(0)
    else
      var rest := FirstTitled(pages[1..], t);
      assert forall k :: 1 <= k < |pages| ==> pages[k] == pages[1..][k - 1];
      if rest.Some? then Some(rest.value + 1) else None
  }

  /** The number of pages titled `t`. */
  function CountTitled(pages: seq<Page>, t: string): (n: nat)
    ensures n <= |pages|
    ensures n == 0 <==> forall k :: 0 <= k < |pages| ==> TitleText(pages[k].props) != t
  {
    if |pages| == 0 then 0
    else
      assert forall k :: 1 <= k < |pages| ==> pages[k] == pages[1..][k - 1];
      (if TitleText(pages[0].props) == t then 1 else 0) + CountTitled(pages[1..], t)
  }

  /** One booking's write: update the first page whose title is the id, leaving any
      duplicates alone, or create a page when there is none. */
  function PutPage(pages: seq<Page>, id: int, props: Props, now: Time): (r: seq<Page>)
    ensures FirstTitled(pages, IntToString(id)).None? ==> r == pages + [Page(props, now, now)]
    ensures FirstTitled(pages, IntToString(id)).Some? ==>
      var k := FirstTitled(pages, IntToString(id)).value;
      |r| == |pages| && r[k] == Page(props, pages[k].createdTime, now)
      && forall j :: 0 <= j < |pages| && j != k ==> r[j] == pages[j]
  {
    match FirstTitled(pages, IntToString(id))
    case None => pages + [Page(props, now, now)]
    case Some(k) => pages[k := Page(props, pages[k].createdTime, now)]
  }

  lemma {:induction false} CountAppend(a: seq<Page>, b: seq<Page>, t: string)
    ensures CountTitled(a + b, t) == CountTitled(a, t) + CountTitled(b, t)
  {
    if |a| > 0 {
      assert (a + b)[1..] == a[1..] + b;
      CountAppend(a[1..], b, t);
    } else {
      assert a + b == b;
    }
  }

  lemma {:induction false} CountUpdate(pages: seq<Page>, k: nat, p: Page, t: string)
    requires k < |pages| && TitleText(pages[k].props) == t && TitleText(p.props) == t
    ensures CountTitled(pages[k := p], t) == CountTitled(pages, t)
  {
    if k > 0 {
      assert pages[k := p][1..] == pages[1..][k - 1 := p];
      CountUpdate(pages[1..], k - 1, p, t);
    } else {
      assert pages[k := p][1..] == pages[1..];
    }
  }

  /** The title written for a booking is its id. */
  lemma EncodeTitle(b: Booking)
    ensures TitleText(Encode(b)) == IntToString(b.bookingId)
  {
    assert Concat([IntToString(b.bookingId)]) == IntToString(b.bookingId) + Concat([]);
  }

  /** Writing a page titled with the id leaves exactly one page with that title when there
      was none, and the same number of such pages when there were some: duplicates are
      never removed. */
  lemma PutPageCount(pages: seq<Page>, id: int, props: Props, now: Time)
    requires TitleText(props) == IntToString(id)
    ensures var t := IntToString(id);
      CountTitled(PutPage(pages, id, props, now), t)
      == if CountTitled(pages, t) == 0 then 1 else CountTitled(pages, t)
  {
    var t := IntToString(id);
    match FirstTitled(pages, t)
    case None =>
      CountAppend(pages, [Page(props, now, now)], t);
      assert CountTitled([Page(props, now, now)], t) == 1 + CountTitled([], t);
    case Some(k) =>
      CountUpdate(pages, k, Page(props, pages[k].createdTime, now), t);
  }

  /** After a write, the first page titled with the id holds the written properties. */
  lemma PutPageFinds(pages: seq<Page>, id: int, props: Props, now: Time)
    requires TitleText(props) == IntToString(id)
    ensures var r := PutPage(pages, id, props, now);
      FirstTitled(r, IntToString(id)).Some? && r[FirstTitled(r, IntToString(id)).value].props == props
  {
    var t := IntToString(id);
    var r := PutPage(pages, id, props, now);
    match FirstTitled(pages, t)
    case None =>
      assert r[|pages|].props == props;
      assert forall j :: 0 <= j < |pages| ==> r[j] == pages[j];
      FirstTitledIs(r, t, |pages|);
    case Some(k) =>
      assert r[k].props == props;
      FirstTitledIs(r, t, k);
  }

  /** The first titled page is the one before which no page has the title. */
  lemma FirstTitledIs(pages: seq<Page>, t: string, k: nat)
    requires k < |pages| && TitleText(pages[k].props) == t
    requires forall j :: 0 <= j < k ==> TitleText(pages[j].props) != t
    ensures FirstTitled(pages, t) == Some(k)
  {
  }

  /** The Notion client's failures: whether the query for changed pages raises, and the
      position (in the write list) of the first booking whose page write raises. */
  datatype NotionApi = NotionApi(queryFails: bool, writeFailsAt: Option<nat>)

  /** Does the write of the booking at position `k` raise? */
  predicate WriteFails(api: NotionApi, k: nat) {
    api.writeFailsAt == Some(k)
  }

  /** How many bookings are written before the first failing write (all of them when none
      fails). */
  function WrittenBefore(api: NotionApi, n: nat): (k: nat)
    ensures k <= n
    ensures forall j :: 0 <= j < k ==> !WriteFails(api, j)
    ensures k < n ==> WriteFails(api, k)
  {
    match api.writeFailsAt
    case Some(f) => if f < n then f else n
    case None => n
  }

  /** Each booking's page write, in order. */
  function WriteAll(pages: seq<Page>, bs: seq<Booking>, now: Time): (r: seq<Page>)
    ensures |pages| <= |r| <= |pages| + |bs|
    decreases |bs|
  {
    if |bs| == 0 then pages
    else WriteAll(PutPage(pages, bs[0].bookingId, Encode(bs[0]), now), bs[1..], now)
  }

  /** `write_bookings_to_notion`: write each booking in turn; the first failing write
      re-raises, leaving the pages written before it in place. */
  function WriteToNotion(pages: seq<Page>, bs: seq<Booking>, api: NotionApi, now: Time)
    : (r: (seq<Page>, bool))
    ensures r.1 <==> forall k :: 0 <= k < |bs| ==> !WriteFails(api, k)
    ensures r.0 == WriteAll(pages, bs[..WrittenBefore(api, |bs|)], now)
  {
    var k := WrittenBefore(api, |bs|);
    (WriteAll(pages, bs[..k], now), k == |bs|)
  }

  /** Writing one booking more appends its page write to those before it. */
  lemma {:induction false} WriteAllSnoc(pages: seq<Page>, bs: seq<Booking>, b: Booking, now: Time)
    ensures WriteAll(pages, bs + [b], now) == PutPage(WriteAll(pages, bs, now), b.bookingId, Encode(b), now)
    decreases |bs|
  {
    if |bs| == 0 {
      assert (bs + [b])[1..] == [];
    } else {
      assert (bs + [b])[1..] == bs[1..] + [b];
      WriteAllSnoc(PutPage(pages, bs[0].bookingId, Encode(bs[0]), now), bs[1..], b, now);
    }
  }

  /** The last booking written is found on Notion under its id with its own properties,
      whatever was written before it. */
  lemma LastWriteFound(pages: seq<Page>, bs: seq<Booking>, b: Booking, now: Time)
    ensures var r := WriteAll(pages, bs + [b], now); var t := IntToString(b.bookingId);
      FirstTitled(r, t).Some? && r[FirstTitled(r, t).value].props == Encode(b)
  {
    WriteAllSnoc(pages, bs, b, now);
    EncodeTitle(b);
    PutPageFinds(WriteAll(pages, bs, now), b.bookingId, Encode(b), now);
  }

  // ---------------------------------------------------------------------------
  // Writing to the database and the pass
  // ---------------------------------------------------------------------------

  /** `write_bookings_to_db`: upsert each Notion booking in turn. */
  function WriteToDb(db: Db, bs: seq<Booking>, now: Time): (r: Db)
    requires Valid(db)
    ensures Valid(r)
    ensures r.rooms == db.rooms && r.syncRecords == db.syncRecords
    decreases |bs|
  {
    if |bs| == 0 then db else WriteToDb(UpsertBooking(db, bs[0], now).0, bs[1..], now)
  }

  datatype Pass = Pass(
    bound: Time,
    fromDb: seq<Booking>,      // the database's survivors, written to Notion
    fromNotion: seq<Booking>,  // Notion's survivors, written to the database
    success: bool,
    db: Db,
    pages: seq<Page>)

  /** `sync_bookings_with_notion`: one reconciliation pass, returned with the database side
      `get_latest_bookings` gave for the bound. */
  method SyncWithNotion(db: Db, pages: seq<Page>, minTime: Time, api: NotionApi, now: Time)
    returns (r: Pass, ds: seq<Booking>)
    requires Valid(db)
    ensures r.bound == SyncLowerBound(LatestSyncTime(db, NotionSyncType), minTime)
    ensures |ds| <= 1 && Stamped(ds)
    ensures |ds| == 0 <==> forall id :: id in db.bookings ==> !ChangedSince(db, id, r.bound)
    ensures |ds| == 1 ==> ds[0].bookingId >= 0 && ChangedSince(db, ds[0].bookingId, r.bound)
    ensures Valid(db) && Stamped(ds) && r == Reconcile(db, pages, ds, r.bound, api, now)
  {
    var bound := SyncLowerBound(LatestSyncTime(db, NotionSyncType), minTime);
    ds := GetLatestBookings(db, bound);
    if |ds| == 1 {
      InfoStamped(db, ds[0].bookingId);
    }
    r := Reconcile(db, pages, ds, bound, api, now);
  }

  /** A booking read back from the database carries its row's modification time. */
  lemma InfoStamped(db: Db, id: nat)
    requires Valid(db) && GetBookingInfo(db, id).Some?
    ensures GetBookingInfo(db, id).value.modified.Some?
  {
  }

  /** The pass once the database side is known: fetch Notion's changes (none if the query
      raises), resolve conflicts, then exchange the survivors. */
  function Reconcile(db: Db, pages: seq<Page>, ds: seq<Booking>, bound: Time, api: NotionApi, now: Time)
    : (r: Pass)
    requires Valid(db) && Stamped(ds)
    ensures Valid(r.db) && r.bound == bound
    ensures |r.fromDb| <= |ds| && forall k :: 0 <= k < |r.fromDb| ==> r.fromDb[k] in ds
    ensures api.queryFails ==> r.fromNotion == []
  {
    var ns := if api.queryFails then [] else FetchChanged(pages, bound);
    var resolved := Resolve(ds, ns);
    Exchange(db, pages, bound, resolved, api, now)
  }

  /** Write the database's survivors to Notion, and only if that succeeded write Notion's
      survivors to the database; then log every survivor's id with the outcome. */
  function Exchange(db: Db, pages: seq<Page>, bound: Time, res: Resolved, api: NotionApi, now: Time)
    : (r: Pass)
    requires Valid(db)
    ensures Valid(r.db) && r.bound == bound && r.fromDb == res.db && r.fromNotion == res.notion
    ensures r.success <==> forall k :: 0 <= k < |r.fromDb| ==> !WriteFails(api, k)
    ensures |r.db.syncRecords| == |db.syncRecords| + 1
    ensures r.db.syncRecords[|db.syncRecords|]
            == SyncRecord(NotionSyncType, JoinIds(Ids(r.fromDb + r.fromNotion)), r.success, None, now)
    ensures !r.success ==> r.db == db.(syncRecords := r.db.syncRecords)
  {
    var (pages', ok) := WriteToNotion(pages, res.db, api, now);
    var written := if ok then WriteToDb(db, res.notion, now) else db;
    var logged := LogSyncRecord(written, NotionSyncType, Ids(res.db + res.notion), ok, None, now).0;
    Pass(bound, res.db, res.notion, ok, logged, pages')
  }

  /** A failed Notion write never moves the watermark: the next pass looks back as far. */
  lemma FailedPassKeepsBound(db: Db, pages: seq<Page>, bound: Time, res: Resolved, api: NotionApi, now: Time)
    requires Valid(db) && !Exchange(db, pages, bound, res, api, now).success
    ensures LatestSyncTime(Exchange(db, pages, bound, res, api, now).db, NotionSyncType)
         == LatestSyncTime(db, NotionSyncType)
  {
    FailedLogKeepsWatermark(db, NotionSyncType, Ids(res.db + res.notion), None, now, NotionSyncType);
  }

  /** A successful pass moves the watermark to its own time. A changed page that the pass
      did not fetch and that was last edited before the pass is then outside every later
      query, so it is not synced again until someone edits it. */
  lemma PassedOverPageStays(db: Db, pages: seq<Page>, bound: Time, res: Resolved, api: NotionApi,
                            now: Time, minTime: Time, later: seq<Page>, p: Page)
    requires Valid(db) && now >= LatestSyncTime(db, NotionSyncType)
    requires Exchange(db, pages, bound, res, api, now).success && p.lastEditedTime <= now
    ensures LatestSyncTime(Exchange(db, pages, bound, res, api, now).db, NotionSyncType) == now
    ensures p !in EditedAfter(later, SyncLowerBound(
              LatestSyncTime(Exchange(db, pages, bound, res, api, now).db, NotionSyncType), minTime))
  {
    var written := WriteToDb(db, res.notion, now);
    assert LatestSyncTime(written, NotionSyncType) == LatestSyncTime(db, NotionSyncType);
    SuccessLogAdvances(written, NotionSyncType, Ids(res.db + res.notion), now, NotionSyncType);
  }

  /** The logged id list is the database survivors' ids followed by Notion's. */
  lemma LoggedIds(p: Pass)
    ensures Ids(p.fromDb + p.fromNotion) == Ids(p.fromDb) + Ids(p.fromNotion)
  {
    IdsAppend(p.fromDb, p.fromNotion);
  }
}

=== FILE: patterns.dfy ===
/** The regular expressions the importers use: `re.search(key + group)` where `key` is
    literal text and `group` is one of a handful of capture shapes. A search returns the
    groups of the leftmost position at which the key is followed by text the group
    accepts. No group can cross a line break, which makes searching a multi-line text the
    same as searching its lines in turn. */
module Patterns {
  import opened Wrappers
  import opened Text
  import opened Calendar

  /** The capture shapes that follow a key. */
  datatype Group =
    | Digits          // (\d+)
    | Phone           // (\+?\d+)
    | SlashDate       // (\d{4}/\d{2}/\d{2})
    | Line            // (.+)
    | OptLine         // (.*)
    | AmountAndLabel  // (\d+)元/(.+)

  /** Length of the longest prefix of `s` made of ASCII digits. */
  function DigitRun(s: string): (n: nat)
    ensures n <= |s| && DigitsOnly(s[..n])
    ensures n < |s| ==> !IsDigit(s[n])
    decreases |s|
  {
    if |s| > 0 && IsDigit(s[0]) then
      var n := 1 + DigitRun(s[1..]);
      assert s[..n] == [s[0]] + s[1..][..n - 1];
      n
    else 0
  }

  /** Length of the longest prefix of `s` without a line break: what `.*` consumes. */
  function LineRun(s: string): (n: nat)
    ensures n <= |s| && '\n' !in s[..n]
    ensures n < |s| ==> s[n] == '\n'
    decreases |s|
  {
    if |s| > 0 && s[0] != '\n' then
      var n := 1 + LineRun(s[1..]);
      assert s[..n] == [s[0]] + s[1..][..n - 1];
      n
    else 0
  }

  predicate IsSlashDate(t: string) {
    |t| == 10 && t[4] == '/' && t[7] == '/'
    && DigitsOnly(t[..4]) && DigitsOnly(t[5..7]) && DigitsOnly(t[8..])
  }

  lemma SlashDateOneLine(t: string)
    requires IsSlashDate(t)
    ensures '\n' !in t
  {
    forall i | 0 <= i < |t| ensures t[i] != '\n' {
      if i < 4 { assert t[i] == t[..4][i]; }
      else if 4 < i < 7 { assert t[i] == t[5..7][i - 5]; }
      else if i > 7 { assert t[i] == t[8..][i - 8]; }
    }
  }

  const AmountSeparator: string := "元/"

  /** The groups `group` captures when matched at the very start of `s` (None: no match).
      Greedy quantifiers need no backtracking here: what follows each run cannot belong to it. */
  function MatchAt(group: Group, s: string): (r: Option<seq<string>>)
    ensures r.Some? ==> Captures(group, r.value)
  {
    match group
    case Digits =>
      var n := DigitRun(s);
      if n > 0 then Some([s[..n]]) else None
    case Phone =>
      if |s| > 0 && s[0] == '+' && DigitRun(s[1..]) > 0 then
        assert s[..1 + DigitRun(s[1..])][1..] == s[1..][..DigitRun(s[1..])];
        Some([s[..1 + DigitRun(s[1..])]])
      else if DigitRun(s) > 0 then Some([s[..DigitRun(s)]])
      else None
    case SlashDate =>
      if |s| >= 10 && IsSlashDate(s[..10]) then SlashDateOneLine(s[..10]); Some([s[..10]]) else None
    case Line =>
      var n := LineRun(s);
      if n > 0 then Some([s[..n]]) else None
    case OptLine =>
      Some([s[..LineRun(s)]])
    case AmountAndLabel =>
      AmountMatch(s)
  }

  /** `(\d+)元/(.+)` at the start of `s`: the amount's digits and the label after the separator. */
  function AmountMatch(s: string): (r: Option<seq<string>>)
    ensures r.Some? ==> Captures(AmountAndLabel, r.value)
  {
    var n := DigitRun(s);
    if n > 0 && LabelAfter(s[n..]).Some? then Some([s[..n], LabelAfter(s[n..]).value]) else None
  }

  /** `元/(.+)` at the start of `t`: the one-line label after the separator. */
  function LabelAfter(t: string): (r: Option<string>)
    ensures r.Some? ==> |r.value| > 0 && '\n' !in r.value
  {
    if StartsWith(t, AmountSeparator) && LineRun(t[2..]) > 0 then Some(t[2..][..LineRun(t[2..])])
    else None
  }

  /** The shape of what `group` captures: how many groups, and what the first one holds. */
  predicate Captures(group: Group, gs: seq<string>) {
    |gs| == (if group == AmountAndLabel then 2 else 1)
    && '\n' !in gs[0]
    && (group == Digits || group == AmountAndLabel ==> AllDigits(gs[0]))
    && (group == Phone ==> |gs[0]| > 0 && (if gs[0][0] == '+' then AllDigits(gs[0][1..]) else AllDigits(gs[0])))
    && (group == SlashDate ==> IsSlashDate(gs[0]))
    && (group == Line ==> |gs[0]| > 0)
    && (group == AmountAndLabel ==> |gs[1]| > 0 && '\n' !in gs[1])
  }

  /** `re.search(key + group, text)`: the groups of the leftmost match. */
  function Search(text: string, key: string, group: Group): (r: Option<seq<string>>)
    ensures r.Some? ==> Captures(group, r.value)
    decreases |text|
  {
    if StartsWith(text, key) && MatchAt(group, text[|key|..]).Some? then
      MatchAt(group, text[|key|..])
    else if |text| == 0 then None
    else Search(text[1..], key, group)
  }

  // ---------------------------------------------------------------------------
  // Matches stay on their line
  // ---------------------------------------------------------------------------

  lemma {:induction false} DigitRunLocal(a: string, b: string)
    ensures DigitRun(a + "\n" + b) == DigitRun(a)
    decreases |a|
  {
    if |a| > 0 {
      assert (a + "\n" + b)[1..] == a[1..] + "\n" + b;
      DigitRunLocal(a[1..], b);
    }
  }

  lemma {:induction false} LineRunLocal(a: string, b: string)
    ensures LineRun(a + "\n" + b) == LineRun(a)
    decreases |a|
  {
    if |a| > 0 {
      assert (a + "\n" + b)[1..] == a[1..] + "\n" + b;
      LineRunLocal(a[1..], b);
    }
  }

  /** What a group matches at the start of a line does not depend on the lines after it. */
  lemma MatchLocal(group: Group, a: string, b: string)
    ensures MatchAt(group, a + "\n" + b) == MatchAt(group, a)
  {
    var s := a + "\n" + b;
    DigitRunLocal(a, b);
    LineRunLocal(a, b);
    match group
    case Digits =>
      assert s[..DigitRun(a)] == a[..DigitRun(a)];
    case Phone =>
      PhoneLocal(a, b);
    case SlashDate =>
      SlashDateLocal(a, b);
    case Line =>
      assert s[..LineRun(a)] == a[..LineRun(a)];
    case OptLine =>
      assert s[..LineRun(a)] == a[..LineRun(a)];
    case AmountAndLabel =>
      AmountLocal(a, b);
  }

  lemma PhoneLocal(a: string, b: string)
    ensures MatchAt(Phone, a + "\n" + b) == MatchAt(Phone, a)
  {
    var s := a + "\n" + b;
    DigitRunLocal(a, b);
    assert s[..DigitRun(a)] == a[..DigitRun(a)];
    if |a| > 0 {
      assert s[1..] == a[1..] + "\n" + b;
      DigitRunLocal(a[1..], b);
      assert s[..1 + DigitRun(a[1..])] == a[..1 + DigitRun(a[1..])];
    } else {
      assert s[0] == '\n';
    }
  }

  lemma SlashDateLocal(a: string, b: string)
    ensures MatchAt(SlashDate, a + "\n" + b) == MatchAt(SlashDate, a)
  {
    var s := a + "\n" + b;
    if |a| >= 10 {
      assert s[..10] == a[..10];
    } else if |s| >= 10 {
      var t := s[..10];
      assert t[|a|] == '\n';
      assert !IsSlashDate(t) by {
        if |a| < 4 {
          assert t[..4][|a|] == '\n';
        } else if |a| == 4 || |a| == 7 {
        } else if |a| < 7 {
          assert t[5..7][|a| - 5] == '\n';
        } else {
          assert t[8..][|a| - 8] == '\n';
        }
      }
    }
  }

  lemma AmountLocal(a: string, b: string)
    ensures AmountMatch(a + "\n" + b) == AmountMatch(a)
  {
    var s := a + "\n" + b;
    DigitRunLocal(a, b);
    var n := DigitRun(a);
    assert s[..n] == a[..n];
    assert s[n..] == a[n..] + "\n" + b;
    LabelLocal(a[n..], b);
  }

  lemma LabelLocal(t: string, b: string)
    ensures LabelAfter(t + "\n" + b) == LabelAfter(t)
  {
    var s := t + "\n" + b;
    SeparatorLocal(t, b);
    if StartsWith(t, AmountSeparator) {
      assert s[2..] == t[2..] + "\n" + b;
      LineRunLocal(t[2..], b);
      assert s[2..][..LineRun(t[2..])] == t[2..][..LineRun(t[2..])];
    }
  }

  /** The two-character separator cannot reach across a line break. */
  lemma SeparatorLocal(t: string, b: string)
    ensures StartsWith(t + "\n" + b, AmountSeparator) <==> StartsWith(t, AmountSeparator)
  {
    var s := t + "\n" + b;
    if |t| >= 2 {
      assert s[..2] == t[..2];
    } else {
      assert s[|t|] == '\n';
    }
  }

  lemma SearchEmpty(key: string, group: Group)
    requires |key| > 0
    ensures Search("", key, group) == None
  {
  }

  /** Searching `a` then a line break then `b` finds the match in `a` if there is one, and
      otherwise the match in `b`: no match spans the break. */
  lemma {:induction false} SearchAcrossLines(a: string, b: string, key: string, group: Group)
    requires |key| > 0 && '\n' !in key
    ensures Search(a + "\n" + b, key, group)
         == if Search(a, key, group).Some? then Search(a, key, group) else Search(b, key, group)
    decreases |a|
  {
    var s := a + "\n" + b;
    HeadMatch(a, b, key, group);
    if |a| == 0 {
      assert s[1..] == b;
    } else {
      assert s[1..] == a[1..] + "\n" + b;
      SearchAcrossLines(a[1..], b, key, group);
    }
  }

  /** A match at the very start of `a`, then a line break, then `b` is the match at the
      start of `a` alone: the key cannot reach the break, and the group stops before it. */
  lemma HeadMatch(a: string, b: string, key: string, group: Group)
    requires |key| > 0 && '\n' !in key
    ensures var s := a + "\n" + b;
      (StartsWith(s, key) <==> StartsWith(a, key))
      && (StartsWith(a, key) ==> MatchAt(group, s[|key|..]) == MatchAt(group, a[|key|..]))
  {
    var s := a + "\n" + b;
    PrefixAgrees(s, key);
    assert s[|a|] == '\n';
    if StartsWith(s, key) {
      assert a[..|key|] == s[..|key|];
    }
    if StartsWith(a, key) {
      assert s[..|key|] == a[..|key|];
      assert s[|key|..] == a[|key|..] + "\n" + b;
      MatchLocal(group, a[|key|..], b);
    }
  }

  /** A text that does not contain the key has no match. */
  lemma {:induction false} SearchAbsent(text: string, key: string, group: Group)
    requires !Contains(text, key)
    ensures Search(text, key, group) == None
    decreases |text|
  {
    if |text| > 0 {
      SearchAbsent(text[1..], key, group);
    }
  }

  /** The first line, in order, on which the search succeeds. */
  function FirstHit(lines: seq<string>, key: string, group: Group): Option<seq<string>>
    decreases |lines|
  {
    if |lines| == 0 then None
    else if Search(lines[0], key, group).Some? then Search(lines[0], key, group)
    else FirstHit(lines[1..], key, group)
  }

  /** Searching lines joined by line breaks is searching each line in turn. */
  lemma {:induction false} SearchLines(lines: seq<string>, key: string, group: Group)
    requires |lines| > 0 && |key| > 0 && '\n' !in key
    ensures Search(Join(lines, "\n"), key, group) == FirstHit(lines, key, group)
    decreases |lines|
  {
    if |lines| == 1 {
      if Search(lines[0], key, group).None? {
        assert FirstHit(lines[1..], key, group) == None;
      }
    } else {
      SearchAcrossLines(lines[0], Join(lines[1..], "\n"), key, group);
      SearchLines(lines[1..], key, group);
    }
  }

  // ---------------------------------------------------------------------------
  // Labelled lines `word：value`
  // ---------------------------------------------------------------------------

  /** The full-width colon that ends every label the formatters write. */
  const Colon: char := '：'

  /** One line of a formatted record: a label word, the colon, and the value. */
  datatype Entry = Entry(word: string, value: string)

  function EntryLine(e: Entry): string {
    e.word + [Colon] + e.value
  }

  function EntryLines(es: seq<Entry>): (r: seq<string>)
    ensures |r| == |es|
    ensures forall i :: 0 <= i < |es| ==> r[i] == EntryLine(es[i])
  {
    if |es| == 0 then [] else [EntryLine(es[0])] + EntryLines(es[1..])
  }

  /** The value of the first entry labelled `word`. */
  function Lookup(es: seq<Entry>, word: string): (r: Option<string>)
    ensures r.Some? <==> exists i :: 0 <= i < |es| && es[i].word == word
    ensures r.Some? ==> exists i :: 0 <= i < |es| && es[i] == Entry(word, r.value)
  {
    if |es| == 0 then None
    else if es[0].word == word then
      assert es[0] == Entry(word, es[0].value);
      Some(es[0].value)
    else
      var r := Lookup(es[1..], word);
      assert forall i :: 1 <= i < |es| ==> es[i] == es[1..][i - 1];
      r
  }

  /** A text without a colon holds no key that has one. */
  lemma {:induction false} NoColonNoKey(text: string, key: string)
    requires Colon !in text && Colon in key
    ensures !Contains(text, key)
    decreases |text|
  {
    PrefixAgrees(text, key);
    var j :| 0 <= j < |key| && key[j] == Colon;
    assert j < |text| ==> text[j] != Colon;
    if |text| > 0 {
      NoColonNoKey(text[1..], key);
    }
  }

  /** Searching the line `w1：v` for the key `w2：` (colon-free words and value) matches
      the value exactly when the words are equal, and finds nothing when `w2` is not a
      tail of `w1`: the key's colon can only meet the line's one colon. */
  lemma {:induction false} SearchLabelled(w1: string, v: string, w2: string, group: Group)
    requires Colon !in w1 && Colon !in v && Colon !in w2 && |w2| > 0
    requires w1 == w2 || !EndsWith(w1, w2)
    ensures Search(w1 + [Colon] + v, w2 + [Colon], group)
         == if w1 == w2 then MatchAt(group, v) else None
    decreases |w1|
  {
    var text := w1 + [Colon] + v;
    var key := w2 + [Colon];
    LabelledStart(w1, v, w2);
    if |w1| == 0 {
      assert text[1..] == v;
      NoColonNoKey(v, key);
      SearchAbsent(v, key, group);
    } else {
      assert text[1..] == w1[1..] + [Colon] + v;
      TailEndsWith(w1, w2);
      SearchLabelled(w1[1..], v, w2, group);
    }
  }

  /** The line `w1：v` starts with the key `w2：` exactly when the words are equal, and the
      value follows the key. */
  lemma LabelledStart(w1: string, v: string, w2: string)
    requires Colon !in w1 && Colon !in v && Colon !in w2
    ensures StartsWith(w1 + [Colon] + v, w2 + [Colon]) <==> w1 == w2
    ensures w1 == w2 ==> (w1 + [Colon] + v)[|w2| + 1..] == v
  {
    var text := w1 + [Colon] + v;
    var key := w2 + [Colon];
    if StartsWith(text, key) {
      assert text[|w2|] == Colon;
      assert w1 == text[..|w1|] == key[..|w2|] == w2;
    }
    if w1 == w2 {
      assert text[..|key|] == key;
    }
  }

  /** A word that ends a word's tail ends the word, and a shorter word equal to the tail
      ends it too. */
  lemma TailEndsWith(w1: string, w2: string)
    requires |w1| > 0
    ensures EndsWith(w1[1..], w2) ==> EndsWith(w1, w2)
    ensures w1[1..] == w2 ==> EndsWith(w1, w2)
  {
    if |w1[1..]| >= |w2| {
      assert w1[1..][|w1[1..]| - |w2|..] == w1[|w1| - |w2|..];
    }
  }

  /** Searching labelled lines for `word：` is matching the value of the one entry with that
      label, provided no other label ends in `word`. */
  lemma {:induction false} SearchEntries(es: seq<Entry>, word: string, group: Group)
    requires |word| > 0 && Colon !in word
    requires forall i :: 0 <= i < |es| ==> Colon !in es[i].word && Colon !in es[i].value
    requires forall i :: 0 <= i < |es| ==> es[i].word == word || !EndsWith(es[i].word, word)
    requires forall i, j :: 0 <= i < j < |es| && es[i].word == word ==> es[j].word != word
    ensures FirstHit(EntryLines(es), word + [Colon], group)
         == if Lookup(es, word).Some? then MatchAt(group, Lookup(es, word).value) else None
    decreases |es|
  {
    if |es| > 0 {
      SearchLabelled(es[0].word, es[0].value, word, group);
      assert EntryLines(es)[1..] == EntryLines(es[1..]);
      SearchEntries(es[1..], word, group);
      if es[0].word == word && MatchAt(group, es[0].value).None? {
        assert Lookup(es[1..], word).None?;
      }
    }
  }

  /** A leading line without a colon is passed over by every labelled search. */
  lemma FirstHitSkipsPlainLine(h: string, rest: seq<string>, key: string, group: Group)
    requires Colon !in h && Colon in key
    ensures FirstHit([h] + rest, key, group) == FirstHit(rest, key, group)
  {
    NoColonNoKey(h, key);
    SearchAbsent(h, key, group);
    assert ([h] + rest)[1..] == rest;
  }

  // ---------------------------------------------------------------------------
  // What the formatters write is read back whole
  // ---------------------------------------------------------------------------

  lemma {:induction false} DigitRunWhole(s: string)
    requires DigitsOnly(s)
    ensures DigitRun(s) == |s|
    decreases |s|
  {
    if |s| > 0 {
      DigitRunWhole(s[1..]);
    }
  }

  lemma {:induction false} LineRunWhole(s: string)
    requires '\n' !in s
    ensures LineRun(s) == |s|
    decreases |s|
  {
    if |s| > 0 {
      LineRunWhole(s[1..]);
    }
  }

  /** `(\d+)` on a digit string takes all of it. */
  lemma MatchDigitsWhole(s: string)
    requires AllDigits(s)
    ensures MatchAt(Digits, s) == Some([s])
  {
    DigitRunWhole(s);
    assert s[..|s|] == s;
  }

  /** `(\+?\d+)` on a digit string, with or without a leading '+', takes all of it. */
  lemma MatchPhoneWhole(p: string)
    requires |p| > 0
    requires if p[0] == '+' then AllDigits(p[1..]) else AllDigits(p)
    ensures MatchAt(Phone, p) == Some([p])
  {
    if p[0] == '+' {
      DigitRunWhole(p[1..]);
      assert p[..1 + |p[1..]|] == p;
    } else {
      DigitRunWhole(p);
      assert p[..|p|] == p;
    }
  }

  /** `(.+)` and `(.*)` on a line take all of it. */
  lemma MatchLineWhole(v: string)
    requires '\n' !in v
    ensures MatchAt(OptLine, v) == Some([v])
    ensures |v| > 0 ==> MatchAt(Line, v) == Some([v])
  {
    LineRunWhole(v);
    assert v[..|v|] == v;
  }

  /** `(\d+)元/(.+)` on an amount, the separator and a one-line label takes both. */
  lemma MatchAmountWhole(ds: string, mark: string)
    requires AllDigits(ds) && |mark| > 0 && '\n' !in mark
    ensures MatchAt(AmountAndLabel, ds + AmountSeparator + mark) == Some([ds, mark])
  {
    var s := ds + AmountSeparator + mark;
    assert s[..|ds|] == ds;
    assert s[|ds|] == AmountSeparator[0];
    DigitRunPrefix(ds, AmountSeparator + mark);
    var t := s[|ds|..];
    assert t == AmountSeparator + mark;
    assert t[2..] == mark;
    LineRunWhole(mark);
    assert mark[..|mark|] == mark;
    assert LabelAfter(t) == Some(mark);
  }

  lemma {:induction false} DigitRunPrefix(ds: string, rest: string)
    requires DigitsOnly(ds) && |rest| > 0 && !IsDigit(rest[0])
    ensures DigitRun(ds + rest) == |ds|
    decreases |ds|
  {
    if |ds| > 0 {
      assert (ds + rest)[1..] == ds[1..] + rest;
      DigitRunPrefix(ds[1..], rest);
    } else {
      assert ds + rest == rest;
    }
  }

  /** `(\d{4}/\d{2}/\d{2})` on a rendered date up to 9999-12-31 takes all of it, and the
      rendering holds neither a colon nor a line break. */
  lemma MatchDateWhole(d: Day)
    requires d < MaxDay
    ensures MatchAt(SlashDate, FormatDate(d, '/')) == Some([FormatDate(d, '/')])
    ensures Colon !in FormatDate(d, '/') && '\n' !in FormatDate(d, '/')
  {
    FormatDateShape(d, '/');
    ShapedDate(FormatDate(d, '/'));
  }

  lemma ShapedDate(t: string)
    requires DateShaped(t, '/')
    ensures MatchAt(SlashDate, t) == Some([t])
    ensures Colon !in t && '\n' !in t
  {
    assert t[..10] == t;
    forall i | 0 <= i < |t| ensures t[i] != Colon && t[i] != '\n' {
      if i < 4 { assert t[i] == t[..4][i]; }
      else if 4 < i < 7 { assert t[i] == t[5..7][i - 5]; }
      else if i > 7 { assert t[i] == t[8..][i - 8]; }
    }
  }

  /** A digit string holds neither a colon nor a line break. */
  lemma DigitsPlain(s: string)
    requires DigitsOnly(s)
    ensures Colon !in s && '\n' !in s
  {
    forall i | 0 <= i < |s| ensures s[i] != Colon && s[i] != '\n' {
      assert IsDigit(s[i]);
    }
  }

  // ---------------------------------------------------------------------------
  // Reading a labelled card
  // ---------------------------------------------------------------------------

  /** Entries a search by label can tell apart: non-empty one-line colon-free words, none a
      tail of another (so all distinct), and colon-free values. */
  predicate Labelled(es: seq<Entry>) {
    (forall i :: 0 <= i < |es| ==>
      |es[i].word| > 0 && Colon !in es[i].word && '\n' !in es[i].word && Colon !in es[i].value)
    && (forall i, j :: 0 <= i < |es| && 0 <= j < |es| && i != j ==> !EndsWith(es[i].word, es[j].word))
  }

  lemma {:induction false} LookupAt(es: seq<Entry>, i: nat)
    requires Labelled(es) && i < |es|
    ensures Lookup(es, es[i].word) == Some(es[i].value)
    decreases i
  {
    if i > 0 {
      assert es[0].word != es[i].word by {
        assert !EndsWith(es[0].word, es[i].word);
      }
      assert Labelled(es[1..]) by {
        forall a, b | 0 <= a < |es| - 1 && 0 <= b < |es| - 1 && a != b
          ensures !EndsWith(es[1..][a].word, es[1..][b].word)
        {
          assert es[1..][a] == es[a + 1] && es[1..][b] == es[b + 1];
        }
      }
      LookupAt(es[1..], i - 1);
    }
  }

  /** Searching a card (a plain header line, then labelled lines) for one of its labels is
      matching that label's value. */
  lemma ReadEntry(header: string, es: seq<Entry>, i: nat, group: Group)
    requires Colon !in header && Labelled(es) && i < |es|
    ensures Search(Join([header] + EntryLines(es), "\n"), es[i].word + [Colon], group)
         == MatchAt(group, es[i].value)
  {
    var word := es[i].word;
    var key := word + [Colon];
    SearchLines([header] + EntryLines(es), key, group);
    FirstHitSkipsPlainLine(header, EntryLines(es), key, group);
    forall a | 0 <= a < |es| && a != i ensures !EndsWith(es[a].word, word) && es[a].word != word {
      assert !EndsWith(es[a].word, es[i].word);
    }
    SearchEntries(es, word, group);
    LookupAt(es, i);
  }

  /** A word is not a tail of another it differs from in its last character, nor of a
      different word at least as long. */
  lemma TailsApart(a: string, b: string)
    requires |a| > 0 && |b| > 0
    requires a[|a| - 1] != b[|b| - 1] || (|a| <= |b| && a != b)
    ensures !EndsWith(a, b)
  {
    if |b| <= |a| {
      var t := a[|a| - |b|..];
      assert t[|b| - 1] == a[|a| - 1];
    }
  }

  /** The entries pairing each label word with its value. */
  function Card(words: seq<string>, values: seq<string>): (es: seq<Entry>)
    requires |words| == |values|
    ensures |es| == |words|
    ensures forall i :: 0 <= i < |es| ==> es[i] == Entry(words[i], values[i])
  {
    if |words| == 0 then [] else [Entry(words[0], values[0])] + Card(words[1..], values[1..])
  }

  /** Label words a search can tell apart. */
  predicate WordsApart(words: seq<string>) {
    (forall i :: 0 <= i < |words| ==> |words[i]| > 0 && Colon !in words[i] && '\n' !in words[i])
    && (forall i, j :: 0 <= i < |words| && 0 <= j < |words| && i != j ==> !EndsWith(words[i], words[j]))
  }

  lemma CardLabelled(words: seq<string>, values: seq<string>)
    requires |words| == |values| && WordsApart(words)
    requires forall i :: 0 <= i < |values| ==> Colon !in values[i]
    ensures Labelled(Card(words, values))
  {
    var es := Card(words, values);
    forall i, j | 0 <= i < |es| && 0 <= j < |es| && i != j ensures !EndsWith(es[i].word, es[j].word) {
      assert es[i].word == words[i] && es[j].word == words[j];
    }
  }
}

=== FILE: prepaid_booking.dfy ===
/** The mark-prepaid wizard for one booking: the deposit amount, a transfer note, then a
    confirmation that records both on the booking. "Back" follows a fixed map of previous
    steps; cancel clears the session. */
module PrepaidBookingWizard {
  import opened Wrappers
  import opened Text
  import opened Records
  import opened InputUtils
  import opened BookingDao
  import opened Sessions

  /** Position of a step in the wizard. */
  function Rank(p: PrepaidStep): nat {
    match p
    case GetPrepaymentAmount => 0
    case GetPrepaymentNote => 1
    case ConfirmPrepayment => 2
  }

  /** `PREVIOUS_STEP`: the note goes back to the amount and the confirmation to the note;
      the amount has no entry. */
  function Previous(p: PrepaidStep): (r: Option<PrepaidStep>)
    ensures r.None? <==> p == GetPrepaymentAmount
    ensures r.Some? ==> Rank(r.value) + 1 == Rank(p)
  {
    match p
    case GetPrepaymentAmount => None
    case GetPrepaymentNote => Some(GetPrepaymentAmount)
    case ConfirmPrepayment => Some(GetPrepaymentNote)
  }

  /** `PREVIOUS_STEP[step]`: a step that is not a key raises KeyError. */
  function PreviousStep(step: Step): (r: Result<Step>)
    ensures r.Ok? <==> step.Prepaid? && step.p != GetPrepaymentAmount
    ensures r.Ok? ==> r.value == Prepaid(Previous(step.p).value)
    ensures r.Err? ==> r.fault == KeyError
  {
    if step.Prepaid? && Previous(step.p).Some? then Ok(Prepaid(Previous(step.p).value)) else Err(KeyError)
  }

  /** `handle_prepaid_booking_messages(msg, session)`; `updated` is the truth value of what
      `update_booking_prepaid` returns when the confirmation calls it. */
  function HandlePrepaidBooking(msg: string, s: Session, db: Db, updated: bool, cmds: Commands)
    : (r: Result<Outcome>)
    ensures msg == cmds.cancel ==> r == Ok(Quit)
    ensures msg != cmds.cancel && msg == cmds.back && s.step.None? ==> r == Ok(Quit)
    ensures msg != cmds.cancel && msg == cmds.back && s.step == Some(Prepaid(GetPrepaymentAmount)) ==>
      r == Err(KeyError)
  {
    if msg == cmds.cancel then Ok(Quit)
    else if msg == cmds.back then
      match s.step
      case None => Ok(Quit)
      case Some(step) =>
        var prev :- PreviousStep(step);
        PrepaidAt(s.(step := Some(prev)), msg, true, db, updated, cmds)
    else PrepaidAt(s, msg, false, db, updated, cmds)
  }

  /** The branch for the session's step; a step of another wizard matches no branch. */
  function PrepaidAt(s: Session, msg: string, isPrev: bool, db: Db, updated: bool, cmds: Commands)
    : Result<Outcome>
  {
    match s.step
    case Some(Prepaid(p)) =>
      (match p
       case GetPrepaymentAmount => AmountStep(s, msg, isPrev, db)
       case GetPrepaymentNote => NoteStep(s, msg, isPrev, cmds)
       case ConfirmPrepayment => ConfirmStep(s, msg, updated, cmds))
    case _ => Ok(Stay(s))
  }

  /** The re-prompt offers the booking's current deposit, so it fetches the booking: one
      that is not found is None, and reading its deposit raises AttributeError. */
  function AmountStep(s: Session, msg: string, isPrev: bool, db: Db): Result<Outcome> {
    var d :- DraftOf(s.data);
    if isPrev || !IsValidPrice(msg) then
      var id :- Get(d.bookingId);
      if GetBookingInfo(db, id).None? then Err(AttributeError) else Ok(Stay(s))
    else
      Ok(Move(s, Prepaid(GetPrepaymentNote), d.(prepayment := Some(DigitsValue(msg)))))
  }

  /** The note (empty for the finish command); the preview reads the amount. */
  function NoteStep(s: Session, msg: string, isPrev: bool, cmds: Commands): Result<Outcome> {
    if isPrev then Ok(Stay(s))
    else
      var d0 :- DraftOf(s.data);
      var d := d0.(prepaymentNote := Some(if msg == cmds.noteFinish then "" else msg));
      var _ :- Get(d.prepayment);
      Ok(Move(s, Prepaid(ConfirmPrepayment), d))
  }

  /** The confirm command records the amount and note on the booking and clears the
      session whatever the update returns; the notice says whether it succeeded. */
  function ConfirmStep(s: Session, msg: string, updated: bool, cmds: Commands): Result<Outcome> {
    if msg != cmds.confirmPrepaid then Ok(Stay(s))
    else
      var d :- DraftOf(s.data);
      var id :- Get(d.bookingId);
      var amount :- Get(d.prepayment);
      var note :- Get(d.prepaymentNote);
      Ok(Outcome(Cleared, UpdatePrepaid(id, amount, note), if updated then Succeeded else Failed))
  }

  // ---------------------------------------------------------------------------
  // What a step accepts, and the keys a step can rely on
  // ---------------------------------------------------------------------------

  /** The answer each step accepts: an amount of 0 to 100000, any note, and the confirm
      command. */
  predicate Accepts(p: PrepaidStep, msg: string, cmds: Commands) {
    match p
    case GetPrepaymentAmount => IsValidPrice(msg)
    case GetPrepaymentNote => true
    case ConfirmPrepayment => msg == cmds.confirmPrepaid
  }

  /** A session this wizard runs: the booking id is known throughout, then an amount of 0
      to 100000, then the note. */
  predicate Wf(s: Session) {
    s.flow == Some(PrepaidBookingFlow) && s.step.Some? && s.step.value.Prepaid? && s.data.Fields?
    && var d := s.data.draft;
    var rank := Rank(s.step.value.p);
    && d.bookingId.Some?
    && (rank >= 1 ==> d.prepayment.Some? && 0 <= d.prepayment.value <= 100000)
    && (rank >= 2 ==> d.prepaymentNote.Some?)
  }

  /** The command strings that must differ for the wizard to tell them apart. */
  predicate DistinctCommands(cmds: Commands) {
    cmds.cancel != cmds.back && cmds.cancel != cmds.confirmPrepaid && cmds.back != cmds.confirmPrepaid
    && cmds.cancel != cmds.noteFinish && cmds.back != cmds.noteFinish
  }

  // ---------------------------------------------------------------------------
  // Properties
  // ---------------------------------------------------------------------------

  /** What the wizard promises for one message (neither cancel nor back) at step `p` of a
      session it runs: an answer the step does not accept leaves the session as it is
      (the amount's re-prompt raises AttributeError when the booking is gone); an accepted
      amount is stored as its integer value and an accepted note moves on, both keeping
      `Wf`; the confirmation clears the session and updates the booking. */
  predicate Promised(p: PrepaidStep, msg: string, s: Session, db: Db, cmds: Commands, r: Result<Outcome>)
    requires Wf(s)
  {
    var found := GetBookingInfo(db, s.data.draft.bookingId.value);
    if !Accepts(p, msg, cmds) then
      if p == GetPrepaymentAmount && found.None? then r == Err(AttributeError) else r == Ok(Stay(s))
    else
      && r.Ok?
      && (p == ConfirmPrepayment ==> r.value.session == Cleared && r.value.call.UpdatePrepaid?)
      && (p != ConfirmPrepayment ==>
            r.value.call == NoCall && Wf(r.value.session)
            && Rank(r.value.session.step.value.p) == Rank(p) + 1)
      && (p == GetPrepaymentAmount ==> r.value.session.data.draft.prepayment == Some(DigitsValue(msg)))
  }

  /** Every message other than cancel and back does what `Promised` says. */
  lemma PrepaidStepPromise(p: PrepaidStep, msg: string, s: Session, db: Db, updated: bool, cmds: Commands)
    requires Wf(s) && s.step == Some(Prepaid(p)) && msg != cmds.cancel && msg != cmds.back
    ensures Promised(p, msg, s, db, cmds, HandlePrepaidBooking(msg, s, db, updated, cmds))
  {
    assert HandlePrepaidBooking(msg, s, db, updated, cmds) == PrepaidAt(s, msg, false, db, updated, cmds);
  }

  /** "Back" from the confirmation re-prompts for the note; "back" from the note re-prompts
      for the amount, which fetches the booking and raises AttributeError when it is gone.
      Nothing else changes. */
  lemma PrepaidBack(p: PrepaidStep, s: Session, db: Db, updated: bool, cmds: Commands)
    requires Wf(s) && s.step == Some(Prepaid(p)) && p != GetPrepaymentAmount && DistinctCommands(cmds)
    ensures var back := s.(step := Some(Prepaid(Previous(p).value)));
      var r := HandlePrepaidBooking(cmds.back, s, db, updated, cmds);
      && Wf(back)
      && (p == GetPrepaymentNote && GetBookingInfo(db, s.data.draft.bookingId.value).None? ==>
            r == Err(AttributeError))
      && (p == ConfirmPrepayment || GetBookingInfo(db, s.data.draft.bookingId.value).Some? ==>
            r == Ok(Stay(back)))
  {
  }

  /** The note finish command stores an empty note. */
  lemma NoteFinishStoresEmpty(s: Session, db: Db, updated: bool, cmds: Commands)
    requires Wf(s) && s.step == Some(Prepaid(GetPrepaymentNote)) && DistinctCommands(cmds)
    ensures var r := HandlePrepaidBooking(cmds.noteFinish, s, db, updated, cmds);
      && r.Ok? && r.value.session.step == Some(Prepaid(ConfirmPrepayment))
      && r.value.session.data.draft.prepaymentNote == Some("")
  {
    assert HandlePrepaidBooking(cmds.noteFinish, s, db, updated, cmds)
        == NoteStep(s, cmds.noteFinish, false, cmds);
  }

  /** The confirm command calls `update_booking_prepaid` once with the booking id, the
      stored amount (0 to 100000) and the note, reports success exactly when the update
      returns a true value, and clears the session either way. */
  lemma PrepaidConfirmUpdates(s: Session, db: Db, updated: bool, cmds: Commands)
    requires Wf(s) && s.step == Some(Prepaid(ConfirmPrepayment)) && DistinctCommands(cmds)
    ensures var r := HandlePrepaidBooking(cmds.confirmPrepaid, s, db, updated, cmds);
      var d := s.data.draft;
      && r.Ok? && r.value.session == Cleared
      && r.value.call == UpdatePrepaid(d.bookingId.value, d.prepayment.value, d.prepaymentNote.value)
      && 0 <= r.value.call.amount <= 100000
      && (r.value.notice == Succeeded <==> updated)
      && (r.value.notice == Failed <==> !updated)
  {
    assert HandlePrepaidBooking(cmds.confirmPrepaid, s, db, updated, cmds)
        == ConfirmStep(s, cmds.confirmPrepaid, updated, cmds);
  }
}

=== FILE: rearrange.dfy ===
/** The raw-file tidier: it reads the booking id of each block, keeps the first block per
    id (recording later duplicates as conflicts), reports gaps in the id sequence, and
    writes the kept blocks sorted by id, each stripped and followed by a blank line. */
module Rearrange {
  import opened Wrappers
  import opened Text
  import opened Patterns
  import opened BookingUtils
  import opened HistoricalImport

  /** `parse_booking(text)`: the first `ＩＤ：<digits>` as a number, or None. (The warning
      about blocks longer than 13 lines only logs.) */
  function RawBookingId(text: string): (r: Option<nat>)
    ensures r.Some? <==> Search(text, IdWord + [Colon], Digits).Some?
  {
    match Capture(text, IdWord, Digits)
    case Some(ds) => Some(DigitsValue(ds))
    case None => None
  }

  /** A block that opens with its id line reads back that id. */
  lemma RawIdOfCard(n: nat, rest: string)
    ensures RawBookingId(IdWord + [Colon] + NatToString(n) + "\n" + rest) == Some(n)
  {
    var key := IdWord + [Colon];
    var ds := NatToString(n);
    var text := key + ds + "\n" + rest;
    assert StartsWith(text, key);
    assert text[|key|..] == ds + "\n" + rest;
    DigitRunLocal(ds, rest);
    DigitRunWhole(ds);
    assert ds[..|ds|] == ds;
    assert (ds + "\n" + rest)[..|ds|] == ds;
    NatToStringRoundTrip(n);
  }

  /** How many blocks carry an id. */
  function Parseable(blocks: seq<string>): nat {
    if |blocks| == 0 then 0
    else Parseable(blocks[..|blocks| - 1]) + (if RawBookingId(blocks[|blocks| - 1]).Some? then 1 else 0)
  }

  /** Does some block carry this id? */
  predicate Seen(blocks: seq<string>, id: nat) {
    exists i :: 0 <= i < |blocks| && RawBookingId(blocks[i]) == Some(id)
  }

  /** The dict of first blocks by id and the list of duplicate ids, as the loop of
      `process_bookings` builds them. */
  datatype Grouped = Grouped(firsts: map<nat, string>, conflicts: seq<nat>)

  function GroupBlocks(blocks: seq<string>): (r: Grouped)
    ensures forall id :: id in r.firsts <==> Seen(blocks, id)
    ensures forall k :: 0 <= k < |r.conflicts| ==> r.conflicts[k] in r.firsts
    ensures |r.firsts| + |r.conflicts| == Parseable(blocks)
  {
    if |blocks| == 0 then Grouped(map[], [])
    else
      SeenExtend(blocks);
      AddBlock(GroupBlocks(blocks[..|blocks| - 1]), blocks[|blocks| - 1])
  }

  /** One turn of the loop: the first block of an id is kept, a later one only records
      the id as a conflict, and a block without an id is dropped. */
  function AddBlock(g: Grouped, block: string): (r: Grouped)
    ensures forall id :: id in r.firsts <==> id in g.firsts || RawBookingId(block) == Some(id)
    ensures forall id :: id in g.firsts ==> r.firsts[id] == g.firsts[id]
    ensures RawBookingId(block).Some? && RawBookingId(block).value !in g.firsts ==>
      r.firsts[RawBookingId(block).value] == block && r.conflicts == g.conflicts
    ensures RawBookingId(block).Some? && RawBookingId(block).value in g.firsts ==>
      r.firsts == g.firsts && r.conflicts == g.conflicts + [RawBookingId(block).value]
    ensures RawBookingId(block).None? ==> r == g
    ensures |r.firsts| + |r.conflicts| == |g.firsts| + |g.conflicts| + (if RawBookingId(block).Some? then 1 else 0)
  {
    match RawBookingId(block)
    case None => g
    case Some(id) =>
      if id in g.firsts then Grouped(g.firsts, g.conflicts + [id])
      else Grouped(g.firsts[id := block], g.conflicts)
  }

  lemma SeenExtend(blocks: seq<string>)
    requires |blocks| > 0
    ensures forall id: nat :: Seen(blocks, id) <==>
      Seen(blocks[..|blocks| - 1], id) || RawBookingId(blocks[|blocks| - 1]) == Some(id)
  {
    var init := blocks[..|blocks| - 1];
    assert forall i :: 0 <= i < |init| ==> blocks[i] == init[i];
  }

  /** Block `i` carries `id` and no block before it does. */
  predicate FirstBlock(blocks: seq<string>, id: nat, i: nat) {
    i < |blocks| && RawBookingId(blocks[i]) == Some(id) && !Seen(blocks[..i], id)
  }

  /** The block kept for an id is the first block carrying it. */
  lemma {:induction false} FirstsAreFirst(blocks: seq<string>, id: nat)
    requires id in GroupBlocks(blocks).firsts
    ensures exists i: nat :: FirstBlock(blocks, id, i) && GroupBlocks(blocks).firsts[id] == blocks[i]
    decreases |blocks|
  {
    assert Seen(blocks, id);
    assert |blocks| > 0;
    var init := blocks[..|blocks| - 1];
    var g := GroupBlocks(init);
    assert GroupBlocks(blocks) == AddBlock(g, blocks[|blocks| - 1]);
    if id in g.firsts {
      FirstsAreFirst(init, id);
      var i: nat :| FirstBlock(init, id, i) && g.firsts[id] == init[i];
      FirstInInit(blocks, id, i);
      assert GroupBlocks(blocks).firsts[id] == g.firsts[id];
      assert g.firsts[id] == blocks[i];
    } else {
      FirstIsLast(blocks, id);
      assert GroupBlocks(blocks).firsts[id] == blocks[|blocks| - 1];
    }
  }

  lemma FirstInInit(blocks: seq<string>, id: nat, i: nat)
    requires |blocks| > 0 && FirstBlock(blocks[..|blocks| - 1], id, i)
    ensures FirstBlock(blocks, id, i)
  {
    PrefixOfInit(blocks, i);
  }

  lemma FirstIsLast(blocks: seq<string>, id: nat)
    requires |blocks| > 0 && !Seen(blocks[..|blocks| - 1], id)
    requires RawBookingId(blocks[|blocks| - 1]) == Some(id)
    ensures FirstBlock(blocks, id, |blocks| - 1)
  {
  }

  lemma PrefixOfInit<T>(s: seq<T>, i: nat)
    requires i < |s| - 1
    ensures s[..|s| - 1][..i] == s[..i] && s[..|s| - 1][i] == s[i]
  {
  }

  /** One past the largest id of any block (1 when there is none). */
  function IdBound(blocks: seq<string>): (r: nat)
    ensures r >= 1
    ensures forall i :: 0 <= i < |blocks| && RawBookingId(blocks[i]).Some? ==> RawBookingId(blocks[i]).value < r
  {
    if |blocks| == 0 then 1
    else
      var rest := IdBound(blocks[1..]);
      assert forall i :: 1 <= i < |blocks| ==> blocks[i] == blocks[1..][i - 1];
      match RawBookingId(blocks[0])
      case Some(id) => if id + 1 > rest then id + 1 else rest
      case None => rest
  }

  /** `sorted(booking_dict.items())` restricted to ids below `n`: the items in strictly
      ascending id order. */
  function Ascending(m: map<nat, string>, n: nat): (r: seq<(nat, string)>)
    ensures |r| == KeysBelow(m.Keys, n)
    ensures forall i, j :: 0 <= i < j < |r| ==> r[i].0 < r[j].0
    ensures forall k :: 0 <= k < |r| ==> r[k].0 < n && r[k].0 in m && r[k].1 == m[r[k].0]
    ensures forall id :: id in m && id < n ==> exists k :: 0 <= k < |r| && r[k].0 == id
  {
    if n == 0 then []
    else
      var prev := Ascending(m, n - 1);
      if n - 1 !in m then prev
      else
        var r := prev + [(n - 1, m[n - 1])];
        assert forall k :: 0 <= k < |prev| ==> r[k] == prev[k];
        assert r[|prev|].0 == n - 1;
        r
  }

  /** How many ids of `s` lie below `n`. */
  function KeysBelow(s: set<nat>, n: nat): nat {
    if n == 0 then 0 else KeysBelow(s, n - 1) + (if n - 1 in s then 1 else 0)
  }

  lemma {:induction false} KeysBelowAgree(s1: set<nat>, s2: set<nat>, n: nat)
    requires forall id :: id < n ==> (id in s1 <==> id in s2)
    ensures KeysBelow(s1, n) == KeysBelow(s2, n)
  {
    if n > 0 {
      KeysBelowAgree(s1, s2, n - 1);
    }
  }

  /** When every id lies below `n`, all of them are counted. */
  lemma {:induction false} KeysBelowAll(s: set<nat>, n: nat)
    requires forall id :: id in s ==> id < n
    ensures KeysBelow(s, n) == |s|
  {
    if n == 0 {
      assert s == {};
    } else if n - 1 in s {
      var s' := s - {n - 1};
      KeysBelowAll(s', n - 1);
      KeysBelowAgree(s, s', n - 1);
    } else {
      KeysBelowAll(s, n - 1);
    }
  }

  /** The ids in [lo, hi) that are not keys, in ascending order. */
  function Gaps(m: map<nat, string>, lo: nat, hi: nat): (r: seq<nat>)
    ensures forall k :: 0 <= k < |r| ==> lo <= r[k] < hi && r[k] !in m
    ensures forall id :: lo <= id < hi && id !in m ==> id in r
    decreases hi - lo
  {
    if lo >= hi then []
    else
      var prev := Gaps(m, lo, hi - 1);
      if hi - 1 in m then prev
      else
        var r := prev + [hi - 1];
        assert forall k :: 0 <= k < |prev| ==> r[k] == prev[k];
        assert forall id :: id in prev ==> id in r;
        r
  }

  /** The gaps come out in strictly ascending order. */
  lemma {:induction false} GapsAscending(m: map<nat, string>, lo: nat, hi: nat)
    ensures forall i, j :: 0 <= i < j < |Gaps(m, lo, hi)| ==> Gaps(m, lo, hi)[i] < Gaps(m, lo, hi)[j]
    decreases hi - lo
  {
    if lo < hi {
      GapsAscending(m, lo, hi - 1);
      var prev := Gaps(m, lo, hi - 1);
      var r := Gaps(m, lo, hi);
      if hi - 1 !in m {
        assert r == prev + [hi - 1];
        forall i, j | 0 <= i < j < |r| ensures r[i] < r[j] {
          assert r[i] == prev[i] && prev[i] < hi - 1;
          if j < |prev| {
            assert r[j] == prev[j];
          }
        }
      } else {
        assert r == prev;
      }
    }
  }

  /** The missing-id check as written: `range(1, len(booking_dict))`, which stops at the
      number of distinct ids rather than at the largest id. */
  function MissingIdsAsWritten(m: map<nat, string>): (r: seq<nat>)
    ensures forall id :: id in r <==> 1 <= id < |m| && id !in m
  {
    Gaps(m, 1, |m|)
  }

  /** With ids 1 and 3, the id 2 is missing, but the scan covers only the id 1. */
  lemma MissingScanStopsShort()
    ensures var m := map[1 := "a", 3 := "c"];
      2 !in m && 1 < 2 < 3 && MissingIdsAsWritten(m) == [] && MissingIds(m, 4) == [2]
  {
    var m := map[1 := "a", 3 := "c"];
    assert m.Keys == {1, 3};
    assert |m| == 2;
    assert Gaps(m, 1, 2) == [];
    assert Gaps(m, 1, 4) == [2];
  }

  /** The gap report as evidently intended: every id from 1 up to the largest id that has
      no block. */
  function MissingIds(m: map<nat, string>, bound: nat): (r: seq<nat>)
    ensures forall id :: id in r <==> 1 <= id < bound && id !in m
  {
    Gaps(m, 1, bound)
  }

  /** Below the bound, a positive id is either kept or reported, never both. */
  lemma MissingIdsComplete(blocks: seq<string>, id: nat)
    requires 1 <= id < IdBound(blocks)
    ensures (id in GroupBlocks(blocks).firsts) != (id in MissingIds(GroupBlocks(blocks).firsts, IdBound(blocks)))
  {
  }

  datatype Processed = Processed(sorted: seq<(nat, string)>, conflicts: seq<nat>, missing: seq<nat>)

  /** `process_bookings`: the kept block of every id sorted by id, the duplicate ids, and
      the missing ids it prints, found by the as-written scan `range(1, len(booking_dict))`.
      Nothing is lost or invented: every block that carries an id is either kept or
      counted as a conflict. */
  function ProcessBookings(blocks: seq<string>): (r: Processed)
    ensures r.conflicts == GroupBlocks(blocks).conflicts
    ensures |r.sorted| + |r.conflicts| == Parseable(blocks)
    ensures forall id :: id in r.missing <==> 1 <= id < |GroupBlocks(blocks).firsts| && !Seen(blocks, id)
  {
    var g := GroupBlocks(blocks);
    var bound := IdBound(blocks);
    KeptBelowBound(blocks);
    KeysBelowAll(g.firsts.Keys, bound);
    Processed(Ascending(g.firsts, bound), g.conflicts, MissingIdsAsWritten(g.firsts))
  }

  /** The gap report as evidently intended: every positive id below the largest one that
      has no block. */
  function MissingReport(blocks: seq<string>): (r: seq<nat>)
    ensures forall id :: id in r ==> 1 <= id < IdBound(blocks)
  {
    MissingIds(GroupBlocks(blocks).firsts, IdBound(blocks))
  }

  /** Every id the as-written scan prints is a real gap: the scan can miss gaps, never
      invent one. */
  lemma AsWrittenWithinReport(blocks: seq<string>)
    ensures forall id :: id in ProcessBookings(blocks).missing ==> id in MissingReport(blocks)
  {
    var g := GroupBlocks(blocks);
    KeptBelowBound(blocks);
    CardBelow(g.firsts.Keys, IdBound(blocks));
    ProcessedMissing(blocks);
  }

  /** A set of naturals all below `n` has at most `n` members. */
  lemma {:induction false} CardBelow(s: set<nat>, n: nat)
    requires forall x :: x in s ==> x < n
    ensures |s| <= n
    decreases n
  {
    if n > 0 {
      CardBelow(s - {n - 1}, n - 1);
    }
  }

  /** The written items are the kept blocks, each id once, in strictly ascending order. */
  lemma ProcessedSorted(blocks: seq<string>)
    ensures var r := ProcessBookings(blocks).sorted;
      var g := GroupBlocks(blocks);
      (forall i, j :: 0 <= i < j < |r| ==> r[i].0 < r[j].0)
      && (forall k :: 0 <= k < |r| ==> r[k].0 in g.firsts && r[k].1 == g.firsts[r[k].0])
      && (forall id :: id in g.firsts ==> exists k :: 0 <= k < |r| && r[k].0 == id)
  {
    KeptBelowBound(blocks);
  }

  /** The corrected report holds exactly the positive ids below the largest one that no
      block carries, in ascending order. */
  lemma ProcessedMissing(blocks: seq<string>)
    ensures forall id :: id in MissingReport(blocks) <==> 1 <= id < IdBound(blocks) && !Seen(blocks, id)
    ensures var r := MissingReport(blocks);
      forall i, j :: 0 <= i < j < |r| ==> r[i] < r[j]
  {
    GapsAscending(GroupBlocks(blocks).firsts, 1, IdBound(blocks));
  }

  lemma KeptBelowBound(blocks: seq<string>)
    ensures forall id :: id in GroupBlocks(blocks).firsts.Keys ==> id < IdBound(blocks)
  {
    forall id | id in GroupBlocks(blocks).firsts.Keys ensures id < IdBound(blocks) {
      assert Seen(blocks, id);
      var i :| 0 <= i < |blocks| && RawBookingId(blocks[i]) == Some(id);
    }
  }

  /** The bound is one past an actual id, unless no block carries one. */
  lemma {:induction false} BoundReached(blocks: seq<string>)
    ensures IdBound(blocks) == 1 || Seen(blocks, IdBound(blocks) - 1)
  {
    if |blocks| > 0 {
      BoundReached(blocks[1..]);
      assert forall i :: 1 <= i < |blocks| ==> blocks[i] == blocks[1..][i - 1];
    }
  }

  // ---------------------------------------------------------------------------
  // write_sorted_bookings
  // ---------------------------------------------------------------------------

  const BlockBreak: string := "\n\n"

  /** `write_sorted_bookings`: each block stripped and followed by a blank line. */
  function WriteSorted(items: seq<(nat, string)>): (r: string)
    ensures |items| > 0 ==> EndsWith(r, BlockBreak)
  {
    if |items| == 0 then ""
    else
      var rest := WriteSorted(items[1..]);
      assert EndsWith(Strip(items[0].1) + BlockBreak + rest, BlockBreak) by {
        var s := Strip(items[0].1) + BlockBreak + rest;
        if |rest| == 0 {
          assert s == Strip(items[0].1) + BlockBreak;
        } else {
          assert s[|s| - 2..] == rest[|rest| - 2..];
        }
      }
      Strip(items[0].1) + BlockBreak + rest
  }

  function Stripped(items: seq<(nat, string)>): (r: seq<string>)
    ensures |r| == |items|
    ensures forall k :: 0 <= k < |r| ==> r[k] == Strip(items[k].1)
  {
    if |items| == 0 then [] else [Strip(items[0].1)] + Stripped(items[1..])
  }

  /** Reading the written file back with `split("\n\n")` gives the stripped blocks and
      one empty tail, as long as no block holds a blank line of its own. */
  lemma {:induction false} ReloadWritten(items: seq<(nat, string)>)
    requires forall k :: 0 <= k < |items| ==> !Contains(Strip(items[k].1), BlockBreak)
    ensures Split(WriteSorted(items), BlockBreak) == Stripped(items) + [""]
    decreases |items|
  {
    if |items| == 0 {
      assert Split("", BlockBreak) == [""];
    } else {
      var p := Strip(items[0].1);
      var tail := items[1..];
      assert forall k :: 0 <= k < |tail| ==> tail[k] == items[k + 1];
      ReloadWritten(tail);
      CleanBeforeBreak(p);
      ReloadStep(p, WriteSorted(tail), Stripped(tail));
      assert WriteSorted(items) == p + BlockBreak + WriteSorted(tail);
      assert Stripped(items) == [p] + Stripped(tail);
    }
  }

  lemma ReloadStep(p: string, w: string, ps: seq<string>)
    requires CleanPart(p, BlockBreak) && Split(w, BlockBreak) == ps + [""]
    ensures Split(p + BlockBreak + w, BlockBreak) == [p] + ps + [""]
  {
    SplitCons(p, BlockBreak, w);
  }

  /** A stripped block without a blank line is a part `split("\n\n")` keeps whole. */
  lemma CleanBeforeBreak(p: string)
    requires !Contains(p, BlockBreak)
    requires |p| > 0 ==> !IsSpace(p[|p| - 1])
    ensures CleanPart(p, BlockBreak)
  {
    NoBreakBefore(p);
    CleanWhenNoEarlier(p, BlockBreak);
  }

  lemma NoBreakBefore(p: string)
    requires !Contains(p, BlockBreak)
    requires |p| > 0 ==> !IsSpace(p[|p| - 1])
    ensures forall i :: 0 <= i < |p| ==> !StartsWith((p + BlockBreak)[i..], BlockBreak)
  {
    var s := p + BlockBreak;
    forall i | 0 <= i < |p| ensures !StartsWith(s[i..], BlockBreak) {
      assert StartsWith(s[i..], BlockBreak) <==> s[i..i + 2] == BlockBreak;
      if i + 1 < |p| {
        assert s[i..i + 2] == p[i..i + 2];
        if p[i..i + 2] == BlockBreak {
          ContainsAt(p, BlockBreak, i);
        }
      } else {
        assert s[i] == p[|p| - 1];
      }
    }
  }
}

=== FILE: records.dfy ===
/** The records the back office passes around (bookings, closures, customers) and the
    constants of the booking domain. Money is a `real`, standing for the float or NUMERIC
    value of the source; `int(x)` on it truncates toward zero. Timestamps are integers,
    absent (None) until the database sets them. */
module Records {
  import opened Wrappers
  import opened Text
  import opened Calendar

  datatype Booking = Booking(
    bookingId: int,
    status: string,
    customerName: string,
    phoneNumber: string,
    checkInDate: Day,
    lastDate: Day,          // the last night stayed; check-out is the day after
    totalPrice: real,
    notes: string,
    source: string,
    prepayment: real,
    prepaymentNote: string,
    prepaymentStatus: string,
    roomIds: string,        // one character per room
    created: Option<int>,
    modified: Option<int>)

  datatype Closure = Closure(
    closureId: int,
    startDate: Day,
    lastDate: Day,
    reason: string,
    roomIds: string,
    created: Option<int>,
    modified: Option<int>,
    notionPageId: Option<string>)

  datatype Customer = Customer(
    customerId: int,
    name: string,
    email: string,
    phoneNumber: string,
    address: string,
    relationship: string,
    notes: string,
    created: Option<int>,
    modified: Option<int>)

  /** A customer with the data class defaults for every field not given. */
  function NewCustomer(name: string, phoneNumber: string): (c: Customer)
    ensures c.name == name && c.phoneNumber == phoneNumber && c.customerId == 0
  {
    Customer(0, name, "", phoneNumber, "", "", "", None, None)
  }

  const StatusNew: string := "new"
  const StatusPrepaid: string := "prepaid"
  const StatusCanceled: string := "canceled"
  const Unpaid: string := "unpaid"
  const Paid: string := "paid"

  /** Name fragments that mark a customer name as a placeholder. */
  const GenericNames: seq<string> := ["先生", "小姐", "無名氏"]

  const ValidBookingSources: seq<string> := ["自洽", "Booking_com", "FB", "Agoda", "台灣旅宿", "Airbnb"]

  /** The phone suffix that marks a placeholder phone number. */
  const InvalidPhonePostfix: string := "000000"

  /** The mark a canceled booking carries in formatted text. */
  const CanceledMark: string := "[取消]"

  /** `BOOKING_STATUS_MARK.get(status)`: only canceled bookings carry a mark. */
  function StatusMark(status: string): (r: Option<string>)
    ensures r.Some? <==> status == StatusCanceled
    ensures r.Some? ==> r.value == CanceledMark
  {
    if status == StatusCanceled then Some(CanceledMark) else None
  }

  const UnpaidLabel: string := "未付"
  const PaidLabel: string := "已付"

  /** `PREPAYMENT_STATUS_MAP.get(status)`: the display label of a prepayment status. */
  function PrepaymentLabel(status: string): (r: Option<string>)
    ensures r.Some? <==> status == Unpaid || status == Paid
    ensures r == Some(PaidLabel) <==> status == Paid
  {
    if status == Unpaid then Some(UnpaidLabel)
    else if status == Paid then Some(PaidLabel)
    else None
  }

  /** The values a conversation collects, keyed as in the session's data dict; None is an
      absent key. */
  datatype Draft = Draft(
    bookingId: Option<int>,
    customerName: Option<string>,
    phoneNumber: Option<string>,
    checkInDate: Option<Day>,
    startDate: Option<Day>,
    numNights: Option<int>,
    lastDate: Option<Day>,
    roomIds: Option<string>,
    totalPrice: Option<int>,
    prepayment: Option<int>,
    prepaymentNote: Option<string>,
    source: Option<string>,
    notes: Option<string>,
    reason: Option<string>)

  /** The empty dict `{}`. */
  const EmptyDraft: Draft := Draft(None, None, None, None, None, None, None, None, None, None, None, None, None, None)

  /** Python's `int(x)` on a number: truncation toward zero. */
  function Trunc(x: real): (n: int)
    ensures x >= 0.0 ==> n as real <= x < n as real + 1.0
    ensures x < 0.0 ==> n as real - 1.0 < x <= n as real
  {
    if x >= 0.0 then x.Floor else -((-x).Floor)
  }

  lemma TruncOfInt(n: int)
    ensures Trunc(n as real) == n
  {
  }
}

=== FILE: sessions.dfy ===
/** The per-chat conversation state of the LINE bot: which wizard (flow) is running, the
    step it waits at, and the data it has collected so far. The command strings of the
    bot's configuration are a parameter. What a handler sends back to the chat is left out;
    an outcome records the new session and the one data-access call the message caused. */
module Sessions {
  import opened Wrappers
  import opened Text
  import opened Calendar
  import opened Records
  import opened InputUtils
  import opened BookingDao

  datatype Flow = CreateBookingFlow | EditBookingFlow | CreateClosureFlow | PrepaidBookingFlow

  /** The steps of each wizard, in the order the wizard visits them. Steps of different
      wizards are different values. */
  datatype CreateStep =
    | GetCustomerName | GetPhoneNumber | GetCheckInDate | GetNumNights | SelectRooms
    | GetTotalPrice | GetPrepayment | SelectSource | GetNotes | ConfirmBooking

  datatype EditStep =
    | SelectAttribute | EditCustomerName | EditPhoneNumber | EditCheckInDate | EditNumNights
    | EditRooms | EditTotalPrice | EditPrepayment | EditSource | EditNotes | ConfirmChanges

  datatype ClosureStep = GetStartDate | GetClosureNights | SelectClosureRooms | GetReason | ConfirmClosure

  datatype PrepaidStep = GetPrepaymentAmount | GetPrepaymentNote | ConfirmPrepayment

  datatype Step = Create(c: CreateStep) | Edit(e: EditStep) | Close(k: ClosureStep) | Prepaid(p: PrepaidStep)

  /** `session['data']`: normally a dict (a draft); the edit command stores a set. */
  datatype Data = Fields(draft: Draft) | IdSet(ids: set<int>)

  datatype Session = Session(flow: Option<Flow>, step: Option<Step>, data: Data)

  /** `session['flow'], session['step'], session['data'] = None, None, {}`. */
  const Cleared: Session := Session(None, None, Fields(EmptyDraft))

  /** The command strings of the bot's configuration. */
  datatype Commands = Commands(
    cancel: string,
    back: string,
    // create booking
    roomsFinish: string,
    notesFinish: string,
    confirmBooking: string,
    // edit booking
    editFinish: string,
    confirm: string,
    editName: string,
    editPhone: string,
    editDates: string,
    editRooms: string,
    editTotal: string,
    editPrepayment: string,
    editSource: string,
    editNotes: string,
    editRoomsFinish: string,
    // create closure
    closureRoomsFinish: string,
    reasonFinish: string,
    confirmClosure: string,
    // mark prepaid
    noteFinish: string,
    confirmPrepaid: string,
    // default dispatch
    searchByKeyword: string,
    checkOutToday: string,
    checkInToday: string,
    checkInTomorrow: string,
    checkInThisSaturday: string,
    checkInLastSaturday: string,
    createBooking: string,
    editBooking: string)   // a template holding `{booking_id}`

  /** The data-access call a message causes, with its arguments. */
  datatype Call =
    | NoCall
    | Upsert(info: Booking)
    | InsertClosure(closure: Closure)
    | UpdatePrepaid(bookingId: int, amount: int, note: string)

  /** The result reported after a call whose return value the handler tests. */
  datatype Notice = Silent | Succeeded | Failed

  datatype Outcome = Outcome(session: Session, call: Call, notice: Notice)

  /** The message leaves the session as it is and calls nothing. */
  function Stay(s: Session): Outcome {
    Outcome(s, NoCall, Silent)
  }

  /** The wizard moves to `step` with data `d`. */
  function Move(s: Session, step: Step, d: Draft): Outcome {
    Outcome(s.(step := Some(step), data := Fields(d)), NoCall, Silent)
  }

  /** The session is cleared and nothing is called. */
  const Quit: Outcome := Outcome(Cleared, NoCall, Silent)

  /** Indexing `session['data']`, to read or to assign a key: a set supports neither and
      raises TypeError. */
  function DraftOf(data: Data): (r: Result<Draft>)
    ensures r.Ok? <==> data.Fields?
    ensures r.Ok? ==> r.value == data.draft
    ensures r.Err? ==> r.fault == TypeError
  {
    match data
    case Fields(d) => Ok(d)
    case IdSet(_) => Err(TypeError)
  }

  /** `session['data']['room_ids'] = []` on whatever the data is. */
  function ResetRooms(data: Data): (r: Result<Data>)
    ensures r.Ok? <==> data.Fields?
    ensures r.Ok? ==> r.value == Fields(data.draft.(roomIds := Some("")))
  {
    var d :- DraftOf(data);
    Ok(Fields(d.(roomIds := Some(""))))
  }

  /** A Python value taken as a condition: None and 0 are false. */
  predicate Truthy(v: Option<int>) {
    v.Some? && v.value != 0
  }

  // ---------------------------------------------------------------------------
  // Choosing rooms
  // ---------------------------------------------------------------------------

  /** No room is chosen twice. */
  predicate NoDuplicates(rooms: string) {
    forall i, j :: 0 <= i < j < |rooms| ==> rooms[i] != rooms[j]
  }

  /** The message names a room of the rooms table: room ids are single characters, so the
      message is one character long. */
  predicate NamesRoom(db: Db, msg: string) {
    |msg| == 1 && msg[0] in AllRoomIds(db)
  }

  /** The tests a room message passes before it is appended: it names a room of the table
      and that room is not chosen yet. Availability for the dates is not among them. */
  predicate RoomAcceptable(db: Db, chosen: string, msg: string) {
    NamesRoom(db, msg) && msg[0] !in chosen
  }

  /** Appending an acceptable room keeps the choice free of duplicates, and every chosen
      room is a room of the table when the earlier ones were. */
  lemma AppendRoomKeepsDistinct(db: Db, chosen: string, msg: string)
    requires NoDuplicates(chosen) && RoomAcceptable(db, chosen, msg)
    ensures NoDuplicates(chosen + msg)
    ensures (chosen + msg)[|chosen|] in AllRoomIds(db)
    ensures |chosen + msg| == |chosen| + 1
  {
    var r := chosen + msg;
    forall i, j | 0 <= i < j < |r| ensures r[i] != r[j] {
      if j == |chosen| {
        assert r[i] == chosen[i];
      }
    }
  }

  /** `int(msg)` on an accepted night count, and the last night of a stay of that many
      nights from `first`: `first + timedelta(days=nights - 1)`, which overflows past
      9999-12-31. */
  function LastNight(first: Day, msg: string): (r: Result<Day>)
    requires IsValidNumNights(msg)
    ensures r.Ok? <==> first + DigitsValue(msg) - 1 < MaxDay
    ensures r.Ok? ==> first <= r.value <= first + 14 && r.value - first + 1 == DigitsValue(msg)
    ensures r.Err? ==> r.fault == OverflowError
  {
    AddDays(first, DigitsValue(msg) - 1)
  }
}

=== FILE: text.dfy ===
/** Python string operations the back office relies on, over `seq<char>`:
    prefix/suffix/substring tests, ASCII digit strings and `int()`/`str()`
    conversions, `split`/`join`, `strip` and character replacement. */
module Text {
  import opened Wrappers

  // ---------------------------------------------------------------------------
  // Prefixes, suffixes, substrings
  // ---------------------------------------------------------------------------

  predicate StartsWith(s: string, prefix: string) {
    prefix <= s
  }

  predicate EndsWith(s: string, suffix: string) {
    |suffix| <= |s| && s[|s| - |suffix|..] == suffix
  }

  /** Python's `sub in s`. */
  predicate Contains(s: string, sub: string)
    decreases |s|
  {
    StartsWith(s, sub) || (|s| > 0 && Contains(s[1..], sub))
  }

  /** Index of the first occurrence of `sub` in `s` (Python's `s.find(sub)`, with None for -1). */
  function IndexOf(s: string, sub: string): (r: Option<nat>)
    ensures r.Some? ==> r.value + |sub| <= |s| && s[r.value..r.value + |sub|] == sub
    ensures r.Some? ==> forall j :: 0 <= j < r.value ==> !StartsWith(s[j..], sub)
    ensures r.None? <==> !Contains(s, sub)
    decreases |s|
  {
    if StartsWith(s, sub) then Some(0)
    else if |s| == 0 then None
    else
      match IndexOf(s[1..], sub)
      case Some(i) =>
        assert forall j :: 1 <= j < i + 1 ==> s[j..] == s[1..][j - 1..];
        Some(i + 1)
      case None => None
  }

  lemma {:induction false} ContainsAt(s: string, sub: string, i: nat)
    requires i + |sub| <= |s| && s[i..i + |sub|] == sub
    ensures Contains(s, sub)
    decreases i
  {
    if i == 0 {
      assert s[..|sub|] == sub;
    } else {
      assert s[1..][i - 1..i - 1 + |sub|] == s[i..i + |sub|];
      ContainsAt(s[1..], sub, i - 1);
    }
  }

  lemma {:induction false} ContainsPrefixOf(s: string, t: string, sub: string)
    requires Contains(s, sub)
    ensures Contains(s + t, sub)
    decreases |s|
  {
    if StartsWith(s, sub) {
      assert (s + t)[..|sub|] == s[..|sub|];
    } else {
      assert (s + t)[1..] == s[1..] + t;
      ContainsPrefixOf(s[1..], t, sub);
    }
  }

  lemma {:induction false} ContainsSuffixOf(s: string, t: string, sub: string)
    requires Contains(t, sub)
    ensures Contains(s + t, sub)
    decreases |s|
  {
    if |s| == 0 {
      assert s + t == t;
    } else {
      assert (s + t)[1..] == s[1..] + t;
      ContainsSuffixOf(s[1..], t, sub);
    }
  }

  lemma PrefixAgrees(s: string, sub: string)
    ensures StartsWith(s, sub) ==> forall k :: 0 <= k < |sub| ==> sub[k] == s[k]
  {
  }

  /** An occurrence of a pattern that has no `sep` character cannot straddle a `sep`:
      it lies wholly on one side. */
  lemma {:induction false} ContainsAcross(a: string, sep: char, b: string, sub: string)
    requires sep !in sub && |sub| > 0
    ensures Contains(a + [sep] + b, sub) <==> Contains(a, sub) || Contains(b, sub)
    decreases |a|
  {
    var s := a + [sep] + b;
    if Contains(a, sub) {
      ContainsPrefixOf(a, [sep] + b, sub);
      assert a + ([sep] + b) == s;
    } else if Contains(b, sub) {
      ContainsSuffixOf(a + [sep], b, sub);
    }
    if |a| == 0 {
      assert s == [sep] + b;
      assert s[1..] == b;
    } else {
      assert s[1..] == a[1..] + [sep] + b;
      ContainsAcross(a[1..], sep, b, sub);
      PrefixAgrees(s, sub);
      assert s[|a|] == sep;
      if StartsWith(s, sub) && |sub| <= |a| {
        assert a[..|sub|] == s[..|sub|];
      }
      if StartsWith(a, sub) {
        assert s[..|sub|] == a[..|sub|];
      }
    }
  }

  // ---------------------------------------------------------------------------
  // ASCII digits, str() and int()
  // ---------------------------------------------------------------------------

  predicate IsDigit(c: char) {
    '0' <= c <= '9'
  }

  /** Python's `s.isdigit()`, restricted to ASCII digits: false on the empty string. */
  predicate AllDigits(s: string) {
    |s| > 0 && forall i :: 0 <= i < |s| ==> IsDigit(s[i])
  }

  predicate DigitsOnly(s: string) {
    forall i :: 0 <= i < |s| ==> IsDigit(s[i])
  }

  function DigitValue(c: char): nat
    requires IsDigit(c)
  {
    (c as int - '0' as int) as nat
  }

  function DigitChar(d: nat): (c: char)
    requires d < 10
    ensures IsDigit(c) && DigitValue(c) == d
  {
    ('0' as int + d) as char
  }

  /** The value of a decimal digit string, as `int(s)` computes it (leading zeros allowed). */
  function DigitsValue(s: string): nat
    requires DigitsOnly(s)
    decreases |s|
  {
    if |s| == 0 then 0 else DigitsValue(s[..|s| - 1]) * 10 + DigitValue(s[|s| - 1])
  }

  function Pow10(n: nat): nat {
    if n == 0 then 1 else 10 * Pow10(n - 1)
  }

  lemma {:induction false} DigitsValueBound(s: string)
    requires DigitsOnly(s)
    ensures DigitsValue(s) < Pow10(|s|)
    decreases |s|
  {
    if |s| > 0 {
      DigitsValueBound(s[..|s| - 1]);
    }
  }

  lemma DigitsValueOne(s: string)
    requires |s| == 1 && DigitsOnly(s)
    ensures DigitsValue(s) == DigitValue(s[0])
  {
    assert s[..0] == [];
  }

  lemma DigitsValueTwo(s: string)
    requires |s| == 2 && DigitsOnly(s)
    ensures DigitsValue(s) == 10 * DigitValue(s[0]) + DigitValue(s[1])
  {
    DigitsValueOne(s[..1]);
  }

  /** Python's `str(n)` for a non-negative integer. */
  function NatToString(n: nat): (s: string)
    ensures AllDigits(s)
    ensures s[0] == '0' ==> n == 0
    decreases n
  {
    if n < 10 then [DigitChar(n)] else NatToString(n / 10) + [DigitChar(n % 10)]
  }

  /** Python's `str(i)` for any integer. */
  function IntToString(i: int): string {
    if i < 0 then "-" + NatToString(-i) else NatToString(i)
  }

  lemma {:induction false} NatToStringRoundTrip(n: nat)
    ensures DigitsValue(NatToString(n)) == n
    decreases n
  {
    if n >= 10 {
      var s := NatToString(n);
      NatToStringRoundTrip(n / 10);
      assert s[..|s| - 1] == NatToString(n / 10);
    }
  }

  lemma NatToStringInjective(m: nat, n: nat)
    requires NatToString(m) == NatToString(n)
    ensures m == n
  {
    NatToStringRoundTrip(m);
    NatToStringRoundTrip(n);
  }

  lemma IntToStringInjective(i: int, j: int)
    requires IntToString(i) == IntToString(j)
    ensures i == j
  {
    if i < 0 && j < 0 {
      assert NatToString(-i) == IntToString(i)[1..];
      NatToStringInjective(-i, -j);
    } else if i >= 0 && j >= 0 {
      NatToStringInjective(i, j);
    }
  }

  /** `str(i)` is a minus sign or digits, character by character. */
  lemma IntToStringChars(i: int)
    ensures forall k :: 0 <= k < |IntToString(i)| ==> IntToString(i)[k] == '-' || IsDigit(IntToString(i)[k])
  {
    var n: nat := if i < 0 then -i else i;
    var digits := NatToString(n);
    assert forall j :: 0 <= j < |digits| ==> IsDigit(digits[j]);
    assert IntToString(i) == if i < 0 then "-" + digits else digits;
  }

  /** The digit part `int(s)` accepts: ASCII digits, where a single underscore may
      separate two digits (PEP 515), so `1_000` is accepted and `_1`, `1_` and `1__0`
      are not. */
  predicate DigitGroups(s: string) {
    |s| > 0 && IsDigit(s[0]) && IsDigit(s[|s| - 1])
    && (forall i :: 0 <= i < |s| ==> IsDigit(s[i]) || s[i] == '_')
    && (forall i :: 0 <= i < |s| - 1 ==> s[i] == '_' ==> s[i + 1] != '_')
  }

  /** The digits of a digit-group string, underscores removed. */
  function DropUnderscores(s: string): (r: string)
    ensures |r| <= |s|
    ensures (forall i :: 0 <= i < |s| ==> IsDigit(s[i]) || s[i] == '_') ==> DigitsOnly(r)
    ensures DigitsOnly(s) ==> r == s
    ensures |s| > 0 && IsDigit(s[0]) ==> |r| > 0 && r[0] == s[0]
  {
    if |s| == 0 then ""
    else
      var rest := DropUnderscores(s[1..]);
      if s[0] == '_' then rest else [s[0]] + rest
  }

  /** Python's `int(s)` on an ASCII string: an optional sign followed by digit groups;
      anything else raises ValueError (None here). */
  function ParseInt(s: string): (r: Option<int>)
    ensures r.Some? <==> DigitGroups(s) || (|s| > 0 && (s[0] == '-' || s[0] == '+') && DigitGroups(s[1..]))
    ensures DigitGroups(s) ==> r == Some(DigitsValue(DropUnderscores(s)))
    ensures |s| > 0 && s[0] == '+' && DigitGroups(s[1..]) ==> r == Some(DigitsValue(DropUnderscores(s[1..])))
    ensures |s| > 0 && s[0] == '-' && DigitGroups(s[1..]) ==>
              r.Some? && r.value + DigitsValue(DropUnderscores(s[1..])) == 0
    ensures AllDigits(s) ==> r == Some(DigitsValue(s))
    ensures |s| > 0 && s[0] == '+' && AllDigits(s[1..]) ==> r == Some(DigitsValue(s[1..]))
    ensures |s| > 0 && s[0] == '-' && AllDigits(s[1..]) ==> r.Some? && r.value + DigitsValue(s[1..]) == 0
  {
    if |s| > 0 && (s[0] == '-' || s[0] == '+') then
      if DigitGroups(s[1..]) then
        var v: int := DigitsValue(DropUnderscores(s[1..]));
        Some(if s[0] == '-' then -v else v)
      else None
    else if DigitGroups(s) then Some(DigitsValue(DropUnderscores(s)))
    else None
  }

  /** Underscores between digits are accepted and ignored. */
  lemma ParseIntUnderscores()
    ensures ParseInt("1_0") == Some(10)
  {
    assert DigitGroups("1_0");
    assert DropUnderscores("0") == "0";
    assert DropUnderscores("_0") == "0";
    assert DropUnderscores("1_0") == "10";
    assert "10"[..1] == "1";
    assert DigitsValue("10") == 10;
  }

  /** A sign and several groups: `-1_000` is -1000. */
  lemma ParseIntSignedGroups()
    ensures ParseInt("-1_000") == Some(-1000)
  {
    var t := "1_000";
    assert "-1_000"[1..] == t;
    assert DigitGroups(t);
    assert DropUnderscores("000") == "000";
    assert DropUnderscores("_000") == "000";
    assert DropUnderscores(t) == "1000";
    assert "1000"[..3] == "100" && "100"[..2] == "10" && "10"[..1] == "1";
    assert DigitsValue("1000") == 1000;
  }

  /** An underscore at either end, or two in a row, is a ValueError. */
  lemma ParseIntMisplacedUnderscores()
    ensures ParseInt("_1") == None && ParseInt("1_") == None && ParseInt("1__0") == None
  {
  }

  lemma ParseIntOfIntToString(i: int)
    ensures ParseInt(IntToString(i)) == Some(i)
  {
    if i < 0 {
      NatToStringRoundTrip(-i);
      assert IntToString(i)[1..] == NatToString(-i);
    } else {
      NatToStringRoundTrip(i);
    }
  }

  // ---------------------------------------------------------------------------
  // split / join
  // ---------------------------------------------------------------------------

  /** Python's `sep.join(parts)`. */
  function Join(parts: seq<string>, sep: string): string
    decreases |parts|
  {
    if |parts| == 0 then ""
    else if |parts| == 1 then parts[0]
    else parts[0] + sep + Join(parts[1..], sep)
  }

  /** Python's `s.split(sep)` for a non-empty separator. */
  function Split(s: string, sep: string): (r: seq<string>)
    requires |sep| > 0
    ensures |r| > 0
    decreases |s|
  {
    match IndexOf(s, sep)
    case None => [s]
    case Some(i) => [s[..i]] + Split(s[i + |sep|..], sep)
  }

  /** `sep.join(s.split(sep)) == s`. */
  lemma {:induction false} JoinOfSplit(s: string, sep: string)
    requires |sep| > 0
    ensures Join(Split(s, sep), sep) == s
    decreases |s|
  {
    match IndexOf(s, sep)
    case None =>
    case Some(i) =>
      var rest := s[i + |sep|..];
      JoinOfSplit(rest, sep);
      var parts := Split(s, sep);
      assert parts[1..] == Split(rest, sep);
      assert s == s[..i] + sep + rest;
  }

  /** A split with a single part is the unsplit string. */
  lemma SplitSingle(s: string, sep: string)
    requires |sep| > 0
    ensures |Split(s, sep)| == 1 ==> Split(s, sep) == [s]
  {
    JoinOfSplit(s, sep);
  }

  lemma {:induction false} IndexOfExtend(x: string, y: string, sub: string, i: nat)
    requires IndexOf(x, sub) == Some(i)
    ensures IndexOf(x + y, sub) == Some(i)
    decreases |x|
  {
    if StartsWith(x, sub) {
      assert (x + y)[..|sub|] == x[..|sub|];
    } else {
      assert (x + y)[1..] == x[1..] + y;
      IndexOfExtend(x[1..], y, sub, i - 1);
    }
  }

  /** `p` is a part that `split` on `sep` leaves intact when it is followed by `sep`. */
  predicate CleanPart(p: string, sep: string)
    requires |sep| > 0
  {
    IndexOf(p + sep, sep) == Some(|p|)
  }

  lemma SplitCons(p: string, sep: string, rest: string)
    requires |sep| > 0 && CleanPart(p, sep)
    ensures Split(p + sep + rest, sep) == [p] + Split(rest, sep)
  {
    IndexOfExtend(p + sep, rest, sep, |p|);
    var s := p + sep + rest;
    assert s[..|p|] == p;
    assert s[|p| + |sep|..] == rest;
  }

  /** Splitting a join gives back the parts, when every part but the last is clean. */
  lemma {:induction false} SplitOfJoin(parts: seq<string>, sep: string)
    requires |sep| > 0 && |parts| > 0
    requires forall k :: 0 <= k < |parts| - 1 ==> CleanPart(parts[k], sep)
    requires !Contains(parts[|parts| - 1], sep)
    ensures Split(Join(parts, sep), sep) == parts
    decreases |parts|
  {
    if |parts| > 1 {
      SplitCons(parts[0], sep, Join(parts[1..], sep));
      SplitOfJoin(parts[1..], sep);
    }
  }

  /** A part that does not contain the separator's first character is clean. */
  lemma {:induction false} CleanWithoutLeadChar(p: string, sep: string)
    requires |sep| > 0 && sep[0] !in p
    ensures CleanPart(p, sep)
  {
    var s := p + sep;
    assert s[|p|..|p| + |sep|] == sep;
    forall j | 0 <= j < |p|
      ensures !StartsWith(s[j..], sep)
    {
      assert s[j..][0] == p[j];
    }
    var r := IndexOf(s, sep);
    if r.None? {
      ContainsAt(s, sep, |p|);
    }
  }

  /** A part followed by the separator is clean when no earlier position starts one. */
  lemma CleanWhenNoEarlier(p: string, sep: string)
    requires |sep| > 0
    requires forall j :: 0 <= j < |p| ==> !StartsWith((p + sep)[j..], sep)
    ensures CleanPart(p, sep)
  {
    var s := p + sep;
    assert s[|p|..|p| + |sep|] == sep;
    ContainsAt(s, sep, |p|);
    assert StartsWith(s[|p|..], sep) by {
      assert s[|p|..] == sep;
    }
    var i := IndexOf(s, sep).value;
    assert StartsWith(s[i..], sep) by {
      assert s[i..][..|sep|] == s[i..i + |sep|];
    }
  }

  /** A text without the first character of `sub` does not contain it. */
  lemma {:induction false} NoLeadNoContains(s: string, sub: string)
    requires |sub| > 0 && sub[0] !in s
    ensures !Contains(s, sub)
    decreases |s|
  {
    if |s| > 0 {
      assert s[0] != sub[0];
      NoLeadNoContains(s[1..], sub);
    }
  }

  // ---------------------------------------------------------------------------
  // strip and character replacement
  // ---------------------------------------------------------------------------

  /** Python's `str.isspace()` for one character. */
  predicate IsSpace(c: char) {
    ('\t' <= c <= '\r') || ('\U{001C}' <= c <= '\U{001F}') || c == ' ' || c == '\U{0085}'
    || c == '\U{00A0}' || c == '\U{1680}' || ('\U{2000}' <= c <= '\U{200A}') || c == '\U{2028}'
    || c == '\U{2029}' || c == '\U{202F}' || c == '\U{205F}' || c == '\U{3000}'
  }

  function LStrip(s: string): (r: string)
    ensures |r| <= |s| && r == s[|s| - |r|..]
    ensures |r| > 0 ==> !IsSpace(r[0])
    decreases |s|
  {
    if |s| > 0 && IsSpace(s[0]) then LStrip(s[1..]) else s
  }

  function RStrip(s: string): (r: string)
    ensures |r| <= |s| && r == s[..|r|]
    ensures |r| > 0 ==> !IsSpace(r[|r| - 1])
    decreases |s|
  {
    if |s| > 0 && IsSpace(s[|s| - 1]) then RStrip(s[..|s| - 1]) else s
  }

  predicate AllSpace(s: string) {
    forall i :: 0 <= i < |s| ==> IsSpace(s[i])
  }

  /** Python's `s.strip()`: `s` without its leading and trailing whitespace. */
  function Strip(s: string): (r: string)
    ensures |r| <= |s|
    ensures |r| > 0 ==> !IsSpace(r[0]) && !IsSpace(r[|r| - 1])
  {
    RStrip(LStrip(s))
  }

  lemma {:induction false} LStripPadded(ws: string, core: string)
    requires AllSpace(ws) && (|core| > 0 ==> !IsSpace(core[0]))
    ensures LStrip(ws + core) == core
    decreases |ws|
  {
    if |ws| == 0 {
      assert ws + core == core;
    } else {
      assert (ws + core)[1..] == ws[1..] + core;
      LStripPadded(ws[1..], core);
    }
  }

  lemma {:induction false} RStripPadded(core: string, ws: string)
    requires AllSpace(ws) && (|core| > 0 ==> !IsSpace(core[|core| - 1]))
    ensures RStrip(core + ws) == core
    decreases |ws|
  {
    if |ws| == 0 {
      assert core + ws == core;
    } else {
      assert (core + ws)[..|core + ws| - 1] == core + ws[..|ws| - 1];
      RStripPadded(core, ws[..|ws| - 1]);
    }
  }

  /** Stripping removes exactly the whitespace padding around a core that has none of its
      own at either end; in particular `Strip` is the identity on such a core. */
  lemma StripPadded(pre: string, core: string, post: string)
    requires AllSpace(pre) && AllSpace(post)
    requires |core| > 0 ==> !IsSpace(core[0]) && !IsSpace(core[|core| - 1])
    ensures Strip(pre + core + post) == core
  {
    if |core| == 0 {
      assert pre + core + post == pre + post;
      assert AllSpace(pre + post);
      LStripPadded(pre + post, "");
      RStripPadded("", "");
    } else {
      assert pre + core + post == pre + (core + post);
      LStripPadded(pre, core + post);
      RStripPadded(core, post);
    }
  }

  /** Python's `s.replace(a, b)` for single characters. */
  function ReplaceChar(s: string, a: char, b: char): (r: string)
    ensures |r| == |s|
    ensures forall i :: 0 <= i < |s| ==> r[i] == if s[i] == a then b else s[i]
  {
    seq(|s|, i requires 0 <= i < |s| => if s[i] == a then b else s[i])
  }
}

=== FILE: wrappers.dfy ===
/** Failure-carrying datatypes shared by the whole model.
    `Option` stands for a Python value that may be `None`; `Result` stands for a
    computation that may raise, with the kind of exception it raises. */
module Wrappers {

  datatype Option<+T> = None | Some(value: T) {
    function GetOr(default: T): T {
      match this
      case Some(v) => v
      case None => default
    }

    predicate IsFailure() {
      None?
    }

    function PropagateFailure<U>(): Option<U>
      requires None?
    {
      None
    }

    function Extract(): T
      requires Some?
    {
      value
    }
  }

  /** The Python exceptions the modelled code can raise and not catch. */
  datatype Fault =
    | KeyError          // missing dict key
    | TypeError         // e.g. item assignment on a set, arithmetic on None
    | AttributeError    // attribute access on None
    | ValueError        // failed int()/strptime()
    | OverflowError     // date arithmetic before 0001-01-01 or past 9999-12-31
    | IndexError        // a regex group that does not exist, or `xs[0]` on an empty list
    | UnboundLocalError // a local read before assignment
    | ApiError          // a Notion / Google Calendar / database call that raised

  datatype Result<+T> = Ok(value: T) | Err(fault: Fault) {
    predicate IsFailure() {
      Err?
    }

    function PropagateFailure<U>(): Result<U>
      requires Err?
    {
      Err(fault)
    }

    function Extract(): T
      requires Ok?
    {
      value
    }
  }

  /** Reads an optional dict entry; a missing key raises KeyError. */
  function Get<T>(o: Option<T>): (r: Result<T>)
    ensures r.Ok? <==> o.Some?
    ensures o.Some? ==> r.value == o.value
  {
    match o
    case Some(v) => Ok(v)
    case None => Err(KeyError)
  }
}
